=== FILE: README.md ===
# Automated forex trading back end: a Dafny model

This project models the decision logic of a trading back end for one instrument (gold, `XAUUSDc`, on 15-minute
candles). Signals arrive from a chat feed or from three price-structure strategies. They are stored as pending rows,
and a background service turns each one into broker orders under a daily drawdown gate. The model covers:

- **Scheduling.** The scheduler and the start/stop state machine of every background service
  (`scheduler.dfy`, `base_service.dfy`).
- **Order execution.** Order-type selection from the signal text, the bounded retry loop with its success and
  failure counters, the one-hop "break" re-dispatch, the forced fallback over the other order types, and the price
  guards of the instant, stop and limit orders (`trade_signal_logic.dfy`, `trade_signal_handler.dfy`,
  `trade_signal_service.dfy`, `mt5_logic.dfy`).
- **Risk bookkeeping.** The daily metrics row, the drawdown formulas, the trade gate, the cached daily baseline,
  position sizing and the trailing-stop decision (`drawdown.dfy`, `account_metrics.dfy`, `trailing_stop.dfy`).
- **The signals table.** Signal validation with risk and reward at insert, the status write, and the take-profit
  adjustment to a target risk/reward (`signals_db.dfy`, `signal_parser_manager.dfy`).
- **The break-of-structure strategy.** Break of structure → fair-value gap → retrace → entry → signal, the
  session bias estimate and the once-per-day pipeline (`bos_*.dfy`, `fvg_scan.dfy`, `retrace_scan.dfy`, `entry*.dfy`,
  `bias.dfy`).
- **The liquidity-sweep strategy.** Context → sweep → rejection → setup (`lsr_*.dfy`).
- **The swing-point Fibonacci strategy.** Swing → major-wave Fibonacci window → trade setup → signal, and the
  backtest's trade simulator (`swing_points.dfy`, `major_wave_fib.dfy`, `fib_*.dfy`).
- **The dashboard's pagination state** (`pagination.dfy`).

How the model represents the system:

- Every SQL table is a class whose `rows` field is a sequence. A row's id is its position plus one, and a query's
  `ORDER BY` is read as table order.
- Prices and balances are exact `real`s.
- Times are integer seconds. The clock, the candle feed, the broker's answers and the statistics library's normal
  distribution are parameters.
- A Python exception that escapes an operation becomes an explicit error outcome (`raised`, a fault, or `None`).
- Each stage's `RunStep` method is proved against a specification function of the table it starts from. Lemmas
  then state what the stage promises: exactly the pending rows are handled, none twice, and every other row is
  untouched. They also cover the levels' geometry and the records' identity keys.

Where the code and the documented intent differ, the model follows the code:

- An exception inside a service's `run_once` ends that service's loop (`BaseService.Service.Loop`), because the
  handler sits outside the `while`.
- A break re-dispatch always lands in the forced fallback, because the current price is read as a float and then
  indexed. `TradeSignalHandler.RedispatchAsIntended` shows that this reaches the same order as the intended
  re-dispatch whenever the broker answers deterministically.
- A fresh daily metrics row has no drawdown value, so the gate raises until the first balance update
  (`Drawdown.FreshDayGateRaises`). This assumes the column has no default.
- A symbol's first liquidity-sweep context is saved even when the H1 candles hold no swing. Its NULL levels then
  make every later run raise, so no later context is ever appended (`LsrContext.NullContextBlocks`).

## Model

| member | source | states |
|---|---|---|
| TradeSignalLogic.SelectIgnoresCase | backend/src/core/trade_manager/trade_signal_logic.py:6-13 | the message and its upper-cased form select the same order type: selection is case-insensitive |
| TradeSignalLogic.WordFound | backend/src/core/trade_manager/trade_signal_logic.py:8-11 | a word written in any letter case anywhere in the message is found in the upper-cased message |
| TradeSignalLogic.LimitWins | backend/src/core/trade_manager/trade_signal_logic.py:9-10 | a message containing "limit" in any case selects a limit order, whatever else it contains |
| TradeSignalLogic.StopSelected | backend/src/core/trade_manager/trade_signal_logic.py:11-12 | "stop" in any case, even inside a longer word such as "stoploss", selects a stop order when "limit" is absent |
| TradeSignalLogic.AbsentInitial | backend/src/core/trade_manager/trade_signal_logic.py:9-13 | a keyword cannot be found in a message lacking its first letter (so such a message falls through to an instant order) |
| TradeSignalLogic.InitialOnlyAtEnd | backend/src/core/trade_manager/trade_signal_logic.py:9-13 | a keyword cannot be found when its first letter occurs only in the last \|w\|-1 positions |
| TradeSignalLogic.Upper | backend/src/core/trade_manager/trade_signal_logic.py:8 | the upper-cased message has the message's length and upper-cases each character in place |
| TradeSignalLogic.SelectOrderType | backend/src/core/trade_manager/trade_signal_logic.py:6-13 | a limit order exactly when the upper-cased message contains "LIMIT", a stop order exactly when it contains "STOP" but not "LIMIT", an instant order otherwise |
| TradeSignalLogic.ShouldRetry | backend/src/core/trade_manager/trade_signal_logic.py:15-17 | retrying stops exactly when the successes reach the target or the failures reach the retry budget |
| Mt5Logic.MatchDays | backend/src/core/mt5/mt5_logic.py:57 | a match of the expiry pattern at a position starts with the word "Expired " |
| Mt5Logic.ExtractDaysNone | backend/src/core/mt5/mt5_logic.py:56-60 | `re.search` finds nothing in the comment exactly when the pattern matches at no position of it |
| Mt5Logic.ExtractDaysLeftmost | backend/src/core/mt5/mt5_logic.py:56-60 | when `re.search` finds something, it returns the number captured at the first position of the comment where the pattern matches |
| Mt5Logic.ExtractSkipsPrefix | backend/src/core/mt5/mt5_logic.py:56-60 | text before the first match does not change the extracted number (the search takes the leftmost match) |
| Mt5Logic.MatchNeedsEx | backend/src/core/mt5/mt5_logic.py:57 | a match starts with an 'E' followed by an 'x' |
| Mt5Logic.NoExNoDays | backend/src/core/mt5/mt5_logic.py:56-60 | a comment in which no 'x' follows an 'E' yields None |
| Mt5Logic.ExtractAtStart | backend/src/core/mt5/mt5_logic.py:56-60 | a match at the start of the comment is the result |
| Mt5Logic.MatchAfterExpired | backend/src/core/mt5/mt5_logic.py:57-59 | after "Expired ", the greedy digit run is the whole number captured |
| Mt5Logic.ExtractWholeDays | backend/src/core/mt5/mt5_logic.py:56-60 | "Expired N days" with digits N yields float(N) |
| Mt5Logic.AfterPointOf | backend/src/core/mt5/mt5_logic.py:57-59 | a decimal point, digits F and " days" after the whole part add the fraction F |
| Mt5Logic.ExtractDecimalDays | backend/src/core/mt5/mt5_logic.py:56-60 | "Expired N.F days" yields N plus the fraction .F |
| Mt5Logic.ExtractDecimalTail | backend/src/core/mt5/mt5_logic.py:56-60 | the same result when the text is grouped as the word, the digits and the decimal tail |
| Mt5Logic.PositionSize | backend/src/core/mt5/mt5_logic.py:63-83 | None exactly when the price distance is not positive (the ValueError); otherwise at least 0.01 lot, a whole number of 0.01 steps, risking at most balance*risk when above the minimum, and the next step up would risk more |
| Mt5Logic.Expiry | backend/src/core/mt5/mt5_logic.py:326-330 | an expiry is set exactly when the search finds a number of days and that number is not zero, and then it is that number |
| Mt5Logic.InstantPlan | backend/src/core/mt5/mt5_logic.py:180-241 | nothing is sent without a connection; missing symbol information or a zero stop distance raises; "break" exactly when both range ends are given and the current price is more than 1 outside them; otherwise a market deal at the current price (ask for buy, bid for sell) with the signal's stop and first target |
| Mt5Logic.StopPlan | backend/src/core/mt5/mt5_logic.py:270-361 | never "break"; declined when the middle of the range is not beyond the current price in the trade's direction; a sent stop order has the signal's side, stop, target and expiry, and its price is the middle of the range when that is at least the broker's stop distance beyond the current price, otherwise twice that distance beyond it |
| Mt5Logic.LimitPlan | backend/src/core/mt5/mt5_logic.py:384-448 | never "break"; declined when the middle of the range is not on the favourable side of the current price; a sent limit order is placed at the middle of the range, below the ask for a buy and above the bid for a sell |
| Mt5Logic.Carry | backend/src/core/mt5/mt5_logic.py:241-267 | "break" exactly when the plan was out of range; a ticket exactly when a request was sent and the broker filled it, and then that ticket; an exception exactly when planning raised or sending failed |
| Mt5Logic.PlaceBy | backend/src/core/mt5/mt5_logic.py:180-469 | only the instant order function can return "break" |
| Mt5Logic.PriceNow | backend/src/core/mt5/mt5_logic.py:86-102 | a price exactly when the broker is reachable: the ask for a buy, the bid for a sell |
| Mt5Logic.CalculatePositionSize | backend/src/core/mt5/mt5_logic.py:63-83 | the lot size is computed on the daily baseline the metrics service returns: the cached one when a baseline is cached, otherwise the one read from the daily metrics table (and then cached); the service keeps its cache consistent with the table |
| TrailingStop.TrailDecision | backend/src/core/mt5/mt5_logic.py:599-687 | a position is acted on only when it is the traded symbol with a tick and symbol information and has moved at least 7 price units in its favour; the new stop is the last full 2-unit step less the 0.5 buffer, clamped to the broker's minimum distance, and keeps the take profit; an existing stop is never loosened and moves by at least ten points; requests are sent only when live and reported as a dry run otherwise |
| TrailingStop.LongStopBounds | backend/src/core/mt5/mt5_logic.py:641-648 | a long position's new stop stays at least the minimum distance and the buffer below the price; unless clamped it lies within one step plus the buffer of the price and locks in at least 5.5 units |
| TrailingStop.ShortStopBounds | backend/src/core/mt5/mt5_logic.py:641-657 | the mirror image for a short position |
| TrailingStop.PassDecisions | backend/src/core/mt5/mt5_logic.py:599-687 | one decision per position, in order, each from that position and its own quote |
| TrailingStop.TrailingPass | backend/src/core/mt5/mt5_logic.py:575-692 | nothing is done when disconnected or without positions; otherwise every position gets its decision, live when requested or when more than one position is open, and the total profit sums the positions that passed the symbol, tick and information checks |
| TrailingStop.TrailDecisionComplete | backend/src/core/mt5/mt5_logic.py:599-665 | the converse: a position is skipped exactly when it fails one of the checks, so a position of the traded symbol with a tick and symbol information, at least 7.0 in profit and whose new stop neither loosens the old one nor moves it by less than ten points always gets that new stop |
| TrailingStop.Judge | backend/src/core/mt5/mt5_logic.py:645-665 | a new stop is kept exactly when there is no stop yet, or it tightens the stop in the position's direction by at least ten points; a kept stop carries the position's ticket and take profit and is sent exactly when live |
| SignalsDb.ToFloats | backend/src/core/db/signals.py:56-57 | the conversion succeeds exactly when every value is a number, and then yields those numbers in order |
| SignalsDb.RiskReward | backend/src/core/db/signals.py:59-65 | both are non-negative; a buy measures risk and reward from the higher range edge, a sell from the lower one |
| SignalsDb.RiskRewardSpan | backend/src/core/db/signals.py:59-65 | for levels in trading order (stop, entry edge, target) risk plus reward is the stop-to-target span |
| SignalsDb.CheckSignal | backend/src/core/db/signals.py:42-87 | a signal missing a required key or with an action other than buy/sell (any case) is rejected; a non-text action or a null number raises; an accepted row carries the converted numbers, the lower-cased side, the message or null, the risk and reward, and pending status |
| SignalsDb.SignalTable.Insert | backend/src/core/db/signals.py:42-87 | the table grows by exactly the accepted row, and is unchanged otherwise |
| SignalsDb.SignalTable.UpdateStatus | backend/src/core/db/signals.py:92-116 | success exactly when id and status are truthy; then that row's status and entry price are set to the given ones (an omitted price clears it), and no other row changes |
| SignalsDb.SignalTable.WriteStatus | backend/src/core/trade_manager/trade_signal_handler.py:43-45 | the write sets status, entry price and order type of row id and nothing else |
| SignalsDb.AfterWrites | backend/src/core/trade_manager/trade_signal_handler.py:32-61 | after several writes the row holds the last one; without writes it is unchanged |
| SignalsDb.WriteAt | backend/src/core/trade_manager/trade_signal_handler.py:43-45 | only the row with that id changes; an id no row has changes nothing |
| SignalsDb.WritesAt | backend/src/core/trade_manager/trade_signal_handler.py:32-61 | a sequence of writes to one id changes that row only, to the result of the writes in order |
| SignalsDb.PendingIds | backend/src/services/trade_signal_service.py:24 | only ids of pending rows, strictly increasing |
| SignalsDb.PendingIdsComplete | backend/src/services/trade_signal_service.py:24 | every pending row's id is listed |
| SignalsDb.ParseSide | backend/src/core/db/signals.py:51-53 | the action is a buy exactly when it lower-cases to "buy", a sell exactly when it lower-cases to "sell", and invalid otherwise |
| TradeSignalHandler.Alternatives | backend/src/core/trade_manager/trade_signal_handler.py:78-82 | the two other order types, distinct, so that with the primary all three are covered |
| TradeSignalHandler.Fallback | backend/src/core/trade_manager/trade_signal_handler.py:121-134 | a ticket exactly when one of the two alternatives gives a ticket, and then that ticket; the alternatives are tried in the method table's order, so the first one that gives a ticket wins |
| TradeSignalHandler.ExecuteOrder | backend/src/core/trade_manager/trade_signal_handler.py:77-134 | a ticket from the primary type is returned as is; no ticket exactly when none of the three order functions gives one; any ticket returned came from one of them |
| TradeSignalHandler.RedispatchAsIntended | backend/src/core/trade_manager/trade_signal_handler.py:91-107 | against one broker snapshot, the forced fallback reached when the price lookup raises gives the same result as the stop/limit re-dispatch the code describes |
| TradeSignalHandler.RunAttempt | backend/src/core/trade_manager/trade_signal_handler.py:35-38 | an attempt raises exactly when the message is not text; a text message is placed exactly when executing the order type selected from it yields a ticket, and the placed ticket is that execution's ticket |
| TradeSignalHandler.AttemptLogShape | backend/src/core/trade_manager/trade_signal_handler.py:32-61 | the loop's status writes are a run of "failed" writes, at most one per permitted retry, possibly closed by a single "completed" or "error" |
| TradeSignalHandler.AttemptLogLength | backend/src/core/trade_manager/trade_signal_handler.py:32-33 | at most one attempt per permitted retry |
| TradeSignalHandler.AttemptLogFailures | backend/src/core/trade_manager/trade_signal_handler.py:48-52 | every write but the last is "failed" with no price or type |
| TradeSignalHandler.AttemptLogLast | backend/src/core/trade_manager/trade_signal_handler.py:41-61 | the last write is "failed", "completed" or "error"; a "completed" write comes from a text message and carries the looked-up price and the order type selected from that message |
| TradeSignalHandler.AttemptLogCompleted | backend/src/core/trade_manager/trade_signal_handler.py:32-54 | for a text message the history ends "completed" exactly when some remaining attempt places its order, that is, executing the order type selected from the message yields a ticket |
| TradeSignalHandler.AttemptLogAllFailed | backend/src/core/trade_manager/trade_signal_handler.py:32-54 | when no remaining attempt places the order, the history is exactly one "failed" write per remaining retry |
| TradeSignalHandler.TargetIrrelevant | backend/src/core/trade_manager/trade_signal_handler.py:27-47 | the success target (1 or 3) does not change the history, because the loop leaves at the first success |
| TradeSignalHandler.MessageNotTextIsError | backend/src/core/trade_manager/trade_signal_handler.py:35-61 | a signal with stops whose message is not text ends with a single "error" write |
| TradeSignalHandler.ProcessSignal | backend/src/core/trade_manager/trade_signal_handler.py:18-61 | the writes are the loop's history (none when a stop or target is missing) and the table changes only in row id, to those writes in order |
| TradeSignalHandler.AttemptNext | backend/src/core/trade_manager/trade_signal_handler.py:34-61 | one turn: the attempt's outcome, its write appended to row id, and the rest of the history when it failed |
| TradeSignalHandler.CancelSignal | backend/src/core/trade_manager/trade_signal_handler.py:64-68 | row id becomes "cancelled" with no entry price or order type, no other row changes |
| TradeSignalHandler.NormalizeTuple | backend/src/core/trade_manager/trade_signal_handler.py:70-75 | field names are paired with values up to the shorter of the two, and no other key appears |
| TradeSignalHandler.Zip | backend/src/core/trade_manager/trade_signal_handler.py:75 | each key maps to its positional value, up to the shorter sequence, and nothing else |
| TradeSignalService.RunOnce | backend/src/services/trade_signal_service.py:20-43 | the table keeps its length; each row ends as AfterRun says: non-pending rows untouched, pending rows processed when the gate allows, cancelled when it refuses, untouched when the gate raises |
| TradeSignalService.SettleNext | backend/src/services/trade_signal_service.py:33-40 | one pending row is processed or cancelled and no other row changes |
| TradeSignalService.SettledOneMore | backend/src/services/trade_signal_service.py:33-40 | settling the next pending id extends the run's effect to one more id |
| TradeSignalService.RefusedRunCancelsAll | backend/src/services/trade_signal_service.py:35-40 | when the gate refuses trading, no signal is left pending |
| TradeSignalService.AllowedRunSettles | backend/src/services/trade_signal_service.py:29-34 | when the gate allows trading, a pending signal with its stops set and at least one permitted attempt ends "completed", "failed" or "error" |
| TradeSignalService.MissingStopsStayPending | backend/src/services/trade_signal_service.py:29-34 | a pending signal with a zero stop or target stays pending (unless the gate refuses) |
| Drawdown.FindDate | backend/src/core/metrics/drawdown_service.py:18-19 | the first row with that date, or None exactly when no row has it |
| Drawdown.DrawdownRange | backend/src/core/metrics/drawdown_service.py:53 | a drawdown from a positive peak at or above the balance is at least 0, and below 100 while the balance is positive |
| Drawdown.PnlSign | backend/src/core/metrics/drawdown_service.py:49-50 | the profit percent is positive exactly when the ending balance is above the starting one, and zero exactly when they are equal |
| Drawdown.DrawdownPercent | backend/src/core/metrics/drawdown_service.py:75-81 | 0.0 without a row for today; otherwise today's stored drawdown, unreadable exactly when that drawdown is missing |
| Drawdown.TradeGate | backend/src/core/metrics/drawdown_service.py:84-92 | trading is refused exactly when today's drawdown reaches 10 percent, allowed when there is no row for today, and the gate raises exactly when the stored drawdown is unreadable |
| Drawdown.FreshDayGateRaises | backend/src/core/metrics/drawdown_service.py:25-28 | a row just created for today has no drawdown, so the gate raises until the first update |
| Drawdown.UpdatedRowFacts | backend/src/core/metrics/drawdown_service.py:47-62 | an update keeps the row's balances between its lowest and its peak, never lowers the peak or raises the lowest, sets the ending balance, and yields a drawdown in [0, 100) when the previous ending balance was positive |
| Drawdown.DailyMetrics.constructor | backend/src/core/metrics/drawdown_service.py:8-9 | the table starts empty |
| Drawdown.DailyMetrics.EnsureTodayRecord | backend/src/core/metrics/drawdown_service.py:12-31 | today's existing row is returned unchanged; otherwise a fresh row with every balance set to the given one is appended; dates stay unique |
| Drawdown.DailyMetrics.UpdateBalanceMetrics | backend/src/core/metrics/drawdown_service.py:34-63 | a missing row is only created; a zero starting balance or peak raises and changes nothing; otherwise only today's row changes, to the updated peak, lowest, ending balance, drawdown and profit |
| AccountMetrics.LatestSnapshot | backend/src/core/account/account_metric_service.py:98-107 | a snapshot whose timestamp no other snapshot exceeds (the newest) |
| AccountMetrics.LatestDay | backend/src/core/account/account_metric_service.py:79-80 | a daily row whose date no other row exceeds |
| AccountMetrics.SnapshotDrawdown | backend/src/core/account/account_metric_service.py:128-130 | 0 when the previous equity is not positive; otherwise positive exactly when equity fell, zero exactly when it did not move, and at most 100 while equity is not negative |
| AccountMetrics.ShareFacts | backend/src/core/account/account_metric_service.py:130 | the lost fraction of a positive previous equity is positive exactly when equity fell and at most 1 while equity is not negative |
| AccountMetrics.FirstSnapshotFlat | backend/src/core/account/account_metric_service.py:129-130 | the first snapshot ever taken shows no drawdown |
| AccountMetrics.AgreementSurvivesUpdate | backend/src/core/account/account_metric_service.py:63-73 | the drawdown service's update of a daily row keeps a cached baseline equal to its day's starting balance |
| AccountMetrics.AgreementSurvivesInsert | backend/src/core/account/account_metric_service.py:63-73 | inserting a row for a date without one keeps a cached baseline equal to its day's starting balance |
| AccountMetrics.AccountMetricService.constructor | backend/src/core/account/account_metric_service.py:14-16 | nothing is cached and no snapshot exists |
| AccountMetrics.AccountMetricService.GetDailyBaseline | backend/src/core/account/account_metric_service.py:53-95 | a baseline cached for today is returned and nothing changes; otherwise the baseline is today's starting balance, else the latest day's ending balance, else the starting capital 596.8, it is cached for today, and today's row is created with it when missing; afterwards today's row starts at the returned baseline |
| AccountMetrics.AccountMetricService.GetDailyBaselineValue | backend/src/core/account/account_metric_service.py:18-26 | a cached baseline is returned whatever day it was cached on, with nothing changed; an empty cache is filled with the baseline from the daily record, and today's row is appended as a fresh row exactly when the record has none |
| AccountMetrics.AccountMetricService.UpdateMetrics | backend/src/core/account/account_metric_service.py:120-148 | one snapshot is appended whose balance and equity are today's baseline plus today's realised profit, with no floating profit and the drawdown from the newest earlier snapshot's equity; that balance is returned; the baseline is the cached one when it is for today (daily record unchanged), otherwise the one read from the old daily record, with today's fresh row appended exactly when the record had none |
| SignalParserManager.Legs | backend/src/core/telegram/signal_parser_manager.py:24-33 | risk and reward from the midpoint entry: entry minus stop and target minus entry for a buy, the reverse for a sell, None for any other action (compared in lower case) |
| SignalParserManager.AdjustSignalRR | backend/src/core/telegram/signal_parser_manager.py:17-48 | raises exactly when a key is missing or a value cannot be lowered or converted; an unknown action or a non-positive risk or reward leaves the signal as it is; otherwise only "tp1" and "rr" change, "rr" holding the original reward over risk |
| SignalParserManager.AdjustedMeetsTarget | backend/src/core/telegram/signal_parser_manager.py:39-46 | the take profit is kept when the ratio already meets the target and otherwise moved so that reward over risk is exactly the target; either way the new reward is at least the target times the risk |
| SignalParserManager.Prepare | backend/src/core/telegram/signal_parser_manager.py:50-69 | nothing is saved for an unregistered sender, a parser exception or an empty result; the adjustment's exception escapes; a submitted dictionary carries the sender and a message made of the model name (or "unknown"), a space and the original text, and is otherwise the adjusted dictionary: its keys are the adjusted keys plus those two, and every other value is the adjusted one |
| SignalParserManager.ParseSignalAndSave | backend/src/core/telegram/signal_parser_manager.py:50-74 | the signals table changes only when a dictionary is submitted, and then exactly as the insert decides |
| BaseService.FirstBreak | backend/src/services/base_service.py:34-42 | every iteration before the index ends normally, and the one at the index (if any) does not |
| BaseService.Service.constructor | backend/src/services/base_service.py:7-12 | a new service is not running and has no task |
| BaseService.Service.Start | backend/src/services/base_service.py:14-21 | a running service is left as it is; otherwise the flag is raised and the loop task created |
| BaseService.Service.Stop | backend/src/services/base_service.py:23-31 | a stopped service is left as it is; otherwise the flag is cleared and a looping task asked to cancel |
| BaseService.Service.Loop | backend/src/services/base_service.py:33-44 | a stopped service runs no iteration; the first stop or exception ends the loop for good after that iteration; an ended loop always clears the flag; while every iteration ends normally the loop keeps going |
| Scheduler.Scheduler.constructor | backend/src/utils/scheduler.py:4-5 | no service is registered |
| Scheduler.Scheduler.Register | backend/src/utils/scheduler.py:7-9 | the name maps to the new service; a new name is added at the end, a known one keeps its place |
| Scheduler.Scheduler.GetStatus | backend/src/utils/scheduler.py:19-28 | one entry per service in registration order, with its name, its description or "", and "running" exactly when its flag is set |
| Scheduler.Scheduler.StartAll | backend/src/utils/scheduler.py:11-13 | every registered service is running afterwards, and only those that were stopped get a new loop task |
| Scheduler.Scheduler.StopAll | backend/src/utils/scheduler.py:15-17 | no registered service is running afterwards, and only looping tasks of running services are asked to cancel |
| Scheduler.Scheduler.StartService | backend/src/utils/scheduler.py:30-37 | true exactly when the name is registered and its service was stopped, and then the service runs; otherwise nothing changes |
| Scheduler.Scheduler.StopService | backend/src/utils/scheduler.py:39-46 | true exactly when the name is registered and its service was running, and then it is stopped; otherwise nothing changes |
| Pagination.TotalPages | frontend/composables/usePagination.js:7-10 | at least one page; one page for no items; otherwise the fewest pages of perPage items that hold them all |
| Pagination.PageItems | frontend/composables/usePagination.js:12-16 | no items give an empty page; a page holds at most perPage items, each the item at its position in the list, and an existing page holds all items up to perPage from its start |
| Pagination.PagesCoverItems | frontend/composables/usePagination.js:7-16 | the pages read in order, joined, are exactly the list: every item appears once |
| Pagination.PageStartsInside | frontend/composables/usePagination.js:7-16 | every existing page of a non-empty list starts inside the list |
| Pagination.Paginator.constructor | frontend/composables/usePagination.js:4-5 | the view starts on page 1 |
| Pagination.Paginator.NextPage | frontend/composables/usePagination.js:18-20 | moves one page on exactly when a later page exists |
| Pagination.Paginator.PrevPage | frontend/composables/usePagination.js:22-24 | moves one page back exactly when the current page is after the first |
| Pagination.Paginator.GoToPage | frontend/composables/usePagination.js:26-28 | jumps to the page exactly when it exists, otherwise stays |
| Pagination.Paginator.SetItems | frontend/composables/usePagination.js:30-33 | a new list sends the view back to page 1 |
| Pagination.Paginator.Current | frontend/composables/usePagination.js:12-16 | the current page's items, never empty while there are items |
| BosFvgStore.BosTable.constructor | backend/src/core/strategies/bos_fvg_retrace/structure_service.py:162-175 | the structure-event table starts empty |
| BosFvgStore.ZoneTable.constructor | backend/src/core/strategies/bos_fvg_retrace/fvg_service.py:1-224 | the zone table starts empty |
| BosFvgStore.TradeTable.constructor | backend/src/core/strategies/bos_fvg_retrace/entry_service.py:1-157 | the retrace-trade table starts empty |
| BosFvgStore.After | backend/src/core/strategies/bos_fvg_retrace/fvg_service.py:222 | exactly the candles of the feed later than the time, in feed order |
| BosFvgStore.UpTo | backend/src/core/strategies/bos_fvg_retrace/entry_service.py:141 | exactly the candles of the feed at or before the time, in feed order |
| BosFvgStore.Head | backend/src/core/strategies/bos_fvg_retrace/fvg_service.py:71 | the first n candles, or all of them when there are fewer |
| BosFvgStore.Tail | backend/src/core/strategies/bos_fvg_retrace/structure_service.py:200 | the last n candles, or all of them when there are fewer |
| BosFvgStore.AfterChronological | backend/src/core/strategies/bos_fvg_retrace/fvg_service.py:222 | the candles after a time, taken from a time-ordered feed, are time-ordered |
| BosFvgStore.UpToChronological | backend/src/core/strategies/bos_fvg_retrace/entry_service.py:141 | the candles up to a time, taken from a time-ordered feed, are time-ordered |
| BosStructure.LooseBreak | backend/src/core/strategies/bos_fvg_retrace/structure_service.py:50-69 | an event exactly when the close is above the previous high or below the previous low; a bullish BOS_HIGH breaks the previous high with a close above it, a bearish BOS_LOW the previous low with a close below it, at the candle's time |
| BosStructure.DetectBosLoose | backend/src/core/strategies/bos_fvg_retrace/structure_service.py:45-72 | the events are the loose events of the whole feed |
| BosStructure.LooseEventsExact | backend/src/core/strategies/bos_fvg_retrace/structure_service.py:49-69 | the loose events are exactly the breaks of the candles after the first, at most one per candle, in strictly increasing time on a time-ordered feed |
| BosStructure.LooseEventsComplete | backend/src/core/strategies/bos_fvg_retrace/structure_service.py:49-69 | every breaking candle after the first gives its event, and there are at most n-1 events |
| BosStructure.LooseEventsSound | backend/src/core/strategies/bos_fvg_retrace/structure_service.py:49-69 | every event is the break of some candle after the first |
| BosStructure.LooseEventsOrdered | backend/src/core/strategies/bos_fvg_retrace/structure_service.py:49-69 | on a time-ordered feed the events come in strictly increasing time, none after the last candle |
| BosStructure.SwingHighs | backend/src/core/strategies/bos_fvg_retrace/structure_service.py:83-85 | the swing highs found, in index order, each within the candidate range and priced at its candle's high |
| BosStructure.SwingLows | backend/src/core/strategies/bos_fvg_retrace/structure_service.py:83-88 | the swing lows found, in index order, each within the candidate range and priced at its candle's low |
| BosStructure.LastBefore | backend/src/core/strategies/bos_fvg_retrace/structure_service.py:124-126 | a price exactly when some swing lies before the candle, and then the price of the last such swing |
| BosStructure.StrictStep | backend/src/core/strategies/bos_fvg_retrace/structure_service.py:96-142 | an event flips the structure and breaks the protected level with a close beyond it; without an event an existing structure is kept; protected levels always stay swing prices |
| BosStructure.WindowExtremes | backend/src/core/strategies/bos_fvg_retrace/structure_service.py:84-88 | whether the candle's high is the maximum and its low the minimum of its seven-bar window |
| BosStructure.FindSwings | backend/src/core/strategies/bos_fvg_retrace/structure_service.py:81-89 | the swing highs and lows of every candidate candle |
| BosStructure.Advance | backend/src/core/strategies/bos_fvg_retrace/structure_service.py:96-142 | the new state and event of one candle of the walk |
| BosStructure.WalkStructure | backend/src/core/strategies/bos_fvg_retrace/structure_service.py:91-142 | the events of the structure walk from candle 3 on, starting with no structure |
| BosStructure.DetectBosStrict | backend/src/core/strategies/bos_fvg_retrace/structure_service.py:74-145 | the strict events of the feed |
| BosStructure.StrictAlternates | backend/src/core/strategies/bos_fvg_retrace/structure_service.py:101-142 | events alternate in direction, each breaks against the structure it starts from, and without an initial structure there are none |
| BosStructure.StrictEventsFacts | backend/src/core/strategies/bos_fvg_retrace/structure_service.py:74-145 | the strict events alternate in direction, the first breaks against the initial structure, each is sound, and on a time-ordered feed they come in strictly increasing time |
| BosStructure.StrictEventsSound | backend/src/core/strategies/bos_fvg_retrace/structure_service.py:113-142 | every strict event has a type matching its direction and a non-zero swing price of the right kind as broken level, and a candle at its time closes beyond it |
| BosStructure.StrictEventsOrdered | backend/src/core/strategies/bos_fvg_retrace/structure_service.py:96-142 | on a time-ordered feed the strict events come in strictly increasing time, none before the walk's first candle |
| BosStructure.SaveAllFacts | backend/src/core/strategies/bos_fvg_retrace/structure_service.py:151-189 | the save keeps the key (symbol, timeframe, type, candle time) unique, keeps the old rows, leaves every event's key present, and adds only new pending rows for the events |
| BosStructure.SaveNewBos | backend/src/core/strategies/bos_fvg_retrace/structure_service.py:151-189 | the table becomes the de-duplicated save of the events |
| BosStructure.RunStep | backend/src/core/strategies/bos_fvg_retrace/structure_service.py:22-36 | fewer than ten candles does nothing; otherwise the events the mode detects on the last 300 candles are saved |
| BosStructure.Detect | backend/src/core/strategies/bos_fvg_retrace/structure_service.py:31-35 | on a time-ordered feed the events of either mode come in strictly increasing time, and the loose mode reports fewer events than candles |
| FvgScan.GapAt | backend/src/core/strategies/bos_fvg_retrace/fvg_service.py:109-124 | a gap exactly when, for a bullish event, the first candle's high is below the third's low (the gap spans them), or, for a bearish one, the first candle's low is above the third's high; the zone starts at the first candle and ends at the third |
| FvgScan.FirstGapEnd | backend/src/core/strategies/bos_fvg_retrace/fvg_service.py:107-125 | the first index from i on that ends a gap, with no gap ending before it |
| FvgScan.FirstGapFacts | backend/src/core/strategies/bos_fvg_retrace/fvg_service.py:101-125 | no gap is found exactly when no three consecutive candles leave one; a found gap is the earliest, left by three consecutive candles in the event's direction |
| FvgScan.DetectFvg | backend/src/core/strategies/bos_fvg_retrace/fvg_service.py:101-125 | the gap returned is the first gap of the candles |
| FvgScan.FvgDecision | backend/src/core/strategies/bos_fvg_retrace/fvg_service.py:55-96 | nothing without candles or with fewer than three; a gap within the first fifteen candles is found; fifteen or more candles without a gap give up; fewer keep scanning with the count of candles checked |
| FvgScan.DecisionFacts | backend/src/core/strategies/bos_fvg_retrace/fvg_service.py:45-96 | the scanning count stays between 3 and 14, an event never returns to pending, and a saved zone is a real gap in the event's direction whose first candle comes after the event |
| FvgScan.ScanIds | backend/src/core/strategies/bos_fvg_retrace/fvg_service.py:130-145 | exactly the ids of the symbol's and timeframe's events that are pending or scanning, in increasing order |
| FvgScan.NewZonesOneMore | backend/src/core/strategies/bos_fvg_retrace/fvg_service.py:36-37 | processing one more event appends its zone, if any, to the zones saved so far |
| FvgScan.ProcessBosEvent | backend/src/core/strategies/bos_fvg_retrace/fvg_service.py:45-96 | only the event's row changes, to its decision, and its zone (if found) is appended to the zone table |
| FvgScan.ScannedOneMore | backend/src/core/strategies/bos_fvg_retrace/fvg_service.py:36-37 | deciding one more event extends the decided events by it, leaving the others as they started |
| FvgScan.ScanNext | backend/src/core/strategies/bos_fvg_retrace/fvg_service.py:36-37 | one turn of the run: the next waiting event is decided and its zone appended |
| FvgScan.RunStep | backend/src/core/strategies/bos_fvg_retrace/fvg_service.py:26-40 | every waiting event of the symbol and timeframe is decided once, all other rows are untouched, and the zones are appended in processing order |
| RetraceScan.FirstTouch | backend/src/core/strategies/bos_fvg_retrace/retrace_service.py:59-72 | the first candle from i on whose low reaches down to the gap's top (bullish) or whose high reaches up to the gap's bottom (bearish), with none before it |
| RetraceScan.RetracedFacts | backend/src/core/strategies/bos_fvg_retrace/retrace_service.py:44-85 | no candles leave the zone alone; the zone is mitigated exactly when one of the first fifteen candles re-enters it, at the first such candle's time and with its position counted; it expires exactly when fifteen candles pass without re-entry, with the count 15; otherwise it stays active with every candle counted; its identity never changes |
| RetraceScan.CandlesAfterZone | backend/src/core/strategies/bos_fvg_retrace/retrace_service.py:161-182 | at most fifteen candles are scanned |
| RetraceScan.MitigatedAfterZone | backend/src/core/strategies/bos_fvg_retrace/retrace_service.py:54-72 | a zone is mitigated at a candle later than the zone's third candle |
| RetraceScan.ProcessFvg | backend/src/core/strategies/bos_fvg_retrace/retrace_service.py:44-85 | only the zone's row changes, to the result of the scan |
| RetraceScan.RetraceIds | backend/src/core/strategies/bos_fvg_retrace/retrace_service.py:90-106 | exactly the ids of the symbol's and timeframe's zones that are pending or active, in increasing order |
| RetraceScan.RetracedOneMore | backend/src/core/strategies/bos_fvg_retrace/retrace_service.py:35-36 | scanning one more zone extends the scanned zones by it, leaving the others as they started |
| RetraceScan.RunStep | backend/src/core/strategies/bos_fvg_retrace/retrace_service.py:25-39 | every waiting zone of the symbol and timeframe is scanned once; mitigated, expired and other zones are left alone |
| Entry.TrueRange | backend/src/core/strategies/bos_fvg_retrace/entry_service.py:147-153 | the largest of the candle's high-low span and its distances from the previous close; the first candle's span alone |
| Entry.TrueRangeFacts | backend/src/core/strategies/bos_fvg_retrace/entry_service.py:149-153 | the true range is at least each of the three distances and equal to one of them; the first candle's is its span |
| Entry.Ranges | backend/src/core/strategies/bos_fvg_retrace/entry_service.py:149-153 | one true range per candle, in order |
| Entry.AtrBounds | backend/src/core/strategies/bos_fvg_retrace/entry_service.py:155 | the 14-candle ATR lies between the smallest and the largest true range of its window |
| Entry.Atr | backend/src/core/strategies/bos_fvg_retrace/entry_service.py:150-155 | the 14-candle ATR is never negative |
| Entry.LastAt | backend/src/core/strategies/bos_fvg_retrace/entry_service.py:62-67 | the last candle at the mitigation time, or none exactly when no candle has that time |
| Entry.LevelsFacts | backend/src/core/strategies/bos_fvg_retrace/entry_service.py:71-79 | a bullish stop sits at or below the gap's bottom and a bearish one at or above its top; with a 1:1 ratio the target lies on the other side of the entry |
| Entry.PlanEntry | backend/src/core/strategies/bos_fvg_retrace/entry_service.py:46-93 | a planned trade belongs to the zone it was planned for |
| Entry.PlanEntryFacts | backend/src/core/strategies/bos_fvg_retrace/entry_service.py:46-93 | a trade is made exactly when the zone has a mitigation time, at least fourteen candles reach up to it and one is at that time; it enters at that candle's close, its stop is one ATR beyond the gap, its target as far from the entry as the stop, and it starts unconverted |
| Entry.EntryIds | backend/src/core/strategies/bos_fvg_retrace/entry_service.py:102-119 | zone ids in increasing order, each a row of the zone table |
| Entry.EntryIdsExact | backend/src/core/strategies/bos_fvg_retrace/entry_service.py:108-118 | the ids listed are exactly the mitigated zones of the symbol and timeframe without a trade |
| Entry.EntryIdsFresh | backend/src/core/strategies/bos_fvg_retrace/entry_service.py:112-116 | every listed zone has no trade yet |
| Entry.NewTradesFacts | backend/src/core/strategies/bos_fvg_retrace/entry_service.py:37-38 | every new trade belongs to a processed zone, and with increasing ids each zone gets at most one |
| Entry.RunKeepsOneTradePerZone | backend/src/core/strategies/bos_fvg_retrace/entry_service.py:102-119 | a run keeps every zone at one trade at most |
| Entry.AppendFreshZones | backend/src/core/strategies/bos_fvg_retrace/entry_service.py:112-116 | adding trades of distinct zones that had none keeps one trade per zone |
| Entry.CreateEntry | backend/src/core/strategies/bos_fvg_retrace/entry_service.py:46-93 | the zone's planned trade, if any, is appended to the trade table |
| Entry.RunStep | backend/src/core/strategies/bos_fvg_retrace/entry_service.py:26-41 | every listed zone is processed once and the trades are appended in processing order |
| Entry.Levels | backend/src/core/strategies/bos_fvg_retrace/entry_service.py:71-79 | a bullish stop is one ATR below the gap's bottom, a bearish one one ATR above its top, and the target is the ratio times the stop distance from the entry, on the other side |
| EntryToSignal.SignalAccepted | backend/src/core/strategies/bos_fvg_retrace/entry_to_signal_service.py:59-73 | the insert accepts every trade's signal and stores exactly the intended row: a buy exactly for a bullish trade, both range ends at the entry, both targets at the take profit, risk the entry's distance to the stop and reward its distance to the target |
| EntryToSignal.ActionParsed | backend/src/core/strategies/bos_fvg_retrace/entry_to_signal_service.py:59 | "buy" or "sell" parses back to the trade's side |
| EntryToSignal.MessageExpiry | backend/src/core/strategies/bos_fvg_retrace/entry_to_signal_service.py:70 | the order functions read the message's expiry as 0.1 days |
| EntryToSignal.MessageSelectsInstant | backend/src/core/strategies/bos_fvg_retrace/entry_to_signal_service.py:70 | the message holds neither "limit" nor "stop" in any letter case, so the order handler places an instant order |
| EntryToSignal.TodayIds | backend/src/core/strategies/bos_fvg_retrace/entry_to_signal_service.py:95-111 | exactly the ids of the symbol's and timeframe's trades mitigated today and not yet converted, in increasing order |
| EntryToSignal.SignalRows | backend/src/core/strategies/bos_fvg_retrace/entry_to_signal_service.py:32-34 | one signal row per listed trade, in order, each the trade's intended row |
| EntryToSignal.ConvertToSignal | backend/src/core/strategies/bos_fvg_retrace/entry_to_signal_service.py:54-83 | the trade's signal row is appended and only that trade is flagged as converted |
| EntryToSignal.AfterConversion | backend/src/core/strategies/bos_fvg_retrace/entry_to_signal_service.py:76-83 | exactly the trades due today are flagged as converted; every other row is unchanged |
| EntryToSignal.RunStep | backend/src/core/strategies/bos_fvg_retrace/entry_to_signal_service.py:22-49 | each trade due today is converted once, whatever the session bias: its signal appended in order and the trade flagged, no other trade changed |
| EntryToSignal.RunLeavesNoneDue | backend/src/core/strategies/bos_fvg_retrace/entry_to_signal_service.py:95-111 | after a run nothing is left to convert today, so a second run on the same day changes nothing |
| Bias.HourOf | backend/src/core/strategies/bos_fvg_retrace/bias_service.py:167 | the UTC hour of an instant lies in 0..23 |
| Bias.CurrentSession | backend/src/core/strategies/bos_fvg_retrace/bias_service.py:100-113 | Asia exactly from 23:00 to before 07:00, London exactly from 07:00 to before 15:00, New York exactly from 15:00 to before 23:00 |
| Bias.SessionHoursOverlap | backend/src/core/strategies/bos_fvg_retrace/bias_service.py:20-24 | the inclusive hour filters cover every hour; hour 8 is both Asia and London, hour 16 both London and New York, and no hour is both Asia and New York |
| Bias.ClockAndFilterDisagree | backend/src/core/strategies/bos_fvg_retrace/bias_service.py:108-113 | the 23:00 hour is Asia by the clock but falls only in New York's data filter; the 07:00 hour is London by the clock but falls only in Asia's filter |
| Bias.SessionCloses | backend/src/core/strategies/bos_fvg_retrace/bias_service.py:165-167 | never more closes than candles; which closes they are, in which order, is stated by Bias.SessionClosesExact |
| Bias.SessionClosesExact | backend/src/core/strategies/bos_fvg_retrace/bias_service.py:165-167 | the closes are exactly those of the candles at or after ninety days before the reference time, strictly before it and in the session's hours: the k-th close is the k-th such candle's, in feed order, and every such candle contributes one |
| Bias.Returns | backend/src/core/strategies/bos_fvg_retrace/bias_service.py:174-175 | one return per close after the first, each the percentage change from the previous close |
| Bias.Square | backend/src/core/strategies/bos_fvg_retrace/bias_service.py:181 | a squared deviation is never negative and is zero exactly when the deviation is zero |
| Bias.SpreadZeroIff | backend/src/core/strategies/bos_fvg_retrace/bias_service.py:181 | the sum of squared deviations is non-negative and zero exactly when every value equals the centre |
| Bias.VarianceZeroIff | backend/src/core/strategies/bos_fvg_retrace/bias_service.py:181-184 | the sample variance is non-negative and zero exactly when all returns are equal, which is when the test falls back to neutral |
| Bias.ZTest | backend/src/core/strategies/bos_fvg_retrace/bias_service.py:161-200 | the confidence always lies in [0.5, 1]; fewer than thirty returns give neutral with confidence 0.5, mean 0 and sample size 0; a direction is given exactly when there are thirty returns that are not all equal, bullish only for a positive mean and bearish otherwise, with confidence 1 - p clamped to [0.5, 1] |
| Bias.BiasEvents | backend/src/core/strategies/bos_fvg_retrace/bias_service.py:306-326 | at most a thousand events, each one of the symbol's structure rows |
| Bias.SymbolEvents | backend/src/core/strategies/bos_fvg_retrace/bias_service.py:311-313 | an event is kept exactly when it is a structure row of the symbol |
| Bias.Tally | backend/src/core/strategies/bos_fvg_retrace/bias_service.py:209-215 | the bullish and bearish counts together never exceed the number of events |
| Bias.TallyEmptyIff | backend/src/core/strategies/bos_fvg_retrace/bias_service.py:213-217 | there is no evidence exactly when no event lies in the ten days before the reference time and in the session's hours |
| Bias.TallyAppend | backend/src/core/strategies/bos_fvg_retrace/bias_service.py:213-214 | both counts add up over any split of the events, so the fetch order does not matter |
| Bias.PosteriorMoves | backend/src/core/strategies/bos_fvg_retrace/bias_service.py:224 | Bayes' rule keeps a prior strictly inside (0, 1), raises or keeps it exactly when the bullish likelihood is at least the bearish one, and keeps it exactly when they are equal |
| Bias.QuotientOrder | backend/src/core/strategies/bos_fvg_retrace/bias_service.py:221-222 | dividing by the same positive total keeps the order and the equality of the smoothed counts |
| Bias.Posterior | backend/src/core/strategies/bos_fvg_retrace/bias_service.py:205-231 | the posterior is a probability in [0, 1] |
| Bias.PosteriorFacts | backend/src/core/strategies/bos_fvg_retrace/bias_service.py:217-224 | no evidence keeps the prior; a prior strictly inside (0, 1) stays inside; with evidence it rises or holds exactly when bullish events are at least as many as bearish, and holds exactly when they are equal; priors 0 and 1 are fixed points |
| Bias.PosteriorRatios | backend/src/core/strategies/bos_fvg_retrace/bias_service.py:220-224 | with evidence the posterior is Bayes' rule on two positive likelihoods ordered as the counts are |
| Bias.Label | backend/src/core/strategies/bos_fvg_retrace/bias_service.py:53 | the label is bullish exactly when the posterior is at least one half |
| Bias.BullishUnlessBearishEvidence | backend/src/core/strategies/bos_fvg_retrace/bias_service.py:191-224 | because the z-test's confidence is at least one half in either direction and serves as the bullish prior, a session with at least as many bullish as bearish events is always labelled bullish |
| Bias.SessionBias | backend/src/core/strategies/bos_fvg_retrace/bias_service.py:46-65 | the row carries the symbol, session and reference date; its z-confidence lies in [0.5, 1] and its posterior in [0, 1]; it is bullish exactly when the posterior is at least one half; the evidence is the sum of the counts and is zero exactly when no event is relevant, in which case the posterior is the z-confidence and the label bullish; the stored mean return and sample size are those of the session's returns, or 0 when there are fewer than thirty |
| Bias.KeyIndex | backend/src/core/strategies/bos_fvg_retrace/bias_service.py:128 | the position found holds the key, and -1 is returned exactly when no row holds it |
| Bias.LatestBias | backend/src/core/strategies/bos_fvg_retrace/bias_service.py:118-157 | a row returned is in the table and holds the requested symbol, session and date |
| Bias.KeyIndexUnique | backend/src/core/strategies/bos_fvg_retrace/bias_service.py:249 | with unique keys, the lookup finds the one row holding the key |
| Bias.UpsertFacts | backend/src/core/strategies/bos_fvg_retrace/bias_service.py:240-261 | the upsert keeps keys unique, the saved row is the one read back under its key, and every other key reads back what it read before |
| Bias.UpsertIdempotent | backend/src/core/strategies/bos_fvg_retrace/bias_service.py:240-261 | saving the same row twice leaves the same table as saving it once |
| Bias.BiasTable.constructor | backend/src/core/strategies/bos_fvg_retrace/bias_service.py:241 | the bias table starts empty |
| Bias.BiasTable.Save | backend/src/core/strategies/bos_fvg_retrace/bias_service.py:236-279 | the table afterwards is the upsert of the row into the table before |
| Bias.SavedSessionsFacts | backend/src/core/strategies/bos_fvg_retrace/bias_service.py:46-67 | saving a list of sessions keeps keys unique and leaves each listed session reading back its own bias for the reference date |
| Bias.RunStepSavesEverySession | backend/src/core/strategies/bos_fvg_retrace/bias_service.py:29-71 | keys stay unique; after a run that does not abort, each of Asia, London and New York reads back its own bias for the reference date |
| Bias.RunStep | backend/src/core/strategies/bos_fvg_retrace/bias_service.py:29-71 | the table is unchanged for another symbol, fewer than a thousand candles or no structure events; otherwise each of the three sessions' biases is upserted in order |
| Bias.LatestTime | backend/src/core/strategies/bos_fvg_retrace/bias_service.py:89 | the latest time is some candle's time and no candle is later |
| Bias.DailyReference | backend/src/core/strategies/bos_fvg_retrace/bias_service.py:89-94 | the reference is a midnight UTC and the latest candle lies within the day starting at it |
| Bias.DailyIgnoresLatestDay | backend/src/core/strategies/bos_fvg_retrace/bias_service.py:92-97 | every candle of the latest day is at or after the reference time, which the windows exclude, so that day never enters the daily bias |
| Bias.DailyAnalysis | backend/src/core/strategies/bos_fvg_retrace/bias_service.py:73-97 | raises exactly for a symbol without a candle source; with no candles the table is unchanged; otherwise it is the table after run_step at the reference time |
| Bias.Mean | backend/src/core/strategies/bos_fvg_retrace/bias_service.py:180 | the mean times the count is the sum of the returns |
| Bias.Variance | backend/src/core/strategies/bos_fvg_retrace/bias_service.py:181 | the sample variance is never negative |
| BosFvgRetrace.Plan | backend/src/core/strategies/bos_fvg_retrace/bos_fvg_retrace_service.py:59-76 | a tick attempts six steps when the bias is due and five otherwise, always ending with the five stages in order, and includes the bias exactly when it is due |
| BosFvgRetrace.StagesAreTheRest | backend/src/core/strategies/bos_fvg_retrace/bos_fvg_retrace_service.py:65-76 | the five stages after the bias are every step but the bias |
| BosFvgRetrace.OutcomeFacts | backend/src/core/strategies/bos_fvg_retrace/bos_fvg_retrace_service.py:59-82 | only the bias step can cut a tick short, exactly when it is due and raises; otherwise the bias ran exactly when due, every stage that does not raise ran, every stage that raises was swallowed, and no stage is both |
| BosFvgRetrace.StagesIndependent | backend/src/core/strategies/bos_fvg_retrace/bos_fvg_retrace_service.py:59-82 | a stage runs exactly when the bias did not cut the tick short and the stage itself does not raise; the bias runs exactly when it is due and does not raise |
| BosFvgRetrace.FaultStaysInStage | backend/src/core/strategies/bos_fvg_retrace/bos_fvg_retrace_service.py:65-76 | making one more stage raise changes whether any other step runs in no case |
| BosFvgRetrace.OwnTablesOnly | backend/src/core/strategies/bos_fvg_retrace/bos_fvg_retrace_service.py:65-76 | the structure rows change only through the structure and gap stages, the zones only through the gap and retrace stages, the trades only through the entry and signal stages, and the signals only through the signal stage |
| BosFvgRetrace.StageGrows | backend/src/core/strategies/bos_fvg_retrace/bos_fvg_retrace_service.py:65-76 | no single stage deletes a row, the signals only get rows appended, and only the gap stage rewrites existing structure rows |
| BosFvgRetrace.TablesOnlyGrow | backend/src/core/strategies/bos_fvg_retrace/bos_fvg_retrace_service.py:65-76 | the five stages together delete no row of any table, keep the old signals in place, and keep the old structure rows in place when the gap stage raises |
| BosFvgRetrace.RunStage | backend/src/core/strategies/bos_fvg_retrace/bos_fvg_retrace_service.py:65-76 | one stage writes exactly its stage's effect on the tables, or nothing when it raises and its own handler swallows the exception |
| BosFvgRetrace.RunStages | backend/src/core/strategies/bos_fvg_retrace/bos_fvg_retrace_service.py:65-76 | the tables end as the five stages' effects applied in order, each stage seeing what the earlier ones wrote and a raising stage writing nothing while the later ones still run |
| BosFvgRetrace.Pipeline.constructor | backend/src/core/strategies/bos_fvg_retrace/bos_fvg_retrace_service.py:21-29 | no bias date is recorded at start |
| BosFvgRetrace.Pipeline.Run | backend/src/core/strategies/bos_fvg_retrace/bos_fvg_retrace_service.py:31-82 | raises for any symbol and timeframe other than XAUUSDc on M15, skips with fewer than ten candles, otherwise ends as the outcome of the bias being due and the raising steps; it records today's date and writes the day's bias exactly when the bias ran, and a tick that goes on leaves the tables as the five stages (the structure stage in loose mode) leave them |
| BosFvgRetrace.BiasDaysWithin | backend/src/core/strategies/bos_fvg_retrace/bos_fvg_retrace_service.py:60-64 | on ticks in date order, the bias runs only on dates the ticks reach, never on the date already recorded, and never before the first tick's date |
| BosFvgRetrace.BiasDaysIncreasing | backend/src/core/strategies/bos_fvg_retrace/bos_fvg_retrace_service.py:60-64 | on ticks in date order, the bias runs on strictly increasing dates, so at most once per date |
| BosFvgRetrace.BiasDaysCover | backend/src/core/strategies/bos_fvg_retrace/bos_fvg_retrace_service.py:60-64 | every date the ticks reach gets its daily bias, except a date recorded before the first tick |
| LsrStore.ContextTable.constructor | backend/src/core/strategies/liquidity_sweep_rejection/context_service.py:229-232 | the contexts table starts empty |
| LsrStore.LatestContext | backend/src/core/strategies/liquidity_sweep_rejection/context_service.py:164-180 | the index found holds a context of the symbol (an active one when only active ones are asked for) and no later row does; -1 exactly when there is none |
| LsrContext.MaxHigh | backend/src/core/strategies/liquidity_sweep_rejection/context_service.py:97-99 | the largest high of a window is at least every high in it |
| LsrContext.MaxHighAttained | backend/src/core/strategies/liquidity_sweep_rejection/context_service.py:97-99 | the largest high of a window is the high of one of its candles |
| LsrContext.MinLow | backend/src/core/strategies/liquidity_sweep_rejection/context_service.py:102-104 | the smallest low of a window is at most every low in it |
| LsrContext.MinLowAttained | backend/src/core/strategies/liquidity_sweep_rejection/context_service.py:102-104 | the smallest low of a window is the low of one of its candles |
| LsrContext.SwingIff | backend/src/core/strategies/liquidity_sweep_rejection/context_service.py:96-105 | a swing high is exactly a candle whose high is strictly above each of the three highs before and the three after it; likewise a swing low, strictly below |
| LsrContext.LastSwingHigh | backend/src/core/strategies/liquidity_sweep_rejection/context_service.py:96-100 | the index found is a swing high with three candles on each side and no later such candle is a swing high; -1 when none is |
| LsrContext.LastSwingLow | backend/src/core/strategies/liquidity_sweep_rejection/context_service.py:101-105 | the index found is a swing low with three candles on each side and no later such candle is a swing low; -1 when none is |
| LsrContext.ConfirmedSwingsFacts | backend/src/core/strategies/liquidity_sweep_rejection/context_service.py:107-119 | both levels are present or both absent, present exactly when a swing high and a swing low both exist; the high is the last swing high's high and the low the last swing low's low |
| LsrContext.GetConfirmedSwings | backend/src/core/strategies/liquidity_sweep_rejection/context_service.py:86-119 | the loop returns the confirmed swing levels: the last swing high's high and the last swing low's low, or both NULL unless both exist |
| LsrContext.CheckCandle | backend/src/core/strategies/liquidity_sweep_rejection/context_service.py:96-105 | one loop turn makes candle i the last swing high or low exactly when it is one |
| LsrContext.LastSwingPast | backend/src/core/strategies/liquidity_sweep_rejection/context_service.py:96 | candles without three after them are never swings, so stopping the loop there loses none |
| LsrContext.ComputeBias | backend/src/core/strategies/liquidity_sweep_rejection/context_service.py:121-143 | with fewer than five H4 candles the bias is neutral and flat; otherwise bullish exactly when the last close is above the close four candles earlier, bearish exactly when below, impulse exactly when not neutral and correction exactly when neutral |
| LsrContext.PreviousDayLevels | backend/src/core/strategies/liquidity_sweep_rejection/context_service.py:145-159 | no D1 candles give three NULL levels; otherwise the levels come from the second-to-last candle, or the only one |
| LsrContext.LastOnDay | backend/src/core/strategies/liquidity_sweep_rejection/context_service.py:150-155 | the index found is the last candle dated on the given day; -1 exactly when no candle is |
| LsrContext.PreviousDayAgrees | backend/src/core/strategies/liquidity_sweep_rejection/context_service.py:149-157 | on daily candles with one candle per day, the levels taken equal those of the last candle dated the day before the latest one |
| LsrContext.NeedsUpdate | backend/src/core/strategies/liquidity_sweep_rejection/context_service.py:182-207 | always needed without a previous context; never when a new swing level is missing; raises exactly when a comparison meets a NULL stored level; with both stored levels, needed exactly when the new high is above the stored high, the new low below the stored low, or the stored context is more than 72 hours old |
| LsrContext.RunStep | backend/src/core/strategies/liquidity_sweep_rejection/context_service.py:35-81 | on the traded symbol, taking the newest 300 H1 and H4 candles and the newest 30 D1 candles (context_service.py:252-265), with at least 30 H1 and 20 H4 of them, a context built from the H4 bias, the H1 swings, the previous-day levels and the newest H1 time is appended exactly when the check answers needed; otherwise the table is unchanged |
| LsrContext.NullContextBlocks | backend/src/core/strategies/liquidity_sweep_rejection/context_service.py:58-75 | the first context of a symbol is saved even when the H1 candles hold no swing, and after that no later run ever appends one |
| LsrContext.ConfirmedSwings | backend/src/core/strategies/liquidity_sweep_rejection/context_service.py:107-119 | the confirmed swing high and swing low are both present or both NULL |
| LsrStore.SweepTable.constructor | backend/src/core/strategies/liquidity_sweep_rejection/sweep_service.py:163-167 | the sweeps table starts empty |
| LsrSweep.CheckForSweep | backend/src/core/strategies/liquidity_sweep_rejection/sweep_service.py:102-114 | nothing once both sides are swept; otherwise a buy-side sweep exactly when the high passes the recent high on an unswept buy side, a sell-side sweep exactly when the buy side does not answer and the low passes the recent low on an unswept sell side, and a raise exactly when a comparison meets a NULL level |
| LsrSweep.ScanStaysRaised | backend/src/core/strategies/liquidity_sweep_rejection/sweep_service.py:59-77 | once a check raises, the remaining candles are not examined |
| LsrSweep.StepFacts | backend/src/core/strategies/liquidity_sweep_rejection/sweep_service.py:59-74 | one candle keeps the context's identity, never clears a swept flag, and records a sweep on a side exactly when it sets that side's flag |
| LsrSweep.ScanOncePerSide | backend/src/core/strategies/liquidity_sweep_rejection/sweep_service.py:59-74 | a scan changes only the swept flags and the last-checked time, only ever sets flags, and sweeps each side at most once per context |
| LsrSweep.ScanSnoc | backend/src/core/strategies/liquidity_sweep_rejection/sweep_service.py:59 | scanning one more reachable candle adds exactly one step |
| LsrSweep.ScanSweepRows | backend/src/core/strategies/liquidity_sweep_rejection/sweep_service.py:151-184 | every recorded sweep is pending, belongs to the context, symbol and timeframe, was made by a scanned candle, and sits at the level that candle crossed: buy side at the recent high below the candle's high, sell side at the recent low above the candle's low |
| LsrSweep.ScanAdvances | backend/src/core/strategies/liquidity_sweep_rejection/sweep_service.py:73-74 | a scan that did not raise stores the last scanned candle's time as the last-checked time |
| LsrSweep.NoCandleTwice | backend/src/core/strategies/liquidity_sweep_rejection/sweep_service.py:49-74 | on a time-ordered feed, after a run that did not raise every candle still new is later than every candle examined, so no candle is examined twice |
| LsrSweep.StepShift | backend/src/core/strategies/liquidity_sweep_rejection/sweep_service.py:59-74 | a step's recorded sweeps are those before it followed by what the step alone records |
| LsrSweep.ProcessCandle | backend/src/core/strategies/liquidity_sweep_rejection/sweep_service.py:59-74 | a check that raises changes nothing; otherwise the sweep (if any) is recorded, its side marked and the candle's time stored, as one step of the scan |
| LsrSweep.ScanCandles | backend/src/core/strategies/liquidity_sweep_rejection/sweep_service.py:59-74 | the loop leaves the context, the sweeps and the raise flag exactly as the scan of the new candles does |
| LsrSweep.RunStep | backend/src/core/strategies/liquidity_sweep_rejection/sweep_service.py:32-77 | raises for another symbol or timeframe or no candles and changes nothing then or without an active context; otherwise the latest active context and the sweeps table are those of scanning, among the newest 300 candles (sweep_service.py:189-196), those after the last-checked time (or the creation time) |
| LsrSweep.NewCandles | backend/src/core/strategies/liquidity_sweep_rejection/sweep_service.py:49-50 | the new candles are exactly the feed's candles after the last-checked time, or after the context's creation when none is recorded |
| LsrSweep.Scan | backend/src/core/strategies/liquidity_sweep_rejection/sweep_service.py:59-74 | a scan records at most one sweep per candle |
| LsrStore.RejectionTable.constructor | backend/src/core/strategies/liquidity_sweep_rejection/rejection_service.py:169-171 | the rejections table starts empty |
| LsrRejection.RollingAtr | backend/src/core/strategies/liquidity_sweep_rejection/rejection_service.py:219-230 | the ATR at a candle, the mean true range over up to fourteen candles ending there, is never negative |
| LsrRejection.WithAtr | backend/src/core/strategies/liquidity_sweep_rejection/rejection_service.py:66-67 | every fetched candle gets the ATR computed at its own position, in order |
| LsrRejection.BarsAfterMembers | backend/src/core/strategies/liquidity_sweep_rejection/rejection_service.py:70 | the candles kept are exactly those later than the sweep's candle |
| LsrRejection.Window | backend/src/core/strategies/liquidity_sweep_rejection/rejection_service.py:70-71 | a sweep is judged on at most three candles |
| LsrRejection.WindowAfter | backend/src/core/strategies/liquidity_sweep_rejection/rejection_service.py:69-70 | every candle a sweep is judged on comes after its sweeping candle |
| LsrRejection.Evaluate | backend/src/core/strategies/liquidity_sweep_rejection/rejection_service.py:81-122 | a decided loop names a bar within the window |
| LsrRejection.EvaluateFacts | backend/src/core/strategies/liquidity_sweep_rejection/rejection_service.py:81-122 | the loop stops at the first bar that decides and stays undecided exactly when none does; an instant rejection is a close back across the level with a body of at least 0.8 ATR; an invalidation is a wick back beyond the level after a small close; a delayed rejection is the second small close with no wick beyond the level |
| LsrRejection.Judge | backend/src/core/strategies/liquidity_sweep_rejection/rejection_service.py:77-122 | the loop's verdict is the one the candle-by-candle definition gives |
| LsrRejection.JudgedFacts | backend/src/core/strategies/liquidity_sweep_rejection/rejection_service.py:56-134 | only the status and rejection time change; the sweep is rejected exactly when a rejection row is inserted, which is exactly when a candle came and the loop rejected; it fails exactly when no rejection came and three candles were seen; otherwise it is unchanged; the inserted row points at the sweep, carries its side and the rejection time, and comes after the sweeping candle |
| LsrRejection.JudgedAgree | backend/src/core/strategies/liquidity_sweep_rejection/rejection_service.py:153-183 | the judged sweep and its inserted rows agree: one row exactly when the sweep is rejected, pointing at it and carrying its rejection time |
| LsrRejection.EvaluateRejection | backend/src/core/strategies/liquidity_sweep_rejection/rejection_service.py:56-134 | only the judged sweep's row changes, to its verdict, and the rejection row (if any) is appended |
| LsrRejection.PendingIds | backend/src/core/strategies/liquidity_sweep_rejection/rejection_service.py:139-151 | exactly the ids of the pending sweeps of the symbol and timeframe, in increasing order |
| LsrRejection.GatherRejections | backend/src/core/strategies/liquidity_sweep_rejection/rejection_service.py:38-51 | after a run every inserted rejection row points at a judged sweep that is now rejected at the row's time, and every judged sweep now rejected has a row |
| LsrRejection.JudgeNext | backend/src/core/strategies/liquidity_sweep_rejection/rejection_service.py:47-48 | one loop turn judges one more pending sweep |
| LsrRejection.RunStep | backend/src/core/strategies/liquidity_sweep_rejection/rejection_service.py:38-51 | raises exactly when there are pending sweeps and either the symbol has no candle source or the candle table is empty (rejection_service.py:207 reads a time column the empty frame lacks), and then nothing changes; otherwise each pending sweep is replaced by its verdict on the newest 300 candles (rejection_service.py:202-206), the others stay, and the rejection rows of the judged sweeps are appended in order |
| LsrStore.SetupTable.constructor | backend/src/core/strategies/liquidity_sweep_rejection/setup_service.py:119-121 | the setups table starts empty |
| LsrSetup.ConfirmedIds | backend/src/core/strategies/liquidity_sweep_rejection/setup_service.py:78-93 | exactly the ids of the unused rejections of the symbol whose sweep is of the symbol, in increasing order |
| LsrSetup.FirstAt | backend/src/core/strategies/liquidity_sweep_rejection/setup_service.py:48 | the index found is the first candle stamped with the rejection time; -1 exactly when no candle is |
| LsrSetup.LevelsFacts | backend/src/core/strategies/liquidity_sweep_rejection/setup_service.py:57-67 | the first target is rr times as far from the entry as the stop, on the other side of the entry; the stop is one ATR beyond the swept level, below it for a buy-side sweep and above it for a sell-side one; the second target is the recent high or the recent low |
| LsrSetup.LevelsOrder | backend/src/core/strategies/liquidity_sweep_rejection/setup_service.py:57-67 | with a positive ratio a buy-side setup has its stop below and its first target above the entry exactly when the entry is above the level minus ATR; a sell-side setup is the mirror image |
| LsrSetup.DefaultRrDoubles | backend/src/core/strategies/liquidity_sweep_rejection/setup_service.py:17-21 | with the default ratio of 2 the first target is twice as far from the entry as the stop |
| LsrSetup.PlanSetupMade | backend/src/core/strategies/liquidity_sweep_rejection/setup_service.py:44-55 | a setup is made exactly when one of the newest 300 candles carries the rejection time and the symbol has a context; otherwise the lookup raises |
| LsrSetup.PlanSetupFacts | backend/src/core/strategies/liquidity_sweep_rejection/setup_service.py:39-70 | a setup made points at the rejection and its sweep, carries the symbol, timeframe and ratio, enters at the close of a candle with the rejection time, and takes its second target from the latest context |
| LsrSetup.PlanSetupStop | backend/src/core/strategies/liquidity_sweep_rejection/setup_service.py:57-67 | a setup made has its first target rr stop distances from the entry and its stop beyond the swept level |
| LsrSetup.GenerateSetup | backend/src/core/strategies/liquidity_sweep_rejection/setup_service.py:39-145 | raises exactly when no setup can be made, and then writes nothing; otherwise appends the setup and flags the rejection as used in the same commit |
| LsrSetup.Plans | backend/src/core/strategies/liquidity_sweep_rejection/setup_service.py:33-34 | one planned setup per fetched rejection row |
| LsrSetup.Stop | backend/src/core/strategies/liquidity_sweep_rejection/setup_service.py:33-34 | the loop gets exactly as far as the first rejection whose setup raises |
| LsrSetup.Flag | backend/src/core/strategies/liquidity_sweep_rejection/setup_service.py:137-144 | the rows listed are flagged as used and every other row is unchanged |
| LsrSetup.SetupNext | backend/src/core/strategies/liquidity_sweep_rejection/setup_service.py:34 | one loop turn generates the setup of one fetched rejection |
| LsrSetup.TakeNext | backend/src/core/strategies/liquidity_sweep_rejection/setup_service.py:33-34 | one loop turn either raises and changes nothing, or saves one more setup and flags its rejection |
| LsrSetup.RunStep | backend/src/core/strategies/liquidity_sweep_rejection/setup_service.py:27-34 | the confirmed rejections are taken in order until the first whose setup raises: each one before it has its setup appended and its row flagged, the rest wait, and the run raises exactly when it stopped early |
| LsrSetup.SaveKeepsMatch | backend/src/core/strategies/liquidity_sweep_rejection/setup_service.py:113-145 | saving a setup together with flagging its unused rejection keeps every flagged rejection with exactly one setup and every unflagged one with none |
| LsrSetup.RunKeepsMatch | backend/src/core/strategies/liquidity_sweep_rejection/setup_service.py:27-34 | a run keeps every flagged rejection with exactly one setup and every unflagged one with none |
| LsrSetup.FlagAllLeavesNone | backend/src/core/strategies/liquidity_sweep_rejection/setup_service.py:78-93 | once every confirmed rejection is flagged, none is left confirmed, so the next run finds nothing |
| LsrSetup.AppendUnflaggedKeepsMatch | backend/src/core/strategies/liquidity_sweep_rejection/setup_service.py:87 | appending unused rejection rows keeps setups and flags in step |
| LsrSetup.Levels | backend/src/core/strategies/liquidity_sweep_rejection/setup_service.py:57-67 | a buy-side stop is one ATR below the swept level with the recent high as second target, a sell-side one one ATR above it with the recent low; the first target is rr stop distances from the entry, on the other side |
| FibStore.SwingTable.constructor | backend/src/core/strategies/swing_point_fib/structure_service.py:84-86 | the swing-point table starts empty |
| SwingPoints.HighestHigh | backend/src/core/strategies/swing_point_fib/structure_service.py:60 | the highest high of a window is at least every high in it and is the high of one of its candles |
| SwingPoints.LowestLow | backend/src/core/strategies/swing_point_fib/structure_service.py:64 | the lowest low of a window is at most every low in it and is the low of one of its candles |
| SwingPoints.Clamp | backend/src/core/strategies/swing_point_fib/structure_service.py:118 | the clamped score lies in [0.5, 5.0], equals the raw score inside that interval, and is the nearer bound outside it |
| SwingPoints.PowerScore | backend/src/core/strategies/swing_point_fib/structure_service.py:97-120 | the score always lies in [0.5, 5.0], and is the floor 0.5 before the tenth candle, where the rolling average does not exist |
| SwingPoints.WindowHighIsMax | backend/src/core/strategies/swing_point_fib/structure_service.py:60 | the high at candle i equals the highest high of the seven candles around it exactly when no candle of that window has a higher high |
| SwingPoints.WindowLowIsMin | backend/src/core/strategies/swing_point_fib/structure_service.py:64 | the low at candle i equals the lowest low of the seven candles around it exactly when no candle of that window has a lower low |
| SwingPoints.Swing | backend/src/core/strategies/swing_point_fib/structure_service.py:40-66 | the recorded row has the given kind, the candle's time and a power score in [0.5, 5.0] |
| SwingPoints.End | backend/src/core/strategies/swing_point_fib/structure_service.py:41-56 | the candles scanned are exactly those the detector's range admits: 3 to n-4 for the strict detector, 1 to n-1 for the loose one |
| SwingPoints.RecordAllFacts | backend/src/core/strategies/swing_point_fib/structure_service.py:71-92 | recording keeps every existing row, never duplicates a (symbol, timeframe, kind, candle time) key, adds only given swings, and leaves every given swing's key present |
| SwingPoints.SwingsAtExact | backend/src/core/strategies/swing_point_fib/structure_service.py:56-66 | the swings recorded at a candle are exactly the ones the detector marks there |
| SwingPoints.HasKeyExtends | backend/src/core/strategies/swing_point_fib/structure_service.py:76-81 | a key present in earlier rows is still present after rows are appended |
| SwingPoints.ScanKeeps | backend/src/core/strategies/swing_point_fib/structure_service.py:40-66 | a scan keeps the earlier rows and never duplicates a key |
| SwingPoints.ScanSound | backend/src/core/strategies/swing_point_fib/structure_service.py:40-66 | every row a scan adds is a swing the detector marks at one of the scanned candles |
| SwingPoints.ScanComplete | backend/src/core/strategies/swing_point_fib/structure_service.py:40-66 | after a scan every swing the detector marks at a scanned candle has its key in the table |
| SwingPoints.FoundInRange | backend/src/core/strategies/swing_point_fib/structure_service.py:41-56 | every candle the detector marks lies in the scanned range |
| SwingPoints.DiscoveredAfterCandle | backend/src/core/strategies/swing_point_fib/structure_service.py:57-89 | on a time-ordered feed a strict swing is discovered strictly after its own candle, a loose one at its own candle |
| SwingPoints.RecordSwing | backend/src/core/strategies/swing_point_fib/structure_service.py:71-92 | the swing is appended exactly when no row has its key, and otherwise the table is unchanged |
| SwingPoints.RecordPair | backend/src/core/strategies/swing_point_fib/structure_service.py:56-66 | the high found at a candle is recorded before the low |
| SwingPoints.DetectStrict | backend/src/core/strategies/swing_point_fib/structure_service.py:53-66 | the strict loop records, candle by candle, exactly the scan over candles 3 to n-4 |
| SwingPoints.DetectLoose | backend/src/core/strategies/swing_point_fib/structure_service.py:40-51 | the loose loop records, candle by candle, exactly the scan over candles 1 to n-1 |
| SwingPoints.RunStep | backend/src/core/strategies/swing_point_fib/structure_service.py:21-35 | another symbol or timeframe, or fewer than ten of the newest 5000 candles, leave the table unchanged; otherwise it is the chosen detector's full scan of those candles |
| SwingPoints.FullScanRecordsEverySwing | backend/src/core/strategies/swing_point_fib/structure_service.py:21-92 | after a full scan every swing the detector can find has its key in the table, keys stay unique and no earlier row was changed |
| FibStore.FibTable.constructor | backend/src/core/strategies/swing_point_fib/major_swing_fib_service.py:112-113 | the Fibonacci-setup table starts empty |
| MajorWaveFib.SwingIds | backend/src/core/strategies/swing_point_fib/major_swing_fib_service.py:53-66 | exactly the ids of the swings of the symbol and timeframe, in increasing order |
| MajorWaveFib.DetectTrend | backend/src/core/strategies/swing_point_fib/major_swing_fib_service.py:68-86 | a trend other than neutral needs at least two swing highs and two swing lows; the trend is bullish exactly when both the last high and the last low are above the first ones, and bearish exactly when both are below |
| MajorWaveFib.TrendMirror | backend/src/core/strategies/swing_point_fib/major_swing_fib_service.py:80-86 | negating every price swaps bullish and bearish and keeps neutral, so the two rules are mirror images |
| MajorWaveFib.SeqMin | backend/src/core/strategies/swing_point_fib/major_swing_fib_service.py:96-99 | the minimum is one of the values and at most every value |
| MajorWaveFib.SeqMax | backend/src/core/strategies/swing_point_fib/major_swing_fib_service.py:97-100 | the maximum is one of the values and at least every value |
| MajorWaveFib.WindowFibSpans | backend/src/core/strategies/swing_point_fib/major_swing_fib_service.py:36-44 | a window saves at most one setup, exactly when its trend is not neutral; the setup carries that trend, points at the window's last swing, and spans the lowest swing low to the highest swing high of the window, both attained; bullish setups reach above the first swing high and below the last swing low, bearish ones above the last swing high and below the first swing low |
| MajorWaveFib.WindowMark | backend/src/core/strategies/swing_point_fib/major_swing_fib_service.py:32-45 | a window marks its last swing, or nothing exactly when that swing was processed when fetched |
| MajorWaveFib.WindowSavePoints | backend/src/core/strategies/swing_point_fib/major_swing_fib_service.py:32-45 | a window saves at most one setup, pointing at its last swing, which was unprocessed when fetched |
| MajorWaveFib.MarkProcessed | backend/src/core/strategies/swing_point_fib/major_swing_fib_service.py:119-127 | the listed swings are marked processed and every other row is unchanged |
| MajorWaveFib.MarkSwing | backend/src/core/strategies/swing_point_fib/major_swing_fib_service.py:119-127 | the swing with the id is marked processed, and an id naming no row changes nothing |
| MajorWaveFib.HandleWindow | backend/src/core/strategies/swing_point_fib/major_swing_fib_service.py:29-45 | a window whose last swing was processed when fetched changes nothing; otherwise its setup (if trending) is appended and its last swing marked processed |
| MajorWaveFib.MarkWindow | backend/src/core/strategies/swing_point_fib/major_swing_fib_service.py:32-45 | handling a window marks exactly its last swing processed, unless that swing was processed when the swings were fetched |
| MajorWaveFib.SaveSetup | backend/src/core/strategies/swing_point_fib/major_swing_fib_service.py:36-44 | a trending window appends its setup; a neutral one appends nothing |
| MajorWaveFib.RunStep | backend/src/core/strategies/swing_point_fib/major_swing_fib_service.py:21-48 | after a run the swing table has every handled window's last swing marked processed and the setup table has each trending handled window's setup appended, in window order |
| MajorWaveFib.NewFibsPointAtSaved | backend/src/core/strategies/swing_point_fib/major_swing_fib_service.py:29-45 | the setups of a run point, in order, at the last swings of the windows that save one |
| MajorWaveFib.SavedAreMarked | backend/src/core/strategies/swing_point_fib/major_swing_fib_service.py:44-45 | every window that saves a setup also marks its last swing processed |
| MajorWaveFib.MarkAndSaveKeepLinked | backend/src/core/strategies/swing_point_fib/major_swing_fib_service.py:44-45 | marking unprocessed swings while appending setups that point at increasing ids among them keeps every setup pointing at a processed swing and no two setups at the same one |
| MajorWaveFib.RunKeepsLinked | backend/src/core/strategies/swing_point_fib/major_swing_fib_service.py:21-48 | a run keeps every setup pointing at a processed swing and no two setups pointing at the same swing |
| MajorWaveFib.SameMarketSameIds | backend/src/core/strategies/swing_point_fib/major_swing_fib_service.py:56-61 | marking swings processed does not change which swings belong to a symbol and timeframe |
| MajorWaveFib.AllProcessedNothingToDo | backend/src/core/strategies/swing_point_fib/major_swing_fib_service.py:32-34 | when every window's last swing is already processed, a run marks nothing and saves nothing |
| MajorWaveFib.RunIsIdempotent | backend/src/core/strategies/swing_point_fib/major_swing_fib_service.py:21-48 | a second run straight after a first marks nothing and saves nothing |
| FibStore.TradeSetupTable.constructor | backend/src/core/strategies/swing_point_fib/fib_trade_setup_service.py:84-90 | the trade-setup table starts empty |
| FibTradeSetup.CalculateLevels | backend/src/core/strategies/swing_point_fib/fib_trade_setup_service.py:55-82 | levels exist exactly for a bullish or bearish trend; a bullish range puts the stop at the low and the target at the high, a bearish one the reverse |
| FibTradeSetup.LevelsRetrace | backend/src/core/strategies/swing_point_fib/fib_trade_setup_service.py:62-74 | the entry lies 61.8% of the range from the target and 38.2% from the stop, and between them when the range is well ordered |
| FibTradeSetup.LevelsMirror | backend/src/core/strategies/swing_point_fib/fib_trade_setup_service.py:62-74 | the bullish and bearish readings of one range put their entries symmetrically about its middle and swap stop and target |
| FibTradeSetup.PendingIds | backend/src/core/strategies/swing_point_fib/fib_trade_setup_service.py:42-53 | exactly the ids of the unprocessed setups of the symbol and timeframe, increasing |
| FibTradeSetup.SetupFor | backend/src/core/strategies/swing_point_fib/fib_trade_setup_service.py:26-33 | a trade setup is saved exactly when all three levels exist and are non-zero, carrying the Fibonacci setup's id, trend, range and discovery time |
| FibTradeSetup.MarkFibs | backend/src/core/strategies/swing_point_fib/fib_trade_setup_service.py:109-117 | marking sets processed on exactly the listed rows and leaves every other row unchanged |
| FibTradeSetup.MarkFib | backend/src/core/strategies/swing_point_fib/fib_trade_setup_service.py:109-117 | one row is marked processed and nothing else changes |
| FibTradeSetup.HandleSetup | backend/src/core/strategies/swing_point_fib/fib_trade_setup_service.py:26-34 | one fetched setup is marked processed, whether or not it yields a trade setup, and its trade setup if any is appended |
| FibTradeSetup.RunStep | backend/src/core/strategies/swing_point_fib/fib_trade_setup_service.py:19-37 | a run marks every pending setup processed and appends the trade setups of the usable ones in fetch order |
| FibTradeSetup.RunClearsPending | backend/src/core/strategies/swing_point_fib/fib_trade_setup_service.py:19-37 | after a run nothing of the symbol and timeframe is pending and every other row is unchanged |
| FibTradeSetup.NewSetupsFromPending | backend/src/core/strategies/swing_point_fib/fib_trade_setup_service.py:26-34 | every new trade setup points at a fetched setup, and their setup ids are strictly increasing, so none is created twice |
| FibSignal.ActionParsed | backend/src/core/strategies/swing_point_fib/signal_service.py:54 | the action written for a setup reads back as a buy exactly for a bullish trend and a sell otherwise |
| FibSignal.SignalAccepted | backend/src/core/strategies/swing_point_fib/signal_service.py:52-68 | the signal built from any trade setup is accepted by the signal insert and stores the intended row: a buy exactly for a bullish setup, with entry, stop and target carried over |
| FibSignal.MessageSelectsInstant | backend/src/core/strategies/swing_point_fib/signal_service.py:65 | the message of a converted setup contains neither "limit" nor "stop" in any case, so the order handler places an instant order |
| FibSignal.EntryAlreadyHitIff | backend/src/core/strategies/swing_point_fib/signal_service.py:118-124 | the entry counts as hit exactly when some candle's high reaches it in a bullish trend or some low reaches it in a bearish one, and never for another trend |
| FibSignal.UnsentIds | backend/src/core/strategies/swing_point_fib/signal_service.py:77-87 | exactly the ids of the unprocessed trade setups of the symbol and timeframe, increasing |
| FibSignal.SignalRows | backend/src/core/strategies/swing_point_fib/signal_service.py:30-44 | one signal row per fetched setup, in fetch order, each the row of that setup |
| FibSignal.MarkSetups | backend/src/core/strategies/swing_point_fib/signal_service.py:89-97 | marking sets processed on exactly the listed rows and leaves every other row unchanged |
| FibSignal.MarkSetup | backend/src/core/strategies/swing_point_fib/signal_service.py:89-97 | one row is marked processed and nothing else changes |
| FibSignal.ConvertAndMark | backend/src/core/strategies/swing_point_fib/signal_service.py:43-47 | one setup's signal row is appended and that setup alone is marked processed |
| FibSignal.RunStep | backend/src/core/strategies/swing_point_fib/signal_service.py:22-47 | with nothing unsent nothing changes; a symbol and timeframe without a candle source, or an empty candle table, raise before any write; otherwise every unsent setup gets its signal in order and is marked processed |
| FibSignal.ConvertAll | backend/src/core/strategies/swing_point_fib/signal_service.py:30-47 | the loop over the unsent setups: the signals table gains exactly the intended signal row of each listed setup, in list order, and the setups table ends with exactly those setups marked processed and every other row as it was |
| FibSignal.RunLeavesNothingUnsent | backend/src/core/strategies/swing_point_fib/signal_service.py:30-47 | after a run nothing of the symbol and timeframe is unsent, so a second run finds nothing, and only the processed flags changed |
| FibSignal.RunSignalsFollowSetups | backend/src/core/strategies/swing_point_fib/signal_service.py:52-68 | every signal of a run is a buy exactly when its setup is bullish, carries its setup's entry, stop and target, and is an instant order |
| FibSignal.EntryAlreadyHit | backend/src/core/strategies/swing_point_fib/signal_service.py:118-124 | an entry can only count as hit on a non-empty frame and a bullish or bearish trend |
| FibBacktest.TakeProfit | backend/src/core/strategies/swing_point_fib/fib_backtest_service.py:80-84 | the backtest's target lies 7 price units from the entry, below it exactly for a bearish setup |
| FibBacktest.ExitAt | backend/src/core/strategies/swing_point_fib/fib_backtest_service.py:148-160 | a candle exits an entered trade at the stop or the target price, and does not exit exactly when it reaches neither level |
| FibBacktest.ExitFrom | backend/src/core/strategies/swing_point_fib/fib_backtest_service.py:133-166 | the replay of an entered trade either exits, keeping its entry time, or times out |
| FibBacktest.SimulateTrade | backend/src/core/strategies/swing_point_fib/fib_backtest_service.py:118-166 | an empty frame fails on its first candle; otherwise the one-pass loop with its entered flag gives the outcome of the replay |
| FibBacktest.WaitExpiredIff | backend/src/core/strategies/swing_point_fib/fib_backtest_service.py:136-146 | waiting for the entry expires exactly when every candle that would fill it comes at or after a candle past the end of the wait |
| FibBacktest.EntryAtFirstTouch | backend/src/core/strategies/swing_point_fib/fib_backtest_service.py:140-146 | the entry fills on the first candle that touches it within the wait, and that same candle is the first checked for an exit |
| FibBacktest.ExitFromSound | backend/src/core/strategies/swing_point_fib/fib_backtest_service.py:148-166 | an exit happens on a candle whose exit rule fires, and a timeout means no candle from the entry on reached either level |
| FibBacktest.ExitPriority | backend/src/core/strategies/swing_point_fib/fib_backtest_service.py:149-160 | on a candle reaching both levels a bullish trade is stopped out and a bearish one takes its target |
| FibBacktest.ExitNotBeforeEntry | backend/src/core/strategies/swing_point_fib/fib_backtest_service.py:133-160 | with candles in time order a trade never exits before it enters |
| FibBacktest.PipFactor | backend/src/core/strategies/swing_point_fib/fib_backtest_service.py:175 | the pip factor is 10 when the symbol contains "XAU" and 10000 otherwise |
| FibBacktest.TruncDiv | backend/src/core/strategies/swing_point_fib/fib_backtest_service.py:186 | the quotient rounds toward zero as Python's `int` of a division does: the remainder has the sign of the dividend and is smaller than the divisor in magnitude, for negative dividends too |
| FibBacktest.CalculateMetrics | backend/src/core/strategies/swing_point_fib/fib_backtest_service.py:171-188 | a trade without an exit gives zero pips, zero risk multiple and no duration; an exited trade has a duration of whole minutes from entry to exit, rounded toward zero |
| FibBacktest.ResultInRisk | backend/src/core/strategies/swing_point_fib/fib_backtest_service.py:177-185 | the pips are the move on the trade's side times the pip factor, and the risk multiple is that move over the stop distance, 0 with no stop distance |
| FibBacktest.StopLosesOneRisk | backend/src/core/strategies/swing_point_fib/fib_backtest_service.py:177-185 | a stop on the losing side of the entry loses exactly one risk unit |
| FibBacktest.TargetGainsDistance | backend/src/core/strategies/swing_point_fib/fib_backtest_service.py:80-84 | a trade closed at the backtest's target gains 7 price units in pips |
| FibBacktest.BacktestSetup | backend/src/core/strategies/swing_point_fib/fib_backtest_service.py:53-113 | a result carries the setup's id, entry and stop, the 7-unit target and a buy direction exactly for a bullish setup |
| FibBacktest.BacktestCandles | backend/src/core/strategies/swing_point_fib/fib_backtest_service.py:89 | the replay covers exactly the candles at or after the discovery time |
| FibBacktest.Results | backend/src/core/strategies/swing_point_fib/fib_backtest_service.py:28-36 | at most one result per setup, each the successful backtest of a selected setup, in table order |
| FibBacktest.ResultsComplete | backend/src/core/strategies/swing_point_fib/fib_backtest_service.py:28-36 | every selected setup whose backtest succeeds has its result collected |
| FibBacktest.RunAll | backend/src/core/strategies/swing_point_fib/fib_backtest_service.py:18-36 | the run collects exactly the successful backtests of the selected setups, in order, skipping failures |
| FibBacktest.CollectOne | backend/src/core/strategies/swing_point_fib/fib_backtest_service.py:29-36 | one turn of the loop adds the setup's result when it is selected and succeeds |
| FibBacktest.BacktestOne | backend/src/core/strategies/swing_point_fib/fib_backtest_service.py:53-113 | computing a backtest with the simulation loop gives the backtest's result |
| FibBacktest.WaitFrom | backend/src/core/strategies/swing_point_fib/fib_backtest_service.py:133-147 | a trade that entered did so on a candle from the start index on that touches the entry, no later than the end of the wait |
| FibBacktest.Simulate | backend/src/core/strategies/swing_point_fib/fib_backtest_service.py:118-147 | a trade that entered did so within 1800 minutes of the first candle |

## Left out

- TrailingStop.TrailDecision: the new stop is not rounded to the broker's point size (mt5_logic.py line 660); the bounds are stated for the unrounded stop, since prices are exact reals.
- Mt5Logic.StopPlan: the adjusted stop-order price is not rounded to the symbol's digits (mt5_logic.py lines 313 and 320), for the same reason.
- SignalParserManager.AdjustSignalRR: the "%.2f" formatting of the new target and `round(rr, 2)` are left out; the target is the exact real.
- Entry.AtrBounds: the ATR's rounding to two decimals is left out.
- SwingPoints.PowerScore: the rounding to two decimals and the exception path that returns 1.0 are left out.
- FibBacktest.CalculateMetrics: the rounding of the pips to one decimal and of the risk multiple to two decimals is left out.
- Bias.ZTest: `pct_change`, the standard deviation, the z-score and the normal distribution are a parameter `normal`; the rolling means and the rounding of the stored confidence to 3, 4 or 6 digits are left out.
- Bias.SessionBias: the `z_score` and `std_return` columns the service stores (bias_service.py:56, 61) and reads back (bias_service.py:124-126) are not part of `BiasRow`. Both need a square root of the variance, which has no exact form on the model's reals; the statistic reaches the row only through the confidence from `normal`. `mean_return` is stored, without its rounding to six digits.
- Bias.RunStep: the `updated_at` column is left out. The bias events are the last 1000 rows of the symbol in table order, standing for the newest 1000 by time.
- Drawdown.DailyMetrics.UpdateBalanceMetrics: the previous ending balance read back from the row is modelled as written; the NULL drawdown column is an unreadable value rather than a database default.
- AccountMetrics.AccountMetricService.GetDailyBaseline: the class-level baseline cache shared by every instance is a field of the one service object.
- FvgScan.ProcessBosEvent and FvgScan.ZoneFor: a new gap zone starts as pending. The insert at fvg_service.py:175-197 leaves `status` to the column's default, which is assumed to be the pending status; the retrace stage selects zones by that status with no NULL fallback (retrace_service.py:96-105), so with another default no zone would ever be retraced.
- LsrRejection.EvaluateRejection and LsrRejection.Judged: a new rejection starts with `setupGenerated` false. The insert at rejection_service.py:167-171 leaves `setup_generated` to the column's default, which is assumed to be FALSE; the setup stage selects on `setup_generated = FALSE` (setup_service.py:87), so a NULL default would keep every rejection from becoming a setup.
- SignalsDb.CheckSignal and SignalsDb.SignalTable.Insert: a new signal starts as pending (as do the signal rows built by `EntryToSignal` and `FibSignal`). The insert at signals.py:70-73 leaves `status` to the column's default, which is assumed to be 'pending'; the trade loop reads only rows with `status = 'pending'` (signal_repository.py:13), so with another default no stored signal would ever be traded.
- MajorWaveFib.WindowFib and MajorWaveFib.SaveSetup: a new Fibonacci setup starts unprocessed. The insert at major_swing_fib_service.py:111-115 leaves `processed` to the column's default, which is assumed to be 0; the trade-setup stage selects `processed=0` (fib_trade_setup_service.py:49), so a NULL default would keep every Fibonacci setup from becoming a trade setup.
- FibTradeSetup.SetupFor and FibTradeSetup.HandleSetup: a new trade setup starts unprocessed. The insert at fib_trade_setup_service.py:87-90 leaves `processed` to the column's default, which is assumed to be 0; the signal stage selects `processed=0` (signal_service.py:83), so a NULL default would keep every trade setup from becoming a signal.
- SwingPoints.Swing: a new swing point starts unprocessed. The insert at structure_service.py:83-86 leaves `processed` to the column's default, which is assumed to be false; a NULL default would change nothing, because the Fibonacci stage reads the flag through `bool`, which maps NULL to false (major_swing_fib_service.py:65).
- Bias.PctChange: a zero previous close gives a return of 0.0. pandas gives an infinite return there, or NaN when the close is also zero, and `dropna` then drops that row. Floating-point infinities and NaN are not modelled.
- BosStructure.RunStep, FvgScan.RunStep, RetraceScan.RunStep and Entry.RunStep take the candle feed as a parameter. Their own candle read raises for any pair other than `XAUUSDc` on M15, and the stage's handler would swallow that; this is not modelled, since the orchestrator (`BosFvgRetrace.Pipeline.Run`) calls them only after its own check of the pair has passed. The other readers of candles model that raise: `Bias.DailyAnalysis`, `LsrContext.RunStep`, `LsrSweep.RunStep`, `LsrRejection.RunStep`, `SwingPoints.RunStep`, `FibSignal.RunStep` and `FibBacktest.BacktestSetup`. Each candle read keeps the newest candles where the source cuts it: `BosStructure.RunStep`, `LsrSweep.RunStep`, `LsrRejection.RunStep` and `LsrSetup.RunStep` take the newest 300, `LsrContext.RunStep` the newest 300 H1 and H4 and the newest 30 D1 candles, `SwingPoints.RunStep` the newest 5000, and `Entry.CandlesUpTo` the last 100 at or before the mitigation. `FibSignal.RunStep` takes the feed only for the raise on an empty table: its fetch and timestamp preparation still run, but the prepared candles feed nothing except a commented-out check, so the newest-5000 cut changes nothing there. Timestamp parsing and sorting are not modelled: every feed is taken as already in time order.
- LsrContext.PreviousDayLevels: the D1 candle times are converted without a unit, so whole seconds are read as nanoseconds and every candle falls on 1970-01-01. The model keeps this behaviour (the second-to-last candle, or the only one). `LsrContext.PreviousDayAgrees` shows that this gives the intended previous-day levels when there is one candle per day.
- LsrContext.RunStep: the deactivation of old contexts does nothing in the code and is not modelled; the drop-last-three branch of `_get_confirmed_swings` is kept in `LsrContext.GetConfirmedSwings`, although no input reaches it.
- BosFvgRetrace.RunStage: a stage that raises is taken to write nothing; a raise after part of its rows were written (a partial write before the stage's own handler catches it) is not modelled.
- BosFvgRetrace.Pipeline.Run: every stage and the bias read the same candle feed the orchestrator read; a failure that the bias service's own `run_step` handler swallows is not told apart from a bias that runs, and `faults` names only a bias step that raises to the orchestrator's handler.
- EntryToSignal.RunStep: the unused call to the current session bias is not modelled.
- FibSignal.RunStep: the unused candle filter and the commented-out entry check are not modelled; `EntryAlreadyHit` models the unused helper on its own.
- FibBacktest.RunAll: the Excel export, the optional database save of the results, and the logging are left out.
- Pagination.Paginator.SetItems: Vue's reactivity is left out, including a watcher that does not see an in-place change to the array; changing the items is an explicit call.
- TradeSignalService.RunOnce: the semaphore, `asyncio.gather` and `run_in_executor` are left out; the signals are handled one after another in fetch order.
- BaseService.Service.Loop: the sleep between iterations and the scheduling of the asyncio task are left out; the loop is a sequence of ticks whose outcomes are a parameter.
- SignalsDb.Value: numeric text that Python's `float` accepts (such as "2650.5") is represented by its number, so the model does not tell the text "1" from the number 1. A text action such as "1" that the insert rejects, and a numeric-text message from which the order handler selects an instant order, are therefore not modelled. `float`'s own parsing of text (signs, exponents, spaces, "nan") is left out.
- TradeSignalLogic.UpperChar, Common.LowerChar and Common.IsDigit: case mapping and digit tests cover ASCII only. Python's `upper`, `lower`, `isdigit` and the regular-expression class `\d` also act on other Unicode letters and digits (for example `"ſtop".upper()` contains "STOP"); the model treats those as other characters.
- Mt5Logic.InstantPlan, Mt5Logic.StopPlan and Mt5Logic.LimitPlan: the balance the lot size is computed on is a parameter. `Mt5Logic.CalculatePositionSize` shows how it is read through the metrics service, which may fetch and cache the day's baseline or insert its daily row even when the price distance is not positive; the plans do not repeat that read.
- Asyncio concurrency in general (task creation and cancellation, interleaving of services) is left out; each operation runs to completion.
- Broker terminal I/O (order sending, symbol information, positions, ticks) is a parameter: every placement result, price and position is an input.
- SQL and the connection layer are in-memory tables; the query strings, commits and `created_at`/`updated_at` timestamps are left out.
- `backend/src/core/db/signal_repository.py` is not part of this model; the pending-signal query and the status write are modelled in `SignalsDb` as the code that calls them uses them.
- Ordering by `candle_time` (rejection pending rows, swings) and by `last_swing_discovered_at` (Fibonacci setups, trade setups, backtest setups) is read as table order, that is, rows are assumed to be inserted in time order.
- Wall-clock reads (`datetime.utcnow()`, `date.today()`, `datetime.now()`) are parameters.
- The free-text Telegram parsers and the chat-client session handling are left out: they rest on regular expressions and digit-guessing heuristics with no stated grammar.
- The legacy trailing manager kept in comments (mt5_logic.py lines 474-573) is left out.
- `store_trade_record_db`, `close_all_positions` and `check_balance` are broker and database I/O and are left out.
- Market-data sync, the HTTP routers, the application entry point, the logger and the thin strategy controllers are wiring around the modelled stages and are left out.

=== FILE: account_metrics.dfy ===
/**
 * The account snapshot service: today's baseline balance (cached, read from
 * the daily record, carried over from the latest day or the starting
 * capital), and the snapshot it appends with balance, equity and the
 * drawdown from the previous snapshot's equity.
 *
 * The daily record is the `DailyMetrics` object it shares with the drawdown
 * service. Today's date, the clock and today's realised profit (a sum over
 * the trades table) are inputs.
 */
module AccountMetrics {
  import opened Common
  import opened Drawdown

  /** The very first starting balance, used while the daily record is empty. */
  const StartingCapital: real := 596.8

  datatype Baseline = Baseline(balance: real, date: int)

  datatype Snapshot = Snapshot(time: int, balance: real, equity: real, floatingPnl: real,
                               realizedPnl: real, drawdown: real)

  /** Position of the latest snapshot by timestamp (the last one among equal timestamps). */
  function LatestSnapshot(snaps: seq<Snapshot>): (i: nat)
    requires |snaps| > 0
    ensures i < |snaps|
    ensures forall j :: 0 <= j < |snaps| ==> snaps[j].time <= snaps[i].time
    ensures forall j :: i < j < |snaps| ==> snaps[j].time < snaps[i].time
  {
    if |snaps| == 1 then 0
    else
      var k := LatestSnapshot(snaps[..|snaps| - 1]);
      assert forall j :: 0 <= j < |snaps| - 1 ==> snaps[..|snaps| - 1][j] == snaps[j];
      if snaps[|snaps| - 1].time >= snaps[k].time then |snaps| - 1 else k
  }

  /** Position of the daily row with the latest date (the first one among equal dates). */
  function LatestDay(rows: seq<DailyRow>): (i: nat)
    requires |rows| > 0
    ensures i < |rows|
    ensures forall j :: 0 <= j < |rows| ==> rows[j].date <= rows[i].date
  {
    if |rows| == 1 then 0
    else
      var k := LatestDay(rows[1..]) + 1;
      assert forall j :: 1 <= j < |rows| ==> rows[1..][j - 1] == rows[j];
      if rows[0].date >= rows[k].date then 0 else k
  }

  /** The equity a new snapshot is compared against: the latest snapshot's, or the new balance when there is none. */
  function LastEquity(snaps: seq<Snapshot>, balance: real): real
  {
    if |snaps| == 0 then balance else snaps[LatestSnapshot(snaps)].equity
  }

  /**
   * Drawdown of a snapshot in percent of the previous equity: positive exactly
   * when equity fell, zero when it did not move, at most 100 while equity is
   * not negative, and 0 when the previous equity was not positive.
   */
  function SnapshotDrawdown(lastEquity: real, equity: real): (dd: real)
    ensures lastEquity <= 0.0 ==> dd == 0.0
    ensures lastEquity > 0.0 ==> (dd > 0.0 <==> equity < lastEquity) && (dd == 0.0 <==> equity == lastEquity)
    ensures lastEquity > 0.0 && equity >= 0.0 ==> dd <= 100.0
  {
    if lastEquity > 0.0 then
      ShareFacts(lastEquity, equity);
      (lastEquity - equity) / lastEquity * 100.0
    else 0.0
  }

  /** Sign and size of the fraction of `last` that was lost on the way to `now`. */
  lemma ShareFacts(last: real, now: real)
    requires last > 0.0
    ensures var q := (last - now) / last;
      (q > 0.0 <==> now < last) && (q == 0.0 <==> now == last) && (now >= 0.0 ==> q <= 1.0)
  {
    var q := (last - now) / last;
    assert q * last == last - now;
    if q > 0.0 {
      MulLess(0.0, q, last);
    } else if q < 0.0 {
      MulLess(q, 0.0, last);
    }
    if now >= 0.0 && q > 1.0 {
      MulLess(1.0, q, last);
    }
  }

  /** The first snapshot ever taken shows no drawdown. */
  lemma FirstSnapshotFlat(balance: real)
    ensures SnapshotDrawdown(LastEquity([], balance), balance) == 0.0
  {
  }

  /** The baseline a day without a cached value starts from: today's row, else the latest day's ending balance, else the starting capital. */
  function BaselineFrom(rows: seq<DailyRow>, today: int): real
  {
    match FindDate(rows, today)
    case Some(i) => rows[i].starting
    case None => if |rows| == 0 then StartingCapital else rows[LatestDay(rows)].ending
  }

  /** A cached baseline is the starting balance of its day's row in the daily record. */
  predicate AgreesWith(cache: Option<Baseline>, rows: seq<DailyRow>)
  {
    cache.Some? ==>
      FindDate(rows, cache.value.date).Some? && rows[FindDate(rows, cache.value.date).value].starting == cache.value.balance
  }

  /**
   * The drawdown service's writes to the daily record keep a cached baseline
   * valid: an update keeps each row's date and starting balance, and a new
   * row is only added for a date that has none.
   */
  lemma AgreementSurvivesUpdate(cache: Option<Baseline>, rows: seq<DailyRow>, i: nat, balance: real)
    requires AgreesWith(cache, rows) && i < |rows|
    requires rows[i].starting != 0.0 && Max(balance, rows[i].peak) != 0.0
    ensures AgreesWith(cache, rows[i := UpdatedRow(rows[i], balance)])
  {
    if cache.Some? {
      var rows' := rows[i := UpdatedRow(rows[i], balance)];
      var k := FindDate(rows, cache.value.date).value;
      assert rows'[k].date == cache.value.date;
      assert forall j :: 0 <= j < |rows'| ==> rows'[j].date == rows[j].date;
      assert FindDate(rows', cache.value.date) == Some(k);
    }
  }

  lemma AgreementSurvivesInsert(cache: Option<Baseline>, rows: seq<DailyRow>, row: DailyRow)
    requires AgreesWith(cache, rows) && FindDate(rows, row.date).None?
    ensures AgreesWith(cache, rows + [row])
  {
    if cache.Some? {
      var rows' := rows + [row];
      var k := FindDate(rows, cache.value.date).value;
      assert rows'[k] == rows[k];
      assert forall j :: 0 <= j < k ==> rows'[j] == rows[j];
      assert FindDate(rows', cache.value.date) == Some(k);
    }
  }

  class AccountMetricService {
    var cache: Option<Baseline>
    var snapshots: seq<Snapshot>
    const daily: DailyMetrics

    constructor (daily: DailyMetrics)
      ensures this.daily == daily && cache == None && snapshots == []
    {
      this.daily := daily;
      cache := None;
      snapshots := [];
    }

    /**
     * get_daily_baseline: the cached baseline when it is for today; otherwise
     * the baseline from the daily record, which is cached and, when today has
     * no row yet, written as today's row. Afterwards today's row starts at the
     * returned baseline.
     */
    method GetDailyBaseline(today: int) returns (b: real)
      requires daily.Valid() && AgreesWith(cache, daily.rows)
      modifies this, daily
      ensures daily.Valid() && AgreesWith(cache, daily.rows) && snapshots == old(snapshots)
      ensures cache == Some(Baseline(b, today))
      ensures FindDate(daily.rows, today).Some? && daily.rows[FindDate(daily.rows, today).value].starting == b
      ensures old(cache).Some? && old(cache).value.date == today ==>
        b == old(cache).value.balance && daily.rows == old(daily.rows)
      ensures !(old(cache).Some? && old(cache).value.date == today) ==>
        b == BaselineFrom(old(daily.rows), today) &&
        daily.rows == (if FindDate(old(daily.rows), today).Some? then old(daily.rows)
                       else old(daily.rows) + [FreshRow(today, b)])
    {
      if cache.Some? && cache.value.date == today {
        b := cache.value.balance;
        return;
      }
      b := BaselineFrom(daily.rows, today);
      match FindDate(daily.rows, today)
      case Some(i) =>
        cache := Some(Baseline(b, today));
      case None =>
        cache := Some(Baseline(b, today));
        var row := FreshRow(today, b);
        var rows := daily.rows;
        assert forall i :: 0 <= i < |rows| ==> rows[i].date != today;
        assert (rows + [row])[|rows|].date == today;
        assert FindDate(rows + [row], today) == Some(|rows|);
        daily.rows := rows + [row];
    }

    /**
     * get_daily_baseline_value: the cached baseline whatever day it was cached
     * on, computing it only when nothing is cached.
     */
    method GetDailyBaselineValue(today: int) returns (b: real)
      requires daily.Valid() && AgreesWith(cache, daily.rows)
      modifies this, daily
      ensures daily.Valid() && AgreesWith(cache, daily.rows) && snapshots == old(snapshots)
      ensures old(cache).Some? ==> b == old(cache).value.balance && cache == old(cache) && daily.rows == old(daily.rows)
      ensures old(cache).None? ==>
        b == BaselineFrom(old(daily.rows), today) && cache == Some(Baseline(b, today)) &&
        daily.rows == (if FindDate(old(daily.rows), today).Some? then old(daily.rows)
                       else old(daily.rows) + [FreshRow(today, b)])
    {
      if cache.None? {
        var _ := GetDailyBaseline(today);
      }
      b := cache.value.balance;
    }

    /**
     * update_metrics: appends a snapshot whose balance and equity are today's
     * baseline plus today's realised profit, with no floating profit, and
     * returns that balance.
     */
    method UpdateMetrics(today: int, now: int, realized: real) returns (balance: real)
      requires daily.Valid() && AgreesWith(cache, daily.rows)
      modifies this, daily
      ensures daily.Valid() && AgreesWith(cache, daily.rows)
      ensures cache.Some? && cache.value.date == today && balance == cache.value.balance + realized
      ensures old(cache).Some? && old(cache).value.date == today ==>
        balance == old(cache).value.balance + realized && daily.rows == old(daily.rows)
      ensures !(old(cache).Some? && old(cache).value.date == today) ==>
        balance == BaselineFrom(old(daily.rows), today) + realized &&
        daily.rows == (if FindDate(old(daily.rows), today).Some? then old(daily.rows)
                       else old(daily.rows) + [FreshRow(today, balance - realized)])
      ensures snapshots == old(snapshots) +
        [Snapshot(now, balance, balance, 0.0, realized, SnapshotDrawdown(LastEquity(old(snapshots), balance), balance))]
    {
      var baseline := GetDailyBaseline(today);
      balance := baseline + realized;
      var equity := balance + 0.0;
      var last := LastEquity(snapshots, balance);
      snapshots := snapshots + [Snapshot(now, balance, equity, 0.0, realized, SnapshotDrawdown(last, equity))];
    }
  }
}

=== FILE: base_service.dfy ===
/**
 * The life cycle every background service shares: a `running` flag, the
 * task that runs the loop, start and stop guarded by the flag, and the loop
 * that runs one unit of work after another while the flag holds.
 *
 * Timing and the event loop are left out: one iteration of the loop (the
 * unit of work and the pause after it) is one step, and what happens during
 * it is an input.
 */
module BaseService {
  import opened Common

  /** The loop task as far as the service can tell: none yet, looping, asked to cancel, or ended. */
  datatype TaskState = NoTask | Looping | CancelRequested | Ended

  /**
   * How one iteration of the loop ends: normally, interrupted by a stop
   * (which clears the flag and cancels the loop task), or by an exception from
   * the unit of work.
   */
  datatype StepOutcome = Normal | StoppedDuring | Raised

  /** Index of the first iteration that does not end normally, or |script| when all do. */
  function FirstBreak(script: seq<StepOutcome>): (k: nat)
    ensures k <= |script|
    ensures forall i :: 0 <= i < k ==> script[i] == Normal
    ensures k < |script| ==> script[k] != Normal
  {
    if |script| == 0 then 0
    else if script[0] != Normal then 0
    else FirstBreak(script[1..]) + 1
  }

  class Service {
    const name: string
    /** The description the status list shows; None when the service sets none. */
    const description: Option<string>
    var running: bool
    var task: TaskState

    constructor (name: string, description: Option<string>)
      ensures this.name == name && this.description == description
      ensures !running && task == NoTask
    {
      this.name := name;
      this.description := description;
      running := false;
      task := NoTask;
    }

    /** start: nothing when already running; otherwise raise the flag and create the loop task. */
    method Start()
      modifies this
      ensures old(running) ==> running && task == old(task)
      ensures !old(running) ==> running && task == Looping
    {
      if running {
        return;
      }
      running := true;
      task := Looping;
    }

    /** stop: nothing when not running; otherwise clear the flag and cancel a looping task. */
    method Stop()
      modifies this
      ensures !old(running) ==> !running && task == old(task)
      ensures old(running) ==> !running && task == (if old(task) == Looping then CancelRequested else old(task))
    {
      if !running {
        return;
      }
      running := false;
      if task == Looping {
        task := CancelRequested;
      }
    }

    /**
     * _loop: iterates while the flag holds. A stop or an exception ends the
     * loop for good (the exception handler sits outside the loop), and once
     * the loop ends, for any reason, the flag is cleared. When the script runs
     * out while the flag still holds, the loop is still going.
     */
    method Loop(script: seq<StepOutcome>) returns (iterations: nat, ended: bool)
      modifies this
      ensures ended ==> !running && task == Ended
      ensures !old(running) ==> iterations == 0 && ended
      ensures old(running) && FirstBreak(script) < |script| ==> iterations == FirstBreak(script) + 1 && ended
      ensures old(running) && FirstBreak(script) == |script| ==>
        iterations == |script| && !ended && running && task == old(task)
    {
      iterations := 0;
      ended := false;
      ghost var wasRunning := running;
      while running && iterations < |script|
        invariant iterations <= |script|
        invariant running ==> wasRunning && task == old(task)
        invariant !wasRunning ==> iterations == 0
        invariant forall i :: 0 <= i < iterations - 1 ==> script[i] == Normal
        invariant running && iterations > 0 ==> script[iterations - 1] == Normal
        invariant !running ==>
          ((!wasRunning && iterations == 0) || (iterations > 0 && script[iterations - 1] != Normal))
        decreases |script| - iterations
      {
        var outcome := script[iterations];
        iterations := iterations + 1;
        if outcome != Normal {
          running := false;
        }
      }
      if !running {
        task := Ended;
        ended := true;
      }
    }
  }
}

=== FILE: bias.dfy ===
/**
 * The daily market bias of the break-of-structure strategy: per trading
 * session, a z-test on ninety days of M15 close-to-close returns gives a
 * prior confidence, and the structure events of the last ten days update it
 * by Bayes' rule with Laplace-smoothed likelihoods. The result is upserted
 * into the daily bias table under (symbol, session, date).
 *
 * The square root and the normal distribution function of the z-test are
 * outside the model: `normal` maps the returns' mean, sample variance and
 * count to `1 - p`, the value `stats.norm.cdf(abs(z))` has.
 */
module Bias {
  import opened Common
  import opened BosFvgStore

  datatype Session = Asia | London | NewYork

  /** The sessions in the order the run visits them. */
  const Sessions: seq<Session> := [Asia, London, NewYork]

  /** The only symbol with a candle source. */
  const DataSymbol: string := "XAUUSDc"

  /** Fewer candles than this abort the run. */
  const MinCandles: nat := 1000

  /** Fewer returns than this make the z-test neutral. */
  const MinReturns: nat := 30

  /** At most this many structure events, the most recent, are fetched. */
  const EventLimit: nat := 1000

  const ZWindowDays: int := 90
  const EvidenceDays: int := 10

  // ---------------------------------------------------------------------
  // Sessions
  // ---------------------------------------------------------------------

  /** UTC hour of an instant. */
  function HourOf(t: int): (h: int)
    ensures 0 <= h < 24
  {
    (t % SecondsPerDay) / SecondsPerHour
  }

  /**
   * get_current_session on a time of day in seconds: Asia from 23:00 to
   * 07:00, London from 07:00 to 15:00, New York from 15:00 to 23:00.
   */
  function CurrentSession(tod: int): (s: Session)
    requires 0 <= tod < SecondsPerDay
    ensures s == Asia <==> tod >= 23 * SecondsPerHour || tod < 7 * SecondsPerHour
    ensures s == London <==> 7 * SecondsPerHour <= tod < 15 * SecondsPerHour
    ensures s == NewYork <==> 15 * SecondsPerHour <= tod < 23 * SecondsPerHour
  {
    if tod >= 23 * SecondsPerHour || tod < 7 * SecondsPerHour then Asia
    else if tod < 15 * SecondsPerHour then London
    else NewYork
  }

  /** The hour bounds of a session's data filter, both inclusive. */
  function StartHour(s: Session): int
  {
    match s
    case Asia => 0
    case London => 8
    case NewYork => 16
  }

  function EndHour(s: Session): int
  {
    match s
    case Asia => 8
    case London => 16
    case NewYork => 23
  }

  /** `dt.hour.between(start, end)`: the instant's hour lies in the session's bounds. */
  predicate InSessionHours(t: int, s: Session)
  {
    StartHour(s) <= HourOf(t) <= EndHour(s)
  }

  /**
   * The filters cover every hour; hours 8 and 16 belong to two sessions,
   * and every other hour to exactly one.
   */
  lemma SessionHoursOverlap(t: int)
    ensures InSessionHours(t, Asia) || InSessionHours(t, London) || InSessionHours(t, NewYork)
    ensures InSessionHours(t, Asia) && InSessionHours(t, London) <==> HourOf(t) == 8
    ensures InSessionHours(t, London) && InSessionHours(t, NewYork) <==> HourOf(t) == 16
    ensures !(InSessionHours(t, Asia) && InSessionHours(t, NewYork))
  {
  }

  /**
   * The clock classification and the data filters disagree: an instant in
   * the 23:00 hour is Asia by the clock but filtered into New York only,
   * and one in the 07:00 hour is London by the clock but filtered into Asia only.
   */
  lemma ClockAndFilterDisagree(t: int)
    ensures HourOf(t) == 23 ==>
      CurrentSession(t % SecondsPerDay) == Asia && InSessionHours(t, NewYork) && !InSessionHours(t, Asia)
    ensures HourOf(t) == 7 ==>
      CurrentSession(t % SecondsPerDay) == London && InSessionHours(t, Asia) && !InSessionHours(t, London)
  {
  }

  // ---------------------------------------------------------------------
  // Z-test on returns
  // ---------------------------------------------------------------------

  /** Closes of the candles of the ninety days before `bosTime` that fall in the session's hours, in feed order. */
  function SessionCloses(candles: seq<Candle>, bosTime: int, s: Session): (r: seq<real>)
    ensures |r| <= |candles|
  {
    if |candles| == 0 then []
    else
      var c := candles[|candles| - 1];
      var front := SessionCloses(candles[..|candles| - 1], bosTime, s);
      if InZWindow(c, bosTime, s) then front + [c.close] else front
  }

  /** A candle of the ninety days before `bosTime` whose hour is in the session's hours. */
  predicate InZWindow(c: Candle, bosTime: int, s: Session)
  {
    bosTime - ZWindowDays * SecondsPerDay <= c.time < bosTime && InSessionHours(c.time, s)
  }

  /** Positions of the candles kept by the window and session filters. */
  ghost function KeptPositions(candles: seq<Candle>, bosTime: int, s: Session): seq<nat>
  {
    if |candles| == 0 then []
    else
      KeptPositions(candles[..|candles| - 1], bosTime, s) +
      (if InZWindow(candles[|candles| - 1], bosTime, s) then [|candles| - 1] else [])
  }

  /**
   * The closes are exactly those of the candles in the window and the
   * session's hours, in feed order: the k-th close is the close of the k-th
   * kept candle, and every kept candle contributes one.
   */
  lemma SessionClosesExact(candles: seq<Candle>, bosTime: int, s: Session)
    ensures |KeptPositions(candles, bosTime, s)| == |SessionCloses(candles, bosTime, s)|
    ensures forall k :: 0 <= k < |KeptPositions(candles, bosTime, s)| ==>
      KeptPositions(candles, bosTime, s)[k] < |candles| &&
      InZWindow(candles[KeptPositions(candles, bosTime, s)[k]], bosTime, s) &&
      SessionCloses(candles, bosTime, s)[k] == candles[KeptPositions(candles, bosTime, s)[k]].close
    ensures forall k, l :: 0 <= k < l < |KeptPositions(candles, bosTime, s)| ==>
      KeptPositions(candles, bosTime, s)[k] < KeptPositions(candles, bosTime, s)[l]
    ensures forall i :: 0 <= i < |candles| && InZWindow(candles[i], bosTime, s) ==>
      i in KeptPositions(candles, bosTime, s)
  {
    KeptClosesSound(candles, bosTime, s);
    KeptPositionsIncreasing(candles, bosTime, s);
    KeptPositionsComplete(candles, bosTime, s);
  }

  lemma {:induction false} KeptClosesSound(candles: seq<Candle>, bosTime: int, s: Session)
    ensures |KeptPositions(candles, bosTime, s)| == |SessionCloses(candles, bosTime, s)|
    ensures forall k :: 0 <= k < |KeptPositions(candles, bosTime, s)| ==>
      KeptPositions(candles, bosTime, s)[k] < |candles| &&
      InZWindow(candles[KeptPositions(candles, bosTime, s)[k]], bosTime, s) &&
      SessionCloses(candles, bosTime, s)[k] == candles[KeptPositions(candles, bosTime, s)[k]].close
  {
    if |candles| > 0 {
      var n := |candles| - 1;
      var front := candles[..n];
      KeptClosesSound(front, bosTime, s);
      var fr := SessionCloses(front, bosTime, s);
      var fks := KeptPositions(front, bosTime, s);
      var keep := InZWindow(candles[n], bosTime, s);
      var r := SessionCloses(candles, bosTime, s);
      var ks := KeptPositions(candles, bosTime, s);
      assert r == fr + (if keep then [candles[n].close] else []);
      assert ks == fks + (if keep then [n] else []);
      forall k | 0 <= k < |ks|
        ensures ks[k] < |candles| && InZWindow(candles[ks[k]], bosTime, s) && r[k] == candles[ks[k]].close
      {
        if k < |fks| {
          assert ks[k] == fks[k] && r[k] == fr[k];
          assert front[fks[k]] == candles[fks[k]];
        }
      }
    }
  }

  lemma {:induction false} KeptPositionsIncreasing(candles: seq<Candle>, bosTime: int, s: Session)
    ensures forall k :: 0 <= k < |KeptPositions(candles, bosTime, s)| ==> KeptPositions(candles, bosTime, s)[k] < |candles|
    ensures forall k, l :: 0 <= k < l < |KeptPositions(candles, bosTime, s)| ==>
      KeptPositions(candles, bosTime, s)[k] < KeptPositions(candles, bosTime, s)[l]
  {
    if |candles| > 0 {
      var n := |candles| - 1;
      KeptPositionsIncreasing(candles[..n], bosTime, s);
      var fks := KeptPositions(candles[..n], bosTime, s);
      var ks := KeptPositions(candles, bosTime, s);
      assert ks == fks + (if InZWindow(candles[n], bosTime, s) then [n] else []);
      forall k, l | 0 <= k < l < |ks|
        ensures ks[k] < ks[l]
      {
        if l < |fks| { assert ks[k] == fks[k] && ks[l] == fks[l]; } else { assert ks[k] == fks[k]; }
      }
    }
  }

  lemma {:induction false} KeptPositionsComplete(candles: seq<Candle>, bosTime: int, s: Session)
    ensures forall i :: 0 <= i < |candles| && InZWindow(candles[i], bosTime, s) ==>
      i in KeptPositions(candles, bosTime, s)
  {
    if |candles| > 0 {
      var n := |candles| - 1;
      var front := candles[..n];
      KeptPositionsComplete(front, bosTime, s);
      var fks := KeptPositions(front, bosTime, s);
      var ks := KeptPositions(candles, bosTime, s);
      assert ks == fks + (if InZWindow(candles[n], bosTime, s) then [n] else []);
      forall i | 0 <= i < |candles| && InZWindow(candles[i], bosTime, s)
        ensures i in ks
      {
        if i < n {
          assert front[i] == candles[i];
          assert i in fks;
        } else {
          assert ks[|ks| - 1] == n;
        }
      }
    }
  }



  /** `pct_change` from one close to the next. */
  function PctChange(prev: real, cur: real): real
  {
    if prev == 0.0 then 0.0 else (cur - prev) / prev
  }

  /** The returns left after `pct_change` and `dropna`: one per close after the first. */
  function Returns(closes: seq<real>): (r: seq<real>)
    ensures |r| == if |closes| == 0 then 0 else |closes| - 1
    ensures forall i :: 0 <= i < |r| ==> r[i] == PctChange(closes[i], closes[i + 1])
  {
    if |closes| == 0 then []
    else seq(|closes| - 1, i requires 0 <= i < |closes| - 1 => PctChange(closes[i], closes[i + 1]))
  }

  function Mean(xs: seq<real>): (m: real)
    requires |xs| > 0
    ensures m * (|xs| as real) == Total(xs)
  {
    Total(xs) / (|xs| as real)
  }

  /** Sum of squared deviations from `m`. */
  function Spread(xs: seq<real>, m: real): real
  {
    if |xs| == 0 then 0.0 else Spread(xs[..|xs| - 1], m) + Square(xs[|xs| - 1] - m)
  }

  /** The sample variance (one degree of freedom removed), the square of pandas' `std`. */
  function Variance(xs: seq<real>): (v: real)
    requires |xs| > 1
    ensures v >= 0.0
  {
    SpreadZeroIff(xs, Mean(xs));
    Spread(xs, Mean(xs)) / ((|xs| - 1) as real)
  }

  function Times(a: real, b: real): real
  {
    a * b
  }

  lemma TimesPos(a: real, b: real)
    requires a > 0.0 && b > 0.0
    ensures Times(a, b) > 0.0
  {
  }

  /** The square of a deviation, taken of its magnitude. */
  function Square(d: real): (r: real)
    ensures r >= 0.0
    ensures d == 0.0 ==> r == 0.0
    ensures d != 0.0 ==> r > 0.0
  {
    if d == 0.0 then Times(d, d)
    else if d > 0.0 then TimesPos(d, d); Times(d, d)
    else TimesPos(-d, -d); Times(-d, -d)
  }

  lemma {:induction false} SpreadZeroIff(xs: seq<real>, m: real)
    ensures Spread(xs, m) >= 0.0
    ensures Spread(xs, m) == 0.0 <==> forall i :: 0 <= i < |xs| ==> xs[i] == m
  {
    if |xs| > 0 {
      var front := xs[..|xs| - 1];
      var d := xs[|xs| - 1] - m;
      SpreadZeroIff(front, m);
      assert Spread(xs, m) == Spread(front, m) + Square(d);
      assert forall i :: 0 <= i < |front| ==> front[i] == xs[i];
      if Spread(xs, m) == 0.0 {
        assert Spread(front, m) == 0.0 && d == 0.0;
        assert forall i :: 0 <= i < |xs| ==> xs[i] == m by {
          forall i | 0 <= i < |xs|
            ensures xs[i] == m
          {
            if i < |front| {
              assert front[i] == m;
            }
          }
        }
      }
      if forall i :: 0 <= i < |xs| ==> xs[i] == m {
        assert forall i :: 0 <= i < |front| ==> front[i] == m;
        assert d == 0.0;
      }
    }
  }

  lemma {:induction false} SumConstant(xs: seq<real>, c: real)
    requires forall i :: 0 <= i < |xs| ==> xs[i] == c
    ensures Total(xs) == (|xs| as real) * c
  {
    if |xs| > 0 {
      SumConstant(xs[..|xs| - 1], c);
    }
  }

  /** The sample variance is zero exactly when every return is the same value. */
  lemma VarianceZeroIff(xs: seq<real>)
    requires |xs| > 1
    ensures Variance(xs) >= 0.0
    ensures Variance(xs) == 0.0 <==> forall i :: 0 <= i < |xs| ==> xs[i] == xs[0]
  {
    var m := Mean(xs);
    SpreadZeroIff(xs, m);
    if forall i :: 0 <= i < |xs| ==> xs[i] == xs[0] {
      SumConstant(xs, xs[0]);
      assert m == xs[0];
    }
  }

  /** The z-test's verdict; `direction` is None for "neutral". */
  datatype ZResult = ZResult(direction: Option<Direction>, confidence: real, mean: real, variance: real, n: nat)

  /**
   * _run_z_test on the session's returns: neutral with confidence 0.5 when
   * there are fewer than thirty returns or their deviation is zero, else
   * the direction of the mean with `1 - p` clamped to [0.5, 1].
   */
  function ZTest(rets: seq<real>, normal: (real, real, nat) -> real): (z: ZResult)
    ensures 0.5 <= z.confidence <= 1.0
    ensures |rets| < MinReturns ==> z.direction == None && z.confidence == 0.5 && z.n == 0 && z.mean == 0.0
    ensures |rets| >= MinReturns ==> z.n == |rets| && z.mean == Mean(rets)
    ensures z.direction.Some? <==>
      |rets| >= MinReturns && exists i :: 0 <= i < |rets| && rets[i] != rets[0]
    ensures z.direction == Some(Bullish) ==> z.mean > 0.0
    ensures z.direction == Some(Bearish) ==> z.mean <= 0.0
    ensures z.direction.Some? ==> z.confidence == Min(1.0, Max(0.5, normal(z.mean, z.variance, z.n)))
  {
    if |rets| < MinReturns then ZResult(None, 0.5, 0.0, 0.0, 0)
    else
      var mean := Mean(rets);
      var variance := Variance(rets);
      VarianceZeroIff(rets);
      if variance == 0.0 then ZResult(None, 0.5, mean, variance, |rets|)
      else
        ZResult(Some(if mean > 0.0 then Bullish else Bearish),
                Min(1.0, Max(0.5, normal(mean, variance, |rets|))), mean, variance, |rets|)
  }

  function ZTestFor(candles: seq<Candle>, bosTime: int, s: Session, normal: (real, real, nat) -> real): ZResult
  {
    ZTest(Returns(SessionCloses(candles, bosTime, s)), normal)
  }

  // ---------------------------------------------------------------------
  // Bayesian update on structure events
  // ---------------------------------------------------------------------

  /** The events fetched for the symbol: its structure rows, the most recent thousand. */
  function BiasEvents(structure: seq<BosRow>, symbol: string): (r: seq<BosRow>)
    ensures |r| <= EventLimit
    ensures forall e :: e in r ==> e in structure && e.symbol == symbol
  {
    var mine := SymbolEvents(structure, symbol);
    if |mine| <= EventLimit then mine else mine[|mine| - EventLimit..]
  }

  function SymbolEvents(structure: seq<BosRow>, symbol: string): (r: seq<BosRow>)
    ensures forall e :: e in r <==> e in structure && e.symbol == symbol
  {
    if |structure| == 0 then []
    else
      var front := SymbolEvents(structure[..|structure| - 1], symbol);
      var e := structure[|structure| - 1];
      assert structure == structure[..|structure| - 1] + [e];
      if e.symbol == symbol then front + [e] else front
  }

  /** An event counts as evidence when it lies in the ten days before `bosTime` and in the session's hours. */
  predicate Relevant(e: BosRow, bosTime: int, s: Session)
  {
    bosTime - EvidenceDays * SecondsPerDay <= e.candleTime < bosTime && InSessionHours(e.candleTime, s)
  }

  datatype Counts = Counts(bull: nat, bear: nat)

  /** Bullish and bearish evidence among `evs`. */
  function Tally(evs: seq<BosRow>, bosTime: int, s: Session): (c: Counts)
    ensures c.bull + c.bear <= |evs|
  {
    if |evs| == 0 then Counts(0, 0)
    else
      var rest := Tally(evs[1..], bosTime, s);
      if !Relevant(evs[0], bosTime, s) then rest
      else if evs[0].direction == Bullish then Counts(rest.bull + 1, rest.bear)
      else Counts(rest.bull, rest.bear + 1)
  }

  /** There is no evidence exactly when no event is relevant. */
  lemma {:induction false} TallyEmptyIff(evs: seq<BosRow>, bosTime: int, s: Session)
    ensures Tally(evs, bosTime, s) == Counts(0, 0) <==> forall i :: 0 <= i < |evs| ==> !Relevant(evs[i], bosTime, s)
  {
    if |evs| > 0 {
      TallyEmptyIff(evs[1..], bosTime, s);
      assert forall i :: 1 <= i < |evs| ==> evs[1..][i - 1] == evs[i];
    }
  }

  /** Counting is additive over a split of the events, so the order they are fetched in does not matter. */
  lemma {:induction false} TallyAppend(a: seq<BosRow>, b: seq<BosRow>, bosTime: int, s: Session)
    ensures Tally(a + b, bosTime, s).bull == Tally(a, bosTime, s).bull + Tally(b, bosTime, s).bull
    ensures Tally(a + b, bosTime, s).bear == Tally(a, bosTime, s).bear + Tally(b, bosTime, s).bear
  {
    if |a| > 0 {
      assert (a + b)[1..] == a[1..] + b;
      TallyAppend(a[1..], b, bosTime, s);
    } else {
      assert a + b == b;
    }
  }

  lemma PosteriorStep(lb: real, lr: real, p: real)
    requires lb > 0.0 && lr > 0.0 && 0.0 <= p <= 1.0
    ensures lb * p + lr * (1.0 - p) > 0.0
    ensures 0.0 <= lb * p / (lb * p + lr * (1.0 - p)) <= 1.0
  {
    MulNonneg(lb, p);
    MulNonneg(lr, 1.0 - p);
    if p > 0.0 {
      MulPos(lb, p);
    } else {
      MulPos(lr, 1.0 - p);
    }
    var a := lb * p;
    var d := a + lr * (1.0 - p);
    assert a <= d;
    assert a / d <= 1.0;
  }

  /** How Bayes' rule moves a prior strictly between 0 and 1: up exactly when `lb` exceeds `lr`. */
  lemma PosteriorMoves(lb: real, lr: real, p: real)
    requires lb > 0.0 && lr > 0.0 && 0.0 < p < 1.0
    ensures var r := lb * p / (lb * p + lr * (1.0 - p));
      0.0 < r < 1.0 && (r >= p <==> lb >= lr) && (r == p <==> lb == lr)
  {
    var a := lb * p;
    var b := lr * (1.0 - p);
    MulPos(lb, p);
    MulPos(lr, 1.0 - p);
    var d := a + b;
    var r := a / d;
    assert r * d == a;
    assert 0.0 < r < 1.0 by {
      assert a < d;
    }
    // r >= p  <==>  a >= p * d  <==>  a * (1 - p) >= p * b  <==>  lb >= lr
    assert r >= p <==> a >= p * d by {
      if r >= p {
        MulAtMost(p, r, d);
      }
      if a >= p * d {
        if r < p {
          MulLess(r, p, d);
        }
      }
    }
    assert a - p * d == p * (1.0 - p) * (lb - lr);
    var q := p * (1.0 - p);
    MulPos(p, 1.0 - p);
    assert a >= p * d <==> q * (lb - lr) >= 0.0 by {
      assert a - p * d == q * (lb - lr);
    }
    assert q * (lb - lr) >= 0.0 <==> lb >= lr by {
      if lb < lr {
        MulLess(lb - lr, 0.0, q);
      }
      if lb >= lr {
        MulNonneg(lb - lr, q);
      }
    }
    assert r == p <==> lb == lr by {
      if r == p {
        assert a == p * d;
        assert q * (lb - lr) == 0.0;
      }
      if lb == lr {
        assert a - p * d == 0.0;
        assert a == r * d;
        assert (r - p) * d == 0.0;
      }
    }
  }

  /** Dividing by the same positive number keeps the order of two numbers. */
  lemma QuotientOrder(a: real, b: real, c: real)
    requires c > 0.0
    ensures a / c >= b / c <==> a >= b
    ensures a / c == b / c <==> a == b
  {
    var x := a / c;
    var y := b / c;
    assert x * c == a && y * c == b;
    if x < y {
      MulLess(x, y, c);
    } else {
      MulAtMost(y, x, c);
      if x > y {
        MulLess(y, x, c);
      }
    }
  }

  /**
   * _update_bayesian_confidence: with no evidence the posterior is the
   * prior; otherwise the likelihoods are the Laplace-smoothed shares
   * (k + 1) / (total + 2) and the prior is updated by Bayes' rule.
   */
  function Posterior(bull: nat, bear: nat, prior: real): (r: real)
    requires 0.0 <= prior <= 1.0
    ensures 0.0 <= r <= 1.0
  {
    if bull + bear == 0 then prior
    else
      var total := (bull + bear) as real;
      var lb := (bull as real + 1.0) / (total + 2.0);
      var lr := (bear as real + 1.0) / (total + 2.0);
      PosteriorStep(lb, lr, prior);
      lb * prior / (lb * prior + lr * (1.0 - prior))
  }

  /**
   * What the update promises: no evidence keeps the prior; a prior strictly
   * between 0 and 1 stays strictly between them, rises or holds exactly
   * when there are at least as many bullish events as bearish ones, and
   * holds exactly when the counts are equal; a certain prior stays certain.
   */
  lemma PosteriorFacts(bull: nat, bear: nat, prior: real)
    requires 0.0 <= prior <= 1.0
    ensures bull + bear == 0 ==> Posterior(bull, bear, prior) == prior
    ensures 0.0 < prior < 1.0 ==> 0.0 < Posterior(bull, bear, prior) < 1.0
    ensures 0.0 < prior < 1.0 && bull + bear > 0 ==>
      (Posterior(bull, bear, prior) >= prior <==> bull >= bear) &&
      (Posterior(bull, bear, prior) == prior <==> bull == bear)
    ensures prior == 1.0 ==> Posterior(bull, bear, prior) == 1.0
    ensures prior == 0.0 ==> Posterior(bull, bear, prior) == 0.0
  {
    if bull + bear > 0 {
      var lb, lr := PosteriorRatios(bull, bear, prior);
      if 0.0 < prior < 1.0 {
        PosteriorMoves(lb, lr, prior);
      } else if prior == 1.0 {
        assert lb * prior + lr * (1.0 - prior) == lb * prior;
      } else if prior == 0.0 {
        assert lb * prior == 0.0;
      }
    }
  }

  /** With evidence, the posterior is Bayes' rule on the two smoothed likelihoods, ordered as the counts are. */
  lemma PosteriorRatios(bull: nat, bear: nat, prior: real) returns (lb: real, lr: real)
    requires 0.0 <= prior <= 1.0 && bull + bear > 0
    ensures lb > 0.0 && lr > 0.0
    ensures (lb >= lr <==> bull >= bear) && (lb == lr <==> bull == bear)
    ensures lb * prior + lr * (1.0 - prior) > 0.0
    ensures Posterior(bull, bear, prior) == lb * prior / (lb * prior + lr * (1.0 - prior))
  {
    var total := (bull + bear) as real;
    lb := (bull as real + 1.0) / (total + 2.0);
    lr := (bear as real + 1.0) / (total + 2.0);
    QuotientOrder(bull as real + 1.0, bear as real + 1.0, total + 2.0);
    PosteriorStep(lb, lr, prior);
  }

  /** The stored label: "bullish" exactly when the posterior is at least one half. */
  function Label(posterior: real): (d: Direction)
    ensures d == Bullish <==> posterior >= 0.5
  {
    if posterior >= 0.5 then Bullish else Bearish
  }

  /**
   * Because the z-test's confidence is at least one half whatever its
   * direction, and it is used as the prior of "bullish", a session with at
   * least as many bullish as bearish events, in particular one with no
   * events at all, is labelled bullish even when the returns fell.
   */
  lemma BullishUnlessBearishEvidence(z: ZResult, bull: nat, bear: nat)
    requires 0.5 <= z.confidence <= 1.0
    ensures bull >= bear ==> Label(Posterior(bull, bear, z.confidence)) == Bullish
  {
    PosteriorFacts(bull, bear, z.confidence);
  }

  // ---------------------------------------------------------------------
  // The daily bias table
  // ---------------------------------------------------------------------

  /**
   * A row of the daily bias table, keyed by (symbol, session, biasDate);
   * `biasDate` is a day number and `meanReturn` the z-test's mean return.
   */
  datatype BiasRow = BiasRow(
    symbol: string, session: Session, bias: Direction, zConfidence: real, posterior: real,
    bullCount: nat, bearCount: nat, evidence: nat, meanReturn: real, sampleSize: nat, biasDate: int)

  predicate HasKey(row: BiasRow, symbol: string, session: Session, date: int)
  {
    row.symbol == symbol && row.session == session && row.biasDate == date
  }

  /** The bias of one session for the reference time `bosTime`. */
  function SessionBias(symbol: string, s: Session, candles: seq<Candle>, events: seq<BosRow>, bosTime: int,
                       normal: (real, real, nat) -> real): (r: BiasRow)
    ensures HasKey(r, symbol, s, DayOf(bosTime))
    ensures 0.5 <= r.zConfidence <= 1.0 && 0.0 <= r.posterior <= 1.0
    ensures r.bias == Bullish <==> r.posterior >= 0.5
    ensures r.evidence == r.bullCount + r.bearCount
    ensures r.evidence == 0 <==> forall i :: 0 <= i < |events| ==> !Relevant(events[i], bosTime, s)
    ensures r.evidence == 0 ==> r.posterior == r.zConfidence && r.bias == Bullish
    ensures r.bullCount >= r.bearCount ==> r.bias == Bullish
    // the mean return and sample size are those of the session's returns, or 0 when there are too few
    ensures var rets := Returns(SessionCloses(candles, bosTime, s));
      (|rets| >= MinReturns ==> r.meanReturn == Mean(rets) && r.sampleSize == |rets|) &&
      (|rets| < MinReturns ==> r.meanReturn == 0.0 && r.sampleSize == 0)
  {
    var z := ZTestFor(candles, bosTime, s, normal);
    var t := Tally(events, bosTime, s);
    TallyEmptyIff(events, bosTime, s);
    var post := Posterior(t.bull, t.bear, z.confidence);
    PosteriorFacts(t.bull, t.bear, z.confidence);
    BullishUnlessBearishEvidence(z, t.bull, t.bear);
    BiasRow(symbol, s, Label(post), z.confidence, post, t.bull, t.bear, t.bull + t.bear, z.mean, z.n, DayOf(bosTime))
  }

  /** Position of the row with the key, or -1. */
  function KeyIndex(rows: seq<BiasRow>, symbol: string, session: Session, date: int): (k: int)
    ensures -1 <= k < |rows|
    ensures k >= 0 ==> HasKey(rows[k], symbol, session, date)
    ensures k < 0 <==> forall i :: 0 <= i < |rows| ==> !HasKey(rows[i], symbol, session, date)
  {
    if |rows| == 0 then -1
    else if HasKey(rows[|rows| - 1], symbol, session, date) then |rows| - 1
    else KeyIndex(rows[..|rows| - 1], symbol, session, date)
  }

  /** At most one row per key, as the table's unique key enforces. */
  predicate UniqueKeys(rows: seq<BiasRow>)
  {
    forall i, j :: 0 <= i < j < |rows| ==>
      !HasKey(rows[j], rows[i].symbol, rows[i].session, rows[i].biasDate)
  }

  /** INSERT ... ON DUPLICATE KEY UPDATE: replaces the row with the same key, or appends. */
  function Upserted(rows: seq<BiasRow>, row: BiasRow): seq<BiasRow>
  {
    var k := KeyIndex(rows, row.symbol, row.session, row.biasDate);
    if k < 0 then rows + [row] else rows[k := row]
  }

  /** get_latest_bias: the row saved under the key, if any. */
  function LatestBias(rows: seq<BiasRow>, symbol: string, session: Session, date: int): (r: Option<BiasRow>)
    ensures r.Some? ==> r.value in rows && HasKey(r.value, symbol, session, date)
  {
    var k := KeyIndex(rows, symbol, session, date);
    if k < 0 then None else Some(rows[k])
  }

  lemma KeyIndexUnique(rows: seq<BiasRow>, symbol: string, session: Session, date: int, i: int)
    requires UniqueKeys(rows)
    requires 0 <= i < |rows| && HasKey(rows[i], symbol, session, date)
    ensures KeyIndex(rows, symbol, session, date) == i
  {
  }

  /**
   * Saving keeps one row per key, makes the saved row the one read back
   * under its key, and leaves what every other key reads unchanged.
   */
  lemma UpsertFacts(rows: seq<BiasRow>, row: BiasRow)
    requires UniqueKeys(rows)
    ensures UniqueKeys(Upserted(rows, row))
    ensures LatestBias(Upserted(rows, row), row.symbol, row.session, row.biasDate) == Some(row)
    ensures forall symbol, session, date :: !HasKey(row, symbol, session, date) ==>
      LatestBias(Upserted(rows, row), symbol, session, date) == LatestBias(rows, symbol, session, date)
  {
    var k := KeyIndex(rows, row.symbol, row.session, row.biasDate);
    var up := Upserted(rows, row);
    if k < 0 {
      assert up == rows + [row];
      assert UniqueKeys(up);
      KeyIndexUnique(up, row.symbol, row.session, row.biasDate, |rows|);
    } else {
      assert up == rows[k := row];
      assert UniqueKeys(up) by {
        forall i, j | 0 <= i < j < |up|
          ensures !HasKey(up[j], up[i].symbol, up[i].session, up[i].biasDate)
        {
          if i == k {
            assert !HasKey(rows[j], rows[k].symbol, rows[k].session, rows[k].biasDate);
          } else if j == k {
            assert !HasKey(rows[k], rows[i].symbol, rows[i].session, rows[i].biasDate);
          }
        }
      }
      KeyIndexUnique(up, row.symbol, row.session, row.biasDate, k);
    }
    forall symbol, session, date | !HasKey(row, symbol, session, date)
      ensures LatestBias(up, symbol, session, date) == LatestBias(rows, symbol, session, date)
    {
      var j := KeyIndex(rows, symbol, session, date);
      if j >= 0 {
        assert j != k || k < 0;
        assert HasKey(up[j], symbol, session, date);
        KeyIndexUnique(up, symbol, session, date, j);
      } else {
        assert forall i :: 0 <= i < |up| ==> !HasKey(up[i], symbol, session, date) by {
          forall i | 0 <= i < |up|
            ensures !HasKey(up[i], symbol, session, date)
          {
            if i < |rows| && i != k {
              assert up[i] == rows[i];
            }
          }
        }
      }
    }
  }

  /** Saving the same row twice is the same as saving it once. */
  lemma UpsertIdempotent(rows: seq<BiasRow>, row: BiasRow)
    requires UniqueKeys(rows)
    ensures Upserted(Upserted(rows, row), row) == Upserted(rows, row)
  {
    var up := Upserted(rows, row);
    UpsertFacts(rows, row);
    var k := KeyIndex(up, row.symbol, row.session, row.biasDate);
    assert k >= 0 && up[k] == row;
    assert up[k := row] == up;
  }

  class BiasTable {
    var rows: seq<BiasRow>

    constructor ()
      ensures rows == []
    {
      rows := [];
    }

    /** _save_bias_to_db. */
    method Save(row: BiasRow)
      modifies this
      ensures rows == Upserted(old(rows), row)
    {
      var k := KeyIndex(rows, row.symbol, row.session, row.biasDate);
      if k < 0 {
        rows := rows + [row];
      } else {
        rows := rows[k := row];
      }
    }
  }

  // ---------------------------------------------------------------------
  // run_step and run_daily_analysis
  // ---------------------------------------------------------------------

  /** The rows after saving the bias of each session in `ss`, in order. */
  function SavedSessions(rows: seq<BiasRow>, symbol: string, ss: seq<Session>, candles: seq<Candle>,
                         events: seq<BosRow>, bosTime: int, normal: (real, real, nat) -> real): seq<BiasRow>
  {
    if |ss| == 0 then rows
    else Upserted(SavedSessions(rows, symbol, ss[..|ss| - 1], candles, events, bosTime, normal),
                  SessionBias(symbol, ss[|ss| - 1], candles, events, bosTime, normal))
  }

  /** Saving one more session upserts that session's bias. */
  lemma SavedSessionsNext(rows: seq<BiasRow>, symbol: string, ss: seq<Session>, i: nat, candles: seq<Candle>,
                          events: seq<BosRow>, bosTime: int, normal: (real, real, nat) -> real)
    requires i < |ss|
    ensures SavedSessions(rows, symbol, ss[..i + 1], candles, events, bosTime, normal) ==
      Upserted(SavedSessions(rows, symbol, ss[..i], candles, events, bosTime, normal),
               SessionBias(symbol, ss[i], candles, events, bosTime, normal))
  {
    assert ss[..i + 1][..i] == ss[..i];
  }

  /** The run aborts without a candle source, with fewer than a thousand candles, or with no structure events. */
  predicate RunAborts(symbol: string, candles: seq<Candle>, structure: seq<BosRow>)
  {
    symbol != DataSymbol || |candles| < MinCandles || |BiasEvents(structure, symbol)| == 0
  }

  /** The table after run_step. */
  function AfterRunStep(rows: seq<BiasRow>, symbol: string, bosTime: int, candles: seq<Candle>,
                        structure: seq<BosRow>, normal: (real, real, nat) -> real): seq<BiasRow>
  {
    if RunAborts(symbol, candles, structure) then rows
    else SavedSessions(rows, symbol, Sessions, candles, BiasEvents(structure, symbol), bosTime, normal)
  }

  lemma {:induction false} SavedSessionsFacts(rows: seq<BiasRow>, symbol: string, ss: seq<Session>, candles: seq<Candle>,
                                             events: seq<BosRow>, bosTime: int, normal: (real, real, nat) -> real)
    requires UniqueKeys(rows)
    ensures UniqueKeys(SavedSessions(rows, symbol, ss, candles, events, bosTime, normal))
    ensures forall i :: 0 <= i < |ss| ==>
      LatestBias(SavedSessions(rows, symbol, ss, candles, events, bosTime, normal), symbol, ss[i], DayOf(bosTime)) ==
      Some(SessionBias(symbol, ss[i], candles, events, bosTime, normal))
  {
    if |ss| > 0 {
      var front := ss[..|ss| - 1];
      var before := SavedSessions(rows, symbol, front, candles, events, bosTime, normal);
      var row := SessionBias(symbol, ss[|ss| - 1], candles, events, bosTime, normal);
      SavedSessionsFacts(rows, symbol, front, candles, events, bosTime, normal);
      UpsertFacts(before, row);
      forall i | 0 <= i < |ss|
        ensures LatestBias(Upserted(before, row), symbol, ss[i], DayOf(bosTime)) ==
          Some(SessionBias(symbol, ss[i], candles, events, bosTime, normal))
      {
        if i < |ss| - 1 && ss[i] != ss[|ss| - 1] {
          assert front[i] == ss[i];
          assert !HasKey(row, symbol, ss[i], DayOf(bosTime));
        }
      }
    }
  }

  /**
   * After a run that does not abort, each of the three sessions reads back
   * its own bias for the reference date, and keys stay unique.
   */
  lemma RunStepSavesEverySession(rows: seq<BiasRow>, symbol: string, bosTime: int, candles: seq<Candle>,
                                 structure: seq<BosRow>, normal: (real, real, nat) -> real, s: Session)
    requires UniqueKeys(rows)
    ensures UniqueKeys(AfterRunStep(rows, symbol, bosTime, candles, structure, normal))
    ensures !RunAborts(symbol, candles, structure) ==>
      LatestBias(AfterRunStep(rows, symbol, bosTime, candles, structure, normal), symbol, s, DayOf(bosTime)) ==
      Some(SessionBias(symbol, s, candles, BiasEvents(structure, symbol), bosTime, normal))
  {
    if !RunAborts(symbol, candles, structure) {
      SavedSessionsFacts(rows, symbol, Sessions, candles, BiasEvents(structure, symbol), bosTime, normal);
      assert s == Sessions[0] || s == Sessions[1] || s == Sessions[2];
    }
  }

  /** run_step: the three sessions' biases for `bosTime`, each upserted, unless the run aborts. */
  method RunStep(table: BiasTable, symbol: string, bosTime: int, candles: seq<Candle>, structure: seq<BosRow>,
                 normal: (real, real, nat) -> real)
    modifies table
    ensures table.rows == AfterRunStep(old(table.rows), symbol, bosTime, candles, structure, normal)
  {
    if symbol != DataSymbol || |candles| < MinCandles {
      return;
    }
    var events := BiasEvents(structure, symbol);
    if |events| == 0 {
      return;
    }
    var i := 0;
    while i < |Sessions|
      invariant 0 <= i <= |Sessions|
      invariant table.rows == SavedSessions(old(table.rows), symbol, Sessions[..i], candles, events, bosTime, normal)
    {
      SavedSessionsNext(old(table.rows), symbol, Sessions, i, candles, events, bosTime, normal);
      table.Save(SessionBias(symbol, Sessions[i], candles, events, bosTime, normal));
      i := i + 1;
    }
    assert Sessions[..|Sessions|] == Sessions;
  }

  /** The time of the latest candle. */
  function LatestTime(candles: seq<Candle>): (t: int)
    requires |candles| > 0
    ensures exists i :: 0 <= i < |candles| && candles[i].time == t
    ensures forall i :: 0 <= i < |candles| ==> candles[i].time <= t
  {
    if |candles| == 1 then candles[0].time
    else
      var front := LatestTime(candles[..|candles| - 1]);
      assert forall i :: 0 <= i < |candles| - 1 ==> candles[..|candles| - 1][i] == candles[i];
      if candles[|candles| - 1].time > front then candles[|candles| - 1].time else front
  }

  /** The reference time of the daily analysis: midnight UTC of the latest candle's day. */
  function DailyReference(candles: seq<Candle>): (t: int)
    requires |candles| > 0
    ensures t % SecondsPerDay == 0
    ensures t <= LatestTime(candles) < t + SecondsPerDay
  {
    DayOf(LatestTime(candles)) * SecondsPerDay
  }

  /**
   * The daily reference is midnight of the latest day, and the z-test and
   * the evidence only look before it, so that day's own candles never
   * enter the daily bias.
   */
  lemma DailyIgnoresLatestDay(candles: seq<Candle>, c: Candle, s: Session)
    requires |candles| > 0 && c in candles && DayOf(c.time) == DayOf(LatestTime(candles))
    ensures c.time >= DailyReference(candles)
  {
  }

  /**
   * run_daily_analysis: raises without a candle source, does nothing with
   * no candles, else runs run_step at the reference time.
   */
  method DailyAnalysis(table: BiasTable, symbol: string, candles: seq<Candle>, structure: seq<BosRow>,
                       normal: (real, real, nat) -> real) returns (raised: bool)
    modifies table
    ensures raised <==> symbol != DataSymbol
    ensures table.rows == AfterDaily(old(table.rows), symbol, candles, structure, normal)
  {
    if symbol != DataSymbol {
      return true;
    }
    raised := false;
    if |candles| == 0 {
      return;
    }
    RunStep(table, symbol, DailyReference(candles), candles, structure, normal);
  }

  function AfterDaily(rows: seq<BiasRow>, symbol: string, candles: seq<Candle>, structure: seq<BosRow>,
                      normal: (real, real, nat) -> real): seq<BiasRow>
  {
    if symbol != DataSymbol || |candles| == 0 then rows
    else AfterRunStep(rows, symbol, DailyReference(candles), candles, structure, normal)
  }
}

=== FILE: bos_fvg_retrace.dfy ===
/**
 * The orchestrator of the break-of-structure / fair-value-gap / retrace
 * strategy: on every tick it checks the candle source, runs the daily bias
 * once per UTC date, then the five stages in their fixed order, the
 * structure stage in its default loose mode.
 *
 * Which steps raise on a tick (a lost database connection, say) is a
 * parameter, `faults`. Every stage wraps its own work in a handler that
 * logs and swallows the exception, so a raising stage loses only its own
 * work (its tables are taken to stay as they were) and the stages after it
 * still run. The bias step reads its candles outside the bias service's own
 * handler, so a raise there reaches the orchestrator's handler and ends the
 * tick before any stage runs.
 */
module BosFvgRetrace {
  import opened Common
  import opened BosFvgStore
  import SignalsDb
  import BosStructure
  import FvgScan
  import RetraceScan
  import Entry
  import EntryToSignal
  import Bias

  datatype Step = BiasStep | StructureStep | FvgStep | RetraceStep | EntryStep | SignalStep

  /** The five stages, in the order a tick runs them. */
  const Stages: seq<Step> := [StructureStep, FvgStep, RetraceStep, EntryStep, SignalStep]

  const SourceSymbol: string := "XAUUSDc"
  const SourceTimeframe: string := "M15"

  /** Fewer candles than this skip the tick. */
  const MinTickCandles: nat := 10

  /**
   * How a tick ended: a tick that goes on records whether it ran the bias,
   * the stages that ran and the stages whose raise was swallowed.
   */
  datatype Tick =
    | NoDataSource
    | TooFewCandles
    | BiasFailed
    | Completed(biasRan: bool, ran: set<Step>, swallowed: set<Step>)

  /** The steps a tick attempts: the bias first when it is due, then the stages. */
  function Plan(biasDue: bool): (p: seq<Step>)
    ensures |p| == (if biasDue then 6 else 5) && p[|p| - 5..] == Stages
    ensures (BiasStep in p) == biasDue
  {
    (if biasDue then [BiasStep] else []) + Stages
  }

  /** The stages are every step but the bias. */
  lemma StagesAreTheRest(s: Step)
    ensures s in Stages <==> s != BiasStep
  {
    match s
    case BiasStep => assert s !in Stages;
    case StructureStep => assert Stages[0] == s;
    case FvgStep => assert Stages[1] == s;
    case RetraceStep => assert Stages[2] == s;
    case EntryStep => assert Stages[3] == s;
    case SignalStep => assert Stages[4] == s;
  }

  /** The outcome of a tick on a source that has enough candles. */
  function TickOutcome(biasDue: bool, faults: set<Step>): Tick
  {
    if biasDue && BiasStep in faults then BiasFailed
    else Completed(biasDue, set s | s in Stages && s !in faults :: s, set s | s in Stages && s in faults :: s)
  }

  /** The tick completed `s`. */
  predicate Ran(t: Tick, s: Step)
  {
    t.Completed? && (if s == BiasStep then t.biasRan else s in t.ran)
  }

  /**
   * Only the bias step can cut a tick short, and it does exactly when it is
   * due and raises. A tick that goes on runs the bias exactly when it is due
   * and every step of the plan but the bias that does not raise; every stage
   * that raises is swallowed, and each stage is in exactly one of the two sets.
   */
  lemma OutcomeFacts(biasDue: bool, faults: set<Step>)
    ensures TickOutcome(biasDue, faults) == BiasFailed <==> biasDue && BiasStep in faults
    ensures var t := TickOutcome(biasDue, faults);
      t.Completed? ==>
        && t.biasRan == biasDue
        && (forall s :: s in t.ran <==> s in Plan(biasDue) && s != BiasStep && s !in faults)
        && (forall s :: s in t.swallowed <==> s != BiasStep && s in faults)
        && t.ran * t.swallowed == {}
  {
    forall s: Step
      ensures s in Plan(biasDue) && s != BiasStep <==> s in Stages
      ensures s in Stages <==> s != BiasStep
    {
      StagesAreTheRest(s);
    }
  }

  /**
   * Whether a stage runs depends only on the bias step and on that stage
   * itself: a raising stage never keeps another stage from running.
   */
  lemma StagesIndependent(biasDue: bool, faults: set<Step>, s: Step)
    requires s != BiasStep
    ensures Ran(TickOutcome(biasDue, faults), s) <==> !(biasDue && BiasStep in faults) && s !in faults
    ensures Ran(TickOutcome(biasDue, faults), BiasStep) <==> biasDue && BiasStep !in faults
  {
    StagesAreTheRest(s);
  }

  /** A stage that starts to raise changes whether that stage runs, and no other step. */
  lemma FaultStaysInStage(biasDue: bool, faults: set<Step>, s: Step, other: Step)
    requires s != BiasStep && other != s
    ensures Ran(TickOutcome(biasDue, faults + {s}), other) <==> Ran(TickOutcome(biasDue, faults), other)
  {
    if other != BiasStep {
      StagesIndependent(biasDue, faults, other);
      StagesIndependent(biasDue, faults + {s}, other);
    } else {
      StagesIndependent(biasDue, faults, s);
      StagesIndependent(biasDue, faults + {s}, s);
    }
  }

  // ---------------------------------------------------------------------
  // What the stages write
  // ---------------------------------------------------------------------

  /** The four tables the stages write. */
  datatype Tables = Tables(bos: seq<BosRow>, zones: seq<ZoneRow>, trades: seq<TradeRow>,
                           signals: seq<SignalsDb.SignalRow>)

  /** The inputs a tick hands to every stage; `today` is the UTC day of `now`. */
  datatype Input = Input(symbol: string, timeframe: string, feed: seq<Candle>, now: int, today: int)

  function Snap(bos: BosTable, zones: ZoneTable, trades: TradeTable, signals: SignalsDb.SignalTable): Tables
    reads bos, zones, trades, signals
  {
    Tables(bos.rows, zones.rows, trades.rows, signals.rows)
  }

  /** The structure rows after the gap stage has decided its waiting events. */
  function FvgBos(rows: seq<BosRow>, x: Input): (r: seq<BosRow>)
    ensures |r| == |rows|
  {
    Decided(rows, FvgScan.ScanIds(rows, x.symbol, x.timeframe), x.feed)
  }

  /** The rows with the events `ids` names decided against `feed`. */
  function Decided(rows: seq<BosRow>, ids: seq<nat>, feed: seq<Candle>): (r: seq<BosRow>)
    ensures |r| == |rows|
  {
    seq(|rows|, i requires 0 <= i < |rows| =>
      if i + 1 in ids then FvgScan.BosAfter(rows[i], FvgScan.Outcome(rows[i], feed)) else rows[i])
  }

  /** The zone rows after the retrace stage has scanned its waiting zones. */
  function RetracedZones(rows: seq<ZoneRow>, x: Input): (r: seq<ZoneRow>)
    ensures |r| == |rows|
  {
    var ids := RetraceScan.RetraceIds(rows, x.symbol, x.timeframe);
    seq(|rows|, i requires 0 <= i < |rows| =>
      if i + 1 in ids then RetraceScan.Retraced(rows[i], RetraceScan.CandlesAfterZone(rows[i], x.feed)) else rows[i])
  }

  /** The structure stage: detect on the last 300 candles and save the new events, given ten candles. */
  function StructureEffect(t: Tables, x: Input): Tables
  {
    if |x.feed| < BosStructure.MinCandles then t
    else t.(bos := BosStructure.SaveAll(t.bos, x.symbol, x.timeframe,
                     BosStructure.Detect(BosStructure.Loose, Tail(x.feed, BosStructure.RecentCandles)), x.now))
  }

  /** The gap stage: decide the waiting structure events and save the zones they produce. */
  function FvgEffect(t: Tables, x: Input): Tables
  {
    t.(bos := FvgBos(t.bos, x),
       zones := t.zones + FvgScan.NewZones(t.bos, FvgScan.ScanIds(t.bos, x.symbol, x.timeframe), x.feed, x.now))
  }

  /** The retrace stage: mark the waiting zones that price came back to. */
  function RetraceEffect(t: Tables, x: Input): Tables
  {
    t.(zones := RetracedZones(t.zones, x))
  }

  /** The entry stage: open a trade for every retraced zone that has none. */
  function EntryEffect(t: Tables, x: Input): Tables
  {
    t.(trades := t.trades + Entry.NewTrades(t.zones, Entry.EntryIds(t.zones, t.trades, x.symbol, x.timeframe),
                                            x.feed, x.now))
  }

  /** The signal stage: turn today's unconverted trades into signals and mark them converted. */
  function SignalEffect(t: Tables, x: Input): Tables
  {
    t.(trades := EntryToSignal.AfterConversion(t.trades, x.symbol, x.timeframe, x.today),
       signals := t.signals + EntryToSignal.SignalRows(t.trades,
                    EntryToSignal.TodayIds(t.trades, x.symbol, x.timeframe, x.today)))
  }

  /** What a stage that does not raise writes. */
  function StageEffect(s: Step, t: Tables, x: Input): Tables
  {
    match s
    case BiasStep => t
    case StructureStep => StructureEffect(t, x)
    case FvgStep => FvgEffect(t, x)
    case RetraceStep => RetraceEffect(t, x)
    case EntryStep => EntryEffect(t, x)
    case SignalStep => SignalEffect(t, x)
  }

  /** A stage's writes, or none when it raises. */
  function Apply(s: Step, faults: set<Step>, t: Tables, x: Input): Tables
  {
    if s in faults then t else StageEffect(s, t, x)
  }

  /** The tables after the five stages of a tick that goes on, each stage seeing what the earlier ones wrote. */
  function AfterStages(faults: set<Step>, t: Tables, x: Input): Tables
  {
    var t1 := Apply(StructureStep, faults, t, x);
    var t2 := Apply(FvgStep, faults, t1, x);
    var t3 := Apply(RetraceStep, faults, t2, x);
    var t4 := Apply(EntryStep, faults, t3, x);
    Apply(SignalStep, faults, t4, x)
  }

  /**
   * Each table changes only through the stages that write it: the structure
   * rows through the structure and gap stages, the zones through the gap and
   * retrace stages, the trades through the entry and signal stages, and the
   * signals through the signal stage alone.
   */
  lemma OwnTablesOnly(faults: set<Step>, t: Tables, x: Input)
    ensures var r := AfterStages(faults, t, x);
      && (StructureStep in faults && FvgStep in faults ==> r.bos == t.bos)
      && (FvgStep in faults && RetraceStep in faults ==> r.zones == t.zones)
      && (EntryStep in faults && SignalStep in faults ==> r.trades == t.trades)
      && (SignalStep in faults ==> r.signals == t.signals)
  {
  }

  /**
   * `b` keeps at least the rows of `a` in every table, and keeps the
   * signals of `a` in place.
   */
  predicate Grows(a: Tables, b: Tables)
  {
    && |a.bos| <= |b.bos| && |a.zones| <= |b.zones| && |a.trades| <= |b.trades|
    && a.signals <= b.signals
  }

  /** One stage deletes no row, and only the gap stage rewrites structure rows. */
  lemma StageGrows(s: Step, faults: set<Step>, t: Tables, x: Input)
    ensures Grows(t, Apply(s, faults, t, x))
    ensures s != FvgStep || s in faults ==> t.bos <= Apply(s, faults, t, x).bos
  {
    if s == StructureStep && s !in faults && |x.feed| >= BosStructure.MinCandles {
      BosStructure.SaveAllFacts(t.bos, x.symbol, x.timeframe,
        BosStructure.Detect(BosStructure.Loose, Tail(x.feed, BosStructure.RecentCandles)), x.now);
    }
  }

  /**
   * No tick deletes a row: every table keeps at least its rows, the signals
   * table only has rows appended, and the structure rows stay in place
   * unless the gap stage runs and updates their statuses.
   */
  lemma TablesOnlyGrow(faults: set<Step>, t: Tables, x: Input)
    ensures var r := AfterStages(faults, t, x);
      && Grows(t, r)
      && (FvgStep in faults ==> t.bos <= r.bos)
  {
    var t1 := Apply(StructureStep, faults, t, x);
    var t2 := Apply(FvgStep, faults, t1, x);
    var t3 := Apply(RetraceStep, faults, t2, x);
    var t4 := Apply(EntryStep, faults, t3, x);
    var r := Apply(SignalStep, faults, t4, x);
    StageGrows(StructureStep, faults, t, x);
    StageGrows(FvgStep, faults, t1, x);
    StageGrows(RetraceStep, faults, t2, x);
    StageGrows(EntryStep, faults, t3, x);
    StageGrows(SignalStep, faults, t4, x);
  }

  /**
   * One stage of a tick: its run_step, whose own handler swallows a raise,
   * so that a raising stage writes nothing.
   */
  method RunStage(s: Step, faults: set<Step>, x: Input,
                  bos: BosTable, zones: ZoneTable, trades: TradeTable, signals: SignalsDb.SignalTable)
    requires s != BiasStep
    modifies bos, zones, trades, signals
    ensures Snap(bos, zones, trades, signals) == Apply(s, faults, old(Snap(bos, zones, trades, signals)), x)
  {
    if s in faults {
      return;
    }
    if s == StructureStep {
      RunStructure(x, bos, zones, trades, signals);
    } else if s == FvgStep {
      RunFvg(x, bos, zones, trades, signals);
    } else if s == RetraceStep {
      RunRetrace(x, bos, zones, trades, signals);
    } else if s == EntryStep {
      RunEntry(x, bos, zones, trades, signals);
    } else {
      RunSignal(x, bos, zones, trades, signals);
    }
  }

  method RunStructure(x: Input, bos: BosTable, zones: ZoneTable, trades: TradeTable, signals: SignalsDb.SignalTable)
    modifies bos
    ensures Snap(bos, zones, trades, signals) == StructureEffect(old(Snap(bos, zones, trades, signals)), x)
  {
    BosStructure.RunStep(bos, x.symbol, x.timeframe, x.feed, BosStructure.Loose, x.now);
  }

  method RunFvg(x: Input, bos: BosTable, zones: ZoneTable, trades: TradeTable, signals: SignalsDb.SignalTable)
    modifies bos, zones
    ensures Snap(bos, zones, trades, signals) == FvgEffect(old(Snap(bos, zones, trades, signals)), x)
  {
    ghost var before := Snap(bos, zones, trades, signals);
    FvgScan.RunStep(bos, zones, x.symbol, x.timeframe, x.feed, x.now);
    DecidedMatches(before.bos, FvgScan.ScanIds(before.bos, x.symbol, x.timeframe), x.feed, bos.rows);
  }

  /** Rows that agree with the gap stage's update row by row are the rows `Decided` gives. */
  lemma DecidedMatches(rows: seq<BosRow>, ids: seq<nat>, feed: seq<Candle>, after: seq<BosRow>)
    requires |after| == |rows|
    requires forall i {:trigger after[i]} :: 0 <= i < |after| ==>
      after[i] == (if i + 1 in ids then FvgScan.BosAfter(rows[i], FvgScan.Outcome(rows[i], feed)) else rows[i])
    ensures after == Decided(rows, ids, feed)
  {
    var r := Decided(rows, ids, feed);
    forall i | 0 <= i < |rows|
      ensures after[i] == r[i]
    {
    }
  }

  method RunRetrace(x: Input, bos: BosTable, zones: ZoneTable, trades: TradeTable, signals: SignalsDb.SignalTable)
    modifies zones
    ensures Snap(bos, zones, trades, signals) == RetraceEffect(old(Snap(bos, zones, trades, signals)), x)
  {
    RetraceScan.RunStep(zones, x.symbol, x.timeframe, x.feed);
    assert zones.rows == RetracedZones(old(zones.rows), x);
  }

  method RunEntry(x: Input, bos: BosTable, zones: ZoneTable, trades: TradeTable, signals: SignalsDb.SignalTable)
    modifies trades
    ensures Snap(bos, zones, trades, signals) == EntryEffect(old(Snap(bos, zones, trades, signals)), x)
  {
    Entry.RunStep(zones, trades, x.symbol, x.timeframe, x.feed, x.now);
  }

  method RunSignal(x: Input, bos: BosTable, zones: ZoneTable, trades: TradeTable, signals: SignalsDb.SignalTable)
    modifies trades, signals
    ensures Snap(bos, zones, trades, signals) == SignalEffect(old(Snap(bos, zones, trades, signals)), x)
  {
    EntryToSignal.RunStep(trades, signals, x.symbol, x.timeframe, x.today);
  }

  /** The five stages in order; a raising stage is swallowed and the next one runs. */
  method RunStages(faults: set<Step>, x: Input,
                   bos: BosTable, zones: ZoneTable, trades: TradeTable, signals: SignalsDb.SignalTable)
    modifies bos, zones, trades, signals
    ensures Snap(bos, zones, trades, signals) == AfterStages(faults, old(Snap(bos, zones, trades, signals)), x)
  {
    RunStage(StructureStep, faults, x, bos, zones, trades, signals);
    RunStage(FvgStep, faults, x, bos, zones, trades, signals);
    RunStage(RetraceStep, faults, x, bos, zones, trades, signals);
    RunStage(EntryStep, faults, x, bos, zones, trades, signals);
    RunStage(SignalStep, faults, x, bos, zones, trades, signals);
  }

  class Pipeline {
    /** The UTC day on which the daily bias last ran, None before the first run. */
    var lastBiasRunDate: Option<int>

    constructor ()
      ensures lastBiasRunDate == None
    {
      lastBiasRunDate := None;
    }

    /**
     * run: a symbol or timeframe without a candle source raises before
     * anything runs; fewer than ten candles skip the tick; otherwise the
     * daily bias runs when today's date differs from the recorded one and
     * then records it (a raise there ends the tick), and the five stages
     * follow, each swallowing its own raise.
     */
    method Run(symbol: string, timeframe: string, feed: seq<Candle>, now: int,
               normal: (real, real, nat) -> real, faults: set<Step>,
               bos: BosTable, zones: ZoneTable, trades: TradeTable, signals: SignalsDb.SignalTable,
               bias: Bias.BiasTable) returns (tick: Tick)
      modifies this, bos, zones, trades, signals, bias
      ensures symbol != SourceSymbol || timeframe != SourceTimeframe ==> tick == NoDataSource
      ensures symbol == SourceSymbol && timeframe == SourceTimeframe && |feed| < MinTickCandles ==> tick == TooFewCandles
      ensures symbol == SourceSymbol && timeframe == SourceTimeframe && |feed| >= MinTickCandles ==>
        tick == TickOutcome(old(lastBiasRunDate) != Some(DayOf(now)), faults)
      ensures lastBiasRunDate == (if Ran(tick, BiasStep) then Some(DayOf(now)) else old(lastBiasRunDate))
      ensures bias.rows == (if Ran(tick, BiasStep) then Bias.AfterDaily(old(bias.rows), symbol, feed, old(bos.rows), normal)
                            else old(bias.rows))
      ensures Snap(bos, zones, trades, signals) ==
        if tick.Completed?
        then AfterStages(faults, old(Snap(bos, zones, trades, signals)), Input(symbol, timeframe, feed, now, DayOf(now)))
        else old(Snap(bos, zones, trades, signals))
    {
      if symbol != SourceSymbol || timeframe != SourceTimeframe {
        return NoDataSource;
      }
      if |feed| < MinTickCandles {
        return TooFewCandles;
      }
      var today := DayOf(now);
      var biasDue := lastBiasRunDate != Some(today);
      if biasDue {
        if BiasStep in faults {
          return BiasFailed;
        }
        // The symbol is the source's, so the analysis finds its candles and does not raise.
        var raised := Bias.DailyAnalysis(bias, symbol, feed, bos.rows, normal);
        lastBiasRunDate := Some(today);
      }
      RunStages(faults, Input(symbol, timeframe, feed, now, today), bos, zones, trades, signals);
      tick := TickOutcome(biasDue, faults);
    }
  }

  /**
   * The days on which a run of ticks starts the daily bias, when the bias
   * step never raises: a tick runs it when its day differs from the last recorded one.
   */
  function BiasDays(last: Option<int>, days: seq<int>): seq<int>
    decreases |days|
  {
    if |days| == 0 then []
    else if last != Some(days[0]) then [days[0]] + BiasDays(Some(days[0]), days[1..])
    else BiasDays(last, days[1..])
  }

  predicate NonDecreasing(days: seq<int>)
  {
    forall i, j :: 0 <= i < j < |days| ==> days[i] <= days[j]
  }

  predicate Increasing(days: seq<int>)
  {
    forall i, j :: 0 <= i < j < |days| ==> days[i] < days[j]
  }

  lemma {:induction false} NonDecreasingRest(days: seq<int>)
    requires NonDecreasing(days) && |days| > 0
    ensures NonDecreasing(days[1..])
    ensures forall d :: d in days[1..] ==> days[0] <= d
  {
    var rest := days[1..];
    forall i, j | 0 <= i < j < |rest|
      ensures rest[i] <= rest[j]
    {
      assert rest[i] == days[i + 1] && rest[j] == days[j + 1];
    }
  }

  /** On ordered ticks, the bias runs only on dates the ticks reach, never on the recorded one, and not before the first tick. */
  lemma {:induction false} BiasDaysWithin(last: Option<int>, days: seq<int>)
    requires NonDecreasing(days)
    requires |days| > 0 && last.Some? ==> last.value <= days[0]
    decreases |days|
    ensures forall d :: d in BiasDays(last, days) ==> d in days && Some(d) != last && days[0] <= d
  {
    if |days| > 0 {
      var rest := days[1..];
      NonDecreasingRest(days);
      if |rest| > 0 {
        if last != Some(days[0]) {
          BiasDaysWithin(Some(days[0]), rest);
        } else {
          BiasDaysWithin(last, rest);
        }
      }
    }
  }

  /** On ordered ticks, the bias runs on strictly increasing dates, so at most once per date. */
  lemma {:induction false} BiasDaysIncreasing(last: Option<int>, days: seq<int>)
    requires NonDecreasing(days)
    requires |days| > 0 && last.Some? ==> last.value <= days[0]
    decreases |days|
    ensures Increasing(BiasDays(last, days))
  {
    if |days| > 0 {
      var rest := days[1..];
      NonDecreasingRest(days);
      if last != Some(days[0]) {
        BiasDaysIncreasing(Some(days[0]), rest);
        var r := BiasDays(last, days);
        var rr := BiasDays(Some(days[0]), rest);
        if |rest| > 0 {
          BiasDaysWithin(Some(days[0]), rest);
        }
        assert r == [days[0]] + rr;
        assert forall d :: d in rr ==> d > days[0];
        assert Increasing(rr);
        forall i, j | 0 <= i < j < |r|
          ensures r[i] < r[j]
        {
          assert r[j] == rr[j - 1] && r[j] in rr;
          if i > 0 {
            assert r[i] == rr[i - 1];
          } else {
            assert r[i] == days[0];
          }
        }
      } else {
        BiasDaysIncreasing(last, rest);
        assert BiasDays(last, days) == BiasDays(last, rest);
        assert Increasing(BiasDays(last, rest));
      }
    }
  }

  /** Every date the ticks reach gets its bias, except a date already recorded before the first tick. */
  lemma {:induction false} BiasDaysCover(last: Option<int>, days: seq<int>)
    decreases |days|
    ensures forall d :: d in days && Some(d) != last ==> d in BiasDays(last, days)
  {
    if |days| > 0 {
      var rest := days[1..];
      assert forall d :: d in days ==> d == days[0] || d in rest;
      if last != Some(days[0]) {
        BiasDaysCover(Some(days[0]), rest);
      } else {
        BiasDaysCover(last, rest);
      }
    }
  }
}

=== FILE: bos_fvg_store.dfy ===
/**
 * The tables of the break-of-structure / fair-value-gap / retrace strategy
 * and the candle feed its stages read.
 *
 * A row's id is its position in `rows` plus one, as an auto-increment key
 * starting at 1 gives it. The candle feed is the M15 table of the traded
 * symbol in time order; the stages cut it by time and count.
 */
module BosFvgStore {
  import opened Common

  /** The structure event's type column: a break of a high or of a low. */
  datatype BosKind = BosHigh | BosLow

  /** The structure event's `processed_by_fvg` column. */
  datatype ScanStatus = ScanPending | Scanning | Found | NotFound

  /** A row of the structure-events table; `candlesChecked` is the column read as `IFNULL(candles_checked, 0)`. */
  datatype BosRow = BosRow(
    symbol: string, timeframe: string, kind: BosKind, direction: Direction,
    brokenPrice: real, candleTime: int, createdAt: int,
    scan: ScanStatus, candlesChecked: nat)

  /** The zone's status column. */
  datatype ZoneStatus = ZonePending | Active | Mitigated | Expired

  /** A row of the fair-value-gap zones table. */
  datatype ZoneRow = ZoneRow(
    symbol: string, timeframe: string, bosId: nat, direction: Direction,
    gapLow: real, gapHigh: real, startTime: int, endTime: int, createdAt: int,
    status: ZoneStatus, candlesChecked: nat, mitigatedAt: Option<int>)

  /** A row of the trades table; `converted` is the `converted_to_signal` flag. */
  datatype TradeRow = TradeRow(
    fvgId: nat, symbol: string, timeframe: string, direction: Direction,
    entry: real, stopLoss: real, takeProfit: real, atr: real, rr: real,
    mitigatedAt: int, createdAt: int, converted: bool)

  class BosTable {
    var rows: seq<BosRow>

    constructor ()
      ensures rows == []
    {
      rows := [];
    }
  }

  class ZoneTable {
    var rows: seq<ZoneRow>

    constructor ()
      ensures rows == []
    {
      rows := [];
    }
  }

  class TradeTable {
    var rows: seq<TradeRow>

    constructor ()
      ensures rows == []
    {
      rows := [];
    }
  }

  /** Candle times strictly increase along the feed. */
  predicate Chronological(feed: seq<Candle>)
  {
    forall i, j :: 0 <= i < j < |feed| ==> feed[i].time < feed[j].time
  }

  /** The candles strictly after time `t`, in feed order. */
  function After(feed: seq<Candle>, t: int): (r: seq<Candle>)
    ensures |r| <= |feed|
    ensures forall c :: c in r <==> c in feed && c.time > t
  {
    if |feed| == 0 then []
    else
      var front := After(feed[..|feed| - 1], t);
      assert forall c :: c in feed <==> c in feed[..|feed| - 1] || c == feed[|feed| - 1];
      if feed[|feed| - 1].time > t then front + [feed[|feed| - 1]] else front
  }

  /** The candles at or before time `t`, in feed order. */
  function UpTo(feed: seq<Candle>, t: int): (r: seq<Candle>)
    ensures |r| <= |feed|
    ensures forall c :: c in r <==> c in feed && c.time <= t
  {
    if |feed| == 0 then []
    else
      var front := UpTo(feed[..|feed| - 1], t);
      assert forall c :: c in feed <==> c in feed[..|feed| - 1] || c == feed[|feed| - 1];
      if feed[|feed| - 1].time <= t then front + [feed[|feed| - 1]] else front
  }

  /** `head(n)`: the first `n` candles, or all of them when there are fewer. */
  function Head(s: seq<Candle>, n: nat): (r: seq<Candle>)
    ensures |r| == (if |s| <= n then |s| else n)
    ensures r == s[..|r|]
  {
    if |s| <= n then s else s[..n]
  }

  /** `tail(n)`: the last `n` candles, or all of them when there are fewer. */
  function Tail(s: seq<Candle>, n: nat): (r: seq<Candle>)
    ensures |r| == (if |s| <= n then |s| else n)
    ensures r == s[|s| - |r|..]
  {
    if |s| <= n then s else s[|s| - n..]
  }

  /** Taking the candles after `t` from a time-ordered feed keeps it time-ordered. */
  lemma {:induction false} AfterChronological(feed: seq<Candle>, t: int)
    requires Chronological(feed)
    ensures Chronological(After(feed, t))
  {
    if |feed| > 0 {
      var front := feed[..|feed| - 1];
      assert Chronological(front);
      AfterChronological(front, t);
      assert forall c :: c in After(front, t) ==> c in front;
    }
  }

  /** Taking the candles up to `t` from a time-ordered feed keeps it time-ordered. */
  lemma {:induction false} UpToChronological(feed: seq<Candle>, t: int)
    requires Chronological(feed)
    ensures Chronological(UpTo(feed, t))
  {
    if |feed| > 0 {
      var front := feed[..|feed| - 1];
      assert Chronological(front);
      UpToChronological(front, t);
      assert forall c :: c in UpTo(front, t) ==> c in front;
    }
  }
}

=== FILE: bos_structure.dfy ===
/**
 * Break-of-structure detection on the M15 feed and the de-duplicated save of
 * the events found.
 *
 * Loose mode compares each candle's close with the previous candle's range.
 * Strict mode first marks swing highs and lows (the extreme of a seven-bar
 * window) and then walks the candles with a structure state, emitting a
 * break only against the current structure and flipping it.
 */
module BosStructure {
  import opened Common
  import opened BosFvgStore

  /** The run is skipped below this many candles. */
  const MinCandles: nat := 10
  /** The run looks at the most recent candles only. */
  const RecentCandles: nat := 300
  /** Bars on each side of a swing candidate. */
  const Window: nat := 3

  datatype Mode = Loose | Strict

  /** A detected break: its type, direction, the price broken and the breaking candle's time. */
  datatype BosEvent = BosEvent(kind: BosKind, direction: Direction, brokenPrice: real, candleTime: int)

  function Emitted(e: Option<BosEvent>): seq<BosEvent>
  {
    match e
    case Some(x) => [x]
    case None => []
  }

  // ---------------------------------------------------------------- loose

  /**
   * The loose rule on one candle: a close above the previous high is a
   * bullish break of that high; failing that, a close below the previous low
   * is a bearish break of that low.
   */
  function LooseBreak(prev: Candle, curr: Candle): (e: Option<BosEvent>)
    ensures e.Some? <==> curr.close > prev.high || curr.close < prev.low
    ensures e.Some? ==> e.value.candleTime == curr.time && (e.value.kind == BosHigh <==> e.value.direction == Bullish)
    ensures e.Some? && e.value.direction == Bullish ==> curr.close > e.value.brokenPrice && e.value.brokenPrice == prev.high
    ensures e.Some? && e.value.direction == Bearish ==>
      curr.close < e.value.brokenPrice && e.value.brokenPrice == prev.low && curr.close <= prev.high
  {
    if curr.close > prev.high then Some(BosEvent(BosHigh, Bullish, prev.high, curr.time))
    else if curr.close < prev.low then Some(BosEvent(BosLow, Bearish, prev.low, curr.time))
    else None
  }

  /** The loose events of the first `n` candles, in candle order. */
  function LooseEvents(df: seq<Candle>, n: nat): seq<BosEvent>
    requires n <= |df|
  {
    if n <= 1 then [] else LooseEvents(df, n - 1) + Emitted(LooseBreak(df[n - 2], df[n - 1]))
  }

  /** _detect_bos_loose */
  method DetectBosLoose(df: seq<Candle>) returns (events: seq<BosEvent>)
    ensures events == LooseEvents(df, |df|)
  {
    events := [];
    if |df| == 0 {
      return;
    }
    var i := 1;
    while i < |df|
      invariant 1 <= i <= |df|
      invariant events == LooseEvents(df, i)
    {
      var prev := df[i - 1];
      var curr := df[i];
      if curr.close > prev.high {
        events := events + [BosEvent(BosHigh, Bullish, prev.high, curr.time)];
      } else if curr.close < prev.low {
        events := events + [BosEvent(BosLow, Bearish, prev.low, curr.time)];
      }
      i := i + 1;
    }
  }

  /**
   * The loose events are exactly the breaks of the candles after the first:
   * every event is one candle's break and every breaking candle gives its
   * event, so there is at most one event per candle; on a time-ordered feed
   * the events come in strictly increasing time.
   */
  lemma LooseEventsExact(df: seq<Candle>, n: nat)
    requires n <= |df|
    ensures var ev := LooseEvents(df, n);
      (n >= 1 ==> |ev| <= n - 1) &&
      (forall k :: 0 <= k < |ev| ==>
        exists i :: 1 <= i < n && LooseBreak(df[i - 1], df[i]) == Some(ev[k])) &&
      (forall i :: 1 <= i < n && LooseBreak(df[i - 1], df[i]).Some? ==> LooseBreak(df[i - 1], df[i]).value in ev) &&
      (Chronological(df) ==> forall j, k :: 0 <= j < k < |ev| ==> ev[j].candleTime < ev[k].candleTime) &&
      (Chronological(df) && n >= 1 ==> forall k :: 0 <= k < |ev| ==> ev[k].candleTime <= df[n - 1].time)
  {
    LooseEventsComplete(df, n);
    LooseEventsSound(df, n);
    if Chronological(df) {
      LooseEventsOrdered(df, n);
    }
  }

  /** Every breaking candle after the first gives its event, and there is at most one event per candle. */
  lemma {:induction false} LooseEventsComplete(df: seq<Candle>, n: nat)
    requires n <= |df|
    ensures n >= 1 ==> |LooseEvents(df, n)| <= n - 1
    ensures forall i :: 1 <= i < n && LooseBreak(df[i - 1], df[i]).Some? ==>
      LooseBreak(df[i - 1], df[i]).value in LooseEvents(df, n)
  {
    if n > 1 {
      LooseEventsComplete(df, n - 1);
      var front := LooseEvents(df, n - 1);
      var ev := LooseEvents(df, n);
      assert ev == front + Emitted(LooseBreak(df[n - 2], df[n - 1]));
      forall i | 1 <= i < n && LooseBreak(df[i - 1], df[i]).Some?
        ensures LooseBreak(df[i - 1], df[i]).value in ev
      {
        if i < n - 1 {
          assert LooseBreak(df[i - 1], df[i]).value in front;
        } else {
          assert ev[|ev| - 1] == LooseBreak(df[i - 1], df[i]).value;
        }
      }
    }
  }

  /** Every loose event is the break of one candle after the first. */
  lemma {:induction false} LooseEventsSound(df: seq<Candle>, n: nat)
    requires n <= |df|
    ensures forall k :: 0 <= k < |LooseEvents(df, n)| ==>
      exists i :: 1 <= i < n && LooseBreak(df[i - 1], df[i]) == Some(LooseEvents(df, n)[k])
  {
    if n > 1 {
      LooseEventsSound(df, n - 1);
      var front := LooseEvents(df, n - 1);
      var ev := LooseEvents(df, n);
      assert ev == front + Emitted(LooseBreak(df[n - 2], df[n - 1]));
      forall k | 0 <= k < |ev|
        ensures exists i :: 1 <= i < n && LooseBreak(df[i - 1], df[i]) == Some(ev[k])
      {
        if k < |front| {
          var i :| 1 <= i < n - 1 && LooseBreak(df[i - 1], df[i]) == Some(front[k]);
          assert ev[k] == front[k];
        } else {
          assert LooseBreak(df[n - 2], df[n - 1]) == Some(ev[k]);
        }
      }
      assert forall k :: 0 <= k < |ev| ==> exists i :: 1 <= i < n && LooseBreak(df[i - 1], df[i]) == Some(ev[k]);
    } else {
      assert LooseEvents(df, n) == [];
    }
  }

  /** On a time-ordered feed the loose events come in strictly increasing time, none after candle `n - 1`. */
  lemma {:induction false} LooseEventsOrdered(df: seq<Candle>, n: nat)
    requires n <= |df| && Chronological(df)
    ensures forall j, k :: 0 <= j < k < |LooseEvents(df, n)| ==>
      LooseEvents(df, n)[j].candleTime < LooseEvents(df, n)[k].candleTime
    ensures n >= 1 ==> forall k :: 0 <= k < |LooseEvents(df, n)| ==> LooseEvents(df, n)[k].candleTime <= df[n - 1].time
  {
    if n > 1 {
      LooseEventsOrdered(df, n - 1);
      var front := LooseEvents(df, n - 1);
      var ev := LooseEvents(df, n);
      assert ev == front + Emitted(LooseBreak(df[n - 2], df[n - 1]));
      assert df[n - 2].time < df[n - 1].time;
      forall k | 0 <= k < |ev|
        ensures ev[k].candleTime <= df[n - 1].time
      {
        if k < |front| {
          assert ev[k] == front[k];
        }
      }
      forall j, k | 0 <= j < k < |ev|
        ensures ev[j].candleTime < ev[k].candleTime
      {
        if k >= |front| {
          assert ev[j] == front[j];
        } else {
          assert ev[j] == front[j] && ev[k] == front[k];
        }
      }
    }
  }

  // ---------------------------------------------------------------- strict

  /** A swing point: the candle's index in the feed and its high (or low). */
  datatype Swing = Swing(index: nat, price: real)

  /** Candle `i`'s high is the maximum of the window of `Window` bars on each side. */
  predicate IsSwingHigh(df: seq<Candle>, i: nat)
    requires Window <= i < |df| - Window
  {
    forall j :: i - Window <= j <= i + Window ==> df[j].high <= df[i].high
  }

  /** Candle `i`'s low is the minimum of the window of `Window` bars on each side. */
  predicate IsSwingLow(df: seq<Candle>, i: nat)
    requires Window <= i < |df| - Window
  {
    forall j :: i - Window <= j <= i + Window ==> df[j].low >= df[i].low
  }

  /** The swing highs among the candidates `Window .. n-1`, in index order. */
  function SwingHighs(df: seq<Candle>, n: int): (r: seq<Swing>)
    requires n <= Window || n <= |df| - Window
    ensures forall k :: 0 <= k < |r| ==> Window <= r[k].index < n && r[k].price == df[r[k].index].high
    ensures forall j, k :: 0 <= j < k < |r| ==> r[j].index < r[k].index
    decreases n
  {
    if n <= Window then []
    else SwingHighs(df, n - 1) + (if IsSwingHigh(df, n - 1) then [Swing(n - 1, df[n - 1].high)] else [])
  }

  /** The swing lows among the candidates `Window .. n-1`, in index order. */
  function SwingLows(df: seq<Candle>, n: int): (r: seq<Swing>)
    requires n <= Window || n <= |df| - Window
    ensures forall k :: 0 <= k < |r| ==> Window <= r[k].index < n && r[k].price == df[r[k].index].low
    ensures forall j, k :: 0 <= j < k < |r| ==> r[j].index < r[k].index
    decreases n
  {
    if n <= Window then []
    else SwingLows(df, n - 1) + (if IsSwingLow(df, n - 1) then [Swing(n - 1, df[n - 1].low)] else [])
  }

  /** The price of the last swing before candle `i`, if any (the last of the list comprehension's results). */
  function LastBefore(swings: seq<Swing>, i: int): (r: Option<real>)
    ensures r.Some? <==> exists k :: 0 <= k < |swings| && swings[k].index < i
    ensures r.Some? ==>
      (exists k :: 0 <= k < |swings| && swings[k].index < i && swings[k].price == r.value &&
                   (forall m :: k < m < |swings| ==> swings[m].index >= i))
  {
    if |swings| == 0 then None
    else if swings[|swings| - 1].index < i then Some(swings[|swings| - 1].price)
    else
      var r := LastBefore(swings[..|swings| - 1], i);
      assert forall k :: 0 <= k < |swings| - 1 ==> swings[..|swings| - 1][k] == swings[k];
      r
  }

  /** Python truthiness of an optional price: None and 0.0 are false. */
  predicate Truthy(p: Option<real>)
  {
    p.Some? && p.value != 0.0
  }

  /** The structure read off the first two swing highs and lows: both higher, both lower, or undetermined. */
  function InitialStructure(highs: seq<Swing>, lows: seq<Swing>): Option<Direction>
    requires |highs| > 1 && |lows| > 1
  {
    if highs[1].price > highs[0].price && lows[1].price > lows[0].price then Some(Bullish)
    else if highs[1].price < highs[0].price && lows[1].price < lows[0].price then Some(Bearish)
    else None
  }

  /** The walk's state: the current structure and the two protected levels. */
  datatype StrictState = StrictState(structure: Option<Direction>, lastHigherLow: Option<real>, lastLowerHigh: Option<real>)

  const StrictStart: StrictState := StrictState(None, None, None)

  /** Both protected levels, when set, are swing prices. */
  predicate LevelsFromSwings(s: StrictState, highs: seq<Swing>, lows: seq<Swing>)
  {
    (s.lastHigherLow.Some? ==> exists k :: 0 <= k < |lows| && lows[k].price == s.lastHigherLow.value) &&
    (s.lastLowerHigh.Some? ==> exists k :: 0 <= k < |highs| && highs[k].price == s.lastLowerHigh.value)
  }

  /**
   * One candle of the walk. With no structure and two swings of each kind,
   * the structure is initialised (or stays undetermined) and the candle is
   * skipped. In a bullish structure with a truthy higher low, a close below
   * it is a bearish break that flips the structure and protects the last
   * swing high before the candle; the bearish case mirrors it.
   */
  function StrictStep(df: seq<Candle>, highs: seq<Swing>, lows: seq<Swing>, i: nat, s: StrictState)
    : (r: (StrictState, Option<BosEvent>))
    requires i < |df|
    ensures r.1.Some? ==>
      s.structure.Some? && r.1.value.direction != s.structure.value && r.0.structure == Some(r.1.value.direction) &&
      (r.1.value.kind == BosLow <==> r.1.value.direction == Bearish) &&
      r.1.value.candleTime == df[i].time && r.1.value.brokenPrice != 0.0 &&
      (r.1.value.direction == Bearish ==> df[i].close < r.1.value.brokenPrice && Some(r.1.value.brokenPrice) == s.lastHigherLow) &&
      (r.1.value.direction == Bullish ==> df[i].close > r.1.value.brokenPrice && Some(r.1.value.brokenPrice) == s.lastLowerHigh)
    ensures r.1.None? && s.structure.Some? ==> r.0.structure == s.structure
    ensures r.1.None? && s.structure.None? ==>
      r.0.structure.None? || (|highs| > 1 && |lows| > 1 && r.0.structure == InitialStructure(highs, lows))
    ensures LevelsFromSwings(s, highs, lows) ==> LevelsFromSwings(r.0, highs, lows)
  {
    var c := df[i];
    if s.structure.None? && |highs| > 1 && |lows| > 1 then
      if highs[1].price > highs[0].price && lows[1].price > lows[0].price then
        (s.(structure := Some(Bullish), lastHigherLow := Some(lows[1].price)), None)
      else if highs[1].price < highs[0].price && lows[1].price < lows[0].price then
        (s.(structure := Some(Bearish), lastLowerHigh := Some(highs[1].price)), None)
      else (s, None)
    else if s.structure == Some(Bullish) && Truthy(s.lastHigherLow) then
      if c.close < s.lastHigherLow.value then
        var recent := LastBefore(highs, i);
        (s.(structure := Some(Bearish), lastLowerHigh := if recent.Some? then recent else s.lastLowerHigh),
         Some(BosEvent(BosLow, Bearish, s.lastHigherLow.value, c.time)))
      else (s, None)
    else if s.structure == Some(Bearish) && Truthy(s.lastLowerHigh) then
      if c.close > s.lastLowerHigh.value then
        var recent := LastBefore(lows, i);
        (s.(structure := Some(Bullish), lastHigherLow := if recent.Some? then recent else s.lastHigherLow),
         Some(BosEvent(BosHigh, Bullish, s.lastLowerHigh.value, c.time)))
      else (s, None)
    else (s, None)
  }

  /** The events the walk emits from candle `i` to the end, starting in state `s`. */
  function StrictFrom(df: seq<Candle>, highs: seq<Swing>, lows: seq<Swing>, i: nat, s: StrictState): seq<BosEvent>
    decreases |df| - i
  {
    if i >= |df| then []
    else
      var step := StrictStep(df, highs, lows, i, s);
      Emitted(step.1) + StrictFrom(df, highs, lows, i + 1, step.0)
  }

  /** The swing highs of a whole feed. */
  function Highs(df: seq<Candle>): seq<Swing>
  {
    SwingHighs(df, |df| - Window)
  }

  /** The swing lows of a whole feed. */
  function Lows(df: seq<Candle>): seq<Swing>
  {
    SwingLows(df, |df| - Window)
  }

  /** All strict events of a feed. */
  function StrictEvents(df: seq<Candle>): seq<BosEvent>
  {
    StrictFrom(df, Highs(df), Lows(df), Window, StrictStart)
  }

  /** Whether candle `i` is a swing high and whether it is a swing low, by a scan of its window. */
  method WindowExtremes(df: seq<Candle>, i: nat) returns (isHigh: bool, isLow: bool)
    requires Window <= i < |df| - Window
    ensures isHigh == IsSwingHigh(df, i) && isLow == IsSwingLow(df, i)
  {
    isHigh := true;
    isLow := true;
    var j := i - Window;
    while j <= i + Window
      invariant i - Window <= j <= i + Window + 1
      invariant isHigh <==> forall m :: i - Window <= m < j ==> df[m].high <= df[i].high
      invariant isLow <==> forall m :: i - Window <= m < j ==> df[m].low >= df[i].low
    {
      if df[j].high > df[i].high {
        isHigh := false;
      }
      if df[j].low < df[i].low {
        isLow := false;
      }
      j := j + 1;
    }
  }

  /** The first loop of _detect_bos_strict: swing highs and lows of the candidates `Window .. |df|-Window-1`. */
  method FindSwings(df: seq<Candle>) returns (highs: seq<Swing>, lows: seq<Swing>)
    requires |df| >= Window
    ensures highs == Highs(df) && lows == Lows(df)
  {
    highs := [];
    lows := [];
    var last := if |df| - Window >= Window then |df| - Window else Window;
    var i := Window;
    while i < last
      invariant Window <= i <= last
      invariant highs == SwingHighs(df, i) && lows == SwingLows(df, i)
    {
      var isHigh, isLow := WindowExtremes(df, i);
      if isHigh {
        highs := highs + [Swing(i, df[i].high)];
      }
      if isLow {
        lows := lows + [Swing(i, df[i].low)];
      }
      i := i + 1;
    }
  }

  /** The body of the structure walk for candle `i`: the new state and the event emitted, if any. */
  method Advance(df: seq<Candle>, highs: seq<Swing>, lows: seq<Swing>, i: nat, s: StrictState)
    returns (s': StrictState, e: Option<BosEvent>)
    requires i < |df|
    ensures (s', e) == StrictStep(df, highs, lows, i, s)
  {
    s', e := s, None;
    var c := df[i];
    if s.structure.None? && |highs| > 1 && |lows| > 1 {
      if highs[1].price > highs[0].price && lows[1].price > lows[0].price {
        s' := s.(structure := Some(Bullish), lastHigherLow := Some(lows[1].price));
      } else if highs[1].price < highs[0].price && lows[1].price < lows[0].price {
        s' := s.(structure := Some(Bearish), lastLowerHigh := Some(highs[1].price));
      }
    } else if s.structure == Some(Bullish) && Truthy(s.lastHigherLow) {
      if c.close < s.lastHigherLow.value {
        e := Some(BosEvent(BosLow, Bearish, s.lastHigherLow.value, c.time));
        var recent := LastBefore(highs, i);
        s' := s.(structure := Some(Bearish));
        if recent.Some? {
          s' := s'.(lastLowerHigh := recent);
        }
      }
    } else if s.structure == Some(Bearish) && Truthy(s.lastLowerHigh) {
      if c.close > s.lastLowerHigh.value {
        e := Some(BosEvent(BosHigh, Bullish, s.lastLowerHigh.value, c.time));
        var recent := LastBefore(lows, i);
        s' := s.(structure := Some(Bullish));
        if recent.Some? {
          s' := s'.(lastHigherLow := recent);
        }
      }
    }
  }

  /** The walk from candle `i` is that candle's event, if any, followed by the walk from the next one. */
  lemma StrictFromStep(df: seq<Candle>, highs: seq<Swing>, lows: seq<Swing>, i: nat, s: StrictState)
    requires i < |df|
    ensures var step := StrictStep(df, highs, lows, i, s);
      StrictFrom(df, highs, lows, i, s) == Emitted(step.1) + StrictFrom(df, highs, lows, i + 1, step.0)
  {
  }

  /** The second loop of _detect_bos_strict: the structure walk from candle `Window` on. */
  method WalkStructure(df: seq<Candle>, highs: seq<Swing>, lows: seq<Swing>) returns (events: seq<BosEvent>)
    ensures events == StrictFrom(df, highs, lows, Window, StrictStart)
  {
    events := [];
    var s := StrictStart;
    var i := Window;
    while i < |df|
      invariant Window <= i
      invariant events + StrictFrom(df, highs, lows, i, s) == StrictFrom(df, highs, lows, Window, StrictStart)
      decreases |df| - i
    {
      var s', e := Advance(df, highs, lows, i, s);
      StrictFromStep(df, highs, lows, i, s);
      AppendAssoc(events, Emitted(e), StrictFrom(df, highs, lows, i + 1, s'));
      if e.Some? {
        events := events + [e.value];
      }
      s := s';
      i := i + 1;
    }
  }

  /** _detect_bos_strict: swing points first, then the structure walk. */
  method DetectBosStrict(df: seq<Candle>) returns (events: seq<BosEvent>)
    ensures events == StrictEvents(df)
  {
    if |df| < Window {
      return [];
    }
    var highs, lows := FindSwings(df);
    events := WalkStructure(df, highs, lows);
  }

  /**
   * Strict events alternate in direction, and each one breaks against the
   * structure it starts from: against the state's structure when there is
   * one, else against the initial structure, and with no initial structure
   * there are no events at all.
   */
  lemma {:induction false} StrictAlternates(df: seq<Candle>, highs: seq<Swing>, lows: seq<Swing>, i: nat, s: StrictState)
    ensures var ev := StrictFrom(df, highs, lows, i, s);
      (forall k :: 0 <= k < |ev| - 1 ==> ev[k].direction != ev[k + 1].direction) &&
      (|ev| > 0 && s.structure.Some? ==> ev[0].direction != s.structure.value) &&
      (|ev| > 0 && s.structure.None? ==>
        |highs| > 1 && |lows| > 1 && InitialStructure(highs, lows).Some? &&
        ev[0].direction != InitialStructure(highs, lows).value)
    decreases |df| - i
  {
    if i < |df| {
      var step := StrictStep(df, highs, lows, i, s);
      var rest := StrictFrom(df, highs, lows, i + 1, step.0);
      StrictAlternates(df, highs, lows, i + 1, step.0);
      var ev := StrictFrom(df, highs, lows, i, s);
      assert ev == Emitted(step.1) + rest;
      if step.1.Some? && |rest| > 0 {
        assert ev[1] == rest[0];
      }
    }
  }

  /**
   * The strict events of a feed alternate in direction, the first one breaks
   * against the initial structure (so an undetermined start gives none), each
   * one is sound, and on a time-ordered feed they come in strictly increasing
   * time.
   */
  lemma StrictEventsFacts(df: seq<Candle>)
    ensures forall k :: 0 <= k < |StrictEvents(df)| - 1 ==> StrictEvents(df)[k].direction != StrictEvents(df)[k + 1].direction
    ensures |StrictEvents(df)| > 0 ==>
      |Highs(df)| > 1 && |Lows(df)| > 1 && InitialStructure(Highs(df), Lows(df)).Some? &&
      StrictEvents(df)[0].direction != InitialStructure(Highs(df), Lows(df)).value
    ensures forall e :: e in StrictEvents(df) ==> SoundEvent(df, Highs(df), Lows(df), Window, e)
    ensures Chronological(df) ==>
      forall j, k :: 0 <= j < k < |StrictEvents(df)| ==> StrictEvents(df)[j].candleTime < StrictEvents(df)[k].candleTime
  {
    StrictAlternates(df, Highs(df), Lows(df), Window, StrictStart);
    StrictEventsSound(df, Highs(df), Lows(df), Window, StrictStart);
    if Chronological(df) {
      StrictEventsOrdered(df, Highs(df), Lows(df), Window, StrictStart);
    }
  }

  /** Candle `c` closes beyond the level the event breaks, on the event's side. */
  predicate ClosesBeyond(c: Candle, e: BosEvent)
  {
    (e.direction == Bearish ==> c.close < e.brokenPrice) && (e.direction == Bullish ==> c.close > e.brokenPrice)
  }

  /**
   * A sound strict event: its type matches its direction, the broken level is
   * nonzero and a swing price of the matching kind (a swing low for a bearish
   * break, a swing high for a bullish one), and some candle from `from` on at
   * the event's time closes beyond it.
   */
  predicate SoundEvent(df: seq<Candle>, highs: seq<Swing>, lows: seq<Swing>, from: nat, e: BosEvent)
  {
    (e.kind == BosLow <==> e.direction == Bearish) && e.brokenPrice != 0.0 &&
    (e.direction == Bearish ==> exists m :: 0 <= m < |lows| && lows[m].price == e.brokenPrice) &&
    (e.direction == Bullish ==> exists m :: 0 <= m < |highs| && highs[m].price == e.brokenPrice) &&
    exists j :: from <= j < |df| && e.candleTime == df[j].time && ClosesBeyond(df[j], e)
  }

  /** Every strict event emitted from candle `i` on is sound. */
  lemma {:induction false} StrictEventsSound(df: seq<Candle>, highs: seq<Swing>, lows: seq<Swing>, i: nat, s: StrictState)
    requires LevelsFromSwings(s, highs, lows)
    ensures forall e :: e in StrictFrom(df, highs, lows, i, s) ==> SoundEvent(df, highs, lows, i, e)
    decreases |df| - i
  {
    if i < |df| {
      var step := StrictStep(df, highs, lows, i, s);
      var rest := StrictFrom(df, highs, lows, i + 1, step.0);
      StrictEventsSound(df, highs, lows, i + 1, step.0);
      var ev := StrictFrom(df, highs, lows, i, s);
      assert ev == Emitted(step.1) + rest;
      forall k | 0 <= k < |ev|
        ensures SoundEvent(df, highs, lows, i, ev[k])
      {
        if k < |Emitted(step.1)| {
          var e := step.1.value;
          assert ev[k] == e;
          assert ClosesBeyond(df[i], e);
        } else {
          var e := rest[k - |Emitted(step.1)|];
          assert ev[k] == e;
          assert SoundEvent(df, highs, lows, i + 1, e);
          var j :| i + 1 <= j < |df| && e.candleTime == df[j].time && ClosesBeyond(df[j], e);
        }
      }
    }
  }

  /** On a time-ordered feed, strict events come in strictly increasing time, at most one per candle. */
  lemma {:induction false} StrictEventsOrdered(df: seq<Candle>, highs: seq<Swing>, lows: seq<Swing>, i: nat, s: StrictState)
    requires Chronological(df)
    ensures forall j, k :: 0 <= j < k < |StrictFrom(df, highs, lows, i, s)| ==>
      StrictFrom(df, highs, lows, i, s)[j].candleTime < StrictFrom(df, highs, lows, i, s)[k].candleTime
    ensures i < |df| ==> forall e :: e in StrictFrom(df, highs, lows, i, s) ==> e.candleTime >= df[i].time
    decreases |df| - i
  {
    if i < |df| {
      var step := StrictStep(df, highs, lows, i, s);
      var rest := StrictFrom(df, highs, lows, i + 1, step.0);
      StrictEventsOrdered(df, highs, lows, i + 1, step.0);
      var ev := StrictFrom(df, highs, lows, i, s);
      assert ev == Emitted(step.1) + rest;
      if |rest| > 0 {
        assert i + 1 < |df|;
        assert df[i].time < df[i + 1].time;
      }
      forall j, k | 0 <= j < k < |ev|
        ensures ev[j].candleTime < ev[k].candleTime
      {
        if j < |Emitted(step.1)| {
          assert ev[k] == rest[k - 1];
        } else {
          assert ev[j] == rest[j - |Emitted(step.1)|] && ev[k] == rest[k - |Emitted(step.1)|];
        }
      }
    }
  }

  // ---------------------------------------------------------------- save

  /** A row with the de-duplication key (symbol, timeframe, type, candle time) is present. */
  predicate HasKey(rows: seq<BosRow>, symbol: string, timeframe: string, kind: BosKind, t: int)
  {
    exists k :: 0 <= k < |rows| && rows[k].symbol == symbol && rows[k].timeframe == timeframe &&
      rows[k].kind == kind && rows[k].candleTime == t
  }

  /** No two rows share the de-duplication key. */
  predicate UniqueKeys(rows: seq<BosRow>)
  {
    forall j, k :: 0 <= j < k < |rows| ==>
      !(rows[j].symbol == rows[k].symbol && rows[j].timeframe == rows[k].timeframe &&
        rows[j].kind == rows[k].kind && rows[j].candleTime == rows[k].candleTime)
  }

  /** The row an event is inserted as: waiting for the gap scan, nothing checked yet. */
  function NewBosRow(symbol: string, timeframe: string, e: BosEvent, now: int): BosRow
  {
    BosRow(symbol, timeframe, e.kind, e.direction, e.brokenPrice, e.candleTime, now, ScanPending, 0)
  }

  /** One event of the save: skipped when its key is present, else inserted. */
  function SaveOne(rows: seq<BosRow>, symbol: string, timeframe: string, e: BosEvent, now: int): seq<BosRow>
  {
    if HasKey(rows, symbol, timeframe, e.kind, e.candleTime) then rows
    else rows + [NewBosRow(symbol, timeframe, e, now)]
  }

  /** The table after saving the events in order. */
  function SaveAll(rows: seq<BosRow>, symbol: string, timeframe: string, events: seq<BosEvent>, now: int): seq<BosRow>
  {
    if |events| == 0 then rows
    else SaveOne(SaveAll(rows, symbol, timeframe, events[..|events| - 1], now), symbol, timeframe, events[|events| - 1], now)
  }

  /**
   * The save keeps the table free of duplicate keys, keeps the old rows as
   * they were, leaves every event's key present, and every row it adds is a
   * new pending row for one of the events.
   */
  lemma {:induction false} SaveAllFacts(rows: seq<BosRow>, symbol: string, timeframe: string, events: seq<BosEvent>, now: int)
    ensures var r := SaveAll(rows, symbol, timeframe, events, now);
      (UniqueKeys(rows) ==> UniqueKeys(r)) &&
      |rows| <= |r| <= |rows| + |events| && r[..|rows|] == rows &&
      (forall e :: e in events ==> HasKey(r, symbol, timeframe, e.kind, e.candleTime)) &&
      (forall k :: |rows| <= k < |r| ==> exists e :: e in events && r[k] == NewBosRow(symbol, timeframe, e, now))
  {
    if |events| > 0 {
      var front := events[..|events| - 1];
      var e := events[|events| - 1];
      SaveAllFacts(rows, symbol, timeframe, front, now);
      var mid := SaveAll(rows, symbol, timeframe, front, now);
      var r := SaveAll(rows, symbol, timeframe, events, now);
      assert r == SaveOne(mid, symbol, timeframe, e, now);
      assert forall x :: x in events <==> x in front || x == e;
      if !HasKey(mid, symbol, timeframe, e.kind, e.candleTime) {
        assert r[..|mid|] == mid;
        assert r[..|rows|] == mid[..|rows|];
        forall x | x in front
          ensures HasKey(r, symbol, timeframe, x.kind, x.candleTime)
        {
          var k :| 0 <= k < |mid| && mid[k].symbol == symbol && mid[k].timeframe == timeframe &&
            mid[k].kind == x.kind && mid[k].candleTime == x.candleTime;
          assert r[k] == mid[k];
        }
        assert r[|mid|] == NewBosRow(symbol, timeframe, e, now);
        forall k | |rows| <= k < |r|
          ensures exists x :: x in events && r[k] == NewBosRow(symbol, timeframe, x, now)
        {
          if k < |mid| {
            assert r[k] == mid[k];
          }
        }
      }
    }
  }

  /** _save_new_bos */
  method SaveNewBos(table: BosTable, symbol: string, timeframe: string, events: seq<BosEvent>, now: int)
    modifies table
    ensures table.rows == SaveAll(old(table.rows), symbol, timeframe, events, now)
  {
    ghost var start := table.rows;
    var k := 0;
    while k < |events|
      invariant 0 <= k <= |events|
      invariant table.rows == SaveAll(start, symbol, timeframe, events[..k], now)
    {
      var e := events[k];
      assert events[..k + 1][..k] == events[..k];
      if !HasKey(table.rows, symbol, timeframe, e.kind, e.candleTime) {
        table.rows := table.rows + [NewBosRow(symbol, timeframe, e, now)];
      }
      k := k + 1;
    }
    assert events[..|events|] == events;
  }

  /** The events a mode detects on a feed. */
  function Detect(mode: Mode, df: seq<Candle>): (events: seq<BosEvent>)
    // on a time-ordered feed either mode reports its events in strictly increasing time
    ensures Chronological(df) ==>
      forall j, k :: 0 <= j < k < |events| ==> events[j].candleTime < events[k].candleTime
    ensures mode == Loose && |df| >= 1 ==> |events| < |df|
  {
    match mode
    case Loose =>
      LooseEventsComplete(df, |df|);
      if Chronological(df) then LooseEventsOrdered(df, |df|); LooseEvents(df, |df|)
      else LooseEvents(df, |df|)
    case Strict =>
      StrictEventsFacts(df);
      StrictEvents(df)
  }

  /**
   * run_step: fewer than ten candles does nothing; otherwise the events the
   * mode detects on the last 300 candles are saved with creation time `now`.
   */
  method RunStep(table: BosTable, symbol: string, timeframe: string, feed: seq<Candle>, mode: Mode, now: int)
    modifies table
    ensures |feed| < MinCandles ==> table.rows == old(table.rows)
    ensures |feed| >= MinCandles ==>
      table.rows == SaveAll(old(table.rows), symbol, timeframe, Detect(mode, Tail(feed, RecentCandles)), now)
  {
    var df := Tail(feed, RecentCandles);
    if |df| < MinCandles {
      return;
    }
    var events;
    if mode == Loose {
      events := DetectBosLoose(df);
    } else {
      events := DetectBosStrict(df);
    }
    SaveNewBos(table, symbol, timeframe, events, now);
  }
}

=== FILE: common.dfy ===
/**
 * Shared vocabulary of the trading backend model: optional values, candles,
 * trade direction, real-number helpers and decimal text of whole numbers.
 */
module Common {

  datatype Option<T> = None | Some(value: T)

  /** One OHLC bar. `time` is in seconds; the bar's calendar day is `time / 86400`. */
  datatype Candle = Candle(time: int, open: real, high: real, low: real, close: real)

  /** Market direction of a structure event, zone or trend. */
  datatype Direction = Bullish | Bearish

  /** Trade side of a signal or order. */
  datatype Side = Buy | Sell

  const SecondsPerDay: int := 86400
  const SecondsPerHour: int := 3600

  function DayOf(t: int): int { t / SecondsPerDay }

  /** The sum of a list of values. */
  function Total(xs: seq<real>): real
  {
    if |xs| == 0 then 0.0 else Total(xs[..|xs| - 1]) + xs[|xs| - 1]
  }

  function Abs(x: real): (r: real)
    ensures r >= 0.0 && (r == x || r == -x)
  {
    if x < 0.0 then -x else x
  }

  function Max(a: real, b: real): (r: real)
    ensures r >= a && r >= b && (r == a || r == b)
  {
    if a >= b then a else b
  }

  function Min(a: real, b: real): (r: real)
    ensures r <= a && r <= b && (r == a || r == b)
  {
    if a <= b then a else b
  }

  /** ASCII lower-casing, as `str.lower` does for the ASCII letters. */
  function LowerChar(c: char): char
  {
    if 'A' <= c <= 'Z' then (c as int + 32) as char else c
  }

  function Lower(s: string): (r: string)
    ensures |r| == |s|
    ensures forall i :: 0 <= i < |s| ==> r[i] == LowerChar(s[i])
  {
    if |s| == 0 then [] else Lower(s[..|s| - 1]) + [LowerChar(s[|s| - 1])]
  }

  predicate IsDigit(c: char) { '0' <= c <= '9' }

  predicate AllDigits(s: string) { forall i :: 0 <= i < |s| ==> IsDigit(s[i]) }

  /** Value of a run of decimal digits, most significant digit first. */
  function DigitsValue(s: string): nat
    requires AllDigits(s)
  {
    if |s| == 0 then 0 else DigitsValue(s[..|s| - 1]) * 10 + (s[|s| - 1] as int - '0' as int)
  }

  function DigitChar(d: nat): (c: char)
    requires d < 10
    ensures IsDigit(c) && c as int - '0' as int == d
  {
    ('0' as int + d) as char
  }

  /** Decimal text of a whole number, as Python's `str` or an f-string renders it. */
  function NatToString(n: nat): (s: string)
    ensures |s| > 0 && AllDigits(s)
  {
    if n < 10 then [DigitChar(n)] else NatToString(n / 10) + [DigitChar(n % 10)]
  }

  lemma {:induction false} NatToStringRoundTrip(n: nat)
    ensures DigitsValue(NatToString(n)) == n
  {
    var s := NatToString(n);
    if n >= 10 {
      NatToStringRoundTrip(n / 10);
      assert s[..|s| - 1] == NatToString(n / 10);
    }
  }

  lemma MulPos(a: real, b: real)
    requires a > 0.0 && b > 0.0
    ensures a * b > 0.0
  {
  }

  lemma MulNonneg(a: real, b: real)
    requires a >= 0.0 && b >= 0.0
    ensures a * b >= 0.0
  {
  }

  lemma DivNonneg(a: real, b: real)
    requires a >= 0.0 && b > 0.0
    ensures a / b >= 0.0
  {
  }

  lemma MulLess(a: real, b: real, c: real)
    requires a < b && c > 0.0
    ensures a * c < b * c
  {
    assert (b - a) * c > 0.0;
    assert (b - a) * c == b * c - a * c;
  }

  lemma MulAtMost(a: real, b: real, c: real)
    requires a <= b && c > 0.0
    ensures a * c <= b * c
  {
    assert (b - a) * c >= 0.0;
    assert (b - a) * c == b * c - a * c;
  }

  /** In a strictly increasing id list, the id at `k` is new to the prefix before it and extends it. */
  lemma NextId(ids: seq<nat>, k: nat)
    requires k < |ids|
    requires forall j, l :: 0 <= j < l < |ids| ==> ids[j] < ids[l]
    ensures ids[k] !in ids[..k]
    ensures ids[..k + 1] == ids[..k] + [ids[k]]
    ensures ids[..k + 1][..k] == ids[..k]
  {
  }

  /** Sequence concatenation is associative. */
  lemma AppendAssoc<T>(a: seq<T>, b: seq<T>, c: seq<T>)
    ensures a + (b + c) == (a + b) + c
  {
  }
}

=== FILE: drawdown.dfy ===
/**
 * The daily risk record: one row per calendar day with the starting, peak,
 * lowest and ending balance, the drawdown and the day's profit in percent,
 * and the trade gate that reads today's drawdown.
 *
 * Dates are day numbers; `today` is passed in. A freshly inserted row has no
 * drawdown and no profit value (None), as the insert leaves those columns out.
 */
module Drawdown {
  import opened Common

  const MaxDrawdownPercent: real := 10.0

  datatype DailyRow = DailyRow(date: int, starting: real, peak: real, lowest: real, ending: real,
                               drawdown: Option<real>, pnlPercent: Option<real>)

  /** The row a new day starts with: all four balances equal, no drawdown or profit yet. */
  function FreshRow(date: int, balance: real): DailyRow
  {
    DailyRow(date, balance, balance, balance, balance, None, None)
  }

  /** Position of the first row with the given date, as `fetchone` returns it. */
  function FindDate(rows: seq<DailyRow>, date: int): (r: Option<nat>)
    ensures r.Some? ==> r.value < |rows| && rows[r.value].date == date &&
                        forall i :: 0 <= i < r.value ==> rows[i].date != date
    ensures r.None? ==> forall i :: 0 <= i < |rows| ==> rows[i].date != date
  {
    if |rows| == 0 then None
    else if rows[0].date == date then Some(0)
    else match FindDate(rows[1..], date)
      case Some(i) => Some(i + 1)
      case None => None
  }

  /** No two rows share a date. */
  predicate UniqueDates(rows: seq<DailyRow>)
  {
    forall i, j :: 0 <= i < j < |rows| ==> rows[i].date != rows[j].date
  }

  /** Each row's starting and ending balances lie between its lowest and its peak. */
  predicate Ordered(r: DailyRow)
  {
    r.lowest <= r.starting <= r.peak && r.lowest <= r.ending <= r.peak
  }

  /** Drawdown in percent of a peak, measured to the balance `ending`. */
  function DrawdownOf(peak: real, ending: real): real
    requires peak != 0.0
  {
    (peak - ending) / peak * 100.0
  }

  /** Today's profit in percent of the starting balance. */
  function PnlPercentOf(starting: real, ending: real): real
    requires starting != 0.0
  {
    (ending - starting) / starting * 100.0
  }

  /**
   * A drawdown computed from a peak at or above the balance is never negative,
   * and stays below 100 while that balance is positive.
   */
  lemma DrawdownRange(peak: real, ending: real)
    requires peak > 0.0 && ending <= peak
    ensures 0.0 <= DrawdownOf(peak, ending)
    ensures ending > 0.0 ==> DrawdownOf(peak, ending) < 100.0
  {
    var q := (peak - ending) / peak;
    assert q * peak == peak - ending;
    if q < 0.0 {
      MulLess(q, 0.0, peak);
    }
    if ending > 0.0 && q >= 1.0 {
      MulAtMost(1.0, q, peak);
    }
  }

  /** The profit in percent is positive exactly when the balance ended above where it started. */
  lemma PnlSign(starting: real, ending: real)
    requires starting > 0.0
    ensures PnlPercentOf(starting, ending) > 0.0 <==> ending > starting
    ensures PnlPercentOf(starting, ending) == 0.0 <==> ending == starting
  {
    var q := (ending - starting) / starting;
    assert q * starting == ending - starting;
    if q > 0.0 {
      MulLess(0.0, q, starting);
    } else if q < 0.0 {
      MulLess(q, 0.0, starting);
    }
  }

  /** What get_drawdown_percent gives: a value, or the TypeError of converting a missing drawdown. */
  datatype Reading = Percent(value: real) | Unreadable

  /** get_drawdown_percent: 0.0 without a row for today, else today's stored drawdown. */
  function DrawdownPercent(rows: seq<DailyRow>, today: int): (r: Reading)
    ensures FindDate(rows, today).None? ==> r == Percent(0.0)
    ensures FindDate(rows, today).Some? ==>
      (r.Percent? <==> rows[FindDate(rows, today).value].drawdown.Some?)
    ensures FindDate(rows, today).Some? && r.Percent? ==>
      r.value == rows[FindDate(rows, today).value].drawdown.value
  {
    match FindDate(rows, today)
    case None => Percent(0.0)
    case Some(i) =>
      match rows[i].drawdown
      case Some(d) => Percent(d)
      case None => Unreadable
  }

  /** is_allowed_to_trade: trading stops once today's drawdown reaches the limit; None when the read raises. */
  function TradeGate(rows: seq<DailyRow>, today: int): (r: Option<bool>)
    ensures r.None? <==> DrawdownPercent(rows, today).Unreadable?
    ensures r == Some(false) <==> DrawdownPercent(rows, today).Percent? && DrawdownPercent(rows, today).value >= MaxDrawdownPercent
    ensures FindDate(rows, today).None? ==> r == Some(true)
  {
    match DrawdownPercent(rows, today)
    case Percent(dd) => Some(dd < MaxDrawdownPercent)
    case Unreadable => None
  }

  /** A day whose row was only just created has no drawdown yet, so the gate raises until the first update. */
  lemma FreshDayGateRaises(rows: seq<DailyRow>, today: int, balance: real)
    requires FindDate(rows, today).None?
    ensures TradeGate(rows + [FreshRow(today, balance)], today).None?
  {
    var rows' := rows + [FreshRow(today, balance)];
    assert rows'[|rows|].date == today;
    assert FindDate(rows', today) == Some(|rows|);
  }

  /** Outcome of update_balance_metrics: done, or the ZeroDivisionError of a zero starting balance or peak. */
  datatype UpdateOutcome = Updated | Created | DivisionByZero

  /** The row after an update with `balance`, from the row as read. */
  function UpdatedRow(r: DailyRow, balance: real): DailyRow
    requires r.starting != 0.0 && Max(balance, r.peak) != 0.0
  {
    var peak := Max(balance, r.peak);
    r.(peak := peak, lowest := Min(balance, r.lowest), ending := balance,
       drawdown := Some(DrawdownOf(peak, r.ending)), pnlPercent := Some(PnlPercentOf(r.starting, r.ending)))
  }

  /**
   * An update keeps the row ordered, never lowers the peak and never raises
   * the lowest balance, and its drawdown lies in [0, 100) when the previous
   * ending balance was positive.
   */
  lemma UpdatedRowFacts(r: DailyRow, balance: real)
    requires Ordered(r) && r.starting != 0.0 && Max(balance, r.peak) != 0.0
    ensures var u := UpdatedRow(r, balance);
      Ordered(u) && u.peak >= r.peak && u.lowest <= r.lowest && u.ending == balance &&
      u.date == r.date && u.starting == r.starting &&
      (u.peak > 0.0 ==> 0.0 <= u.drawdown.value) &&
      (r.ending > 0.0 ==> u.drawdown.value < 100.0)
  {
    var u := UpdatedRow(r, balance);
    if u.peak > 0.0 {
      DrawdownRange(u.peak, r.ending);
    } else if r.ending > 0.0 {
      assert false;
    }
  }

  class DailyMetrics {
    var rows: seq<DailyRow>

    predicate Valid()
      reads this
    {
      UniqueDates(rows) && forall i :: 0 <= i < |rows| ==> Ordered(rows[i])
    }

    constructor ()
      ensures Valid() && rows == []
    {
      rows := [];
    }

    /** ensure_today_record: the existing row for today, or a fresh one inserted with `balance`. */
    method EnsureTodayRecord(today: int, balance: real) returns (r: DailyRow)
      requires Valid()
      modifies this
      ensures Valid()
      ensures old(FindDate(rows, today)).Some? ==> rows == old(rows) && r == rows[old(FindDate(rows, today)).value]
      ensures old(FindDate(rows, today)).None? ==> rows == old(rows) + [FreshRow(today, balance)] && r == FreshRow(today, balance)
    {
      match FindDate(rows, today)
      case Some(i) =>
        r := rows[i];
      case None =>
        r := FreshRow(today, balance);
        rows := rows + [r];
    }

    /**
     * update_balance_metrics: creates today's row when it is missing and does
     * nothing else; otherwise updates peak, lowest, ending balance, drawdown
     * and profit from the row as it was.
     */
    method UpdateBalanceMetrics(today: int, balance: real) returns (outcome: UpdateOutcome)
      requires Valid()
      modifies this
      ensures Valid()
      ensures old(FindDate(rows, today)).None? ==> outcome == Created && rows == old(rows) + [FreshRow(today, balance)]
      ensures old(FindDate(rows, today)).Some? ==>
        var i := old(FindDate(rows, today)).value;
        var r := old(rows)[i];
        if r.starting == 0.0 || Max(balance, r.peak) == 0.0 then outcome == DivisionByZero && rows == old(rows)
        else outcome == Updated && rows == old(rows)[i := UpdatedRow(r, balance)]
    {
      match FindDate(rows, today)
      case None =>
        var _ := EnsureTodayRecord(today, balance);
        outcome := Created;
      case Some(i) =>
        var r := rows[i];
        if r.starting == 0.0 || Max(balance, r.peak) == 0.0 {
          outcome := DivisionByZero;
        } else {
          UpdatedRowFacts(r, balance);
          rows := rows[i := UpdatedRow(r, balance)];
          outcome := Updated;
        }
    }
  }
}

=== FILE: entry.dfy ===
/**
 * The entry stage: for each mitigated zone without a trade, take the
 * candles up to the mitigation candle, measure the average true range over
 * the last fourteen, and record a trade entered at the mitigation candle's
 * close with its stop one ATR beyond the gap and its target at the
 * configured reward-to-risk ratio.
 */
module Entry {
  import opened Common
  import opened BosFvgStore

  /** The ATR window. */
  const AtrPeriod: nat := 14
  /** How many candles up to the mitigation candle are fetched. */
  const Lookback: nat := 100
  /** Reward-to-risk ratio: the target is this many stop distances from the entry. */
  const RrRatio: real := 1.0

  /**
   * The true range of candle `i`: the largest of its high-low span and its
   * distances from the previous close; the first candle has no previous
   * close, so its span alone counts (the missing values are skipped).
   */
  function TrueRange(df: seq<Candle>, i: nat): (r: real)
    requires i < |df|
    ensures r >= 0.0
  {
    if i == 0 then Abs(df[i].high - df[i].low)
    else Max(Abs(df[i].high - df[i].low), Max(Abs(df[i].high - df[i - 1].close), Abs(df[i - 1].close - df[i].low)))
  }

  /**
   * The true range is the largest of the three distances: at least each of
   * them and equal to one; the first candle's is its span.
   */
  lemma TrueRangeFacts(df: seq<Candle>, i: nat)
    requires i < |df|
    ensures TrueRange(df, i) >= Abs(df[i].high - df[i].low)
    ensures i > 0 ==>
      TrueRange(df, i) >= Abs(df[i].high - df[i - 1].close) && TrueRange(df, i) >= Abs(df[i - 1].close - df[i].low)
    ensures i > 0 ==>
      (TrueRange(df, i) == Abs(df[i].high - df[i].low) || TrueRange(df, i) == Abs(df[i].high - df[i - 1].close) ||
       TrueRange(df, i) == Abs(df[i - 1].close - df[i].low))
    ensures i == 0 ==> TrueRange(df, i) == Abs(df[i].high - df[i].low)
  {
  }

  /** The true range of every candle, in order. */
  function Ranges(df: seq<Candle>): (r: seq<real>)
    ensures |r| == |df|
    ensures forall i :: 0 <= i < |df| ==> r[i] == TrueRange(df, i)
  {
    seq(|df|, i requires 0 <= i < |df| => TrueRange(df, i))
  }

  /** `atr.iloc[-1]`: the mean true range of the last fourteen candles. */
  function Atr(df: seq<Candle>): (atr: real)
    requires |df| >= AtrPeriod
    ensures atr >= 0.0
  {
    var w := Ranges(df)[|df| - AtrPeriod..];
    assert forall i :: 0 <= i < |w| ==> w[i] == TrueRange(df, |df| - AtrPeriod + i);
    TotalNonneg(w);
    Total(w) / 14.0
  }

  /** A sum of values each within [lo, hi] lies within count·lo and count·hi. */
  lemma {:induction false} TotalBounds(xs: seq<real>, lo: real, hi: real)
    requires forall i :: 0 <= i < |xs| ==> lo <= xs[i] <= hi
    ensures |xs| as real * lo <= Total(xs) <= |xs| as real * hi
  {
    if |xs| > 0 {
      var front := xs[..|xs| - 1];
      TotalBounds(front, lo, hi);
      var n := |front| as real;
      assert (n + 1.0) * lo == n * lo + lo;
      assert (n + 1.0) * hi == n * hi + hi;
    }
  }

  /**
   * The ATR is a mean: it lies between the smallest and the largest true
   * range of the window, and so it is never negative.
   */
  lemma AtrBounds(df: seq<Candle>, lo: real, hi: real)
    requires |df| >= AtrPeriod
    requires forall i :: |df| - AtrPeriod <= i < |df| ==> lo <= TrueRange(df, i) <= hi
    ensures lo <= Atr(df) <= hi
  {
    var w := Ranges(df)[|df| - AtrPeriod..];
    assert forall i :: 0 <= i < |w| ==> w[i] == TrueRange(df, |df| - AtrPeriod + i);
    TotalBounds(w, lo, hi);
  }

  /** A sum of values none of which is negative is not negative. */
  lemma {:induction false} TotalNonneg(xs: seq<real>)
    requires forall i :: 0 <= i < |xs| ==> xs[i] >= 0.0
    ensures Total(xs) >= 0.0
  {
    if |xs| > 0 {
      TotalNonneg(xs[..|xs| - 1]);
    }
  }

  /** The true ranges of any run of candles add up to a non-negative total. */
  lemma RangesTotalNonneg(df: seq<Candle>, lo: nat, hi: nat)
    requires lo <= hi <= |df|
    ensures Total(Ranges(df)[lo..hi]) >= 0.0
  {
    var w := Ranges(df)[lo..hi];
    assert forall j :: 0 <= j < |w| ==> w[j] == TrueRange(df, lo + j);
    TotalNonneg(w);
  }

  /** The index of the last candle at time `t`, or -1 when there is none. */
  function LastAt(df: seq<Candle>, t: int): (k: int)
    ensures -1 <= k < |df|
    ensures k >= 0 ==> df[k].time == t
    ensures forall j :: k < j < |df| ==> df[j].time != t
  {
    if |df| == 0 then -1
    else if df[|df| - 1].time == t then |df| - 1
    else LastAt(df[..|df| - 1], t)
  }

  /** The candles fetched for a mitigation at time `t`: the last hundred at or before it. */
  function CandlesUpTo(feed: seq<Candle>, t: int): seq<Candle>
  {
    Tail(UpTo(feed, t), Lookback)
  }

  /** Stop and target for an entry: one ATR beyond the gap, and the target at the ratio times the risk. */
  function Levels(direction: Direction, gapLow: real, gapHigh: real, entry: real, atr: real): (l: (real, real))
    ensures direction == Bullish ==> l.0 == gapLow - atr
    ensures direction == Bearish ==> l.0 == gapHigh + atr
    // the target is the ratio times the stop distance from the entry, on the other side
    ensures l.1 - entry == (entry - l.0) * RrRatio
  {
    if direction == Bullish then
      var sl := gapLow - atr;
      (sl, entry + (entry - sl) * RrRatio)
    else
      var sl := gapHigh + atr;
      (sl, entry - (sl - entry) * RrRatio)
  }

  /**
   * With a 1:1 ratio the target is as far from the entry as the stop, on the
   * other side; a stop never sits inside the gap, since the ATR is never negative.
   */
  lemma LevelsFacts(direction: Direction, gapLow: real, gapHigh: real, entry: real, atr: real)
    requires atr >= 0.0
    ensures var (sl, tp) := Levels(direction, gapLow, gapHigh, entry, atr);
      tp - entry == entry - sl && Abs(tp - entry) == Abs(entry - sl) &&
      (direction == Bullish ==> sl <= gapLow && (entry > sl ==> tp > entry)) &&
      (direction == Bearish ==> sl >= gapHigh && (entry < sl ==> tp < entry))
  {
  }

  /**
   * _create_entry: no trade without a mitigation time, with fewer than
   * fourteen candles, or without a candle at the mitigation time; otherwise
   * the trade enters at that candle's close.
   */
  function PlanEntry(z: ZoneRow, id: nat, feed: seq<Candle>, now: int): (r: Option<TradeRow>)
    ensures r.Some? ==> r.value.fvgId == id
  {
    match z.mitigatedAt
    case None => None
    case Some(t) =>
      var df := CandlesUpTo(feed, t);
      if |df| < AtrPeriod then None
      else
        var k := LastAt(df, t);
        if k < 0 then None
        else
          var atr := Atr(df);
          var (sl, tp) := Levels(z.direction, z.gapLow, z.gapHigh, df[k].close, atr);
          Some(TradeRow(id, z.symbol, z.timeframe, z.direction, df[k].close, sl, tp, atr, RrRatio, t, now, false))
  }

  /**
   * When an entry is made: exactly when the zone has a mitigation time, at
   * least fourteen candles reach up to it and one of them is at that time.
   * The trade belongs to the zone, enters at the close of the last candle at
   * the mitigation time, takes the ATR of the fetched candles, and puts its
   * stop and target as the direction asks, with the target as far from the
   * entry as the stop; it starts unconverted.
   */
  lemma PlanEntryFacts(z: ZoneRow, id: nat, feed: seq<Candle>, now: int)
    ensures PlanEntry(z, id, feed, now).Some? <==>
      z.mitigatedAt.Some? && |CandlesUpTo(feed, z.mitigatedAt.value)| >= AtrPeriod &&
      exists i :: 0 <= i < |CandlesUpTo(feed, z.mitigatedAt.value)| && CandlesUpTo(feed, z.mitigatedAt.value)[i].time == z.mitigatedAt.value
    ensures PlanEntry(z, id, feed, now).Some? ==>
      var tr := PlanEntry(z, id, feed, now).value;
      var df := CandlesUpTo(feed, z.mitigatedAt.value);
      tr.fvgId == id && tr.symbol == z.symbol && tr.timeframe == z.timeframe && tr.direction == z.direction &&
      tr.mitigatedAt == z.mitigatedAt.value && tr.createdAt == now && !tr.converted &&
      tr.atr == Atr(df) && tr.atr >= 0.0 && tr.rr == RrRatio &&
      tr.entry == df[LastAt(df, tr.mitigatedAt)].close &&
      (tr.direction == Bullish ==> tr.stopLoss == z.gapLow - tr.atr) &&
      (tr.direction == Bearish ==> tr.stopLoss == z.gapHigh + tr.atr) &&
      tr.takeProfit - tr.entry == tr.entry - tr.stopLoss
  {
    if z.mitigatedAt.Some? {
      var t := z.mitigatedAt.value;
      var df := CandlesUpTo(feed, t);
      if |df| >= AtrPeriod {
        var k := LastAt(df, t);
        if k >= 0 {
          assert df[k].time == t;
          LevelsFacts(z.direction, z.gapLow, z.gapHigh, df[k].close, Atr(df));
        }
      }
    }
  }

  /** No trade row belongs to zone `id`. */
  predicate NoTradeFor(trades: seq<TradeRow>, id: nat)
  {
    forall k :: 0 <= k < |trades| ==> trades[k].fvgId != id
  }

  /** Ids of the mitigated zones of this symbol and timeframe that have no trade yet, in table order. */
  function EntryIds(zones: seq<ZoneRow>, trades: seq<TradeRow>, symbol: string, timeframe: string): (ids: seq<nat>)
    ensures forall j :: 0 <= j < |ids| ==> 1 <= ids[j] <= |zones|
    ensures forall j, k :: 0 <= j < k < |ids| ==> ids[j] < ids[k]
  {
    if |zones| == 0 then []
    else
      var front := EntryIds(zones[..|zones| - 1], trades, symbol, timeframe);
      var last := zones[|zones| - 1];
      if last.symbol == symbol && last.timeframe == timeframe && last.status == Mitigated && NoTradeFor(trades, |zones|)
      then front + [|zones|] else front
  }

  /** The zones whose ids `EntryIds` lists are exactly the ones the selection asks for. */
  lemma {:induction false} EntryIdsExact(zones: seq<ZoneRow>, trades: seq<TradeRow>, symbol: string, timeframe: string)
    ensures forall i :: 0 <= i < |zones| ==>
      (i + 1 in EntryIds(zones, trades, symbol, timeframe) <==>
        zones[i].symbol == symbol && zones[i].timeframe == timeframe &&
        zones[i].status == Mitigated && NoTradeFor(trades, i + 1))
  {
    if |zones| > 0 {
      var n := |zones|;
      var ids := EntryIds(zones, trades, symbol, timeframe);
      var front := EntryIds(zones[..n - 1], trades, symbol, timeframe);
      EntryIdsExact(zones[..n - 1], trades, symbol, timeframe);
      assert n !in front;
      forall i | 0 <= i < n
        ensures i + 1 in ids <==> zones[i].symbol == symbol && zones[i].timeframe == timeframe &&
                                  zones[i].status == Mitigated && NoTradeFor(trades, i + 1)
      {
        if i < n - 1 {
          assert zones[..n - 1][i] == zones[i];
          assert i + 1 in ids <==> i + 1 in front;
        } else {
          assert n in ids <==> zones[n - 1].symbol == symbol && zones[n - 1].timeframe == timeframe &&
                               zones[n - 1].status == Mitigated && NoTradeFor(trades, n);
        }
      }
      assert forall i :: 0 <= i < |zones| ==>
        (i + 1 in ids <==> zones[i].symbol == symbol && zones[i].timeframe == timeframe &&
                           zones[i].status == Mitigated && NoTradeFor(trades, i + 1));
    }
  }

  /** Every id `EntryIds` lists belongs to a zone with no trade yet. */
  lemma {:induction false} EntryIdsFresh(zones: seq<ZoneRow>, trades: seq<TradeRow>, symbol: string, timeframe: string)
    ensures forall j :: 0 <= j < |EntryIds(zones, trades, symbol, timeframe)| ==>
      NoTradeFor(trades, EntryIds(zones, trades, symbol, timeframe)[j])
  {
    if |zones| > 0 {
      EntryIdsFresh(zones[..|zones| - 1], trades, symbol, timeframe);
    }
  }

  /** The trade planned for zone `id`, as a row list of length one or zero. */
  function TradeFor(zones: seq<ZoneRow>, id: nat, feed: seq<Candle>, now: int): (r: seq<TradeRow>)
    requires 1 <= id <= |zones|
    ensures |r| <= 1 && forall a :: 0 <= a < |r| ==> r[a].fvgId == id
  {
    match PlanEntry(zones[id - 1], id, feed, now)
    case Some(tr) => [tr]
    case None => []
  }

  /** The trades a run records, in the order the zones are processed. */
  function NewTrades(zones: seq<ZoneRow>, ids: seq<nat>, feed: seq<Candle>, now: int): (r: seq<TradeRow>)
    requires forall j :: 0 <= j < |ids| ==> 1 <= ids[j] <= |zones|
  {
    if |ids| == 0 then []
    else NewTrades(zones, ids[..|ids| - 1], feed, now) + TradeFor(zones, ids[|ids| - 1], feed, now)
  }

  /** Processing one more id appends that zone's trade, if any. */
  lemma NewTradesNext(zones: seq<ZoneRow>, ids: seq<nat>, k: nat, feed: seq<Candle>, now: int)
    requires k < |ids| && forall j :: 0 <= j < |ids| ==> 1 <= ids[j] <= |zones|
    ensures NewTrades(zones, ids[..k + 1], feed, now) == NewTrades(zones, ids[..k], feed, now) + TradeFor(zones, ids[k], feed, now)
  {
    assert ids[..k + 1][..k] == ids[..k];
  }

  /** Every recorded trade belongs to a processed zone, and with increasing ids each zone gets at most one. */
  lemma {:induction false} NewTradesFacts(zones: seq<ZoneRow>, ids: seq<nat>, feed: seq<Candle>, now: int)
    requires forall j :: 0 <= j < |ids| ==> 1 <= ids[j] <= |zones|
    requires forall j, k :: 0 <= j < k < |ids| ==> ids[j] < ids[k]
    ensures forall a :: 0 <= a < |NewTrades(zones, ids, feed, now)| ==> NewTrades(zones, ids, feed, now)[a].fvgId in ids
    ensures forall a, b :: 0 <= a < b < |NewTrades(zones, ids, feed, now)| ==>
      NewTrades(zones, ids, feed, now)[a].fvgId < NewTrades(zones, ids, feed, now)[b].fvgId
  {
    if |ids| > 0 {
      var front := ids[..|ids| - 1];
      var id := ids[|ids| - 1];
      NewTradesFacts(zones, front, feed, now);
      var before := NewTrades(zones, front, feed, now);
      var one := TradeFor(zones, id, feed, now);
      var all := NewTrades(zones, ids, feed, now);
      assert all == before + one;
      forall a | 0 <= a < |before|
        ensures before[a].fvgId in ids && before[a].fvgId < id
      {
        var j :| 0 <= j < |front| && front[j] == before[a].fvgId;
        assert ids[j] == front[j];
      }
      forall a | 0 <= a < |all|
        ensures all[a].fvgId in ids
      {
        if a >= |before| {
          assert all[a] == one[a - |before|];
          assert ids[|ids| - 1] == id;
        } else {
          assert all[a] == before[a];
        }
      }
      forall a, b | 0 <= a < b < |all|
        ensures all[a].fvgId < all[b].fvgId
      {
        assert all[a] == before[a];
        if b >= |before| {
          assert all[b] == one[b - |before|];
        } else {
          assert all[b] == before[b];
        }
      }
    }
  }

  /** No zone has two trades. */
  predicate OneTradePerZone(trades: seq<TradeRow>)
  {
    forall a, b :: 0 <= a < b < |trades| ==> trades[a].fvgId != trades[b].fvgId
  }

  /**
   * The selection takes only zones without a trade, so a run keeps every
   * zone at one trade at most.
   */
  lemma RunKeepsOneTradePerZone(zones: seq<ZoneRow>, trades: seq<TradeRow>, symbol: string, timeframe: string,
                                feed: seq<Candle>, now: int)
    requires OneTradePerZone(trades)
    ensures OneTradePerZone(trades + NewTrades(zones, EntryIds(zones, trades, symbol, timeframe), feed, now))
  {
    var ids := EntryIds(zones, trades, symbol, timeframe);
    var added := NewTrades(zones, ids, feed, now);
    NewTradesFacts(zones, ids, feed, now);
    EntryIdsFresh(zones, trades, symbol, timeframe);
    forall a | 0 <= a < |added|
      ensures NoTradeFor(trades, added[a].fvgId)
    {
      assert added[a].fvgId in ids;
    }
    AppendFreshZones(trades, added);
  }

  /** Appending trades of distinct zones that had no trade keeps one trade per zone. */
  lemma AppendFreshZones(trades: seq<TradeRow>, added: seq<TradeRow>)
    requires OneTradePerZone(trades)
    requires forall a, b :: 0 <= a < b < |added| ==> added[a].fvgId < added[b].fvgId
    requires forall a :: 0 <= a < |added| ==> NoTradeFor(trades, added[a].fvgId)
    ensures OneTradePerZone(trades + added)
  {
    var all := trades + added;
    forall a, b | 0 <= a < b < |all|
      ensures all[a].fvgId != all[b].fvgId
    {
      if a < |trades| <= b {
        assert NoTradeFor(trades, added[b - |trades|].fvgId);
      }
    }
  }

  /** _create_entry for zone `id`: records the planned trade, if any. */
  method CreateEntry(zones: ZoneTable, trades: TradeTable, id: nat, feed: seq<Candle>, now: int)
    requires 1 <= id <= |zones.rows|
    modifies trades
    ensures trades.rows == old(trades.rows) + TradeFor(zones.rows, id, feed, now)
  {
    var plan := PlanEntry(zones.rows[id - 1], id, feed, now);
    if plan.Some? {
      trades.rows := trades.rows + [plan.value];
    }
  }

  /**
   * run_step: every mitigated zone of the symbol and timeframe without a
   * trade is processed once, and the trades are recorded in processing order.
   */
  method RunStep(zones: ZoneTable, trades: TradeTable, symbol: string, timeframe: string, feed: seq<Candle>, now: int)
    modifies trades
    ensures trades.rows == old(trades.rows) +
      NewTrades(zones.rows, EntryIds(zones.rows, old(trades.rows), symbol, timeframe), feed, now)
  {
    var ids := EntryIds(zones.rows, trades.rows, symbol, timeframe);
    ghost var startTrades := trades.rows;
    var k := 0;
    while k < |ids|
      invariant 0 <= k <= |ids|
      invariant trades.rows == startTrades + NewTrades(zones.rows, ids[..k], feed, now)
    {
      NewTradesNext(zones.rows, ids, k, feed, now);
      AppendAssoc(startTrades, NewTrades(zones.rows, ids[..k], feed, now), TradeFor(zones.rows, ids[k], feed, now));
      CreateEntry(zones, trades, ids[k], feed, now);
      k := k + 1;
    }
    assert ids[..|ids|] == ids;
  }
}

=== FILE: entry_to_signal.dfy ===
/**
 * The conversion stage: each of today's unconverted retrace trades becomes a
 * signal of the trading-signals table (entered at its entry price, with its
 * stop and target, expiring after 0.1 days) and is flagged as converted.
 */
module EntryToSignal {
  import opened Common
  import opened BosFvgStore
  import opened SignalsDb
  import Mt5Logic
  import TradeSignalLogic

  const SignalComment: string := "BOS FVG Retrace (ATR-based)"
  const MessageHead: string := "Entry from retrace trade ID "
  const ExpiryText: string := "Expired 0.1 days"

  /** "buy" for a bullish trade, "sell" for any other. */
  function ActionFor(direction: Direction): string
  {
    if direction == Bullish then "buy" else "sell"
  }

  /** The signal's message: the trade id, then the expiry the order handler reads. */
  function MessageFor(id: nat): string
  {
    MessageHead + NatToString(id) + ". " + ExpiryText
  }

  /** The signal dictionary built for trade `id`: one price for both range ends, one target for both. */
  function SignalFor(tr: TradeRow, id: nat): map<string, Value>
  {
    map["instrument" := Text(tr.symbol), "action" := Text(ActionFor(tr.direction)),
        "range1" := Num(tr.entry), "range2" := Num(tr.entry),
        "tp1" := Num(tr.takeProfit), "tp2" := Num(tr.takeProfit), "sl" := Num(tr.stopLoss),
        "comment" := Text(SignalComment), "message" := Text(MessageFor(id))]
  }

  /** The side a trade trades on: buy for a bullish trade, sell otherwise. */
  function SideFor(direction: Direction): Side
  {
    if direction == Bullish then Buy else Sell
  }

  /**
   * The row the signals table is meant to receive for trade `id`: a pending
   * signal on the trade's side, both range ends at the entry, both targets at
   * the take-profit, the trade's stop, its risk and reward, and the message
   * naming the trade.
   */
  function SignalRowFor(tr: TradeRow, id: nat): SignalRow
  {
    var side := SideFor(tr.direction);
    var rr := RiskReward(side, tr.entry, tr.entry, tr.stopLoss, tr.takeProfit);
    SignalRow(Text(tr.symbol), side, tr.entry, tr.entry, tr.takeProfit, tr.takeProfit, tr.stopLoss,
              Text(SignalComment), Text(MessageFor(id)), rr.0, rr.1, PendingStatus, None, None)
  }

  /**
   * insert_signal accepts the signal dictionary of every trade and inserts
   * exactly the intended row: a buy exactly for a bullish trade, with risk
   * and reward both the entry's distance to the stop and to the target.
   */
  lemma SignalAccepted(tr: TradeRow, id: nat)
    ensures CheckSignal(SignalFor(tr, id)) == Accept(SignalRowFor(tr, id))
    ensures SignalRowFor(tr, id).side == Buy <==> tr.direction == Bullish
    ensures SignalRowFor(tr, id).risk == Abs(tr.entry - tr.stopLoss)
    ensures SignalRowFor(tr, id).reward == Abs(tr.takeProfit - tr.entry)
  {
    var s := SignalFor(tr, id);
    assert HasRequiredKeys(s);
    assert s["action"] == Text(ActionFor(tr.direction));
    ActionParsed(tr.direction);
    var vs := [s["range1"], s["range2"], s["sl"], s["tp1"], s["tp2"]];
    assert vs == [Num(tr.entry), Num(tr.entry), Num(tr.stopLoss), Num(tr.takeProfit), Num(tr.takeProfit)];
    var c := ToFloats(vs);
    assert c.Converted?;
    assert c.xs == [tr.entry, tr.entry, tr.stopLoss, tr.takeProfit, tr.takeProfit];
  }

  /** The action text parses back to the trade's side. */
  lemma ActionParsed(direction: Direction)
    ensures ParseSide(ActionFor(direction)) == Some(SideFor(direction))
  {
    assert Lower("buy") == "buy";
    assert Lower("sell") == "sell";
  }

  /** The message's expiry is read as 0.1 days. */
  lemma MessageExpiry(id: nat)
    ensures Mt5Logic.ExtractDays(MessageFor(id)) == Some(0.1)
  {
    var p := MessageHead + NatToString(id) + ". ";
    var t := ExpiryText;
    assert MessageFor(id) == p + t;
    forall k | 0 <= k < |p|
      ensures Mt5Logic.MatchDays((p + t)[k..]) == None
    {
      if Mt5Logic.MatchDays((p + t)[k..]).Some? {
        Mt5Logic.MatchNeedsEx((p + t)[k..]);
        HeadHasNoEx(id, k);
        assert false;
      }
    }
    Mt5Logic.ExtractSkipsPrefix(p, t);
    ExpiryTextParts();
    Mt5Logic.ExtractDecimalDays("0", "1");
  }

  /** The expiry text is "Expired ", the number 0.1 and " days", read as 0 and the fraction one tenth. */
  lemma ExpiryTextParts()
    ensures ExpiryText == Mt5Logic.ExpiredWord + "0" + "." + "1" + Mt5Logic.DaysWord
    ensures AllDigits("0") && AllDigits("1")
    ensures DigitsValue("0") as real + Mt5Logic.FractionValue("1") == 0.1
  {
    assert "1"[..0] == [] && "0"[..0] == [];
    assert DigitsValue("1") == 1 && DigitsValue("0") == 0;
    assert Mt5Logic.Pow10(1) == 10;
  }

  /** Before the expiry text, no 'E' of the message is followed by an 'x'. */
  lemma HeadHasNoEx(id: nat, k: nat)
    requires k < |MessageHead + NatToString(id) + ". "|
    ensures var s := (MessageHead + NatToString(id) + ". " + ExpiryText)[k..];
      |s| < 2 || s[0] != 'E' || s[1] != 'x'
  {
    var d := NatToString(id);
    var m := MessageHead + d + ". " + ExpiryText;
    var h := |MessageHead|;
    if k == 0 {
      assert m[0] == 'E' && m[1] == 'n';
    } else if k < h {
      assert m[k] == MessageHead[k];
      HeadLetters();
    } else if k < h + |d| {
      assert m[k] == d[k - h];
    } else {
      assert m[k] == ". "[k - h - |d|];
    }
  }

  /** The message holds neither LIMIT nor STOP in any letter case, so the handler places an instant order. */
  lemma MessageSelectsInstant(id: nat)
    ensures TradeSignalLogic.SelectOrderType(MessageFor(id)) == TradeSignalLogic.InstantOrder
  {
    var d := NatToString(id);
    var m := MessageFor(id);
    var up := TradeSignalLogic.Upper(m);
    var body := m[..|m| - 1];
    assert m == body + "s";
    TradeSignalLogic.UpperAppend(body, "s");
    var upBody := TradeSignalLogic.Upper(body);
    assert up == upBody + "S";
    forall i | 0 <= i < |m|
      ensures TradeSignalLogic.UpperChar(m[i]) != 'L'
      ensures i < |m| - 1 ==> TradeSignalLogic.UpperChar(m[i]) != 'S'
    {
      MessageChar(id, i);
    }
    assert 'L' !in up;
    assert 'S' !in upBody;
    TradeSignalLogic.AbsentInitial(up, "LIMIT");
    TradeSignalLogic.InitialOnlyAtEnd(upBody, "S", "STOP");
  }

  /** Each character of the message is a digit or one of the fixed text's, and only the last is an 's'. */
  lemma MessageChar(id: nat, i: nat)
    requires i < |MessageFor(id)|
    ensures var c := MessageFor(id)[i];
      c != 'l' && c != 'L' && (i < |MessageFor(id)| - 1 ==> c != 's' && c != 'S')
  {
    var d := NatToString(id);
    var m := MessageFor(id);
    var h := |MessageHead|;
    if i < h {
      assert m[i] == MessageHead[i];
      HeadLetters();
    } else if i < h + |d| {
      assert m[i] == d[i - h];
    } else if i < h + |d| + 2 {
      assert m[i] == ". "[i - h - |d|];
    } else {
      assert m[i] == ExpiryText[i - h - |d| - 2];
      ExpiryLetters();
    }
  }

  /** The message head has no 'l' or 's' in either case, and its only 'E' is its first letter. */
  lemma HeadLetters()
    ensures forall j :: 0 <= j < |MessageHead| ==> MessageHead[j] !in "lLsS"
    ensures forall j :: 1 <= j < |MessageHead| ==> MessageHead[j] != 'E'
  {
  }

  /** The expiry text has no 'l' in either case, and no 's' before its last letter. */
  lemma ExpiryLetters()
    ensures forall j :: 0 <= j < |ExpiryText| ==> ExpiryText[j] !in "lL"
    ensures forall j :: 0 <= j < |ExpiryText| - 1 ==> ExpiryText[j] !in "sS"
  {
  }

  /** A trade of this symbol and timeframe, mitigated on `today`, not yet converted. */
  predicate DueToday(tr: TradeRow, symbol: string, timeframe: string, today: int)
  {
    tr.symbol == symbol && tr.timeframe == timeframe && DayOf(tr.mitigatedAt) == today && !tr.converted
  }

  /** Ids of today's unconverted trades of the symbol and timeframe, in table order. */
  function TodayIds(rows: seq<TradeRow>, symbol: string, timeframe: string, today: int): (ids: seq<nat>)
    ensures forall j :: 0 <= j < |ids| ==> 1 <= ids[j] <= |rows|
    ensures forall i :: 0 <= i < |rows| ==> (i + 1 in ids <==> DueToday(rows[i], symbol, timeframe, today))
    ensures forall j, k :: 0 <= j < k < |ids| ==> ids[j] < ids[k]
  {
    if |rows| == 0 then []
    else
      var front := TodayIds(rows[..|rows| - 1], symbol, timeframe, today);
      assert forall i :: 0 <= i < |rows| - 1 ==> rows[..|rows| - 1][i] == rows[i];
      if DueToday(rows[|rows| - 1], symbol, timeframe, today) then front + [|rows|] else front
  }

  /** The signal rows inserted for the trades `ids`, in order. */
  function SignalRows(rows: seq<TradeRow>, ids: seq<nat>): (r: seq<SignalRow>)
    requires forall j :: 0 <= j < |ids| ==> 1 <= ids[j] <= |rows|
    ensures |r| == |ids|
    ensures forall j :: 0 <= j < |ids| ==> r[j] == SignalRowFor(rows[ids[j] - 1], ids[j])
  {
    seq(|ids|, j requires 0 <= j < |ids| => SignalRowFor(rows[ids[j] - 1], ids[j]))
  }

  /** _convert_to_signal for trade `id`: inserts its signal, then flags the trade as converted. */
  method ConvertToSignal(trades: TradeTable, signals: SignalTable, id: nat)
    requires 1 <= id <= |trades.rows|
    modifies trades, signals
    ensures signals.rows == old(signals.rows) + [SignalRowFor(old(trades.rows)[id - 1], id)]
    ensures trades.rows == old(trades.rows)[id - 1 := old(trades.rows)[id - 1].(converted := true)]
  {
    var tr := trades.rows[id - 1];
    SignalAccepted(tr, id);
    var r := signals.Insert(SignalFor(tr, id));
    trades.rows := trades.rows[id - 1 := tr.(converted := true)];
  }

  /** The trade table after a run: today's unconverted trades of the symbol and timeframe flagged as converted. */
  function AfterConversion(rows: seq<TradeRow>, symbol: string, timeframe: string, today: int): (r: seq<TradeRow>)
    ensures |r| == |rows|
    ensures forall i :: 0 <= i < |rows| ==>
      r[i] == (if DueToday(rows[i], symbol, timeframe, today) then rows[i].(converted := true) else rows[i])
  {
    seq(|rows|, i requires 0 <= i < |rows| =>
      if DueToday(rows[i], symbol, timeframe, today) then rows[i].(converted := true) else rows[i])
  }

  /** The trades listed in `done` are flagged as converted; every other row is as it started. */
  ghost predicate ConvertedOnly(rows: seq<TradeRow>, start: seq<TradeRow>, done: seq<nat>)
  {
    |rows| == |start| &&
    forall i :: 0 <= i < |start| ==> rows[i] == (if i + 1 in done then start[i].(converted := true) else start[i])
  }

  /** Converting one more trade, not converted before, extends the converted list by it. */
  lemma ConvertedOneMore(before: seq<TradeRow>, start: seq<TradeRow>, done: seq<nat>, id: nat)
    requires ConvertedOnly(before, start, done)
    requires 1 <= id <= |start| && id !in done
    ensures ConvertedOnly(before[id - 1 := before[id - 1].(converted := true)], start, done + [id])
  {
    assert before[id - 1] == start[id - 1];
  }

  /** One more converted trade appends its signal row. */
  lemma SignalRowsOneMore(rows: seq<TradeRow>, ids: seq<nat>, id: nat)
    requires forall j :: 0 <= j < |ids| ==> 1 <= ids[j] <= |rows|
    requires 1 <= id <= |rows|
    ensures SignalRows(rows, ids + [id]) == SignalRows(rows, ids) + [SignalRowFor(rows[id - 1], id)]
  {
    var a := SignalRows(rows, ids + [id]);
    var b := SignalRows(rows, ids) + [SignalRowFor(rows[id - 1], id)];
    assert |a| == |b|;
    forall j | 0 <= j < |a|
      ensures a[j] == b[j]
    {
      if j < |ids| {
        assert (ids + [id])[j] == ids[j];
      }
    }
  }

  /**
   * run_step: each of today's unconverted trades of the symbol and timeframe
   * is converted once, whatever the session bias; its signal is appended and
   * the trade is flagged, and no other trade changes.
   */
  method RunStep(trades: TradeTable, signals: SignalTable, symbol: string, timeframe: string, today: int)
    modifies trades, signals
    ensures trades.rows == AfterConversion(old(trades.rows), symbol, timeframe, today)
    ensures signals.rows == old(signals.rows) + SignalRows(old(trades.rows), TodayIds(old(trades.rows), symbol, timeframe, today))
  {
    var ids := TodayIds(trades.rows, symbol, timeframe, today);
    ghost var start := trades.rows;
    ghost var startSignals := signals.rows;
    var k := 0;
    while k < |ids|
      invariant 0 <= k <= |ids|
      invariant ConvertedOnly(trades.rows, start, ids[..k])
      invariant signals.rows == startSignals + SignalRows(start, ids[..k])
    {
      var id := ids[k];
      assert id !in ids[..k];
      assert ids[..k + 1] == ids[..k] + [id];
      ConvertedOneMore(trades.rows, start, ids[..k], id);
      SignalRowsOneMore(start, ids[..k], id);
      assert trades.rows[id - 1] == start[id - 1];
      ConvertToSignal(trades, signals, id);
      k := k + 1;
    }
    assert ids[..|ids|] == ids;
    assert trades.rows == AfterConversion(start, symbol, timeframe, today);
  }

  /** A trade whose id is listed as due today is due today. */
  lemma ListedIsDue(rows: seq<TradeRow>, symbol: string, timeframe: string, today: int, id: nat)
    requires id in TodayIds(rows, symbol, timeframe, today)
    ensures 1 <= id <= |rows| && DueToday(rows[id - 1], symbol, timeframe, today)
  {
    var ids := TodayIds(rows, symbol, timeframe, today);
    var j :| 0 <= j < |ids| && ids[j] == id;
    assert (id - 1) + 1 in ids;
  }

  /**
   * After a run nothing of the symbol and timeframe from `today` is left to
   * convert, so a second run on the same day converts nothing more.
   */
  lemma RunLeavesNoneDue(rows: seq<TradeRow>, symbol: string, timeframe: string, today: int)
    ensures TodayIds(AfterConversion(rows, symbol, timeframe, today), symbol, timeframe, today) == []
    ensures AfterConversion(AfterConversion(rows, symbol, timeframe, today), symbol, timeframe, today) ==
      AfterConversion(rows, symbol, timeframe, today)
  {
    var after := AfterConversion(rows, symbol, timeframe, today);
    var ids := TodayIds(after, symbol, timeframe, today);
    if |ids| > 0 {
      ListedIsDue(after, symbol, timeframe, today, ids[0]);
      assert false;
    }
  }
}

=== FILE: fib_backtest.dfy ===
/**
 * The backtest of the swing-point Fibonacci strategy: every trade setup of
 * the data symbol and timeframe is replayed over the candles from its
 * discovery on. The trade waits for a candle that touches the entry, gives
 * up once the wait exceeds 1800 minutes from the first candle, and after
 * entry exits at the stop or at a fixed target 7 price units away.
 */
module FibBacktest {
  import opened Common
  import opened FibStore
  import BosFvgStore
  import TradeSignalLogic

  /** The longest wait for the entry, in minutes from the first candle. */
  const MaxWaitMin: int := 1800
  /** The distance from the entry to the target, in price units. */
  const TargetDistance: real := 7.0

  datatype Reason = SlHit | TpHit

  /** How a replay ends: the entry never filled in time, an exit, or entered without an exit. */
  datatype Outcome =
    | Expired
    | Exited(entryTime: int, exitTime: int, exitPrice: real, reason: Reason)
    | TimedOut(entryTime: int)

  /** An exit on one candle: its price and why. */
  datatype Exit = Exit(price: real, reason: Reason)

  /** The target the backtest uses: 7 below the entry for a bearish setup, 7 above otherwise. */
  function TakeProfit(trend: Trend, entry: real): (tp: real)
    ensures Abs(tp - entry) == TargetDistance
    ensures tp < entry <==> trend == BearishTrend
  {
    if trend == BearishTrend then entry - TargetDistance else entry + TargetDistance
  }

  /** A candle fills the entry when its range holds the entry price. */
  predicate Touches(c: Candle, entry: real)
  {
    c.low <= entry <= c.high
  }

  /**
   * The exit a candle gives an entered trade: a bullish trade checks the stop
   * before the target, any other checks the target before the stop.
   */
  function ExitAt(c: Candle, sl: real, tp: real, trend: Trend): (e: Option<Exit>)
    ensures e.Some? && e.value.reason == SlHit ==> e.value.price == sl
    ensures e.Some? && e.value.reason == TpHit ==> e.value.price == tp
    ensures e.None? <==>
      (if trend == BullishTrend then c.low > sl && c.high < tp else c.low > tp && c.high < sl)
  {
    if trend == BullishTrend then
      if c.low <= sl then Some(Exit(sl, SlHit))
      else if c.high >= tp then Some(Exit(tp, TpHit))
      else None
    else
      if c.low <= tp then Some(Exit(tp, TpHit))
      else if c.high >= sl then Some(Exit(sl, SlHit))
      else None
  }

  /** The replay of an entered trade from candle `j` on. */
  function ExitFrom(df: seq<Candle>, j: nat, entryTime: int, sl: real, tp: real, trend: Trend): (o: Outcome)
    requires j <= |df|
    ensures o.Exited? || o == TimedOut(entryTime)
    ensures o.Exited? ==> o.entryTime == entryTime
    decreases |df| - j
  {
    if j == |df| then TimedOut(entryTime)
    else match ExitAt(df[j], sl, tp, trend)
      case Some(e) => Exited(entryTime, df[j].time, e.price, e.reason)
      case None => ExitFrom(df, j + 1, entryTime, sl, tp, trend)
  }

  /** The replay of a trade still waiting for its entry, from candle `i` on. */
  function WaitFrom(df: seq<Candle>, i: nat, entry: real, sl: real, tp: real, trend: Trend, expireAfter: int): (o: Outcome)
    requires i <= |df|
    // a trade that entered did so on a candle from `i` on that touches the entry, before the wait expired
    ensures !o.Expired? ==>
      o.entryTime <= expireAfter &&
      exists j :: i <= j < |df| && o.entryTime == df[j].time && Touches(df[j], entry)
    decreases |df| - i
  {
    if i == |df| then Expired
    else if df[i].time > expireAfter then Expired
    else if Touches(df[i], entry) then ExitFrom(df, i, df[i].time, sl, tp, trend)
    else WaitFrom(df, i + 1, entry, sl, tp, trend, expireAfter)
  }

  /** The whole replay over a non-empty frame: the wait ends 1800 minutes after its first candle. */
  function Simulate(df: seq<Candle>, entry: real, sl: real, tp: real, trend: Trend): (o: Outcome)
    requires |df| > 0
    ensures !o.Expired? ==> o.entryTime <= df[0].time + MaxWaitMin * 60
  {
    WaitFrom(df, 0, entry, sl, tp, trend, df[0].time + MaxWaitMin * 60)
  }

  /**
   * `_simulate_trade`: one pass over the candles with an `entered` flag; an
   * empty frame fails when it reads its first candle (`None`).
   */
  method SimulateTrade(df: seq<Candle>, entry: real, sl: real, tp: real, trend: Trend) returns (r: Option<Outcome>)
    ensures r.None? <==> |df| == 0
    ensures r.Some? ==> r.value == Simulate(df, entry, sl, tp, trend)
  {
    if |df| == 0 {
      return None;
    }
    var expireAfter := df[0].time + MaxWaitMin * 60;
    ghost var goal := Simulate(df, entry, sl, tp, trend);
    var entered := false;
    var entryTime := 0;
    var i := 0;
    while i < |df|
      invariant 0 <= i <= |df|
      invariant !entered ==> WaitFrom(df, i, entry, sl, tp, trend, expireAfter) == goal
      invariant entered ==> ExitFrom(df, i, entryTime, sl, tp, trend) == goal
    {
      var c := df[i];
      if !entered && c.time > expireAfter {
        return Some(Expired);
      }
      if !entered {
        if c.low <= entry <= c.high {
          entered := true;
          entryTime := c.time;
        } else {
          i := i + 1;
          continue;
        }
      }
      if trend == BullishTrend {
        if c.low <= sl {
          return Some(Exited(entryTime, c.time, sl, SlHit));
        }
        if c.high >= tp {
          return Some(Exited(entryTime, c.time, tp, TpHit));
        }
      } else {
        if c.low <= tp {
          return Some(Exited(entryTime, c.time, tp, TpHit));
        }
        if c.high >= sl {
          return Some(Exited(entryTime, c.time, sl, SlHit));
        }
      }
      i := i + 1;
    }
    if !entered {
      return Some(Expired);
    } else {
      return Some(TimedOut(entryTime));
    }
  }

  // ---------------------------------------------------------------------
  // Properties of a replay
  // ---------------------------------------------------------------------

  /** Some candle among `i .. k` comes after the end of the wait. */
  predicate LateBy(df: seq<Candle>, i: nat, k: nat, expireAfter: int)
    requires k < |df|
  {
    exists j :: i <= j <= k && df[j].time > expireAfter
  }

  /**
   * A wait from candle `i` expires exactly when every candle that would fill
   * the entry comes at or after a candle past the end of the wait.
   */
  lemma {:induction false} WaitExpiredIff(df: seq<Candle>, i: nat, entry: real, sl: real, tp: real, trend: Trend, expireAfter: int)
    requires i <= |df|
    ensures WaitFrom(df, i, entry, sl, tp, trend, expireAfter) == Expired <==>
      forall k :: i <= k < |df| && Touches(df[k], entry) ==> LateBy(df, i, k, expireAfter)
    decreases |df| - i
  {
    if i < |df| {
      if df[i].time > expireAfter {
        forall k | i <= k < |df| && Touches(df[k], entry)
          ensures LateBy(df, i, k, expireAfter)
        {
          assert i <= i <= k && df[i].time > expireAfter;
        }
      } else if Touches(df[i], entry) {
        assert !LateBy(df, i, i, expireAfter);
      } else {
        WaitExpiredIff(df, i + 1, entry, sl, tp, trend, expireAfter);
        forall k | i + 1 <= k < |df|
          ensures LateBy(df, i, k, expireAfter) <==> LateBy(df, i + 1, k, expireAfter)
        {
          if LateBy(df, i, k, expireAfter) {
            var j :| i <= j <= k && df[j].time > expireAfter;
            assert j != i;
          }
        }
      }
    }
  }

  /**
   * The entry fills on the first candle that touches it, provided no candle up
   * to it is past the wait, and that same candle is the first checked for an
   * exit.
   */
  lemma {:induction false} EntryAtFirstTouch(df: seq<Candle>, s: nat, i: nat, entry: real, sl: real, tp: real, trend: Trend, expireAfter: int)
    requires s <= i < |df|
    requires Touches(df[i], entry)
    requires forall k :: s <= k < i ==> !Touches(df[k], entry)
    requires forall k :: s <= k <= i ==> df[k].time <= expireAfter
    ensures WaitFrom(df, s, entry, sl, tp, trend, expireAfter) == ExitFrom(df, i, df[i].time, sl, tp, trend)
    decreases i - s
  {
    if s < i {
      EntryAtFirstTouch(df, s + 1, i, entry, sl, tp, trend, expireAfter);
    }
  }

  /** Candle `k` gives the exit `o` records. */
  predicate ExitCandle(df: seq<Candle>, k: nat, o: Outcome, sl: real, tp: real, trend: Trend)
    requires o.Exited?
  {
    k < |df| && df[k].time == o.exitTime && ExitAt(df[k], sl, tp, trend) == Some(Exit(o.exitPrice, o.reason))
  }

  /**
   * An exit happens on a candle from `j` on whose exit rule fires, at the stop
   * or the target; a replay without an exit saw no such candle.
   */
  lemma {:induction false} ExitFromSound(df: seq<Candle>, j: nat, entryTime: int, sl: real, tp: real, trend: Trend)
    requires j <= |df|
    ensures var o := ExitFrom(df, j, entryTime, sl, tp, trend);
      && (o.Exited? ==> exists k :: j <= k && ExitCandle(df, k, o, sl, tp, trend))
      && (o.TimedOut? <==> forall k :: j <= k < |df| ==> ExitAt(df[k], sl, tp, trend).None?)
    decreases |df| - j
  {
    if j < |df| {
      var o := ExitFrom(df, j, entryTime, sl, tp, trend);
      if ExitAt(df[j], sl, tp, trend).Some? {
        assert ExitCandle(df, j, o, sl, tp, trend);
      } else {
        ExitFromSound(df, j + 1, entryTime, sl, tp, trend);
        assert o == ExitFrom(df, j + 1, entryTime, sl, tp, trend);
        if o.Exited? {
          var k :| j + 1 <= k && ExitCandle(df, k, o, sl, tp, trend);
          assert j <= k;
        }
      }
    }
  }

  /**
   * On the exit candle a bullish trade that reaches both levels is stopped
   * out, and a bearish one takes its target: the order of the checks decides.
   */
  lemma ExitPriority(c: Candle, sl: real, tp: real, trend: Trend)
    requires c.low <= sl && c.high >= tp && c.low <= tp && c.high >= sl
    ensures trend == BullishTrend ==> ExitAt(c, sl, tp, trend) == Some(Exit(sl, SlHit))
    ensures trend != BullishTrend ==> ExitAt(c, sl, tp, trend) == Some(Exit(tp, TpHit))
  {
  }

  /** With candles in time order, a trade never exits before it enters. */
  lemma {:induction false} ExitNotBeforeEntry(df: seq<Candle>, j: nat, sl: real, tp: real, trend: Trend)
    requires j < |df| && BosFvgStore.Chronological(df)
    ensures var o := ExitFrom(df, j, df[j].time, sl, tp, trend);
      o.Exited? ==> o.entryTime <= o.exitTime
  {
    var o := ExitFrom(df, j, df[j].time, sl, tp, trend);
    ExitFromSound(df, j, df[j].time, sl, tp, trend);
    if o.Exited? {
      var k :| j <= k && ExitCandle(df, k, o, sl, tp, trend);
      assert k == j || df[j].time < df[k].time;
    }
  }

  // ---------------------------------------------------------------------
  // Metrics
  // ---------------------------------------------------------------------

  /** Result in pips, in multiples of the risk, and the duration in minutes when the trade exited. */
  datatype Metrics = Metrics(pips: real, r: real, duration: Option<int>)

  /** Pips per price unit: 10 for a gold symbol, 10000 otherwise. */
  function PipFactor(symbol: string): (f: real)
    ensures TradeSignalLogic.Contains(symbol, "XAU") ==> f == 10.0
    ensures !TradeSignalLogic.Contains(symbol, "XAU") ==> f == 10000.0
  {
    if TradeSignalLogic.Contains(symbol, "XAU") then 10.0 else 10000.0
  }

  /** Python's `int` of a quotient: division rounded toward zero. */
  function TruncDiv(a: int, b: int): (q: int)
    requires b > 0
    // the quotient rounded toward zero: the remainder has the sign of `a`
    // and is smaller than `b` in magnitude
    ensures a >= 0 ==> 0 <= a - q * b < b
    ensures a < 0 ==> -b < a - q * b <= 0
  {
    if a >= 0 then a / b else -((-a) / b)
  }

  /**
   * `_calculate_metrics`: no exit gives (0, 0, none); otherwise the pips
   * gained on the trade's side, that gain over the pips risked (0 with no
   * risk) and the whole minutes between entry and exit.
   */
  function CalculateMetrics(symbol: string, entry: real, sl: real, o: Outcome, trend: Trend): (m: Metrics)
    ensures !o.Exited? ==> m == Metrics(0.0, 0.0, None)
    // the duration is the whole minutes from entry to exit, rounded toward zero
    ensures o.Exited? ==>
      (m.duration.Some? &&
       var span := o.exitTime - o.entryTime;
       (span >= 0 ==> 0 <= span - 60 * m.duration.value < 60) &&
       (span < 0 ==> -60 < span - 60 * m.duration.value <= 0))
  {
    match o
    case Exited(entryTime, exitTime, exitPrice, _) =>
      var f := PipFactor(symbol);
      var move := if trend == BearishTrend then entry - exitPrice else exitPrice - entry;
      var pips := move * f;
      var risk := Abs(entry - sl) * f;
      var r := if risk != 0.0 then pips / risk else 0.0;
      Metrics(pips, r, Some(TruncDiv(exitTime - entryTime, 60)))
    case _ => Metrics(0.0, 0.0, None)
  }

  /** The result in multiples of the risk does not depend on the pip factor: it is the price move over the stop distance. */
  lemma ResultInRisk(symbol: string, entry: real, sl: real, o: Outcome, trend: Trend)
    requires o.Exited?
    ensures var m := CalculateMetrics(symbol, entry, sl, o, trend);
      var move := if trend == BearishTrend then entry - o.exitPrice else o.exitPrice - entry;
      && m.pips == move * PipFactor(symbol)
      && m.r == (if entry != sl then move / Abs(entry - sl) else 0.0)
  {
    var f := PipFactor(symbol);
    var move := if trend == BearishTrend then entry - o.exitPrice else o.exitPrice - entry;
    var d := Abs(entry - sl);
    if entry != sl {
      MulPos(d, f);
      CancelFactor(move, d, f);
    } else {
      assert d * f == 0.0;
    }
  }

  /** A common non-zero factor cancels out of a quotient. */
  lemma CancelFactor(m: real, d: real, f: real)
    requires d != 0.0 && f != 0.0
    ensures (m * f) / (d * f) == m / d
  {
    var q := m / d;
    assert m == q * d;
    assert m * f == q * (d * f);
  }

  /** A stop on the losing side of the entry loses exactly one risk unit. */
  lemma StopLosesOneRisk(symbol: string, entry: real, sl: real, o: Outcome, trend: Trend)
    requires o.Exited? && o.reason == SlHit && o.exitPrice == sl
    requires trend == BearishTrend ==> sl > entry
    requires trend != BearishTrend ==> sl < entry
    ensures CalculateMetrics(symbol, entry, sl, o, trend).r == -1.0
  {
    ResultInRisk(symbol, entry, sl, o, trend);
    var d := Abs(entry - sl);
    var move := if trend == BearishTrend then entry - sl else sl - entry;
    assert move == -d;
    assert move / d == -1.0;
  }

  /** A target hit at the backtest's target gains 7 price units, in pips. */
  lemma TargetGainsDistance(symbol: string, entry: real, sl: real, o: Outcome, trend: Trend)
    requires o.Exited? && o.reason == TpHit && o.exitPrice == TakeProfit(trend, entry)
    ensures CalculateMetrics(symbol, entry, sl, o, trend).pips == TargetDistance * PipFactor(symbol)
  {
    ResultInRisk(symbol, entry, sl, o, trend);
  }

  // ---------------------------------------------------------------------
  // The run over all setups
  // ---------------------------------------------------------------------

  /** One row of the results. */
  datatype BacktestResult = BacktestResult(
    setupId: nat, symbol: string, timeframe: string, direction: Side,
    outcome: Outcome, entry: real, sl: real, tp: real, metrics: Metrics)

  /**
   * `_backtest_setup` over `feed`, the candle frame in time order: the
   * candles from the setup's discovery on, replayed with the backtest's
   * target. A symbol without a candle source, or no candle from the
   * discovery on, fails (`None`).
   */
  function BacktestSetup(ts: TradeSetupRow, id: nat, feed: seq<Candle>): (r: Option<BacktestResult>)
    ensures r.Some? ==>
      && r.value.setupId == id && r.value.entry == ts.entry && r.value.sl == ts.sl
      && r.value.tp == TakeProfit(ts.trend, ts.entry)
      && (r.value.direction == Buy <==> ts.trend == BullishTrend)
  {
    if !(ts.symbol == DataSymbol && ts.timeframe == DataTimeframe) then None
    else
      var df := BosFvgStore.After(feed, ts.discoveredAt - 1);
      if |df| == 0 then None
      else
        var tp := TakeProfit(ts.trend, ts.entry);
        var o := Simulate(df, ts.entry, ts.sl, tp, ts.trend);
        Some(BacktestResult(id, ts.symbol, ts.timeframe, if ts.trend == BullishTrend then Buy else Sell,
                            o, ts.entry, ts.sl, tp, CalculateMetrics(ts.symbol, ts.entry, ts.sl, o, ts.trend)))
  }

  /** The replay covers exactly the candles at or after the discovery. */
  lemma BacktestCandles(feed: seq<Candle>, t: int)
    ensures forall c :: c in BosFvgStore.After(feed, t - 1) <==> c in feed && c.time >= t
  {
  }

  /** `_get_all_setups`: the setups of the data symbol and timeframe, in table order. */
  predicate Selected(ts: TradeSetupRow)
  {
    ts.symbol == DataSymbol && ts.timeframe == DataTimeframe
  }

  /** `res` is the backtest of the selected setup it names. */
  predicate ResultOf(rows: seq<TradeSetupRow>, feed: seq<Candle>, res: BacktestResult)
  {
    1 <= res.setupId <= |rows| && Selected(rows[res.setupId - 1])
    && BacktestSetup(rows[res.setupId - 1], res.setupId, feed) == Some(res)
  }

  /** The results of the first `n` rows: one per selected setup whose backtest does not fail. */
  function Results(rows: seq<TradeSetupRow>, feed: seq<Candle>, n: nat): (r: seq<BacktestResult>)
    requires n <= |rows|
    ensures |r| <= n
    ensures forall k :: 0 <= k < |r| ==> r[k].setupId <= n && ResultOf(rows, feed, r[k])
    ensures forall k, l :: 0 <= k < l < |r| ==> r[k].setupId < r[l].setupId
  {
    if n == 0 then []
    else
      var front := Results(rows, feed, n - 1);
      var b := BacktestSetup(rows[n - 1], n, feed);
      if Selected(rows[n - 1]) && b.Some? then front + [b.value] else front
  }

  /** A selected setup whose backtest succeeds has its result in the run. */
  lemma {:induction false} ResultsComplete(rows: seq<TradeSetupRow>, feed: seq<Candle>, n: nat, i: nat)
    requires i < n <= |rows|
    requires Selected(rows[i]) && BacktestSetup(rows[i], i + 1, feed).Some?
    ensures BacktestSetup(rows[i], i + 1, feed).value in Results(rows, feed, n)
    decreases n
  {
    if i < n - 1 {
      ResultsComplete(rows, feed, n - 1, i);
    }
  }

  /**
   * `run_all` over the setups table: each selected setup is backtested in
   * order, a failing one is skipped, and the results are collected.
   */
  method RunAll(rows: seq<TradeSetupRow>, feed: seq<Candle>) returns (results: seq<BacktestResult>)
    ensures results == Results(rows, feed, |rows|)
  {
    results := [];
    var n := 0;
    while n < |rows|
      invariant 0 <= n <= |rows|
      invariant results == Results(rows, feed, n)
    {
      results := CollectOne(rows, feed, n, results);
      n := n + 1;
    }
  }

  /** One turn of `run_all`: the backtest of row `n`, kept when it is selected and succeeds. */
  method CollectOne(rows: seq<TradeSetupRow>, feed: seq<Candle>, n: nat, results: seq<BacktestResult>)
    returns (next: seq<BacktestResult>)
    requires n < |rows| && results == Results(rows, feed, n)
    ensures next == Results(rows, feed, n + 1)
  {
    next := results;
    var ts := rows[n];
    if Selected(ts) {
      var b := BacktestOne(ts, n + 1, feed);
      if b.Some? {
        next := results + [b.value];
      }
    }
  }

  /** `_backtest_setup` as a computation: the replay runs the loop of `SimulateTrade`. */
  method BacktestOne(ts: TradeSetupRow, id: nat, feed: seq<Candle>) returns (r: Option<BacktestResult>)
    ensures r == BacktestSetup(ts, id, feed)
  {
    if !(ts.symbol == DataSymbol && ts.timeframe == DataTimeframe) {
      return None;
    }
    var df := BosFvgStore.After(feed, ts.discoveredAt - 1);
    var tp := TakeProfit(ts.trend, ts.entry);
    var o := SimulateTrade(df, ts.entry, ts.sl, tp, ts.trend);
    if o.None? {
      return None;
    }
    var direction := if ts.trend == BullishTrend then Buy else Sell;
    var metrics := CalculateMetrics(ts.symbol, ts.entry, ts.sl, o.value, ts.trend);
    return Some(BacktestResult(id, ts.symbol, ts.timeframe, direction, o.value, ts.entry, ts.sl, tp, metrics));
  }
}

=== FILE: fib_signal.dfy ===
/**
 * The signal stage of the swing-point Fibonacci strategy: every unprocessed
 * trade setup of one symbol and timeframe becomes a signal of the
 * trading-signals table (both range ends at the entry, both targets at the
 * take profit) and is marked processed.
 */
module FibSignal {
  import opened Common
  import opened FibStore
  import opened SignalsDb
  import TradeSignalLogic

  const SignalComment: string := "Major Wave Fib"
  const MessageHead: string := "Entry from Fib trade setup ID "

  /** "buy" for a bullish setup, "sell" for any other. */
  function ActionFor(trend: Trend): string
  {
    if trend == BullishTrend then "buy" else "sell"
  }

  /** The side a setup trades on: buy for a bullish setup, sell otherwise. */
  function SideFor(trend: Trend): Side
  {
    if trend == BullishTrend then Buy else Sell
  }

  /** The signal's message, naming the trade setup. */
  function MessageFor(id: nat): string
  {
    MessageHead + NatToString(id) + "."
  }

  /** `_convert_to_signal`: the signal dictionary of trade setup `id`. */
  function SignalFor(ts: TradeSetupRow, id: nat): map<string, Value>
  {
    map["instrument" := Text(ts.symbol), "action" := Text(ActionFor(ts.trend)),
        "range1" := Num(ts.entry), "range2" := Num(ts.entry),
        "tp1" := Num(ts.tp), "tp2" := Num(ts.tp), "sl" := Num(ts.sl),
        "comment" := Text(SignalComment), "message" := Text(MessageFor(id))]
  }

  /**
   * The row the signals table is meant to receive for trade setup `id`: a
   * pending signal on the setup's side, both range ends at the entry, both
   * targets at the take profit, the setup's stop, its risk and reward, and
   * the message naming the setup.
   */
  function SignalRowFor(ts: TradeSetupRow, id: nat): SignalRow
  {
    var side := SideFor(ts.trend);
    var rr := RiskReward(side, ts.entry, ts.entry, ts.sl, ts.tp);
    SignalRow(Text(ts.symbol), side, ts.entry, ts.entry, ts.tp, ts.tp, ts.sl,
              Text(SignalComment), Text(MessageFor(id)), rr.0, rr.1, PendingStatus, None, None)
  }

  /** The action text parses back to the setup's side. */
  lemma ActionParsed(trend: Trend)
    ensures ParseSide(ActionFor(trend)) == Some(SideFor(trend))
  {
    assert Lower("buy") == "buy";
    assert Lower("sell") == "sell";
  }

  /**
   * insert_signal accepts the signal of every trade setup and inserts exactly
   * the intended row: a buy exactly for a bullish setup, with risk and reward
   * the entry's distances to the stop and to the target.
   */
  lemma SignalAccepted(ts: TradeSetupRow, id: nat)
    ensures CheckSignal(SignalFor(ts, id)) == Accept(SignalRowFor(ts, id))
    ensures SignalRowFor(ts, id).side == Buy <==> ts.trend == BullishTrend
    ensures SignalRowFor(ts, id).risk == Abs(ts.entry - ts.sl)
    ensures SignalRowFor(ts, id).reward == Abs(ts.tp - ts.entry)
  {
    var s := SignalFor(ts, id);
    assert HasRequiredKeys(s);
    assert s["action"] == Text(ActionFor(ts.trend));
    ActionParsed(ts.trend);
    var vs := [s["range1"], s["range2"], s["sl"], s["tp1"], s["tp2"]];
    assert vs == [Num(ts.entry), Num(ts.entry), Num(ts.sl), Num(ts.tp), Num(ts.tp)];
    var c := ToFloats(vs);
    assert c.Converted?;
    assert c.xs == [ts.entry, ts.entry, ts.sl, ts.tp, ts.tp];
  }

  /** A word whose first two letters never occur side by side in a text does not occur in it. */
  lemma NoPairNoWord(s: string, w: string)
    requires |w| >= 2
    requires forall k :: 0 <= k < |s| - 1 ==> !(s[k] == w[0] && s[k + 1] == w[1])
    ensures !TradeSignalLogic.Contains(s, w)
  {
    forall k | 0 <= k <= |s| && k + |w| <= |s|
      ensures !TradeSignalLogic.OccursAt(s, w, k)
    {
      assert s[k..k + |w|][0] == s[k] && s[k..k + |w|][1] == s[k + 1];
    }
  }

  /** The message head has no 'l' in either case, and each of its 's' letters is followed by something other than a 't'. */
  lemma HeadLetters()
    ensures forall j :: 0 <= j < |MessageHead| ==> MessageHead[j] !in "lL"
    ensures forall j :: 0 <= j < |MessageHead| && MessageHead[j] in "sS" ==>
      j + 1 < |MessageHead| && MessageHead[j + 1] !in "tT"
  {
  }

  /** Each character of the message is a digit, a full stop or one of the head's. */
  lemma MessageChar(id: nat, i: nat)
    requires i < |MessageFor(id)|
    ensures var m := MessageFor(id);
      && m[i] !in "lL"
      && (m[i] in "sS" ==> i + 1 < |m| && m[i + 1] !in "tT")
  {
    var d := NatToString(id);
    var m := MessageFor(id);
    var h := |MessageHead|;
    HeadLetters();
    if i < h {
      assert m[i] == MessageHead[i];
      if m[i] in "sS" {
        assert m[i + 1] == MessageHead[i + 1];
      }
    } else if i < h + |d| {
      assert m[i] == d[i - h];
      assert IsDigit(d[i - h]);
    } else {
      assert m[i] == '.';
    }
  }

  /** The message holds neither LIMIT nor STOP in any letter case, so the order handler places an instant order. */
  lemma MessageSelectsInstant(id: nat)
    ensures TradeSignalLogic.SelectOrderType(MessageFor(id)) == TradeSignalLogic.InstantOrder
  {
    var m := MessageFor(id);
    var up := TradeSignalLogic.Upper(m);
    forall i | 0 <= i < |m|
      ensures up[i] != 'L'
      ensures up[i] == 'S' ==> i + 1 < |m| && up[i + 1] != 'T'
    {
      MessageChar(id, i);
      if up[i] == 'S' {
        assert m[i] in "sS";
        MessageChar(id, i + 1);
      }
    }
    assert 'L' !in up;
    TradeSignalLogic.AbsentInitial(up, "LIMIT");
    NoPairNoWord(up, "STOP");
  }

  /**
   * `_entry_already_hit`: a bullish entry is hit once some candle's high
   * reaches it, a bearish one once some candle's low reaches it; any other
   * trend never is.
   */
  function EntryAlreadyHit(df: seq<Candle>, entry: real, trend: Trend): (hit: bool)
    ensures hit ==> |df| > 0 && trend != NeutralTrend
  {
    if |df| == 0 then false
    else
      var c := df[|df| - 1];
      EntryAlreadyHit(df[..|df| - 1], entry, trend)
      || (trend == BullishTrend && c.high >= entry)
      || (trend == BearishTrend && c.low <= entry)
  }

  /** The entry test holds exactly when a candle crosses the entry from the side the trend approaches it. */
  lemma {:induction false} EntryAlreadyHitIff(df: seq<Candle>, entry: real, trend: Trend)
    ensures EntryAlreadyHit(df, entry, trend) <==>
      (trend == BullishTrend && exists i :: 0 <= i < |df| && df[i].high >= entry)
      || (trend == BearishTrend && exists i :: 0 <= i < |df| && df[i].low <= entry)
    decreases |df|
  {
    if |df| > 0 {
      var front := df[..|df| - 1];
      EntryAlreadyHitIff(front, entry, trend);
      assert forall i :: 0 <= i < |front| ==> front[i] == df[i];
      assert df[|df| - 1] == df[|df| - 1];
    }
  }

  // ---------------------------------------------------------------------
  // The stage
  // ---------------------------------------------------------------------

  /** Whether a trade setup is waiting for this stage. */
  predicate Unsent(ts: TradeSetupRow, symbol: string, timeframe: string)
  {
    ts.symbol == symbol && ts.timeframe == timeframe && !ts.processed
  }

  /** `_get_unprocessed_trade_setups`: the ids of the unsent setups, in table order. */
  function UnsentIds(rows: seq<TradeSetupRow>, symbol: string, timeframe: string): (ids: seq<nat>)
    ensures forall j :: 0 <= j < |ids| ==> 1 <= ids[j] <= |rows|
    ensures forall j, k :: 0 <= j < k < |ids| ==> ids[j] < ids[k]
    ensures forall i {:trigger Unsent(rows[i], symbol, timeframe)} :: 0 <= i < |rows| ==>
      (i + 1 in ids <==> Unsent(rows[i], symbol, timeframe))
  {
    if |rows| == 0 then []
    else
      var front := UnsentIds(rows[..|rows| - 1], symbol, timeframe);
      assert forall i :: 0 <= i < |rows| - 1 ==> rows[..|rows| - 1][i] == rows[i];
      if Unsent(rows[|rows| - 1], symbol, timeframe) then front + [|rows|] else front
  }

  /** The signal rows inserted for the setups `ids`, in order. */
  function SignalRows(rows: seq<TradeSetupRow>, ids: seq<nat>): (r: seq<SignalRow>)
    requires forall j :: 0 <= j < |ids| ==> 1 <= ids[j] <= |rows|
    ensures |r| == |ids|
    ensures forall j :: 0 <= j < |ids| ==> r[j] == SignalRowFor(rows[ids[j] - 1], ids[j])
  {
    seq(|ids|, j requires 0 <= j < |ids| => SignalRowFor(rows[ids[j] - 1], ids[j]))
  }

  /** The table with the setups `done` marked processed. */
  function MarkSetups(rows: seq<TradeSetupRow>, done: seq<nat>): (r: seq<TradeSetupRow>)
    ensures |r| == |rows|
    ensures forall i {:trigger r[i]} :: 0 <= i < |rows| ==> r[i] == if i + 1 in done then rows[i].(processed := true) else rows[i]
  {
    seq(|rows|, i requires 0 <= i < |rows| => if i + 1 in done then rows[i].(processed := true) else rows[i])
  }

  /** Marking one more setup changes just that row. */
  lemma MarkOneMore(rows: seq<TradeSetupRow>, done: seq<nat>, id: nat)
    requires 1 <= id <= |rows|
    ensures MarkSetups(rows, done + [id]) == MarkSetups(rows, done)[id - 1 := rows[id - 1].(processed := true)]
  {
    var before := MarkSetups(rows, done);
    var after := MarkSetups(rows, done + [id]);
    forall i | 0 <= i < |rows|
      ensures after[i] == before[id - 1 := rows[id - 1].(processed := true)][i]
    {
      assert i + 1 in done + [id] <==> i + 1 in done || i + 1 == id;
    }
  }

  /** One more converted setup appends its signal row. */
  lemma SignalRowsOneMore(rows: seq<TradeSetupRow>, ids: seq<nat>, id: nat)
    requires forall j :: 0 <= j < |ids| ==> 1 <= ids[j] <= |rows|
    requires 1 <= id <= |rows|
    ensures SignalRows(rows, ids + [id]) == SignalRows(rows, ids) + [SignalRowFor(rows[id - 1], id)]
  {
    var a := SignalRows(rows, ids + [id]);
    var b := SignalRows(rows, ids) + [SignalRowFor(rows[id - 1], id)];
    forall j | 0 <= j < |a|
      ensures a[j] == b[j]
    {
      if j < |ids| {
        assert (ids + [id])[j] == ids[j];
      }
    }
  }

  /** `_mark_trade_setup_processed`: an update by id, which touches nothing when no row has that id. */
  method MarkSetup(setups: TradeSetupTable, id: nat)
    modifies setups
    ensures setups.rows ==
      if 1 <= id <= |old(setups.rows)| then old(setups.rows)[id - 1 := old(setups.rows)[id - 1].(processed := true)]
      else old(setups.rows)
  {
    if 1 <= id <= |setups.rows| {
      setups.rows := setups.rows[id - 1 := setups.rows[id - 1].(processed := true)];
    }
  }

  /** `_convert_to_signal` followed by the mark: inserts the signal of fetched setup `id` and marks the setup processed. */
  method ConvertAndMark(setups: TradeSetupTable, signals: SignalTable, fetched: seq<TradeSetupRow>, id: nat)
    requires 1 <= id <= |fetched| && |setups.rows| == |fetched|
    modifies setups, signals
    ensures signals.rows == old(signals.rows) + [SignalRowFor(fetched[id - 1], id)]
    ensures setups.rows == old(setups.rows)[id - 1 := old(setups.rows)[id - 1].(processed := true)]
  {
    var ts := fetched[id - 1];
    SignalAccepted(ts, id);
    var r := signals.Insert(SignalFor(ts, id));
    MarkSetup(setups, id);
  }

  /**
   * `run_step`: with no unsent setup nothing happens; a symbol and timeframe
   * without a candle source raise before anything is written (`ok` false),
   * and so does an empty candle table, which the fetch returns as a frame
   * without columns whose first column the timestamp preparation cannot
   * read; otherwise every unsent setup is converted, in order, and marked
   * processed. The prepared candles are used by nothing else.
   */
  method RunStep(setups: TradeSetupTable, signals: SignalTable, symbol: string, timeframe: string,
                 feed: seq<Candle>) returns (ok: bool)
    modifies setups, signals
    ensures var ids := UnsentIds(old(setups.rows), symbol, timeframe);
      && (ok <==> |ids| == 0 || (symbol == DataSymbol && timeframe == DataTimeframe && |feed| > 0))
      && (!ok || |ids| == 0 ==> setups.rows == old(setups.rows) && signals.rows == old(signals.rows))
      && (ok ==> setups.rows == MarkSetups(old(setups.rows), ids)
                 && signals.rows == old(signals.rows) + SignalRows(old(setups.rows), ids))
  {
    var fetched := setups.rows;
    var ids := UnsentIds(fetched, symbol, timeframe);
    if |ids| == 0 {
      assert MarkSetups(fetched, ids) == fetched;
      assert SignalRows(fetched, ids) == [];
      return true;
    }
    if !(symbol == DataSymbol && timeframe == DataTimeframe) || |feed| == 0 {
      return false;
    }
    ConvertAll(setups, signals, fetched, ids);
    return true;
  }

  /** The loop of `run_step`: each listed setup, in order, is converted to a signal and marked processed. */
  method ConvertAll(setups: TradeSetupTable, signals: SignalTable, fetched: seq<TradeSetupRow>, ids: seq<nat>)
    requires setups.rows == fetched
    requires forall j :: 0 <= j < |ids| ==> 1 <= ids[j] <= |fetched|
    modifies setups, signals
    ensures setups.rows == MarkSetups(fetched, ids)
    ensures signals.rows == old(signals.rows) + SignalRows(fetched, ids)
  {
    ghost var before := signals.rows;
    assert MarkSetups(fetched, ids[..0]) == fetched;
    var k := 0;
    while k < |ids|
      invariant 0 <= k <= |ids|
      invariant setups.rows == MarkSetups(fetched, ids[..k])
      invariant signals.rows == before + SignalRows(fetched, ids[..k])
    {
      var id := ids[k];
      assert ids[..k + 1] == ids[..k] + [id];
      MarkOneMore(fetched, ids[..k], id);
      SignalRowsOneMore(fetched, ids[..k], id);
      ConvertAndMark(setups, signals, fetched, id);
      k := k + 1;
    }
    assert ids[..k] == ids;
  }

  // ---------------------------------------------------------------------
  // Properties of a run
  // ---------------------------------------------------------------------

  /** With no unsent row there are no unsent ids. */
  lemma {:induction false} NothingUnsent(rows: seq<TradeSetupRow>, symbol: string, timeframe: string)
    requires forall i :: 0 <= i < |rows| ==> !Unsent(rows[i], symbol, timeframe)
    ensures UnsentIds(rows, symbol, timeframe) == []
    decreases |rows|
  {
    if |rows| > 0 {
      NothingUnsent(rows[..|rows| - 1], symbol, timeframe);
    }
  }

  /**
   * After a successful run every setup of the symbol and timeframe is
   * processed, and a second run finds nothing to send; the marking is the
   * only change to the table.
   */
  lemma RunLeavesNothingUnsent(rows: seq<TradeSetupRow>, symbol: string, timeframe: string)
    ensures var after := MarkSetups(rows, UnsentIds(rows, symbol, timeframe));
      && UnsentIds(after, symbol, timeframe) == []
      && forall i :: 0 <= i < |rows| ==> after[i] == rows[i].(processed := rows[i].processed || Unsent(rows[i], symbol, timeframe))
  {
    var ids := UnsentIds(rows, symbol, timeframe);
    var after := MarkSetups(rows, ids);
    forall i | 0 <= i < |rows|
      ensures after[i] == rows[i].(processed := rows[i].processed || Unsent(rows[i], symbol, timeframe))
      ensures !Unsent(after[i], symbol, timeframe)
    {
      assert Unsent(rows[i], symbol, timeframe) <==> i + 1 in ids;
    }
    NothingUnsent(after, symbol, timeframe);
  }

  /** Every signal of a run is a buy exactly when its setup is bullish, and is an instant order. */
  lemma RunSignalsFollowSetups(rows: seq<TradeSetupRow>, symbol: string, timeframe: string)
    ensures var ids := UnsentIds(rows, symbol, timeframe);
      var sig := SignalRows(rows, ids);
      forall j :: 0 <= j < |ids| ==>
        && (sig[j].side == Buy <==> rows[ids[j] - 1].trend == BullishTrend)
        && sig[j].range1 == sig[j].range2 == rows[ids[j] - 1].entry
        && sig[j].tp1 == sig[j].tp2 == rows[ids[j] - 1].tp
        && sig[j].sl == rows[ids[j] - 1].sl
        && sig[j].message.Text?
        && TradeSignalLogic.SelectOrderType(sig[j].message.s) == TradeSignalLogic.InstantOrder
  {
    var ids := UnsentIds(rows, symbol, timeframe);
    var sig := SignalRows(rows, ids);
    forall j | 0 <= j < |ids|
      ensures sig[j].side == Buy <==> rows[ids[j] - 1].trend == BullishTrend
      ensures sig[j].range1 == sig[j].range2 == rows[ids[j] - 1].entry
      ensures sig[j].tp1 == sig[j].tp2 == rows[ids[j] - 1].tp
      ensures sig[j].sl == rows[ids[j] - 1].sl
      ensures sig[j].message == Text(MessageFor(ids[j]))
      ensures TradeSignalLogic.SelectOrderType(MessageFor(ids[j])) == TradeSignalLogic.InstantOrder
    {
      var ts := rows[ids[j] - 1];
      assert sig[j] == SignalRowFor(ts, ids[j]);
      MessageSelectsInstant(ids[j]);
    }
  }
}

=== FILE: fib_store.dfy ===
/**
 * The tables of the swing-point Fibonacci strategy: recorded swing points,
 * Fibonacci setups drawn over windows of swings, and the trade setups made
 * from them.
 *
 * A row's id is its position in `rows` plus one, as an auto-increment key
 * starting at 1 gives it.
 */
module FibStore {
  import opened Common

  /** The only symbol and timeframe with a candle source. */
  const DataSymbol: string := "XAUUSDc"
  const DataTimeframe: string := "M15"

  /** The `swing_type` column. */
  datatype SwingKind = High | Low

  /** The `source` column: which detector recorded the swing. */
  datatype SwingSource = StrictSource | LooseSource

  /** The `trend` column; the window stage never saves a neutral one. */
  datatype Trend = BullishTrend | BearishTrend | NeutralTrend

  /** A row of the swing-point table; `discoveredAt` is when the swing became known. */
  datatype SwingRow = SwingRow(
    symbol: string, timeframe: string, kind: SwingKind, price: real,
    candleTime: int, discoveredAt: int, power: real, source: SwingSource, processed: bool)

  /** A row of the Fibonacci-setup table, drawn over a window ending at swing `lastSwingId`. */
  datatype FibRow = FibRow(
    symbol: string, timeframe: string, trend: Trend, fibLow: real, fibHigh: real,
    lastSwingId: nat, lastSwingTime: int, lastSwingDiscoveredAt: int, processed: bool)

  /** A row of the trade-setup table made from Fibonacci setup `fibSetupId`. */
  datatype TradeSetupRow = TradeSetupRow(
    symbol: string, timeframe: string, fibSetupId: nat, trend: Trend,
    entry: real, sl: real, tp: real, fibLow: real, fibHigh: real,
    discoveredAt: int, processed: bool)

  class SwingTable {
    var rows: seq<SwingRow>

    constructor ()
      ensures rows == []
    {
      rows := [];
    }
  }

  class FibTable {
    var rows: seq<FibRow>

    constructor ()
      ensures rows == []
    {
      rows := [];
    }
  }

  class TradeSetupTable {
    var rows: seq<TradeSetupRow>

    constructor ()
      ensures rows == []
    {
      rows := [];
    }
  }
}

=== FILE: fib_trade_setup.dfy ===
/**
 * The trade-setup stage of the swing-point Fibonacci strategy: every
 * unprocessed Fibonacci setup of one symbol and timeframe becomes a trade
 * setup with its entry at the 61.8% retracement, its stop loss at the far
 * end of the range and its take profit at the near end. A setup whose
 * levels cannot be computed, or with a zero level, is only marked processed.
 */
module FibTradeSetup {
  import opened Common
  import opened FibStore
  import MajorWaveFib

  /** The retracement ratio of the entry. */
  const Retracement: real := 0.618

  /** The three levels of a trade setup. */
  datatype Levels = Levels(entry: real, sl: real, tp: real)

  /**
   * `_calculate_levels`: for a bullish range the entry lies 61.8% of the way
   * down from the high, the stop at the low and the target at the high; a
   * bearish range mirrors this from the low; any other trend has no levels.
   */
  function CalculateLevels(f: FibRow): (r: Option<Levels>)
    ensures r.Some? <==> f.trend != NeutralTrend
    ensures r.Some? && f.trend == BullishTrend ==> r.value.sl == f.fibLow && r.value.tp == f.fibHigh
    ensures r.Some? && f.trend == BearishTrend ==> r.value.sl == f.fibHigh && r.value.tp == f.fibLow
  {
    var range := f.fibHigh - f.fibLow;
    match f.trend
    case BullishTrend => Some(Levels(f.fibHigh - range * Retracement, f.fibLow, f.fibHigh))
    case BearishTrend => Some(Levels(f.fibLow + range * Retracement, f.fibHigh, f.fibLow))
    case NeutralTrend => None
  }

  /**
   * The entry sits 61.8% of the way from the take profit to the stop loss,
   * so the distance to the take profit is 0.618 times the whole risk-to-target
   * span; over a range with its low below its high, the entry lies between
   * the stop and the target.
   */
  lemma LevelsRetrace(f: FibRow)
    requires CalculateLevels(f).Some?
    ensures var l := CalculateLevels(f).value;
      && Abs(l.tp - l.entry) == Retracement * Abs(l.tp - l.sl)
      && Abs(l.entry - l.sl) == (1.0 - Retracement) * Abs(l.tp - l.sl)
      && (f.fibLow <= f.fibHigh && f.trend == BullishTrend ==> l.sl <= l.entry <= l.tp)
      && (f.fibLow <= f.fibHigh && f.trend == BearishTrend ==> l.tp <= l.entry <= l.sl)
  {
    var l := CalculateLevels(f).value;
    var range := f.fibHigh - f.fibLow;
    if range >= 0.0 {
      MulNonneg(range, Retracement);
      MulNonneg(range, 1.0 - Retracement);
    } else {
      MulNonneg(-range, Retracement);
      MulNonneg(-range, 1.0 - Retracement);
    }
  }

  /** A bullish and a bearish reading of the same range put their entries symmetrically about its middle. */
  lemma LevelsMirror(f: FibRow)
    ensures var bull := CalculateLevels(f.(trend := BullishTrend)).value;
      var bear := CalculateLevels(f.(trend := BearishTrend)).value;
      && bull.entry + bear.entry == f.fibLow + f.fibHigh
      && bull.sl == bear.tp && bull.tp == bear.sl
  {
  }

  /** A level of zero counts as missing, so only levels that are all present and non-zero make a trade setup. */
  predicate Usable(l: Option<Levels>)
  {
    l.Some? && l.value.entry != 0.0 && l.value.sl != 0.0 && l.value.tp != 0.0
  }

  /** Whether a Fibonacci setup is waiting for this stage. */
  predicate Pending(f: FibRow, symbol: string, timeframe: string)
  {
    f.symbol == symbol && f.timeframe == timeframe && !f.processed
  }

  /** `_get_unprocessed_fib_setups`: the ids of the pending setups, in table order. */
  function PendingIds(rows: seq<FibRow>, symbol: string, timeframe: string): (ids: seq<nat>)
    ensures forall j :: 0 <= j < |ids| ==> 1 <= ids[j] <= |rows|
    ensures MajorWaveFib.Increasing(ids)
    ensures forall i {:trigger Pending(rows[i], symbol, timeframe)} :: 0 <= i < |rows| ==>
      (i + 1 in ids <==> Pending(rows[i], symbol, timeframe))
  {
    if |rows| == 0 then []
    else
      var front := PendingIds(rows[..|rows| - 1], symbol, timeframe);
      assert forall i :: 0 <= i < |rows| - 1 ==> rows[..|rows| - 1][i] == rows[i];
      if Pending(rows[|rows| - 1], symbol, timeframe) then front + [|rows|] else front
  }

  /** The trade setup made from Fibonacci setup `id`, if its levels are usable. */
  function SetupFor(f: FibRow, id: nat, symbol: string, timeframe: string): (r: seq<TradeSetupRow>)
    ensures |r| <= 1
    ensures |r| == 1 <==> Usable(CalculateLevels(f))
    ensures |r| == 1 ==>
      && r[0].fibSetupId == id && r[0].trend == f.trend
      && r[0].fibLow == f.fibLow && r[0].fibHigh == f.fibHigh
      && r[0].discoveredAt == f.lastSwingDiscoveredAt && !r[0].processed
      && Levels(r[0].entry, r[0].sl, r[0].tp) == CalculateLevels(f).value
  {
    var l := CalculateLevels(f);
    if Usable(l) then
      [TradeSetupRow(symbol, timeframe, id, f.trend, l.value.entry, l.value.sl, l.value.tp,
                     f.fibLow, f.fibHigh, f.lastSwingDiscoveredAt, false)]
    else []
  }

  /** The trade setups saved for the first `k` fetched ids. */
  ghost function NewSetups(rows: seq<FibRow>, ids: seq<nat>, symbol: string, timeframe: string, k: nat): seq<TradeSetupRow>
    requires k <= |ids| && forall j :: 0 <= j < |ids| ==> 1 <= ids[j] <= |rows|
  {
    if k == 0 then []
    else NewSetups(rows, ids, symbol, timeframe, k - 1) + SetupFor(rows[ids[k - 1] - 1], ids[k - 1], symbol, timeframe)
  }

  /** Handling one more id appends that id's setup, if any. */
  lemma NewSetupsNext(rows: seq<FibRow>, ids: seq<nat>, symbol: string, timeframe: string, k: nat)
    requires k < |ids| && forall j :: 0 <= j < |ids| ==> 1 <= ids[j] <= |rows|
    ensures NewSetups(rows, ids, symbol, timeframe, k + 1) ==
      NewSetups(rows, ids, symbol, timeframe, k) + SetupFor(rows[ids[k] - 1], ids[k], symbol, timeframe)
  {
  }

  /** The table with the setups `done` marked processed. */
  function MarkFibs(rows: seq<FibRow>, done: seq<nat>): (r: seq<FibRow>)
    ensures |r| == |rows|
    ensures forall i {:trigger r[i]} :: 0 <= i < |rows| ==> r[i] == if i + 1 in done then rows[i].(processed := true) else rows[i]
  {
    seq(|rows|, i requires 0 <= i < |rows| => if i + 1 in done then rows[i].(processed := true) else rows[i])
  }

  /** Marking one more setup changes just that row. */
  lemma MarkOneMore(rows: seq<FibRow>, done: seq<nat>, id: nat)
    requires 1 <= id <= |rows|
    ensures MarkFibs(rows, done + [id]) == MarkFibs(rows, done)[id - 1 := rows[id - 1].(processed := true)]
  {
    var before := MarkFibs(rows, done);
    var after := MarkFibs(rows, done + [id]);
    forall i | 0 <= i < |rows|
      ensures after[i] == before[id - 1 := rows[id - 1].(processed := true)][i]
    {
      assert i + 1 in done + [id] <==> i + 1 in done || i + 1 == id;
    }
  }

  // ---------------------------------------------------------------------
  // The stage
  // ---------------------------------------------------------------------

  /** `_mark_fib_processed`: an update by id, which touches nothing when no row has that id. */
  method MarkFib(fibs: FibTable, id: nat)
    modifies fibs
    ensures fibs.rows ==
      if 1 <= id <= |old(fibs.rows)| then old(fibs.rows)[id - 1 := old(fibs.rows)[id - 1].(processed := true)]
      else old(fibs.rows)
  {
    if 1 <= id <= |fibs.rows| {
      fibs.rows := fibs.rows[id - 1 := fibs.rows[id - 1].(processed := true)];
    }
  }

  /** The body of the loop for the `k`-th fetched setup: save a trade setup when its levels are usable, then mark it processed. */
  method HandleSetup(fibs: FibTable, setups: TradeSetupTable, fetched: seq<FibRow>, ids: seq<nat>,
                     symbol: string, timeframe: string, k: nat)
    requires k < |ids| && forall j :: 0 <= j < |ids| ==> 1 <= ids[j] <= |fetched|
    requires fibs.rows == MarkFibs(fetched, ids[..k])
    modifies fibs, setups
    ensures fibs.rows == MarkFibs(fetched, ids[..k + 1])
    ensures setups.rows == old(setups.rows) + SetupFor(fetched[ids[k] - 1], ids[k], symbol, timeframe)
  {
    var id := ids[k];
    var f := fetched[id - 1];
    var levels := CalculateLevels(f);
    if Usable(levels) {
      setups.rows := setups.rows + [TradeSetupRow(symbol, timeframe, id, f.trend,
                                                  levels.value.entry, levels.value.sl, levels.value.tp,
                                                  f.fibLow, f.fibHigh, f.lastSwingDiscoveredAt, false)];
    }
    MarkFib(fibs, id);
    MarkOneMore(fetched, ids[..k], id);
    assert ids[..k + 1] == ids[..k] + [id];
  }

  /** One run of the stage over the pending setups of `symbol` and `timeframe`, fetched once at the start. */
  method RunStep(fibs: FibTable, setups: TradeSetupTable, symbol: string, timeframe: string)
    modifies fibs, setups
    ensures var ids := PendingIds(old(fibs.rows), symbol, timeframe);
      && fibs.rows == MarkFibs(old(fibs.rows), ids)
      && setups.rows == old(setups.rows) + NewSetups(old(fibs.rows), ids, symbol, timeframe, |ids|)
  {
    var fetched := fibs.rows;
    var ids := PendingIds(fetched, symbol, timeframe);
    ghost var before := setups.rows;
    assert MarkFibs(fetched, ids[..0]) == fetched;
    var k := 0;
    while k < |ids|
      invariant 0 <= k <= |ids|
      invariant fibs.rows == MarkFibs(fetched, ids[..k])
      invariant setups.rows == before + NewSetups(fetched, ids, symbol, timeframe, k)
    {
      NewSetupsNext(fetched, ids, symbol, timeframe, k);
      AppendAssoc(before, NewSetups(fetched, ids, symbol, timeframe, k),
                  SetupFor(fetched[ids[k] - 1], ids[k], symbol, timeframe));
      HandleSetup(fibs, setups, fetched, ids, symbol, timeframe, k);
      k := k + 1;
    }
    assert ids[..k] == ids;
  }

  // ---------------------------------------------------------------------
  // Properties of a run
  // ---------------------------------------------------------------------

  /** After a run no setup of the symbol and timeframe is pending, and every other row is as it was apart from the marked ones. */
  lemma RunClearsPending(rows: seq<FibRow>, symbol: string, timeframe: string)
    ensures var ids := PendingIds(rows, symbol, timeframe);
      var after := MarkFibs(rows, ids);
      && PendingIds(after, symbol, timeframe) == []
      && forall i :: 0 <= i < |rows| ==> after[i] == rows[i].(processed := rows[i].processed || Pending(rows[i], symbol, timeframe))
  {
    var ids := PendingIds(rows, symbol, timeframe);
    var after := MarkFibs(rows, ids);
    forall i | 0 <= i < |rows|
      ensures after[i] == rows[i].(processed := rows[i].processed || Pending(rows[i], symbol, timeframe))
      ensures !Pending(after[i], symbol, timeframe)
    {
      assert Pending(rows[i], symbol, timeframe) <==> i + 1 in ids;
    }
    NothingPending(after, symbol, timeframe);
  }

  /** With no pending row there are no pending ids. */
  lemma {:induction false} NothingPending(rows: seq<FibRow>, symbol: string, timeframe: string)
    requires forall i :: 0 <= i < |rows| ==> !Pending(rows[i], symbol, timeframe)
    ensures PendingIds(rows, symbol, timeframe) == []
    decreases |rows|
  {
    if |rows| > 0 {
      NothingPending(rows[..|rows| - 1], symbol, timeframe);
    }
  }

  /**
   * The trade setups of a run: one per usable pending setup at most, each
   * made from a distinct pending setup, in increasing order of id.
   */
  lemma {:induction false} NewSetupsFromPending(rows: seq<FibRow>, ids: seq<nat>, symbol: string, timeframe: string, k: nat)
    requires k <= |ids| && forall j :: 0 <= j < |ids| ==> 1 <= ids[j] <= |rows|
    requires MajorWaveFib.Increasing(ids)
    ensures var ns := NewSetups(rows, ids, symbol, timeframe, k);
      && |ns| <= k
      && (forall s :: 0 <= s < |ns| ==> ns[s].fibSetupId in ids[..k])
      && (forall s, t :: 0 <= s < t < |ns| ==> ns[s].fibSetupId < ns[t].fibSetupId)
    decreases k
  {
    if k > 0 {
      NewSetupsFromPending(rows, ids, symbol, timeframe, k - 1);
      var prev := NewSetups(rows, ids, symbol, timeframe, k - 1);
      var o := SetupFor(rows[ids[k - 1] - 1], ids[k - 1], symbol, timeframe);
      var ns := prev + o;
      assert ids[..k] == ids[..k - 1] + [ids[k - 1]];
      forall s | 0 <= s < |prev|
        ensures prev[s].fibSetupId < ids[k - 1]
      {
        var j :| 0 <= j < k - 1 && ids[j] == prev[s].fibSetupId;
      }
      forall s, t | 0 <= s < t < |ns|
        ensures ns[s].fibSetupId < ns[t].fibSetupId
      {
        if t >= |prev| {
          assert ns[s] == prev[s] && ns[t] == o[0];
        } else {
          assert ns[s] == prev[s] && ns[t] == prev[t];
        }
      }
      forall s | 0 <= s < |ns|
        ensures ns[s].fibSetupId in ids[..k]
      {
        if s >= |prev| {
          assert ns[s] == o[0];
        } else {
          assert ns[s] == prev[s];
        }
      }
    }
  }
}

=== FILE: fvg_scan.dfy ===
/**
 * The fair-value-gap stage: for each structure event still waiting for a
 * gap, scan the candles after it for the first three-candle gap in the
 * event's direction, save the gap as a zone, and advance the event's status.
 */
module FvgScan {
  import opened Common
  import opened BosFvgStore

  /** At most this many candles after the event are scanned. */
  const MaxCandles: nat := 15
  /** The scan waits until this many candles exist after the event. */
  const MinCandles: nat := 3
  /** The candle query asks for two more than it scans. */
  const FetchCandles: nat := 17

  /** A gap: its direction, its price band, and the times of its first and third candle. */
  datatype Gap = Gap(direction: Direction, gapLow: real, gapHigh: real, startTime: int, endTime: int)

  /**
   * The gap candles `c0` and `c2` leave (the middle candle is not looked at):
   * bullish when c0's high is below c2's low, bearish when c0's low is above
   * c2's high.
   */
  function GapAt(c0: Candle, c2: Candle, direction: Direction): (g: Option<Gap>)
    ensures g.Some? <==> (direction == Bullish && c0.high < c2.low) || (direction == Bearish && c0.low > c2.high)
    ensures g.Some? ==>
      g.value.direction == direction && g.value.gapLow < g.value.gapHigh &&
      g.value.startTime == c0.time && g.value.endTime == c2.time
    ensures g.Some? && direction == Bullish ==> g.value.gapLow == c0.high && g.value.gapHigh == c2.low
    ensures g.Some? && direction == Bearish ==> g.value.gapLow == c2.high && g.value.gapHigh == c0.low
  {
    if direction == Bullish && c0.high < c2.low then Some(Gap(Bullish, c0.high, c2.low, c0.time, c2.time))
    else if direction == Bearish && c0.low > c2.high then Some(Gap(Bearish, c2.high, c0.low, c0.time, c2.time))
    else None
  }

  /** The gap left by the three candles ending at index `j`; none when `j` is not such an index. */
  function GapEndingAt(df: seq<Candle>, direction: Direction, j: int): Option<Gap>
  {
    if 2 <= j < |df| then GapAt(df[j - 2], df[j], direction) else None
  }

  /** The index of the first candle from `i` on that ends a gap, or `i` itself when none is left. */
  function FirstGapEnd(df: seq<Candle>, direction: Direction, i: nat): (k: nat)
    ensures i <= k
    ensures k < |df| ==> GapEndingAt(df, direction, k).Some?
    ensures k >= |df| ==> k == i || k == |df|
    ensures forall m :: i <= m < k ==> GapEndingAt(df, direction, m).None?
    decreases |df| - i
  {
    if i >= |df| then i
    else if GapEndingAt(df, direction, i).Some? then i
    else FirstGapEnd(df, direction, i + 1)
  }

  /** The gap the scan from the third candle on stops at: the earliest one, or none. */
  function FirstGap(df: seq<Candle>, direction: Direction): Option<Gap>
  {
    var k := FirstGapEnd(df, direction, 2);
    if k < |df| then GapEndingAt(df, direction, k) else None
  }

  /**
   * The first gap is none exactly when no three consecutive candles leave
   * one; otherwise it is a real gap in the asked direction, left by three
   * consecutive candles with no gap ending before them.
   */
  lemma FirstGapFacts(df: seq<Candle>, direction: Direction)
    ensures FirstGap(df, direction).None? <==> forall j :: 2 <= j < |df| ==> GapEndingAt(df, direction, j).None?
    ensures FirstGap(df, direction).Some? ==>
      FirstGap(df, direction).value.direction == direction &&
      FirstGap(df, direction).value.gapLow < FirstGap(df, direction).value.gapHigh
    ensures FirstGap(df, direction).Some? ==>
      2 <= FirstGapEnd(df, direction, 2) < |df| &&
      FirstGap(df, direction) == GapAt(df[FirstGapEnd(df, direction, 2) - 2], df[FirstGapEnd(df, direction, 2)], direction)
  {
    var k := FirstGapEnd(df, direction, 2);
    if k < |df| {
      assert GapEndingAt(df, direction, k).Some?;
    }
  }

  /**
   * _detect_fvg: walks the candles from the third on and returns the gap of
   * the first three-candle window that leaves one in the event's direction.
   */
  method DetectFvg(df: seq<Candle>, direction: Direction) returns (fvg: Option<Gap>)
    ensures fvg == FirstGap(df, direction)
  {
    var i := 2;
    while i < |df|
      invariant 2 <= i
      invariant FirstGapEnd(df, direction, i) == FirstGapEnd(df, direction, 2)
      decreases |df| - i
    {
      var c0, c2 := df[i - 2], df[i];
      if direction == Bullish && c0.high < c2.low {
        return Some(Gap(Bullish, c0.high, c2.low, c0.time, c2.time));
      } else if direction == Bearish && c0.low > c2.high {
        return Some(Gap(Bearish, c2.high, c0.low, c0.time, c2.time));
      }
      i := i + 1;
    }
    return None;
  }

  /** What _process_bos_event decides for an event, from the candles fetched after it. */
  datatype FvgOutcome = NoCandlesYet | TooFewCandles | GapFound(gap: Gap) | StillScanning(checked: nat) | NoGap

  /**
   * The decision: nothing without candles or with fewer than three; else a gap
   * in the first fifteen candles is found (even when fifteen are there);
   * else fifteen candles without a gap give up, and fewer keep scanning with
   * the count checked.
   */
  function FvgDecision(after: seq<Candle>, direction: Direction): (o: FvgOutcome)
    ensures o == NoCandlesYet <==> |after| == 0
    ensures o == TooFewCandles <==> 0 < |after| < MinCandles
    ensures o.GapFound? <==> |after| >= MinCandles && FirstGap(Head(after, MaxCandles), direction).Some?
    ensures o.GapFound? ==> Some(o.gap) == FirstGap(Head(after, MaxCandles), direction)
    ensures o == NoGap <==> |after| >= MaxCandles && FirstGap(Head(after, MaxCandles), direction).None?
    ensures o.StillScanning? <==> MinCandles <= |after| < MaxCandles && FirstGap(after, direction).None?
    ensures o.StillScanning? ==> o.checked == |after|
  {
    var available := |after|;
    if available == 0 then NoCandlesYet
    else if available < MinCandles then TooFewCandles
    else
      var fvg := FirstGap(Head(after, MaxCandles), direction);
      if fvg.Some? then GapFound(fvg.value)
      else
        var newChecked := if available < MaxCandles then available else MaxCandles;
        if newChecked >= MaxCandles then NoGap else StillScanning(newChecked)
  }

  /** The candles fetched for an event: those after its candle, at most seventeen. */
  function CandlesAfterBos(row: BosRow, feed: seq<Candle>): seq<Candle>
  {
    Head(After(feed, row.candleTime), FetchCandles)
  }

  function Outcome(row: BosRow, feed: seq<Candle>): FvgOutcome
  {
    FvgDecision(CandlesAfterBos(row, feed), row.direction)
  }

  /** The event row after its decision: found, not found, scanning with a count, or as it was. */
  function BosAfter(row: BosRow, o: FvgOutcome): BosRow
  {
    match o
    case GapFound(_) => row.(scan := Found)
    case NoGap => row.(scan := NotFound)
    case StillScanning(n) => row.(scan := Scanning, candlesChecked := n)
    case _ => row
  }

  /** The zone saved for event `id` when its decision found a gap. */
  function ZoneFor(row: BosRow, id: nat, o: FvgOutcome, now: int): seq<ZoneRow>
  {
    match o
    case GapFound(g) =>
      [ZoneRow(row.symbol, row.timeframe, id, g.direction, g.gapLow, g.gapHigh, g.startTime, g.endTime, now,
               ZonePending, 0, None)]
    case _ => []
  }

  /** A scanning event has checked at least three and fewer than fifteen candles. */
  predicate ScanCountValid(row: BosRow)
  {
    row.scan == Scanning ==> MinCandles <= row.candlesChecked < MaxCandles
  }

  /**
   * The decision keeps the scanning count in range, never returns an event to
   * pending, and a zone it saves is a real gap in the event's direction whose
   * first candle comes after the event.
   */
  lemma {:induction false} DecisionFacts(row: BosRow, id: nat, feed: seq<Candle>, now: int)
    ensures ScanCountValid(row) ==> ScanCountValid(BosAfter(row, Outcome(row, feed)))
    ensures row.scan != ScanPending ==> BosAfter(row, Outcome(row, feed)).scan != ScanPending
    ensures forall z :: z in ZoneFor(row, id, Outcome(row, feed), now) ==>
      z.bosId == id && z.direction == row.direction && z.gapLow < z.gapHigh && z.startTime > row.candleTime &&
      z.status == ZonePending
  {
    var after := CandlesAfterBos(row, feed);
    var o := Outcome(row, feed);
    if o.GapFound? {
      var df := Head(after, MaxCandles);
      FirstGapFacts(df, row.direction);
      var j := FirstGapEnd(df, row.direction, 2);
      assert df[j - 2] in After(feed, row.candleTime);
    }
  }

  /** Ids of the events of this symbol and timeframe still waiting for a gap (pending or scanning), in table order. */
  function ScanIds(rows: seq<BosRow>, symbol: string, timeframe: string): (ids: seq<nat>)
    ensures forall j :: 0 <= j < |ids| ==> 1 <= ids[j] <= |rows|
    ensures forall i :: 0 <= i < |rows| ==>
      (i + 1 in ids <==> rows[i].symbol == symbol && rows[i].timeframe == timeframe &&
                         (rows[i].scan == ScanPending || rows[i].scan == Scanning))
    ensures forall j, k :: 0 <= j < k < |ids| ==> ids[j] < ids[k]
  {
    if |rows| == 0 then []
    else
      var front := ScanIds(rows[..|rows| - 1], symbol, timeframe);
      assert forall i :: 0 <= i < |rows| - 1 ==> rows[..|rows| - 1][i] == rows[i];
      var last := rows[|rows| - 1];
      if last.symbol == symbol && last.timeframe == timeframe && (last.scan == ScanPending || last.scan == Scanning)
      then front + [|rows|] else front
  }

  /** The zones the run saves, in the order the events are processed. */
  function NewZones(rows: seq<BosRow>, ids: seq<nat>, feed: seq<Candle>, now: int): seq<ZoneRow>
    requires forall j :: 0 <= j < |ids| ==> 1 <= ids[j] <= |rows|
  {
    if |ids| == 0 then []
    else
      var id := ids[|ids| - 1];
      NewZones(rows, ids[..|ids| - 1], feed, now) + ZoneFor(rows[id - 1], id, Outcome(rows[id - 1], feed), now)
  }

  /** Processing one more event appends its zone, if any, to the zones saved so far. */
  lemma NewZonesOneMore(rows: seq<BosRow>, ids: seq<nat>, id: nat, feed: seq<Candle>, now: int)
    requires forall j :: 0 <= j < |ids| ==> 1 <= ids[j] <= |rows|
    requires 1 <= id <= |rows|
    ensures NewZones(rows, ids + [id], feed, now) ==
      NewZones(rows, ids, feed, now) + ZoneFor(rows[id - 1], id, Outcome(rows[id - 1], feed), now)
  {
    assert (ids + [id])[..|ids|] == ids;
  }

  /** _process_bos_event for the event with id `id`. */
  method ProcessBosEvent(bos: BosTable, zones: ZoneTable, id: nat, feed: seq<Candle>, now: int)
    requires 1 <= id <= |bos.rows|
    modifies bos, zones
    ensures bos.rows == old(bos.rows)[id - 1 := BosAfter(old(bos.rows)[id - 1], Outcome(old(bos.rows)[id - 1], feed))]
    ensures zones.rows == old(zones.rows) + ZoneFor(old(bos.rows)[id - 1], id, Outcome(old(bos.rows)[id - 1], feed), now)
  {
    var row := bos.rows[id - 1];
    var df := CandlesAfterBos(row, feed);
    if |df| == 0 {
      return;
    }
    var available := |df|;
    if available < MinCandles {
      return;
    }
    var fvg := DetectFvg(Head(df, MaxCandles), row.direction);
    if fvg.Some? {
      var g := fvg.value;
      zones.rows := zones.rows + [ZoneRow(row.symbol, row.timeframe, id, g.direction, g.gapLow, g.gapHigh,
                                          g.startTime, g.endTime, now, ZonePending, 0, None)];
      bos.rows := bos.rows[id - 1 := row.(scan := Found)];
      return;
    }
    var newChecked := if available < MaxCandles then available else MaxCandles;
    if newChecked >= MaxCandles {
      bos.rows := bos.rows[id - 1 := row.(scan := NotFound)];
    } else {
      bos.rows := bos.rows[id - 1 := row.(scan := Scanning, candlesChecked := newChecked)];
    }
  }

  /** The events listed in `done` carry their decision; every other row is as it started. */
  ghost predicate ScannedOnly(rows: seq<BosRow>, start: seq<BosRow>, done: seq<nat>, feed: seq<Candle>)
  {
    |rows| == |start| &&
    forall i :: 0 <= i < |start| ==>
      rows[i] == (if i + 1 in done then BosAfter(start[i], Outcome(start[i], feed)) else start[i])
  }

  /** Deciding one more event, not decided before, extends the decided list by it. */
  lemma ScannedOneMore(before: seq<BosRow>, start: seq<BosRow>, done: seq<nat>, id: nat, feed: seq<Candle>)
    requires ScannedOnly(before, start, done, feed)
    requires 1 <= id <= |start| && id !in done
    ensures ScannedOnly(before[id - 1 := BosAfter(before[id - 1], Outcome(before[id - 1], feed))], start, done + [id], feed)
  {
    assert before[id - 1] == start[id - 1];
  }

  /** One turn of the loop of `RunStep`: process the event `ids[k]`. */
  method ScanNext(bos: BosTable, zones: ZoneTable, ids: seq<nat>, k: nat, ghost start: seq<BosRow>,
                  ghost startZones: seq<ZoneRow>, feed: seq<Candle>, now: int)
    requires k < |ids|
    requires forall j :: 0 <= j < |ids| ==> 1 <= ids[j] <= |start|
    requires forall j, l :: 0 <= j < l < |ids| ==> ids[j] < ids[l]
    requires ScannedOnly(bos.rows, start, ids[..k], feed)
    requires zones.rows == startZones + NewZones(start, ids[..k], feed, now)
    modifies bos, zones
    ensures ScannedOnly(bos.rows, start, ids[..k + 1], feed)
    ensures zones.rows == startZones + NewZones(start, ids[..k + 1], feed, now)
  {
    var id := ids[k];
    NextId(ids, k);
    ScannedOneMore(bos.rows, start, ids[..k], id, feed);
    assert bos.rows[id - 1] == start[id - 1];
    NewZonesOneMore(start, ids[..k], id, feed, now);
    ProcessBosEvent(bos, zones, id, feed, now);
  }

  /**
   * run_step: every event of the symbol and timeframe that is pending or
   * scanning is processed once; found and not-found events are never touched
   * again, and the saved zones are appended in processing order.
   */
  method RunStep(bos: BosTable, zones: ZoneTable, symbol: string, timeframe: string, feed: seq<Candle>, now: int)
    modifies bos, zones
    ensures |bos.rows| == |old(bos.rows)|
    ensures forall i {:trigger bos.rows[i]} :: 0 <= i < |bos.rows| ==>
      bos.rows[i] == (if i + 1 in ScanIds(old(bos.rows), symbol, timeframe)
                      then BosAfter(old(bos.rows)[i], Outcome(old(bos.rows)[i], feed)) else old(bos.rows)[i])
    ensures zones.rows == old(zones.rows) + NewZones(old(bos.rows), ScanIds(old(bos.rows), symbol, timeframe), feed, now)
  {
    var ids := ScanIds(bos.rows, symbol, timeframe);
    ghost var start := bos.rows;
    ghost var startZones := zones.rows;
    var k := 0;
    while k < |ids|
      invariant 0 <= k <= |ids|
      invariant ScannedOnly(bos.rows, start, ids[..k], feed)
      invariant zones.rows == startZones + NewZones(start, ids[..k], feed, now)
    {
      ScanNext(bos, zones, ids, k, start, startZones, feed, now);
      k := k + 1;
    }
    assert ids[..|ids|] == ids;
  }
}

=== FILE: lsr_context.dfy ===
/**
 * The market context of the liquidity-sweep-rejection strategy: the latest
 * swing high and swing low confirmed on H1 by three candles on each side,
 * a directional bias read from H4, and the previous day's high, low and
 * close. A new context row is appended whenever the structure moves past
 * the latest one, or it is older than three days; rows are never updated
 * or deactivated here.
 */
module LsrContext {
  import opened Common
  import opened LsrStore

  /** A swing must stand above (below) this many candles on each side. */
  const ConfirmBars: nat := 3
  /** Fewer H1 or H4 candles than these leave the context alone. */
  const MinH1: nat := 30
  const MinH4: nat := 20
  /** The bias reads the last this many H4 candles. */
  const BiasLookback: nat := 20
  /** A context older than this (72 hours) is refreshed. */
  const RefreshSeconds: int := 72 * 3600

  /** The largest high of the candles `lo .. hi-1`. */
  function MaxHigh(df: seq<Candle>, lo: nat, hi: nat): (m: real)
    requires lo < hi <= |df|
    ensures forall j :: lo <= j < hi ==> df[j].high <= m
    decreases hi - lo
  {
    if hi - lo == 1 then df[lo].high else Max(df[lo].high, MaxHigh(df, lo + 1, hi))
  }

  /** The largest high is the high of one of the candles. */
  lemma {:induction false} MaxHighAttained(df: seq<Candle>, lo: nat, hi: nat) returns (j: nat)
    requires lo < hi <= |df|
    ensures lo <= j < hi && df[j].high == MaxHigh(df, lo, hi)
    decreases hi - lo
  {
    if hi - lo == 1 {
      j := lo;
    } else if df[lo].high < MaxHigh(df, lo + 1, hi) {
      j := MaxHighAttained(df, lo + 1, hi);
    } else {
      j := lo;
    }
  }

  /** The smallest low of the candles `lo .. hi-1`. */
  function MinLow(df: seq<Candle>, lo: nat, hi: nat): (m: real)
    requires lo < hi <= |df|
    ensures forall j :: lo <= j < hi ==> df[j].low >= m
    decreases hi - lo
  {
    if hi - lo == 1 then df[lo].low else Min(df[lo].low, MinLow(df, lo + 1, hi))
  }

  /** The smallest low is the low of one of the candles. */
  lemma {:induction false} MinLowAttained(df: seq<Candle>, lo: nat, hi: nat) returns (j: nat)
    requires lo < hi <= |df|
    ensures lo <= j < hi && df[j].low == MinLow(df, lo, hi)
    decreases hi - lo
  {
    if hi - lo == 1 {
      j := lo;
    } else if df[lo].low > MinLow(df, lo + 1, hi) {
      j := MinLowAttained(df, lo + 1, hi);
    } else {
      j := lo;
    }
  }

  /** Candle `i` has three candles on each side. */
  predicate Inner(df: seq<Candle>, i: nat)
  {
    ConfirmBars <= i && i + ConfirmBars < |df|
  }

  /** A swing high: strictly above the largest high of the three candles before and of the three after. */
  predicate IsSwingHigh(df: seq<Candle>, i: nat)
    requires Inner(df, i)
  {
    df[i].high > MaxHigh(df, i - ConfirmBars, i) && df[i].high > MaxHigh(df, i + 1, i + 1 + ConfirmBars)
  }

  /** A swing low: strictly below the smallest low of the three candles before and of the three after. */
  predicate IsSwingLow(df: seq<Candle>, i: nat)
    requires Inner(df, i)
  {
    df[i].low < MinLow(df, i - ConfirmBars, i) && df[i].low < MinLow(df, i + 1, i + 1 + ConfirmBars)
  }

  /** A swing high is a candle whose high is strictly above each of its six neighbours' highs; likewise for lows. */
  lemma SwingIff(df: seq<Candle>, i: nat)
    requires Inner(df, i)
    ensures IsSwingHigh(df, i) <==>
      forall j :: i - ConfirmBars <= j <= i + ConfirmBars && j != i ==> df[j].high < df[i].high
    ensures IsSwingLow(df, i) <==>
      forall j :: i - ConfirmBars <= j <= i + ConfirmBars && j != i ==> df[j].low > df[i].low
  {
    var jhb := MaxHighAttained(df, i - ConfirmBars, i);
    var jha := MaxHighAttained(df, i + 1, i + 1 + ConfirmBars);
    var jlb := MinLowAttained(df, i - ConfirmBars, i);
    var jla := MinLowAttained(df, i + 1, i + 1 + ConfirmBars);
  }

  /**
   * The index of the last swing high among the candles `ConfirmBars .. n-1`
   * that have three candles after them, or -1 when there is none.
   */
  function LastSwingHigh(df: seq<Candle>, n: nat): (k: int)
    ensures k == -1 || (ConfirmBars <= k < n && Inner(df, k) && IsSwingHigh(df, k))
    ensures forall j :: k < j < n && Inner(df, j) ==> !IsSwingHigh(df, j)
  {
    if n <= ConfirmBars then -1
    else if Inner(df, n - 1) && IsSwingHigh(df, n - 1) then n - 1
    else LastSwingHigh(df, n - 1)
  }

  /** The index of the last swing low among the candles `ConfirmBars .. n-1`, or -1. */
  function LastSwingLow(df: seq<Candle>, n: nat): (k: int)
    ensures k == -1 || (ConfirmBars <= k < n && Inner(df, k) && IsSwingLow(df, k))
    ensures forall j :: k < j < n && Inner(df, j) ==> !IsSwingLow(df, j)
  {
    if n <= ConfirmBars then -1
    else if Inner(df, n - 1) && IsSwingLow(df, n - 1) then n - 1
    else LastSwingLow(df, n - 1)
  }

  /**
   * The latest confirmed swing high and swing low of the H1 candles: both
   * NULL unless there is at least one swing of each kind.
   */
  function ConfirmedSwings(df: seq<Candle>): (r: (Option<real>, Option<real>))
    ensures r.0.Some? == r.1.Some?
  {
    var h := LastSwingHigh(df, |df|);
    var l := LastSwingLow(df, |df|);
    if h < 0 || l < 0 then (None, None) else (Some(df[h].high), Some(df[l].low))
  }

  /**
   * What the confirmed swings are: both levels present or both absent;
   * present exactly when a swing of each kind exists; the high is the high
   * of the last swing high, which has three candles after it, and no later
   * candle is a swing high; likewise for the low.
   */
  lemma ConfirmedSwingsFacts(df: seq<Candle>)
    ensures ConfirmedSwings(df).0.Some? == ConfirmedSwings(df).1.Some?
    ensures ConfirmedSwings(df).0.Some? <==>
      (exists i :: ConfirmBars <= i < |df| && Inner(df, i) && IsSwingHigh(df, i)) &&
      (exists i :: ConfirmBars <= i < |df| && Inner(df, i) && IsSwingLow(df, i))
    ensures ConfirmedSwings(df).0.Some? ==>
      exists k: nat :: Inner(df, k) && IsSwingHigh(df, k) && ConfirmedSwings(df).0.value == df[k].high &&
        forall j :: k < j < |df| && Inner(df, j) ==> !IsSwingHigh(df, j)
    ensures ConfirmedSwings(df).1.Some? ==>
      exists k: nat :: Inner(df, k) && IsSwingLow(df, k) && ConfirmedSwings(df).1.value == df[k].low &&
        forall j :: k < j < |df| && Inner(df, j) ==> !IsSwingLow(df, j)
  {
    var h := LastSwingHigh(df, |df|);
    var l := LastSwingLow(df, |df|);
    if h >= 0 && l >= 0 {
      assert Inner(df, h) && IsSwingHigh(df, h);
      assert Inner(df, l) && IsSwingLow(df, l);
    }
  }

  /**
   * _get_confirmed_swings: walks the candles that have three on each side,
   * keeping the last swing high and swing low found, then drops a swing
   * that falls among the last three candles.
   */
  method GetConfirmedSwings(df: seq<Candle>) returns (high: Option<real>, low: Option<real>)
    ensures (high, low) == ConfirmedSwings(df)
  {
    var lastHigh := -1;
    var lastLow := -1;
    var i := ConfirmBars;
    while i + ConfirmBars < |df|
      invariant ConfirmBars <= i
      invariant i <= |df| - ConfirmBars || i == ConfirmBars
      invariant lastHigh == LastSwingHigh(df, i)
      invariant lastLow == LastSwingLow(df, i)
      decreases |df| - i
    {
      lastHigh, lastLow := CheckCandle(df, i, lastHigh, lastLow);
      i := i + 1;
    }
    LastSwingPast(df, i);
    if lastHigh < 0 || lastLow < 0 {
      return None, None;
    }
    high := Some(df[lastHigh].high);
    low := Some(df[lastLow].low);
    if lastHigh > |df| - ConfirmBars - 1 {
      high := None;
    }
    if lastLow > |df| - ConfirmBars - 1 {
      low := None;
    }
  }

  /** One turn of the loop: candle `i`, which has three candles on each side, becomes the last swing high or low if it is one. */
  method CheckCandle(df: seq<Candle>, i: nat, lastHigh: int, lastLow: int) returns (high: int, low: int)
    requires Inner(df, i) && lastHigh == LastSwingHigh(df, i) && lastLow == LastSwingLow(df, i)
    ensures high == LastSwingHigh(df, i + 1) && low == LastSwingLow(df, i + 1)
  {
    high, low := lastHigh, lastLow;
    if df[i].high > MaxHigh(df, i - ConfirmBars, i) && df[i].high > MaxHigh(df, i + 1, i + 1 + ConfirmBars) {
      high := i;
    }
    if df[i].low < MinLow(df, i - ConfirmBars, i) && df[i].low < MinLow(df, i + 1, i + 1 + ConfirmBars) {
      low := i;
    }
    assert LastSwingHigh(df, i + 1) == if IsSwingHigh(df, i) then i else LastSwingHigh(df, i);
    assert LastSwingLow(df, i + 1) == if IsSwingLow(df, i) then i else LastSwingLow(df, i);
  }

  /** Candles without three candles after them are never swings, so the search may stop where the loop does. */
  lemma LastSwingPast(df: seq<Candle>, i: nat)
    requires ConfirmBars <= i && i + ConfirmBars >= |df|
    ensures LastSwingHigh(df, |df|) == LastSwingHigh(df, i)
    ensures LastSwingLow(df, |df|) == LastSwingLow(df, i)
    decreases |df| - i
  {
    if |df| > i {
      LastSwingPast(df, i + 1);
    }
  }

  /**
   * _compute_bias: over the last twenty H4 candles, bullish and impulsive
   * when the last close is above the close four candles earlier, bearish
   * and impulsive when below, neutral and corrective when equal; with fewer
   * than five candles the lookup fails and the bias stays neutral and flat.
   */
  function ComputeBias(h4: seq<Candle>): (r: (Bias, StructureState))
    ensures |h4| < 5 ==> r == (NeutralBias, Flat)
    ensures |h4| >= 5 ==>
      (r.0 == BullishBias <==> h4[|h4| - 1].close > h4[|h4| - 5].close) &&
      (r.0 == BearishBias <==> h4[|h4| - 1].close < h4[|h4| - 5].close) &&
      (r.1 == Impulse <==> r.0 != NeutralBias) &&
      (r.1 == Correction <==> r.0 == NeutralBias)
  {
    var df := if |h4| <= BiasLookback then h4 else h4[|h4| - BiasLookback..];
    if |df| < 5 then (NeutralBias, Flat)
    else if df[|df| - 1].close > df[|df| - 5].close then (BullishBias, Impulse)
    else if df[|df| - 1].close < df[|df| - 5].close then (BearishBias, Impulse)
    else (NeutralBias, Correction)
  }

  /**
   * _get_previous_day_levels as written: the D1 times are whole seconds,
   * which `pd.to_datetime` without a unit reads as nanoseconds, so every
   * candle falls on 1970-01-01, no candle is on the day before, and the
   * fallback always applies: the second-to-last candle, or the only one.
   */
  function PreviousDayLevels(d1: seq<Candle>): (r: (Option<real>, Option<real>, Option<real>))
    ensures |d1| == 0 ==> r == (None, None, None)
  {
    if |d1| == 0 then (None, None, None)
    else
      var row := if |d1| > 1 then d1[|d1| - 2] else d1[|d1| - 1];
      (Some(row.high), Some(row.low), Some(row.close))
  }

  /** The last candle whose day is `day`, or -1. */
  function LastOnDay(d1: seq<Candle>, day: int): (k: int)
    ensures -1 <= k < |d1|
    ensures k >= 0 ==> DayOf(d1[k].time) == day
    ensures forall j :: k < j < |d1| ==> DayOf(d1[j].time) != day
  {
    if |d1| == 0 then -1
    else if DayOf(d1[|d1| - 1].time) == day then |d1| - 1
    else LastOnDay(d1[..|d1| - 1], day)
  }

  /** The previous-day levels as the method intends them: the last candle dated the day before the last candle. */
  function IntendedPreviousDayLevels(d1: seq<Candle>): (Option<real>, Option<real>, Option<real>)
  {
    if |d1| == 0 then (None, None, None)
    else
      var k := LastOnDay(d1, DayOf(d1[|d1| - 1].time) - 1);
      var row := if k >= 0 then d1[k] else if |d1| > 1 then d1[|d1| - 2] else d1[|d1| - 1];
      (Some(row.high), Some(row.low), Some(row.close))
  }

  /** Daily candles on strictly increasing days. */
  predicate DistinctDays(d1: seq<Candle>)
  {
    forall i, j :: 0 <= i < j < |d1| ==> DayOf(d1[i].time) < DayOf(d1[j].time)
  }

  /**
   * On daily candles with one candle per day, the unit slip does not show:
   * the candle of the day before, when there is one, is the second-to-last.
   */
  lemma PreviousDayAgrees(d1: seq<Candle>)
    requires DistinctDays(d1)
    ensures PreviousDayLevels(d1) == IntendedPreviousDayLevels(d1)
  {
    if |d1| > 0 {
      var day := DayOf(d1[|d1| - 1].time) - 1;
      var k := LastOnDay(d1, day);
      if k >= 0 {
        assert k == |d1| - 2;
      }
    }
  }

  /** What _context_needs_update answers; `Raised` is the TypeError of comparing a level with a NULL one. */
  datatype UpdateCheck = Needed | NotNeeded | Raised

  /**
   * _context_needs_update: always without a previous context; never when
   * a new swing level is missing; otherwise when the new high is above the
   * stored one, the new low below the stored one, or the stored context is
   * more than 72 hours old. A NULL stored level met by a comparison raises.
   */
  function NeedsUpdate(last: Option<ContextRow>, high: Option<real>, low: Option<real>, now: int): (r: UpdateCheck)
    ensures last.None? ==> r == Needed
    ensures last.Some? && (high.None? || low.None?) ==> r == NotNeeded
    ensures last.Some? && high.Some? && low.Some? ==>
      (r == Raised <==>
        last.value.recentHigh.None? || (high.value <= last.value.recentHigh.value && last.value.recentLow.None?))
    ensures last.Some? && high.Some? && low.Some? && last.value.recentHigh.Some? && last.value.recentLow.Some? ==>
      (r == Needed <==>
        high.value > last.value.recentHigh.value || low.value < last.value.recentLow.value ||
        now - last.value.createdAt > RefreshSeconds)
  {
    if last.None? then Needed
    else if high.None? || low.None? then NotNeeded
    else if last.value.recentHigh.None? then Raised
    else if high.value > last.value.recentHigh.value then Needed
    else if last.value.recentLow.None? then Raised
    else if low.value < last.value.recentLow.value then Needed
    else if now - last.value.createdAt > RefreshSeconds then Needed
    else NotNeeded
  }

  /** The context row _save_context appends: swept flags clear, active, stamped with the newest H1 candle's time. */
  function NewContext(symbol: string, h1: seq<Candle>, h4: seq<Candle>, d1: seq<Candle>): ContextRow
    requires |h1| > 0
  {
    var (bias, state) := ComputeBias(h4);
    var (high, low) := ConfirmedSwings(h1);
    var (pdh, pdl, pdc) := PreviousDayLevels(d1);
    ContextRow(symbol, bias, state, high, low, pdh, pdl, pdc, false, false, true, h1[|h1| - 1].time, None)
  }

  /** The latest context of the symbol, active or not, as _get_active_context reads it. */
  function Latest(rows: seq<ContextRow>, symbol: string): Option<ContextRow>
  {
    var k := LatestContext(rows, symbol, false);
    if k < 0 then None else Some(rows[k])
  }

  /** A run appends a context: on the traded symbol, with enough candles, when the check answers Needed. */
  predicate Appends(rows: seq<ContextRow>, symbol: string, h1: seq<Candle>, h4: seq<Candle>, now: int)
  {
    symbol == DataSymbol && |h1| >= MinH1 && |h4| >= MinH4 &&
    NeedsUpdate(Latest(rows, symbol), ConfirmedSwings(h1).0, ConfirmedSwings(h1).1, now) == Needed
  }

  /**
   * run_step: the candle fetch raises for any symbol but the traded one and
   * otherwise keeps the newest 300 H1 and H4 candles and the newest 30 D1
   * candles of each feed; too few H1 or H4 candles leave the table alone; otherwise a new context
   * is appended when the check says so. Errors are logged and swallowed.
   */
  method RunStep(contexts: ContextTable, symbol: string, h1Feed: seq<Candle>, h4Feed: seq<Candle>, d1Feed: seq<Candle>,
                 now: int)
    modifies contexts
    ensures var h1, h4 := RecentCandles(h1Feed), RecentCandles(h4Feed);
      Appends(old(contexts.rows), symbol, h1, h4, now) ==>
        contexts.rows == old(contexts.rows) + [NewContext(symbol, h1, h4, DailyCandles(d1Feed))]
    ensures !Appends(old(contexts.rows), symbol, RecentCandles(h1Feed), RecentCandles(h4Feed), now) ==>
      contexts.rows == old(contexts.rows)
  {
    if symbol != DataSymbol {
      return;
    }
    var h1, h4, d1 := RecentCandles(h1Feed), RecentCandles(h4Feed), DailyCandles(d1Feed);
    if |h1| < MinH1 || |h4| < MinH4 {
      return;
    }
    var (bias, state) := ComputeBias(h4);
    var high, low := GetConfirmedSwings(h1);
    var (pdh, pdl, pdc) := PreviousDayLevels(d1);
    var last := Latest(contexts.rows, symbol);
    if NeedsUpdate(last, high, low, now) == Needed {
      contexts.rows := contexts.rows +
        [ContextRow(symbol, bias, state, high, low, pdh, pdl, pdc, false, false, true, h1[|h1| - 1].time, None)];
    }
  }

  /**
   * The first context of a symbol is saved even when the H1 candles hold no
   * swing, with NULL levels; from then on every run that finds swings raises
   * comparing with those NULLs, so no later context is ever appended.
   */
  lemma NullContextBlocks(rows: seq<ContextRow>, symbol: string, h1: seq<Candle>, h4: seq<Candle>,
                          d1: seq<Candle>, now: int)
    requires symbol == DataSymbol && |h1| >= MinH1 && |h4| >= MinH4
    requires Latest(rows, symbol).None? && ConfirmedSwings(h1).0.None?
    ensures Appends(rows, symbol, h1, h4, now)
    ensures var saved := rows + [NewContext(symbol, h1, h4, d1)];
      forall h1', h4', now' :: !Appends(saved, symbol, h1', h4', now')
  {
    var saved := rows + [NewContext(symbol, h1, h4, d1)];
    assert LatestContext(saved, symbol, false) == |rows|;
    assert Latest(saved, symbol) == Some(NewContext(symbol, h1, h4, d1));
    assert NewContext(symbol, h1, h4, d1).recentHigh.None?;
  }
}

=== FILE: lsr_rejection.dfy ===
/**
 * The rejection stage of the liquidity-sweep-rejection strategy: each
 * pending sweep looks at up to three M15 candles after its sweeping
 * candle. A candle that closes back across the swept level with a body of
 * at least 0.8 ATR rejects the sweep at once; two smaller closes back across
 * the level reject it with a delay, unless a candle's wick returns beyond
 * the level after the first of them. A sweep that three candles did not
 * reject fails; with fewer candles it waits for the next run.
 */
module LsrRejection {
  import opened Common
  import opened LsrStore
  import Entry

  /** How many candles after the sweep are examined. */
  const LookaheadBars: nat := 3
  /** The ATR is a rolling mean over this many true ranges (fewer at the start of the feed). */
  const AtrPeriod: nat := 14
  /** A body at least this many ATRs long rejects at once. */
  const InstantBody: real := 0.8
  /** This many small closes back across the level reject with a delay. */
  const DelayedCount: nat := 2

  /**
   * `tr.rolling(14, min_periods=1).mean()` at candle `i`: the mean true
   * range of the candles from `i - 13` (or the first) to `i`.
   */
  function RollingAtr(df: seq<Candle>, i: nat): (r: real)
    requires i < |df|
    ensures r >= 0.0
  {
    var lo := if i + 1 >= AtrPeriod then i + 1 - AtrPeriod else 0;
    var w := Entry.Ranges(df)[lo..i + 1];
    Entry.RangesTotalNonneg(df, lo, i + 1);
    DivNonneg(Total(w), (i + 1 - lo) as real);
    Total(w) / ((i + 1 - lo) as real)
  }

  /** A candle with the ATR column computed over the fetched candles. */
  datatype Bar = Bar(candle: Candle, atr: real)

  /** The fetched candles with their ATR, in order. */
  function WithAtr(df: seq<Candle>): (r: seq<Bar>)
    ensures |r| == |df|
    ensures forall i :: 0 <= i < |df| ==> r[i] == Bar(df[i], RollingAtr(df, i))
  {
    seq(|df|, i requires 0 <= i < |df| => Bar(df[i], RollingAtr(df, i)))
  }

  /** The bars strictly after time `t`, in order. */
  function BarsAfter(bars: seq<Bar>, t: int): seq<Bar>
  {
    if |bars| == 0 then []
    else
      var front := BarsAfter(bars[..|bars| - 1], t);
      if bars[|bars| - 1].candle.time > t then front + [bars[|bars| - 1]] else front
  }

  /** The bars after `t` are exactly the bars later than `t`. */
  lemma {:induction false} BarsAfterMembers(bars: seq<Bar>, t: int)
    ensures forall b :: b in BarsAfter(bars, t) <==> b in bars && b.candle.time > t
  {
    if |bars| > 0 {
      BarsAfterMembers(bars[..|bars| - 1], t);
      assert forall b :: b in bars <==> b in bars[..|bars| - 1] || b == bars[|bars| - 1];
    }
  }

  /** The candles a sweep is judged on: the first three after its sweeping candle. */
  function Window(feed: seq<Candle>, sweepTime: int): (r: seq<Bar>)
    ensures |r| <= LookaheadBars
  {
    var after := BarsAfter(WithAtr(feed), sweepTime);
    if |after| <= LookaheadBars then after else after[..LookaheadBars]
  }

  /** Every candle a sweep is judged on comes after the sweeping candle. */
  lemma WindowAfter(feed: seq<Candle>, sweepTime: int)
    ensures forall b :: b in Window(feed, sweepTime) ==> b.candle.time > sweepTime
  {
    var after := BarsAfter(WithAtr(feed), sweepTime);
    BarsAfterMembers(WithAtr(feed), sweepTime);
    assert forall b :: b in Window(feed, sweepTime) ==> b in after;
  }

  /** The bar closes back across the level: below it after a buy-side sweep, above it after a sell-side one. */
  predicate Beyond(side: SweepSide, level: real, b: Bar)
  {
    (side == BuySide && b.candle.close < level) || (side == SellSide && b.candle.close > level)
  }

  /** A close back across the level with a body of at least 0.8 ATR. */
  predicate Strong(side: SweepSide, level: real, b: Bar)
  {
    Beyond(side, level, b) && Abs(b.candle.close - b.candle.open) >= InstantBody * b.atr
  }

  /** A close back across the level with a shorter body. */
  predicate Small(side: SweepSide, level: real, b: Bar)
  {
    Beyond(side, level, b) && !(Abs(b.candle.close - b.candle.open) >= InstantBody * b.atr)
  }

  /** The bar's wick passes the level again: above it after a buy-side sweep, below it after a sell-side one. */
  predicate Wick(side: SweepSide, level: real, b: Bar)
  {
    (side == BuySide && b.candle.high > level) || (side == SellSide && b.candle.low < level)
  }

  /** How a sweep's candles end: rejected at once or with a delay, invalidated, or undecided; `at` is the deciding bar. */
  datatype Verdict = Instant(at: nat) | Delayed(at: nat) | Invalidated(at: nat) | Undecided

  /** The candle loop of _evaluate_rejection from bar `i`, with `counter` small closes seen so far. */
  function Evaluate(side: SweepSide, level: real, bars: seq<Bar>, i: nat, counter: nat): (v: Verdict)
    requires i <= |bars|
    ensures !v.Undecided? ==> i <= v.at < |bars|
    decreases |bars| - i
  {
    if i == |bars| then Undecided
    else if Strong(side, level, bars[i]) then Instant(i)
    else
      var n := if Beyond(side, level, bars[i]) then counter + 1 else counter;
      if n > 0 && Wick(side, level, bars[i]) then Invalidated(i)
      else if n >= DelayedCount then Delayed(i)
      else Evaluate(side, level, bars, i + 1, n)
  }

  /** The number of small closes among the first `k` bars. */
  function SmallCount(side: SweepSide, level: real, bars: seq<Bar>, k: nat): nat
    requires k <= |bars|
  {
    if k == 0 then 0
    else SmallCount(side, level, bars, k - 1) + (if Small(side, level, bars[k - 1]) then 1 else 0)
  }

  /**
   * Bar `k` ends the loop: it closes strongly back across the level, or a
   * small close has been seen by then and its wick passes the level again,
   * or two small closes have been seen by then.
   */
  predicate DecidesAt(side: SweepSide, level: real, bars: seq<Bar>, k: nat)
    requires k < |bars|
  {
    Strong(side, level, bars[k]) ||
    (SmallCount(side, level, bars, k + 1) > 0 && Wick(side, level, bars[k])) ||
    SmallCount(side, level, bars, k + 1) >= DelayedCount
  }

  lemma {:induction false} EvaluateFrom(side: SweepSide, level: real, bars: seq<Bar>, i: nat, counter: nat)
    requires i <= |bars| && counter == SmallCount(side, level, bars, i)
    requires forall j :: 0 <= j < i ==> !DecidesAt(side, level, bars, j)
    ensures var v := Evaluate(side, level, bars, i, counter);
      (v.Undecided? <==> forall k :: 0 <= k < |bars| ==> !DecidesAt(side, level, bars, k)) &&
      (!v.Undecided? ==>
        (i <= v.at < |bars| && DecidesAt(side, level, bars, v.at) &&
         forall j :: 0 <= j < v.at ==> !DecidesAt(side, level, bars, j))) &&
      (v.Instant? ==> Strong(side, level, bars[v.at])) &&
      (v.Invalidated? ==> !Strong(side, level, bars[v.at]) && Wick(side, level, bars[v.at])) &&
      (v.Delayed? ==>
        (!Strong(side, level, bars[v.at]) && !Wick(side, level, bars[v.at]) &&
         Small(side, level, bars[v.at]) && SmallCount(side, level, bars, v.at + 1) == DelayedCount))
    decreases |bars| - i
  {
    if i < |bars| {
      if Strong(side, level, bars[i]) {
        assert DecidesAt(side, level, bars, i);
      } else {
        var n := if Beyond(side, level, bars[i]) then counter + 1 else counter;
        assert n == SmallCount(side, level, bars, i + 1);
        if i > 0 {
          assert !DecidesAt(side, level, bars, i - 1);
        }
        if !(n > 0 && Wick(side, level, bars[i])) && n < DelayedCount {
          assert !DecidesAt(side, level, bars, i);
          EvaluateFrom(side, level, bars, i + 1, n);
        } else {
          assert DecidesAt(side, level, bars, i);
        }
      }
    }
  }

  /**
   * What the loop decides, stated without the loop: it stops at the first
   * bar that decides, or runs out undecided when none does; an instant
   * rejection is a strong close; an invalidation is a wick back beyond the
   * level after a small close; a delayed rejection is the second small close,
   * with no wick beyond the level.
   */
  lemma EvaluateFacts(side: SweepSide, level: real, bars: seq<Bar>)
    ensures var v := Evaluate(side, level, bars, 0, 0);
      (v.Undecided? <==> forall k :: 0 <= k < |bars| ==> !DecidesAt(side, level, bars, k)) &&
      (!v.Undecided? ==>
        (v.at < |bars| && DecidesAt(side, level, bars, v.at) &&
         forall j :: 0 <= j < v.at ==> !DecidesAt(side, level, bars, j))) &&
      (v.Instant? ==> Strong(side, level, bars[v.at])) &&
      (v.Invalidated? ==> !Strong(side, level, bars[v.at]) && Wick(side, level, bars[v.at])) &&
      (v.Delayed? ==>
        (!Strong(side, level, bars[v.at]) && !Wick(side, level, bars[v.at]) &&
         Small(side, level, bars[v.at]) && SmallCount(side, level, bars, v.at + 1) == DelayedCount))
  {
    EvaluateFrom(side, level, bars, 0, 0);
  }

  /**
   * The loop of _evaluate_rejection: each bar either confirms a strong
   * rejection, or counts a small close, then checks for invalidation and for
   * the second small close.
   */
  method Judge(side: SweepSide, level: real, bars: seq<Bar>) returns (v: Verdict)
    ensures v == Evaluate(side, level, bars, 0, 0)
  {
    var counter := 0;
    var i := 0;
    while i < |bars|
      invariant 0 <= i <= |bars|
      invariant Evaluate(side, level, bars, i, counter) == Evaluate(side, level, bars, 0, 0)
    {
      var c := bars[i].candle;
      var body := Abs(c.close - c.open);
      if side == BuySide && c.close < level {
        if body >= InstantBody * bars[i].atr {
          return Instant(i);
        }
        counter := counter + 1;
      } else if side == SellSide && c.close > level {
        if body >= InstantBody * bars[i].atr {
          return Instant(i);
        }
        counter := counter + 1;
      }
      if counter > 0 {
        if (side == BuySide && c.high > level) || (side == SellSide && c.low < level) {
          return Invalidated(i);
        }
        if counter >= DelayedCount {
          return Delayed(i);
        }
      }
      i := i + 1;
    }
    return Undecided;
  }

  /**
   * The sweep row after judging, and the rejection row inserted with it:
   * no candles leave it pending; a rejection marks it rejected at the
   * deciding candle's time and records that candle's close; otherwise it
   * fails once three candles were seen, and stays pending before that.
   */
  function Judged(id: nat, row: SweepRow, symbol: string, timeframe: string, bars: seq<Bar>): (SweepRow, Option<RejectionRow>)
  {
    if |bars| == 0 then (row, None)
    else
      match Evaluate(row.side, row.level, bars, 0, 0)
      case Instant(k) =>
        (row.(status := Rejected, rejectionTime := Some(bars[k].candle.time)),
         Some(RejectionRow(id, symbol, timeframe, bars[k].candle.time, bars[k].candle.close, row.side, false)))
      case Delayed(k) =>
        (row.(status := Rejected, rejectionTime := Some(bars[k].candle.time)),
         Some(RejectionRow(id, symbol, timeframe, bars[k].candle.time, bars[k].candle.close, row.side, false)))
      case _ =>
        if |bars| >= LookaheadBars then (row.(status := Failed), None) else (row, None)
  }

  /**
   * Judging a sweep: it is rejected exactly when a rejection row is
   * inserted, and that row points at the sweep, carries the sweep's side and
   * the rejection time, and comes after the sweep; it fails exactly when no
   * rejection came and three candles were seen; otherwise it stays as it
   * was. Nothing but the status and the rejection time changes.
   */
  lemma JudgedFacts(id: nat, row: SweepRow, symbol: string, timeframe: string, feed: seq<Candle>)
    requires row.status == SweepPending
    ensures var bars := Window(feed, row.candle.time);
      var (r, rej) := Judged(id, row, symbol, timeframe, bars);
      var v := Evaluate(row.side, row.level, bars, 0, 0);
      r == row.(status := r.status, rejectionTime := r.rejectionTime) &&
      (r.status == Rejected <==> rej.Some?) &&
      (r.status == Rejected <==> |bars| > 0 && (v.Instant? || v.Delayed?)) &&
      (r.status == Failed <==> !(v.Instant? || v.Delayed?) && |bars| == LookaheadBars) &&
      (r.status == SweepPending ==> r == row) &&
      (rej.Some? ==>
        (rej.value.sweepId == id && rej.value.side == row.side && !rej.value.setupGenerated &&
         r.rejectionTime == Some(rej.value.time) && rej.value.time > row.candle.time))
  {
    var bars := Window(feed, row.candle.time);
    if |bars| > 0 {
      EvaluateFacts(row.side, row.level, bars);
      var v := Evaluate(row.side, row.level, bars, 0, 0);
      if v.Instant? || v.Delayed? {
        WindowAfter(feed, row.candle.time);
        assert bars[v.at] in bars;
      }
    }
  }

  /** The sweep row after judging it on the candles after its sweeping candle. */
  function JudgedRow(id: nat, row: SweepRow, symbol: string, timeframe: string, feed: seq<Candle>): SweepRow
  {
    Judged(id, row, symbol, timeframe, Window(feed, row.candle.time)).0
  }

  /** The rejection row inserted when judging the sweep, if any. */
  function JudgedRejection(id: nat, row: SweepRow, symbol: string, timeframe: string, feed: seq<Candle>): seq<RejectionRow>
  {
    var rej := Judged(id, row, symbol, timeframe, Window(feed, row.candle.time)).1;
    if rej.Some? then [rej.value] else []
  }

  /**
   * _evaluate_rejection for the sweep with id `id`: judge it on its window
   * and write the outcome; a rejection's status, time and rejection row are
   * committed together.
   */
  method EvaluateRejection(sweeps: SweepTable, rejections: RejectionTable, id: nat, symbol: string,
                           timeframe: string, feed: seq<Candle>)
    requires 1 <= id <= |sweeps.rows|
    modifies sweeps, rejections
    ensures sweeps.rows == old(sweeps.rows)[id - 1 := JudgedRow(id, old(sweeps.rows)[id - 1], symbol, timeframe, feed)]
    ensures rejections.rows ==
      old(rejections.rows) + JudgedRejection(id, old(sweeps.rows)[id - 1], symbol, timeframe, feed)
  {
    var sweep := sweeps.rows[id - 1];
    var bars := Window(feed, sweep.candle.time);
    if |bars| == 0 {
      return;
    }
    var v := Judge(sweep.side, sweep.level, bars);
    if v.Instant? || v.Delayed? {
      var c := bars[v.at].candle;
      sweeps.rows := sweeps.rows[id - 1 := sweep.(status := Rejected, rejectionTime := Some(c.time))];
      rejections.rows := rejections.rows + [RejectionRow(id, symbol, timeframe, c.time, c.close, sweep.side, false)];
    } else if |bars| >= LookaheadBars {
      sweeps.rows := sweeps.rows[id - 1 := sweep.(status := Failed)];
    }
  }

  /** Ids of the pending sweeps of this symbol and timeframe, in table order. */
  function PendingIds(rows: seq<SweepRow>, symbol: string, timeframe: string): (ids: seq<nat>)
    ensures forall j :: 0 <= j < |ids| ==> 1 <= ids[j] <= |rows|
    ensures forall i :: 0 <= i < |rows| ==>
      (i + 1 in ids <==> rows[i].symbol == symbol && rows[i].timeframe == timeframe && rows[i].status == SweepPending)
    ensures forall j, k :: 0 <= j < k < |ids| ==> ids[j] < ids[k]
  {
    if |rows| == 0 then []
    else
      var front := PendingIds(rows[..|rows| - 1], symbol, timeframe);
      assert forall i :: 0 <= i < |rows| - 1 ==> rows[..|rows| - 1][i] == rows[i];
      var last := rows[|rows| - 1];
      if last.symbol == symbol && last.timeframe == timeframe && last.status == SweepPending
      then front + [|rows|] else front
  }

  /** The rejection rows, none or one, that judging each sweep row inserts. */
  ghost function Findings(start: seq<SweepRow>, symbol: string, timeframe: string, feed: seq<Candle>): (r: seq<seq<RejectionRow>>)
    ensures |r| == |start|
    ensures forall i {:trigger r[i]} :: 0 <= i < |start| ==> r[i] == JudgedRejection(i + 1, start[i], symbol, timeframe, feed)
  {
    seq(|start|, i requires 0 <= i < |start| => JudgedRejection(i + 1, start[i], symbol, timeframe, feed))
  }

  /** The rows of `found` for the ids `ids`, concatenated in the order of `ids`. */
  function Gather(found: seq<seq<RejectionRow>>, ids: seq<nat>): seq<RejectionRow>
    requires forall j :: 0 <= j < |ids| ==> 1 <= ids[j] <= |found|
  {
    if |ids| == 0 then []
    else Gather(found, ids[..|ids| - 1]) + found[ids[|ids| - 1] - 1]
  }

  /** Every sweep row judged on its own window. */
  ghost function Verdicts(start: seq<SweepRow>, symbol: string, timeframe: string, feed: seq<Candle>): (r: seq<SweepRow>)
    ensures |r| == |start|
    ensures forall i {:trigger r[i]} :: 0 <= i < |start| ==> r[i] == JudgedRow(i + 1, start[i], symbol, timeframe, feed)
  {
    seq(|start|, i requires 0 <= i < |start| => JudgedRow(i + 1, start[i], symbol, timeframe, feed))
  }

  /** The rows whose ids are in `done` taken from `judged`, the others from `start`. */
  ghost function Select(start: seq<SweepRow>, judged: seq<SweepRow>, done: seq<nat>): (r: seq<SweepRow>)
    requires |judged| == |start|
    ensures |r| == |start|
    ensures forall i {:trigger r[i]} :: 0 <= i < |start| ==> r[i] == (if i + 1 in done then judged[i] else start[i])
  {
    seq(|start|, i requires 0 <= i < |start| => if i + 1 in done then judged[i] else start[i])
  }

  /** Taking one more id, not taken before, replaces just that row. */
  lemma {:induction false} SelectOneMore(start: seq<SweepRow>, judged: seq<SweepRow>, done: seq<nat>, id: nat)
    requires |judged| == |start|
    requires 1 <= id <= |start| && id !in done
    ensures Select(start, judged, done)[id - 1] == start[id - 1]
    ensures Select(start, judged, done + [id]) == Select(start, judged, done)[id - 1 := judged[id - 1]]
  {
    var before := Select(start, judged, done);
    var after := Select(start, judged, done + [id]);
    forall i | 0 <= i < |start|
      ensures after[i] == before[id - 1 := judged[id - 1]][i]
    {
      assert i + 1 in done + [id] <==> i + 1 in done || i + 1 == id;
    }
  }

  /**
   * A judged sweep row and the rejection rows its judging inserted agree:
   * one row exactly when the sweep is rejected, pointing at the sweep and
   * carrying its rejection time.
   */
  predicate Agree(row: SweepRow, rejs: seq<RejectionRow>, id: nat)
  {
    |rejs| <= 1 &&
    (row.status == Rejected <==> |rejs| == 1) &&
    (|rejs| == 1 ==> rejs[0].sweepId == id && row.rejectionTime == Some(rejs[0].time))
  }

  lemma JudgedAgree(id: nat, row: SweepRow, symbol: string, timeframe: string, feed: seq<Candle>)
    requires row.status == SweepPending
    ensures Agree(JudgedRow(id, row, symbol, timeframe, feed), JudgedRejection(id, row, symbol, timeframe, feed), id)
  {
    JudgedFacts(id, row, symbol, timeframe, feed);
  }

  /** Gathering agreeing rows keeps every row tied to its sweep, and every rejected sweep to a row. */
  lemma {:induction false} GatherAgree(judged: seq<SweepRow>, found: seq<seq<RejectionRow>>, ids: seq<nat>)
    requires |judged| == |found|
    requires forall j :: 0 <= j < |ids| ==> 1 <= ids[j] <= |found| && Agree(judged[ids[j] - 1], found[ids[j] - 1], ids[j])
    ensures forall r :: r in Gather(found, ids) ==>
      r.sweepId in ids && judged[r.sweepId - 1].status == Rejected && judged[r.sweepId - 1].rejectionTime == Some(r.time)
    ensures forall id :: id in ids && judged[id - 1].status == Rejected ==> exists r :: r in Gather(found, ids) && r.sweepId == id
  {
    if |ids| > 0 {
      var front := ids[..|ids| - 1];
      var last := ids[|ids| - 1];
      GatherAgree(judged, found, front);
      assert Agree(judged[last - 1], found[last - 1], last);
      assert forall id :: id in ids <==> id in front || id == last;
      if judged[last - 1].status == Rejected {
        assert found[last - 1][0] in Gather(found, ids);
      }
    }
  }

  /**
   * The rejection rows of a run and the judged sweeps agree: each inserted
   * row points at a judged sweep that is now rejected at the row's time,
   * and each judged sweep that is now rejected has a row.
   */
  lemma GatherRejections(start: seq<SweepRow>, ids: seq<nat>, symbol: string, timeframe: string, feed: seq<Candle>)
    requires forall j :: 0 <= j < |ids| ==> 1 <= ids[j] <= |start| && start[ids[j] - 1].status == SweepPending
    ensures var judged := Verdicts(start, symbol, timeframe, feed);
      var g := Gather(Findings(start, symbol, timeframe, feed), ids);
      (forall r :: r in g ==>
        r.sweepId in ids && judged[r.sweepId - 1].status == Rejected &&
        judged[r.sweepId - 1].rejectionTime == Some(r.time)) &&
      (forall id :: id in ids && judged[id - 1].status == Rejected ==> exists r :: r in g && r.sweepId == id)
  {
    var judged := Verdicts(start, symbol, timeframe, feed);
    var found := Findings(start, symbol, timeframe, feed);
    forall j | 0 <= j < |ids|
      ensures Agree(judged[ids[j] - 1], found[ids[j] - 1], ids[j])
    {
      JudgedAgree(ids[j], start[ids[j] - 1], symbol, timeframe, feed);
    }
    GatherAgree(judged, found, ids);
  }

  /** One turn of the loop of `RunStep`: judge the sweep `ids[k]`. */
  method JudgeNext(sweeps: SweepTable, rejections: RejectionTable, ids: seq<nat>, k: nat,
                   ghost start: seq<SweepRow>, ghost judged: seq<SweepRow>, ghost found: seq<seq<RejectionRow>>,
                   ghost inserted: seq<RejectionRow>, symbol: string, timeframe: string, feed: seq<Candle>)
    requires k < |ids| && |judged| == |start| && |found| == |start|
    requires forall j :: 0 <= j < |ids| ==> 1 <= ids[j] <= |start|
    requires forall j, l :: 0 <= j < l < |ids| ==> ids[j] < ids[l]
    requires judged[ids[k] - 1] == JudgedRow(ids[k], start[ids[k] - 1], symbol, timeframe, feed)
    requires found[ids[k] - 1] == JudgedRejection(ids[k], start[ids[k] - 1], symbol, timeframe, feed)
    requires sweeps.rows == Select(start, judged, ids[..k])
    requires rejections.rows == inserted + Gather(found, ids[..k])
    modifies sweeps, rejections
    ensures sweeps.rows == Select(start, judged, ids[..k + 1])
    ensures rejections.rows == inserted + Gather(found, ids[..k + 1])
  {
    var id := ids[k];
    NextId(ids, k);
    SelectOneMore(start, judged, ids[..k], id);
    EvaluateRejection(sweeps, rejections, id, symbol, timeframe, feed);
  }

  /**
   * run_step: judge every pending sweep of the symbol and timeframe in
   * order, on the newest 300 M15 candles. The candle fetch raises at the
   * first sweep for any symbol but the traded one, and so does an empty
   * candle table, whose frame has no time column; then nothing changes.
   * Errors are logged and swallowed.
   */
  method RunStep(sweeps: SweepTable, rejections: RejectionTable, symbol: string, timeframe: string, feed: seq<Candle>)
    returns (raised: bool)
    modifies sweeps, rejections
    ensures var ids := PendingIds(old(sweeps.rows), symbol, timeframe);
      raised == (|ids| > 0 && (symbol != DataSymbol || |feed| == 0))
    ensures var ids := PendingIds(old(sweeps.rows), symbol, timeframe);
      |ids| == 0 || symbol != DataSymbol || |feed| == 0 ==>
        sweeps.rows == old(sweeps.rows) && rejections.rows == old(rejections.rows)
    ensures var ids := PendingIds(old(sweeps.rows), symbol, timeframe);
      symbol == DataSymbol && |feed| > 0 ==>
        var df := RecentCandles(feed);
        sweeps.rows == Select(old(sweeps.rows), Verdicts(old(sweeps.rows), symbol, timeframe, df), ids) &&
        rejections.rows == old(rejections.rows) + Gather(Findings(old(sweeps.rows), symbol, timeframe, df), ids)
  {
    var ids := PendingIds(sweeps.rows, symbol, timeframe);
    if |ids| == 0 {
      return false;
    }
    if symbol != DataSymbol || |feed| == 0 {
      return true;
    }
    var df := RecentCandles(feed);
    ghost var start := sweeps.rows;
    ghost var inserted := rejections.rows;
    ghost var judged := Verdicts(start, symbol, timeframe, df);
    ghost var found := Findings(start, symbol, timeframe, df);
    var k := 0;
    while k < |ids|
      invariant 0 <= k <= |ids|
      invariant sweeps.rows == Select(start, judged, ids[..k])
      invariant rejections.rows == inserted + Gather(found, ids[..k])
    {
      JudgeNext(sweeps, rejections, ids, k, start, judged, found, inserted, symbol, timeframe, df);
      k := k + 1;
    }
    assert ids[..|ids|] == ids;
    raised := false;
  }
}

=== FILE: lsr_setup.dfy ===
/**
 * The setup stage of the liquidity-sweep-rejection strategy: every
 * confirmed rejection not yet used becomes one trade setup. The entry is
 * the close of the rejection candle, the stop sits one ATR beyond the swept
 * level, the first target is the stop distance times the reward ratio on
 * the other side of the entry, and the second target is the latest
 * context's recent extreme. Saving a setup and flagging its rejection
 * happen in one commit, so each rejection yields at most one setup.
 */
module LsrSetup {
  import opened Common
  import opened LsrStore
  import LsrRejection

  /** The reward-to-risk ratio used unless another is configured. */
  const DefaultRr: real := 2.0

  /** The rejection with this row qualifies: unused, of the symbol, and joined to a sweep of the symbol. */
  predicate Confirmed(r: RejectionRow, sweeps: seq<SweepRow>, symbol: string)
  {
    !r.setupGenerated && r.symbol == symbol && 1 <= r.sweepId <= |sweeps| && sweeps[r.sweepId - 1].symbol == symbol
  }

  /** Ids of the confirmed rejections, in table order (the join of `_get_confirmed_rejections`). */
  function ConfirmedIds(rows: seq<RejectionRow>, sweeps: seq<SweepRow>, symbol: string): (ids: seq<nat>)
    ensures forall j :: 0 <= j < |ids| ==> 1 <= ids[j] <= |rows|
    ensures forall i {:trigger Confirmed(rows[i], sweeps, symbol)} :: 0 <= i < |rows| ==> (i + 1 in ids <==> Confirmed(rows[i], sweeps, symbol))
    ensures forall j, k :: 0 <= j < k < |ids| ==> ids[j] < ids[k]
  {
    if |rows| == 0 then []
    else
      var front := ConfirmedIds(rows[..|rows| - 1], sweeps, symbol);
      assert forall i :: 0 <= i < |rows| - 1 ==> rows[..|rows| - 1][i] == rows[i];
      if Confirmed(rows[|rows| - 1], sweeps, symbol) then front + [|rows|] else front
  }

  /** The index of the first candle stamped `t`, or -1 when there is none. */
  function FirstAt(df: seq<Candle>, t: int): (k: int)
    ensures -1 <= k < |df|
    ensures k >= 0 ==> df[k].time == t && forall j :: 0 <= j < k ==> df[j].time != t
    ensures k < 0 ==> forall j :: 0 <= j < |df| ==> df[j].time != t
  {
    if |df| == 0 then -1
    else
      var k := FirstAt(df[..|df| - 1], t);
      if k >= 0 then k
      else if df[|df| - 1].time == t then |df| - 1
      else -1
  }

  /** Stop loss and targets of a setup. */
  datatype TradeLevels = TradeLevels(sl: real, tp1: real, tp2: Option<real>)

  /**
   * The levels for a rejection of a sweep of `level`: buy-side sweeps put
   * the stop one ATR below the level and aim at the recent high, sell-side
   * sweeps the stop one ATR above it and aim at the recent low; the first
   * target is `rr` stop distances from the entry.
   */
  function Levels(side: SweepSide, level: real, entry: real, atr: real, rr: real,
                  recentHigh: Option<real>, recentLow: Option<real>): (l: TradeLevels)
    ensures side == BuySide ==> l.sl == level - atr && l.tp2 == recentHigh
    ensures side == SellSide ==> l.sl == level + atr && l.tp2 == recentLow
    // the first target is `rr` stop distances from the entry, on the other side
    ensures l.tp1 - entry == (entry - l.sl) * rr
  {
    match side
    case BuySide =>
      var sl := level - atr;
      TradeLevels(sl, entry + (entry - sl) * rr, recentHigh)
    case SellSide =>
      var sl := level + atr;
      TradeLevels(sl, entry - (sl - entry) * rr, recentLow)
  }

  /**
   * The first target is `rr` times as far from the entry as the stop, on
   * the opposite side; the stop is `atr` beyond the swept level, away from
   * the swept liquidity; the second target is the context's extreme on the
   * side of the trade.
   */
  lemma LevelsFacts(side: SweepSide, level: real, entry: real, atr: real, rr: real,
                    recentHigh: Option<real>, recentLow: Option<real>)
    requires rr >= 0.0 && atr >= 0.0
    ensures var l := Levels(side, level, entry, atr, rr, recentHigh, recentLow);
      Abs(l.tp1 - entry) == rr * Abs(entry - l.sl) &&
      (l.tp1 - entry) * (entry - l.sl) >= 0.0 &&
      Abs(l.sl - level) == atr &&
      (side == BuySide ==> l.sl <= level && l.tp2 == recentHigh) &&
      (side == SellSide ==> l.sl >= level && l.tp2 == recentLow)
  {
    var l := Levels(side, level, entry, atr, rr, recentHigh, recentLow);
    var d := entry - l.sl;
    assert l.tp1 - entry == d * rr;
    ScaledDistance(d, rr);
  }

  /** Scaling a distance by a non-negative ratio scales its size and keeps its sign. */
  lemma ScaledDistance(d: real, rr: real)
    requires rr >= 0.0
    ensures Abs(d * rr) == rr * Abs(d)
    ensures (d * rr) * d >= 0.0
  {
    if d >= 0.0 {
      MulNonneg(d, rr);
      MulNonneg(d * rr, d);
    } else {
      MulNonneg(-d, rr);
      MulNonneg(-d * rr, -d);
      assert (d * rr) * d == (-d * rr) * (-d);
    }
  }

  /**
   * With a positive ratio a buy-side setup is a long trade, stop below the
   * entry and first target above it, exactly when the entry is above the
   * stop (level minus ATR); a sell-side setup is a short trade exactly when
   * the entry is below level plus ATR. A rejection close beyond that point
   * gives a setup whose stop and first target are swapped.
   */
  lemma LevelsOrder(side: SweepSide, level: real, entry: real, atr: real, rr: real,
                    recentHigh: Option<real>, recentLow: Option<real>)
    requires rr > 0.0
    ensures var l := Levels(side, level, entry, atr, rr, recentHigh, recentLow);
      (side == BuySide ==> (l.sl < entry < l.tp1 <==> entry > level - atr)) &&
      (side == SellSide ==> (l.tp1 < entry < l.sl <==> entry < level + atr))
  {
    var l := Levels(side, level, entry, atr, rr, recentHigh, recentLow);
    var d := entry - l.sl;
    assert l.tp1 - entry == d * rr;
    if d > 0.0 {
      MulPos(d, rr);
    } else {
      MulNonneg(-d, rr);
    }
  }

  /** With the default ratio the first target is twice as far from the entry as the stop. */
  lemma DefaultRrDoubles(side: SweepSide, level: real, entry: real, atr: real,
                         recentHigh: Option<real>, recentLow: Option<real>)
    requires atr >= 0.0
    ensures var l := Levels(side, level, entry, atr, DefaultRr, recentHigh, recentLow);
      Abs(l.tp1 - entry) == 2.0 * Abs(entry - l.sl)
  {
    LevelsFacts(side, level, entry, atr, DefaultRr, recentHigh, recentLow);
  }

  /**
   * `_generate_setup` for rejection `id` (row `rej`, its sweep at `level`):
   * None when it raises, because no fetched candle is stamped with the
   * rejection time or the symbol has no context (active or not).
   */
  function PlanSetup(id: nat, rej: RejectionRow, level: real, contexts: seq<ContextRow>, symbol: string,
                     timeframe: string, feed: seq<Candle>, rr: real): Option<SetupRow>
  {
    var df := RecentCandles(feed);
    var k := FirstAt(df, rej.time);
    if k < 0 then None
    else
      var c := LatestContext(contexts, symbol, false);
      if c < 0 then None
      else
        var entry := df[k].close;
        var l := Levels(rej.side, level, entry, LsrRejection.RollingAtr(df, k), rr, contexts[c].recentHigh, contexts[c].recentLow);
        Some(SetupRow(rej.sweepId, id, symbol, timeframe, entry, l.sl, l.tp1, l.tp2, rr))
  }

  /**
   * A setup is made exactly when one of the newest 300 candles has the
   * rejection time and the symbol has a context.
   */
  lemma PlanSetupMade(id: nat, rej: RejectionRow, level: real, contexts: seq<ContextRow>, symbol: string,
                      timeframe: string, feed: seq<Candle>, rr: real)
    ensures var df := RecentCandles(feed);
      PlanSetup(id, rej, level, contexts, symbol, timeframe, feed, rr).Some? <==>
        (exists j :: 0 <= j < |df| && df[j].time == rej.time) &&
        (exists i :: 0 <= i < |contexts| && contexts[i].symbol == symbol)
  {
    var df := RecentCandles(feed);
    var k := FirstAt(df, rej.time);
    var c := LatestContext(contexts, symbol, false);
    if k >= 0 {
      assert df[k].time == rej.time;
    }
    if c >= 0 {
      assert contexts[c].symbol == symbol;
    }
  }

  /**
   * A setup that is made points at the rejection and its sweep, enters at
   * the close of the first candle with the rejection time and takes its
   * second target from the latest context.
   */
  lemma PlanSetupFacts(id: nat, rej: RejectionRow, level: real, contexts: seq<ContextRow>, symbol: string,
                       timeframe: string, feed: seq<Candle>, rr: real)
    ensures var df := RecentCandles(feed);
      var p := PlanSetup(id, rej, level, contexts, symbol, timeframe, feed, rr);
      p.Some? ==>
        (p.value.rejectionId == id && p.value.sweepId == rej.sweepId && p.value.symbol == symbol &&
         p.value.timeframe == timeframe && p.value.rr == rr &&
         (exists j :: 0 <= j < |df| && df[j].time == rej.time && p.value.entry == df[j].close) &&
         (var c := LatestContext(contexts, symbol, false);
          p.value.tp2 == if rej.side == BuySide then contexts[c].recentHigh else contexts[c].recentLow))
  {
    var df := RecentCandles(feed);
    var k := FirstAt(df, rej.time);
    if k >= 0 {
      assert df[k].time == rej.time;
    }
  }

  /**
   * A setup that is made keeps its stop beyond the swept level, and its
   * first target is `rr` stop distances from the entry.
   */
  lemma PlanSetupStop(id: nat, rej: RejectionRow, level: real, contexts: seq<ContextRow>, symbol: string,
                      timeframe: string, feed: seq<Candle>, rr: real)
    requires rr >= 0.0
    ensures var p := PlanSetup(id, rej, level, contexts, symbol, timeframe, feed, rr);
      p.Some? ==>
        Abs(p.value.tp1 - p.value.entry) == rr * Abs(p.value.entry - p.value.sl) &&
        (rej.side == BuySide ==> p.value.sl <= level) &&
        (rej.side == SellSide ==> p.value.sl >= level)
  {
    var df := RecentCandles(feed);
    var k := FirstAt(df, rej.time);
    var c := LatestContext(contexts, symbol, false);
    if k >= 0 && c >= 0 {
      var entry := df[k].close;
      var atr := LsrRejection.RollingAtr(df, k);
      var l := Levels(rej.side, level, entry, atr, rr, contexts[c].recentHigh, contexts[c].recentLow);
      var row := SetupRow(rej.sweepId, id, symbol, timeframe, entry, l.sl, l.tp1, l.tp2, rr);
      var p := PlanSetup(id, rej, level, contexts, symbol, timeframe, feed, rr);
      assert p == Some(row);
      RowStop(p.value, rej.side, level, entry, atr, rr, contexts[c].recentHigh, contexts[c].recentLow);
    }
  }

  /** A setup row built from `Levels` keeps the stop and first-target facts of `LevelsFacts`. */
  lemma RowStop(row: SetupRow, side: SweepSide, level: real, entry: real, atr: real, rr: real,
                recentHigh: Option<real>, recentLow: Option<real>)
    requires rr >= 0.0 && atr >= 0.0
    requires var l := Levels(side, level, entry, atr, rr, recentHigh, recentLow);
      row.entry == entry && row.sl == l.sl && row.tp1 == l.tp1
    ensures Abs(row.tp1 - row.entry) == rr * Abs(row.entry - row.sl)
    ensures side == BuySide ==> row.sl <= level
    ensures side == SellSide ==> row.sl >= level
  {
    LevelsFacts(side, level, entry, atr, rr, recentHigh, recentLow);
  }

  /**
   * `_generate_setup` followed by `_save_setup`: the setup row is inserted
   * and the rejection flagged in one commit, or, when the candle or the
   * context is missing, the call raises and nothing is written.
   */
  method GenerateSetup(setups: SetupTable, rejections: RejectionTable, contexts: ContextTable, id: nat,
                       rej: RejectionRow, level: real, symbol: string, timeframe: string, feed: seq<Candle>, rr: real)
    returns (raised: bool)
    requires 1 <= id <= |rejections.rows|
    modifies setups, rejections
    ensures var p := PlanSetup(id, rej, level, contexts.rows, symbol, timeframe, feed, rr);
      raised == p.None? &&
      (raised ==> setups.rows == old(setups.rows) && rejections.rows == old(rejections.rows)) &&
      (!raised ==>
        setups.rows == old(setups.rows) + [p.value] &&
        rejections.rows == old(rejections.rows)[id - 1 := old(rejections.rows)[id - 1].(setupGenerated := true)])
  {
    var candles := RecentCandles(feed);
    var k := FirstAt(candles, rej.time);
    if k < 0 {
      return true;
    }
    var entry := candles[k].close;
    var atr := LsrRejection.RollingAtr(candles, k);
    var c := LatestContext(contexts.rows, symbol, false);
    if c < 0 {
      return true;
    }
    var context := contexts.rows[c];
    var l := Levels(rej.side, level, entry, atr, rr, context.recentHigh, context.recentLow);
    setups.rows := setups.rows + [SetupRow(rej.sweepId, id, symbol, timeframe, entry, l.sl, l.tp1, l.tp2, rr)];
    rejections.rows := rejections.rows[id - 1 := rejections.rows[id - 1].(setupGenerated := true)];
    raised := false;
  }

  /** The setup rejection `id` would give; a rejection without a sweep is never selected. */
  function PlanRow(id: nat, rej: RejectionRow, sweeps: seq<SweepRow>, contexts: seq<ContextRow>, symbol: string,
                   timeframe: string, feed: seq<Candle>, rr: real): Option<SetupRow>
  {
    if 1 <= rej.sweepId <= |sweeps|
    then PlanSetup(id, rej, sweeps[rej.sweepId - 1].level, contexts, symbol, timeframe, feed, rr)
    else None
  }

  /** The setup each rejection row would give, judged on the rows as fetched. */
  ghost function Plans(rows: seq<RejectionRow>, sweeps: seq<SweepRow>, contexts: seq<ContextRow>, symbol: string,
                       timeframe: string, feed: seq<Candle>, rr: real): (r: seq<Option<SetupRow>>)
    ensures |r| == |rows|
  {
    if |rows| == 0 then []
    else
      Plans(rows[..|rows| - 1], sweeps, contexts, symbol, timeframe, feed, rr) +
        [PlanRow(|rows|, rows[|rows| - 1], sweeps, contexts, symbol, timeframe, feed, rr)]
  }

  /** Each entry of `Plans` is the setup of its own row. */
  lemma {:induction false} PlansAt(rows: seq<RejectionRow>, sweeps: seq<SweepRow>, contexts: seq<ContextRow>, symbol: string,
                                   timeframe: string, feed: seq<Candle>, rr: real, i: nat)
    requires i < |rows|
    ensures Plans(rows, sweeps, contexts, symbol, timeframe, feed, rr)[i] ==
      PlanRow(i + 1, rows[i], sweeps, contexts, symbol, timeframe, feed, rr)
  {
    if i < |rows| - 1 {
      PlansAt(rows[..|rows| - 1], sweeps, contexts, symbol, timeframe, feed, rr, i);
    }
  }

  /** Every planned setup references the rejection it was planned for. */
  predicate PointsBack(plans: seq<Option<SetupRow>>)
  {
    forall i :: 0 <= i < |plans| && plans[i].Some? ==> plans[i].value.rejectionId == i + 1
  }

  lemma PlansPointBack(rows: seq<RejectionRow>, sweeps: seq<SweepRow>, contexts: seq<ContextRow>, symbol: string,
                       timeframe: string, feed: seq<Candle>, rr: real)
    ensures PointsBack(Plans(rows, sweeps, contexts, symbol, timeframe, feed, rr))
  {
    var plans := Plans(rows, sweeps, contexts, symbol, timeframe, feed, rr);
    forall i | 0 <= i < |plans| && plans[i].Some?
      ensures plans[i].value.rejectionId == i + 1
    {
      PlansAt(rows, sweeps, contexts, symbol, timeframe, feed, rr, i);
    }
  }

  /** How many of `ids`, from the front, are planned without raising. */
  function Stop(plans: seq<Option<SetupRow>>, ids: seq<nat>): (n: nat)
    requires forall j :: 0 <= j < |ids| ==> 1 <= ids[j] <= |plans|
    ensures n <= |ids|
    ensures forall j :: 0 <= j < n ==> plans[ids[j] - 1].Some?
    ensures n < |ids| ==> plans[ids[n] - 1].None?
  {
    if |ids| == 0 || plans[ids[0] - 1].None? then 0
    else 1 + Stop(plans, ids[1..])
  }

  /** The first `k` of `ids` are planned without raising. */
  predicate PlannedUpTo(plans: seq<Option<SetupRow>>, ids: seq<nat>, k: nat)
    requires k <= |ids| && forall j :: 0 <= j < |ids| ==> 1 <= ids[j] <= |plans|
  {
    forall j :: 0 <= j < k ==> plans[ids[j] - 1].Some?
  }

  /** `Stop` is the first position whose plan raises. */
  lemma {:induction false} StopAt(plans: seq<Option<SetupRow>>, ids: seq<nat>, k: nat)
    requires k <= |ids| && forall j :: 0 <= j < |ids| ==> 1 <= ids[j] <= |plans|
    requires PlannedUpTo(plans, ids, k) && (k < |ids| ==> plans[ids[k] - 1].None?)
    ensures Stop(plans, ids) == k
  {
    if k > 0 {
      assert plans[ids[0] - 1].Some?;
      assert PlannedUpTo(plans, ids[1..], k - 1) by {
        forall j | 0 <= j < k - 1
          ensures plans[ids[1..][j] - 1].Some?
        {
          assert ids[1..][j] == ids[j + 1];
        }
      }
      StopAt(plans, ids[1..], k - 1);
    }
  }

  /** The setups planned for `ids`, in order. */
  function GatherSetups(plans: seq<Option<SetupRow>>, ids: seq<nat>): seq<SetupRow>
    requires forall j :: 0 <= j < |ids| ==> 1 <= ids[j] <= |plans|
  {
    if |ids| == 0 then []
    else
      var p := plans[ids[|ids| - 1] - 1];
      GatherSetups(plans, ids[..|ids| - 1]) + (if p.Some? then [p.value] else [])
  }

  /** The rejection rows with the ones listed in `done` flagged as used. */
  function Flag(rows: seq<RejectionRow>, done: seq<nat>): (r: seq<RejectionRow>)
    ensures |r| == |rows|
    ensures forall i {:trigger r[i]} :: 0 <= i < |rows| ==> r[i] == if i + 1 in done then rows[i].(setupGenerated := true) else rows[i]
  {
    seq(|rows|, i requires 0 <= i < |rows| => if i + 1 in done then rows[i].(setupGenerated := true) else rows[i])
  }

  /** Flagging one more id, not flagged before, changes just that row. */
  lemma {:induction false} FlagOneMore(rows: seq<RejectionRow>, done: seq<nat>, id: nat)
    requires 1 <= id <= |rows| && id !in done
    ensures Flag(rows, done)[id - 1] == rows[id - 1]
    ensures Flag(rows, done + [id]) == Flag(rows, done)[id - 1 := rows[id - 1].(setupGenerated := true)]
  {
    var before := Flag(rows, done);
    var after := Flag(rows, done + [id]);
    forall i | 0 <= i < |rows|
      ensures after[i] == before[id - 1 := rows[id - 1].(setupGenerated := true)][i]
    {
      assert i + 1 in done + [id] <==> i + 1 in done || i + 1 == id;
    }
  }

  /** One turn of run_step's loop: `GenerateSetup` for the fetched rejection `id`, stated through `Plans`. */
  method SetupNext(setups: SetupTable, rejections: RejectionTable, sweeps: SweepTable, contexts: ContextTable,
                   fetched: seq<RejectionRow>, id: nat, symbol: string, timeframe: string, feed: seq<Candle>, rr: real)
    returns (raised: bool)
    requires 1 <= id <= |fetched| == |rejections.rows| && Confirmed(fetched[id - 1], sweeps.rows, symbol)
    modifies setups, rejections
    ensures var p := Plans(fetched, sweeps.rows, contexts.rows, symbol, timeframe, feed, rr)[id - 1];
      raised == p.None? &&
      (raised ==> setups.rows == old(setups.rows) && rejections.rows == old(rejections.rows)) &&
      (!raised ==>
        setups.rows == old(setups.rows) + [p.value] &&
        rejections.rows == old(rejections.rows)[id - 1 := old(rejections.rows)[id - 1].(setupGenerated := true)])
  {
    var rej := fetched[id - 1];
    var level := sweeps.rows[rej.sweepId - 1].level;
    ghost var p := PlanSetup(id, rej, level, contexts.rows, symbol, timeframe, feed, rr);
    assert Plans(fetched, sweeps.rows, contexts.rows, symbol, timeframe, feed, rr)[id - 1] == p by {
      PlansAt(fetched, sweeps.rows, contexts.rows, symbol, timeframe, feed, rr, id - 1);
    }
    raised := GenerateSetup(setups, rejections, contexts, id, rej, level, symbol, timeframe, feed, rr);
  }

  /**
   * One turn of run_step's loop, for the confirmed id `ids[k]`: either it
   * raises and nothing changes, or the loop's state covers one more id.
   */
  method TakeNext(setups: SetupTable, rejections: RejectionTable, sweeps: SweepTable, contexts: ContextTable,
                  fetched: seq<RejectionRow>, ids: seq<nat>, k: nat, ghost plans: seq<Option<SetupRow>>,
                  ghost before: seq<SetupRow>, symbol: string, timeframe: string, feed: seq<Candle>, rr: real)
    returns (raised: bool)
    requires k < |ids| && forall j :: 0 <= j < |ids| ==> 1 <= ids[j] <= |fetched|
    requires forall j, l :: 0 <= j < l < |ids| ==> ids[j] < ids[l]
    requires Confirmed(fetched[ids[k] - 1], sweeps.rows, symbol)
    requires plans == Plans(fetched, sweeps.rows, contexts.rows, symbol, timeframe, feed, rr)
    requires |rejections.rows| == |fetched| && PlannedUpTo(plans, ids, k)
    requires setups.rows == before + GatherSetups(plans, ids[..k])
    requires rejections.rows == Flag(fetched, ids[..k])
    modifies setups, rejections
    ensures raised == plans[ids[k] - 1].None?
    ensures raised ==> setups.rows == old(setups.rows) && rejections.rows == old(rejections.rows)
    ensures !raised ==> PlannedUpTo(plans, ids, k + 1)
    ensures !raised ==> setups.rows == before + GatherSetups(plans, ids[..k + 1])
    ensures !raised ==> rejections.rows == Flag(fetched, ids[..k + 1])
  {
    var id := ids[k];
    NextId(ids, k);
    FlagOneMore(fetched, ids[..k], id);
    raised := SetupNext(setups, rejections, sweeps, contexts, fetched, id, symbol, timeframe, feed, rr);
    if !raised {
      GatherNext(plans, ids, k);
    }
  }

  /** The setups gathered for one more id, whose plan does not raise. */
  lemma GatherNext(plans: seq<Option<SetupRow>>, ids: seq<nat>, k: nat)
    requires k < |ids| && forall j :: 0 <= j < |ids| ==> 1 <= ids[j] <= |plans|
    requires PlannedUpTo(plans, ids, k) && plans[ids[k] - 1].Some?
    ensures PlannedUpTo(plans, ids, k + 1)
    ensures GatherSetups(plans, ids[..k + 1]) == GatherSetups(plans, ids[..k]) + [plans[ids[k] - 1].value]
  {
    forall j | 0 <= j < k + 1
      ensures plans[ids[j] - 1].Some?
    {
      if j < k {
        assert PlannedUpTo(plans, ids, k);
      } else {
        assert ids[j] == ids[k];
      }
    }
    assert ids[..k + 1][..k] == ids[..k];
  }

  /**
   * run_step: make a setup from every confirmed rejection in order. A
   * rejection whose candle or context is missing raises out of the loop,
   * so the rejections after it wait for the next run; the ones before it
   * keep their setups.
   */
  method RunStep(setups: SetupTable, rejections: RejectionTable, sweeps: SweepTable, contexts: ContextTable,
                 symbol: string, timeframe: string, feed: seq<Candle>, rr: real)
    returns (raised: bool)
    modifies setups, rejections
    ensures var ids := ConfirmedIds(old(rejections.rows), sweeps.rows, symbol);
      var plans := Plans(old(rejections.rows), sweeps.rows, contexts.rows, symbol, timeframe, feed, rr);
      var n := Stop(plans, ids);
      raised == (n < |ids|) &&
      setups.rows == old(setups.rows) + GatherSetups(plans, ids[..n]) &&
      rejections.rows == Flag(old(rejections.rows), ids[..n])
  {
    var ids := ConfirmedIds(rejections.rows, sweeps.rows, symbol);
    var fetched := rejections.rows;
    ghost var before := setups.rows;
    ghost var plans := Plans(fetched, sweeps.rows, contexts.rows, symbol, timeframe, feed, rr);
    assert |plans| == |fetched|;
    raised := false;
    var k := 0;
    while k < |ids|
      invariant 0 <= k <= |ids| && PlannedUpTo(plans, ids, k)
      invariant setups.rows == before + GatherSetups(plans, ids[..k])
      invariant rejections.rows == Flag(fetched, ids[..k])
    {
      assert ids[k] - 1 + 1 in ids;
      raised := TakeNext(setups, rejections, sweeps, contexts, fetched, ids, k, plans, before, symbol, timeframe, feed, rr);
      if raised {
        StopAt(plans, ids, k);
        return;
      }
      k := k + 1;
    }
    StopAt(plans, ids, k);
  }

  /** How many setups reference rejection `id`. */
  function SetupsFor(setups: seq<SetupRow>, id: nat): nat
  {
    if |setups| == 0 then 0
    else SetupsFor(setups[..|setups| - 1], id) + (if setups[|setups| - 1].rejectionId == id then 1 else 0)
  }

  /**
   * Setups and rejection flags agree: every setup references an existing
   * rejection, a flagged rejection has exactly one setup and an unflagged
   * one none.
   */
  ghost predicate SetupsMatchFlags(setups: seq<SetupRow>, rows: seq<RejectionRow>)
  {
    (forall j :: 0 <= j < |setups| ==> 1 <= setups[j].rejectionId <= |rows|) &&
    (forall id {:trigger SetupsFor(setups, id)} :: 1 <= id <= |rows| ==>
      SetupsFor(setups, id) == if rows[id - 1].setupGenerated then 1 else 0)
  }

  /** Appending a setup adds one to the count of its own rejection only. */
  lemma SetupsForSnoc(setups: seq<SetupRow>, s: SetupRow, id: nat)
    ensures SetupsFor(setups + [s], id) == SetupsFor(setups, id) + (if s.rejectionId == id then 1 else 0)
  {
    assert (setups + [s])[..|setups|] == setups;
  }

  /** A rejection no setup references has a count of zero. */
  lemma {:induction false} SetupsForNone(setups: seq<SetupRow>, id: nat)
    requires forall j :: 0 <= j < |setups| ==> setups[j].rejectionId != id
    ensures SetupsFor(setups, id) == 0
  {
    if |setups| > 0 {
      SetupsForNone(setups[..|setups| - 1], id);
    }
  }

  /** Saving a setup for an unflagged rejection together with its flag keeps setups and flags in step. */
  lemma SaveKeepsMatch(setups: seq<SetupRow>, rows: seq<RejectionRow>, id: nat, s: SetupRow,
                       setups': seq<SetupRow>, rows': seq<RejectionRow>)
    requires SetupsMatchFlags(setups, rows)
    requires 1 <= id <= |rows| && !rows[id - 1].setupGenerated && s.rejectionId == id
    requires setups' == setups + [s] && rows' == rows[id - 1 := rows[id - 1].(setupGenerated := true)]
    ensures SetupsMatchFlags(setups', rows')
  {
    forall x | 1 <= x <= |rows|
      ensures SetupsFor(setups + [s], x) == SetupsFor(setups, x) + (if x == id then 1 else 0)
    {
      SetupsForSnoc(setups, s, x);
    }
  }

  /** A whole run keeps setups and flags in step. */
  lemma {:induction false} GatherKeepsMatch(setups: seq<SetupRow>, rows: seq<RejectionRow>, plans: seq<Option<SetupRow>>,
                                            done: seq<nat>)
    requires SetupsMatchFlags(setups, rows) && |plans| == |rows|
    requires forall j :: 0 <= j < |done| ==> 1 <= done[j] <= |rows| && !rows[done[j] - 1].setupGenerated
    requires PointsBack(plans) && forall j :: 0 <= j < |done| ==> plans[done[j] - 1].Some?
    requires forall j, k :: 0 <= j < k < |done| ==> done[j] < done[k]
    ensures SetupsMatchFlags(setups + GatherSetups(plans, done), Flag(rows, done))
  {
    if |done| == 0 {
      assert Flag(rows, done) == rows;
      assert setups + GatherSetups(plans, done) == setups;
    } else {
      var front := done[..|done| - 1];
      var id := done[|done| - 1];
      GatherKeepsMatch(setups, rows, plans, front);
      assert id !in front;
      assert front + [id] == done;
      GatherOneMore(setups, rows, plans, front, id);
    }
  }

  /** Saving the setup of one more rejection keeps setups and flags in step. */
  lemma GatherOneMore(setups: seq<SetupRow>, rows: seq<RejectionRow>, plans: seq<Option<SetupRow>>,
                      front: seq<nat>, id: nat)
    requires |plans| == |rows| && forall j :: 0 <= j < |front| ==> 1 <= front[j] <= |rows|
    requires SetupsMatchFlags(setups + GatherSetups(plans, front), Flag(rows, front))
    requires 1 <= id <= |rows| && id !in front && !rows[id - 1].setupGenerated
    requires plans[id - 1].Some? && plans[id - 1].value.rejectionId == id
    ensures SetupsMatchFlags(setups + GatherSetups(plans, front + [id]), Flag(rows, front + [id]))
  {
    var s := plans[id - 1].value;
    GatherSnoc(plans, front, id);
    AppendAssoc(setups, GatherSetups(plans, front), [s]);
    FlagOneMore(rows, front, id);
    SaveKeepsMatch(setups + GatherSetups(plans, front), Flag(rows, front), id, s,
                   setups + GatherSetups(plans, front + [id]), Flag(rows, front + [id]));
  }

  /** Gathering for one more id whose plan does not raise appends its setup. */
  lemma GatherSnoc(plans: seq<Option<SetupRow>>, front: seq<nat>, id: nat)
    requires forall j :: 0 <= j < |front| ==> 1 <= front[j] <= |plans|
    requires 1 <= id <= |plans| && plans[id - 1].Some?
    ensures GatherSetups(plans, front + [id]) == GatherSetups(plans, front) + [plans[id - 1].value]
  {
    assert (front + [id])[..|front|] == front;
  }

  /** A prefix of the confirmed ids lists unflagged rejections, in increasing order. */
  lemma ConfirmedUnflagged(rows: seq<RejectionRow>, sweeps: seq<SweepRow>, symbol: string, n: nat)
    requires n <= |ConfirmedIds(rows, sweeps, symbol)|
    ensures var done := ConfirmedIds(rows, sweeps, symbol)[..n];
      (forall j :: 0 <= j < |done| ==> 1 <= done[j] <= |rows| && !rows[done[j] - 1].setupGenerated) &&
      (forall j, k :: 0 <= j < k < |done| ==> done[j] < done[k])
  {
    var ids := ConfirmedIds(rows, sweeps, symbol);
    var done := ids[..n];
    forall j | 0 <= j < |done|
      ensures 1 <= done[j] <= |rows| && !rows[done[j] - 1].setupGenerated
    {
      assert done[j] == ids[j];
      assert done[j] - 1 + 1 in ids;
      assert Confirmed(rows[done[j] - 1], sweeps, symbol);
    }
  }

  /** run_step keeps every rejection flagged exactly when it has one setup. */
  lemma RunKeepsMatch(setups: seq<SetupRow>, rows: seq<RejectionRow>, sweeps: seq<SweepRow>, contexts: seq<ContextRow>,
                      symbol: string, timeframe: string, feed: seq<Candle>, rr: real)
    requires SetupsMatchFlags(setups, rows)
    ensures var ids := ConfirmedIds(rows, sweeps, symbol);
      var plans := Plans(rows, sweeps, contexts, symbol, timeframe, feed, rr);
      var done := ids[..Stop(plans, ids)];
      SetupsMatchFlags(setups + GatherSetups(plans, done), Flag(rows, done))
  {
    var ids := ConfirmedIds(rows, sweeps, symbol);
    var plans := Plans(rows, sweeps, contexts, symbol, timeframe, feed, rr);
    var n := Stop(plans, ids);
    PlansPointBack(rows, sweeps, contexts, symbol, timeframe, feed, rr);
    ConfirmedUnflagged(rows, sweeps, symbol, n);
    StopKeepsMatch(setups, rows, plans, ids, n);
  }

  /** Gathering the setups of the first `n` ids, all planned, keeps setups and flags in step. */
  lemma StopKeepsMatch(setups: seq<SetupRow>, rows: seq<RejectionRow>, plans: seq<Option<SetupRow>>, ids: seq<nat>, n: nat)
    requires SetupsMatchFlags(setups, rows) && |plans| == |rows| && PointsBack(plans)
    requires n <= |ids| && forall j :: 0 <= j < |ids| ==> 1 <= ids[j] <= |rows|
    requires forall j :: 0 <= j < n ==> plans[ids[j] - 1].Some?
    requires forall j :: 0 <= j < |ids[..n]| ==> 1 <= ids[..n][j] <= |rows| && !rows[ids[..n][j] - 1].setupGenerated
    requires forall j, k :: 0 <= j < k < |ids[..n]| ==> ids[..n][j] < ids[..n][k]
    ensures SetupsMatchFlags(setups + GatherSetups(plans, ids[..n]), Flag(rows, ids[..n]))
  {
    var done := ids[..n];
    forall j | 0 <= j < |done|
      ensures plans[done[j] - 1].Some?
    {
      assert done[j] == ids[j];
    }
    GatherKeepsMatch(setups, rows, plans, done);
  }

  /**
   * Flagging every confirmed rejection, as a run that did not raise does,
   * leaves none confirmed: the next run finds nothing to do.
   */
  lemma FlagAllLeavesNone(rows: seq<RejectionRow>, sweeps: seq<SweepRow>, symbol: string)
    ensures ConfirmedIds(Flag(rows, ConfirmedIds(rows, sweeps, symbol)), sweeps, symbol) == []
  {
    var ids := ConfirmedIds(rows, sweeps, symbol);
    var after := ConfirmedIds(Flag(rows, ids), sweeps, symbol);
    if |after| > 0 {
      var i := after[0] - 1;
      assert !Confirmed(Flag(rows, ids)[i], sweeps, symbol);
    }
  }

  /**
   * Appending rejection rows not yet used, as the rejection stage does,
   * keeps setups and flags in step.
   */
  lemma AppendUnflaggedKeepsMatch(setups: seq<SetupRow>, rows: seq<RejectionRow>, added: seq<RejectionRow>)
    requires SetupsMatchFlags(setups, rows)
    requires forall j :: 0 <= j < |added| ==> !added[j].setupGenerated
    ensures SetupsMatchFlags(setups, rows + added)
  {
    forall x | |rows| < x <= |rows| + |added|
      ensures SetupsFor(setups, x) == 0
    {
      SetupsForNone(setups, x);
    }
  }
}

=== FILE: lsr_store.dfy ===
/**
 * The tables of the liquidity-sweep-rejection strategy: market contexts,
 * sweeps, rejections and trade setups.
 *
 * A row's id is its position in `rows` plus one, as an auto-increment key
 * starting at 1 gives it. "The latest context of a symbol" is its last row
 * in table order; contexts are only ever appended, each stamped with the
 * time of the newest H1 candle, so table order is creation order.
 */
module LsrStore {
  import opened Common
  import BosFvgStore

  /** The traded symbol, the only one with candle tables. */
  const DataSymbol: string := "XAUUSDc"

  /** How many of the newest M15, H1 or H4 candles a stage fetches. */
  const RecentLimit: nat := 300
  /** How many of the newest D1 candles the context stage fetches. */
  const DailyLimit: nat := 30

  /** The candles a stage looks at: the newest 300 of the feed. */
  function RecentCandles(feed: seq<Candle>): seq<Candle>
  {
    BosFvgStore.Tail(feed, RecentLimit)
  }

  /** The daily candles the context stage looks at: the newest 30. */
  function DailyCandles(feed: seq<Candle>): seq<Candle>
  {
    BosFvgStore.Tail(feed, DailyLimit)
  }

  /** The context's `bias` column. */
  datatype Bias = BullishBias | BearishBias | NeutralBias

  /** The context's `structure_state` column. */
  datatype StructureState = Impulse | Correction | Flat

  /** Which resting liquidity a candle swept: above the recent high (buy side) or below the recent low (sell side). */
  datatype SweepSide = BuySide | SellSide

  /** The sweep's status column. */
  datatype SweepStatus = SweepPending | Rejected | Failed

  /**
   * A row of the market-contexts table. Swing levels and previous-day
   * levels are NULL when they could not be found; `lastChecked` is
   * `last_process_checking_sweep`.
   */
  datatype ContextRow = ContextRow(
    symbol: string, bias: Bias, structureState: StructureState,
    recentHigh: Option<real>, recentLow: Option<real>,
    pdh: Option<real>, pdl: Option<real>, pdc: Option<real>,
    sweptHigh: bool, sweptLow: bool, active: bool,
    createdAt: int, lastChecked: Option<int>)

  /** A row of the sweeps table: the sweeping candle and the level it crossed. */
  datatype SweepRow = SweepRow(
    contextId: nat, symbol: string, timeframe: string, side: SweepSide, level: real,
    candle: Candle, status: SweepStatus, rejectionTime: Option<int>)

  /** A row of the rejections table; `setupGenerated` says a setup was made from it. */
  datatype RejectionRow = RejectionRow(
    sweepId: nat, symbol: string, timeframe: string, time: int, closePrice: real,
    side: SweepSide, setupGenerated: bool)

  /** A row of the setups table. */
  datatype SetupRow = SetupRow(
    sweepId: nat, rejectionId: nat, symbol: string, timeframe: string,
    entry: real, sl: real, tp1: real, tp2: Option<real>, rr: real)

  class ContextTable {
    var rows: seq<ContextRow>

    constructor ()
      ensures rows == []
    {
      rows := [];
    }
  }

  class SweepTable {
    var rows: seq<SweepRow>

    constructor ()
      ensures rows == []
    {
      rows := [];
    }
  }

  class RejectionTable {
    var rows: seq<RejectionRow>

    constructor ()
      ensures rows == []
    {
      rows := [];
    }
  }

  class SetupTable {
    var rows: seq<SetupRow>

    constructor ()
      ensures rows == []
    {
      rows := [];
    }
  }

  /**
   * The index of the latest context of `symbol` (only active ones when
   * `activeOnly`), or -1 when there is none.
   */
  function LatestContext(rows: seq<ContextRow>, symbol: string, activeOnly: bool): (k: int)
    ensures -1 <= k < |rows|
    ensures k >= 0 ==> rows[k].symbol == symbol && (activeOnly ==> rows[k].active)
    ensures forall j :: k < j < |rows| ==> !(rows[j].symbol == symbol && (activeOnly ==> rows[j].active))
  {
    if |rows| == 0 then -1
    else if rows[|rows| - 1].symbol == symbol && (activeOnly ==> rows[|rows| - 1].active) then |rows| - 1
    else LatestContext(rows[..|rows| - 1], symbol, activeOnly)
  }
}

=== FILE: lsr_sweep.dfy ===
/**
 * The sweep stage of the liquidity-sweep-rejection strategy: each M15
 * candle not yet examined is compared with the latest active context's
 * swing levels; a candle whose high passes the recent high sweeps the buy
 * side, one whose low passes the recent low the sell side, each side once
 * per context. Every examined candle advances the context's
 * last-checked time.
 */
module LsrSweep {
  import opened Common
  import opened LsrStore
  import BosFvgStore

  /** The only timeframe with a candle source. */
  const SweepTimeframe: string := "M15"

  /** What _check_for_sweep answers; `CheckRaised` is the TypeError of comparing with a NULL level. */
  datatype SweepCheck = NoSweep | Swept(side: SweepSide) | CheckRaised

  /** The candle's high passes the context's recent high, on a side not yet swept. */
  predicate BuyCondition(ctx: ContextRow, c: Candle)
  {
    !ctx.sweptHigh && ctx.recentHigh.Some? && c.high > ctx.recentHigh.value
  }

  /** The candle's low passes the context's recent low, on a side not yet swept. */
  predicate SellCondition(ctx: ContextRow, c: Candle)
  {
    !ctx.sweptLow && ctx.recentLow.Some? && c.low < ctx.recentLow.value
  }

  /**
   * _check_for_sweep: nothing once both sides are swept; else the buy side
   * is checked first, then the sell side. The high comparison runs even
   * when the buy side is already swept, so a NULL recent high raises; a NULL
   * recent low raises when the buy side did not answer.
   */
  function CheckForSweep(ctx: ContextRow, c: Candle): (r: SweepCheck)
    ensures ctx.sweptHigh && ctx.sweptLow ==> r == NoSweep
    ensures !(ctx.sweptHigh && ctx.sweptLow) ==>
      (r == Swept(BuySide) <==> BuyCondition(ctx, c)) &&
      (r == Swept(SellSide) <==> ctx.recentHigh.Some? && !BuyCondition(ctx, c) && SellCondition(ctx, c)) &&
      (r == CheckRaised <==> ctx.recentHigh.None? || (!BuyCondition(ctx, c) && ctx.recentLow.None?))
  {
    if ctx.sweptHigh && ctx.sweptLow then NoSweep
    else if ctx.recentHigh.None? then CheckRaised
    else if c.high > ctx.recentHigh.value && !ctx.sweptHigh then Swept(BuySide)
    else if ctx.recentLow.None? then CheckRaised
    else if c.low < ctx.recentLow.value && !ctx.sweptLow then Swept(SellSide)
    else NoSweep
  }

  /** The sweep row _record_sweep inserts: pending, at the level the candle crossed. */
  function SweepFor(ctx: ContextRow, id: nat, symbol: string, timeframe: string, c: Candle, side: SweepSide): SweepRow
    requires side == BuySide ==> ctx.recentHigh.Some?
    requires side == SellSide ==> ctx.recentLow.Some?
  {
    var level := if side == BuySide then ctx.recentHigh.value else ctx.recentLow.value;
    SweepRow(id, symbol, timeframe, side, level, c, SweepPending, None)
  }

  /** The context with the swept side's flag set. */
  function Marked(ctx: ContextRow, side: SweepSide): ContextRow
  {
    if side == BuySide then ctx.(sweptHigh := true) else ctx.(sweptLow := true)
  }

  /** The context, the sweeps recorded so far, and whether a check raised. */
  datatype ScanState = ScanState(ctx: ContextRow, sweeps: seq<SweepRow>, raised: bool)

  /** One candle of the loop: check, record and mark a sweep, then advance the last-checked time. */
  function Step(st: ScanState, id: nat, symbol: string, timeframe: string, c: Candle): ScanState
  {
    match CheckForSweep(st.ctx, c)
    case CheckRaised => st.(raised := true)
    case NoSweep => st.(ctx := st.ctx.(lastChecked := Some(c.time)))
    case Swept(side) =>
      ScanState(Marked(st.ctx, side).(lastChecked := Some(c.time)),
                st.sweeps + [SweepFor(st.ctx, id, symbol, timeframe, c, side)], false)
  }

  /** The loop over the candles `cs`, ending at the first check that raises. */
  function Scan(ctx: ContextRow, id: nat, symbol: string, timeframe: string, cs: seq<Candle>): (r: ScanState)
    ensures |r.sweeps| <= |cs|
    decreases |cs|
  {
    if |cs| == 0 then ScanState(ctx, [], false)
    else
      var prev := Scan(ctx, id, symbol, timeframe, cs[..|cs| - 1]);
      if prev.raised then prev else Step(prev, id, symbol, timeframe, cs[|cs| - 1])
  }

  /** The candles not yet examined: after the last-checked time, or after the context's creation. */
  function NewCandles(ctx: ContextRow, feed: seq<Candle>): (r: seq<Candle>)
    ensures forall c :: c in r <==>
      c in feed && c.time > (if ctx.lastChecked.Some? then ctx.lastChecked.value else ctx.createdAt)
  {
    BosFvgStore.After(feed, if ctx.lastChecked.Some? then ctx.lastChecked.value else ctx.createdAt)
  }

  /** How many of the sweeps are on `side`. */
  function CountSide(sweeps: seq<SweepRow>, side: SweepSide): nat
  {
    if |sweeps| == 0 then 0
    else CountSide(sweeps[..|sweeps| - 1], side) + (if sweeps[|sweeps| - 1].side == side then 1 else 0)
  }

  /** Once a check raises, the remaining candles are not looked at. */
  lemma {:induction false} ScanStaysRaised(ctx: ContextRow, id: nat, symbol: string, timeframe: string,
                                          cs: seq<Candle>, i: nat)
    requires i <= |cs|
    requires Scan(ctx, id, symbol, timeframe, cs[..i]).raised
    ensures Scan(ctx, id, symbol, timeframe, cs) == Scan(ctx, id, symbol, timeframe, cs[..i])
    decreases |cs|
  {
    if i < |cs| {
      var front := cs[..|cs| - 1];
      assert front[..i] == cs[..i];
      ScanStaysRaised(ctx, id, symbol, timeframe, front, i);
    } else {
      assert cs[..i] == cs;
    }
  }

  /** The two contexts agree on everything but the swept flags and the last-checked time. */
  predicate SameContext(a: ContextRow, b: ContextRow)
  {
    a.symbol == b.symbol && a.bias == b.bias && a.structureState == b.structureState &&
    a.recentHigh == b.recentHigh && a.recentLow == b.recentLow &&
    a.pdh == b.pdh && a.pdl == b.pdl && a.pdc == b.pdc && a.active == b.active && a.createdAt == b.createdAt
  }

  /** One candle keeps the context's identity, never clears a flag, and records a sweep exactly when it sets one. */
  lemma StepFacts(st: ScanState, id: nat, symbol: string, timeframe: string, c: Candle)
    ensures var t := Step(st, id, symbol, timeframe, c);
      SameContext(t.ctx, st.ctx) &&
      (st.ctx.sweptHigh ==> t.ctx.sweptHigh) && (st.ctx.sweptLow ==> t.ctx.sweptLow) &&
      CountSide(t.sweeps, BuySide) + (if st.ctx.sweptHigh then 1 else 0) ==
        CountSide(st.sweeps, BuySide) + (if t.ctx.sweptHigh then 1 else 0) &&
      CountSide(t.sweeps, SellSide) + (if st.ctx.sweptLow then 1 else 0) ==
        CountSide(st.sweeps, SellSide) + (if t.ctx.sweptLow then 1 else 0)
  {
    var t := Step(st, id, symbol, timeframe, c);
    match CheckForSweep(st.ctx, c)
    case CheckRaised =>
    case NoSweep =>
    case Swept(side) =>
      assert t.sweeps[..|t.sweeps| - 1] == st.sweeps;
  }

  /**
   * A scan changes only the context's swept flags and last-checked time;
   * flags are only ever set; and each side is swept at most once per
   * context: the number of sweeps recorded on a side plus one if it was
   * already swept is one exactly when it ends swept.
   */
  lemma {:induction false} ScanOncePerSide(ctx: ContextRow, id: nat, symbol: string, timeframe: string, cs: seq<Candle>)
    ensures var s := Scan(ctx, id, symbol, timeframe, cs);
      SameContext(s.ctx, ctx) &&
      (ctx.sweptHigh ==> s.ctx.sweptHigh) && (ctx.sweptLow ==> s.ctx.sweptLow) &&
      CountSide(s.sweeps, BuySide) + (if ctx.sweptHigh then 1 else 0) == (if s.ctx.sweptHigh then 1 else 0) &&
      CountSide(s.sweeps, SellSide) + (if ctx.sweptLow then 1 else 0) == (if s.ctx.sweptLow then 1 else 0)
    decreases |cs|
  {
    if |cs| > 0 {
      var front := cs[..|cs| - 1];
      ScanOncePerSide(ctx, id, symbol, timeframe, front);
      var prev := Scan(ctx, id, symbol, timeframe, front);
      if !prev.raised {
        StepFacts(prev, id, symbol, timeframe, cs[|cs| - 1]);
      }
    }
  }

  /** Extending the scanned candles by one that the scan reaches adds one step. */
  lemma ScanSnoc(ctx: ContextRow, id: nat, symbol: string, timeframe: string, cs: seq<Candle>, i: nat)
    requires i < |cs|
    requires !Scan(ctx, id, symbol, timeframe, cs[..i]).raised
    ensures Scan(ctx, id, symbol, timeframe, cs[..i + 1]) ==
      Step(Scan(ctx, id, symbol, timeframe, cs[..i]), id, symbol, timeframe, cs[i])
  {
    assert cs[..i + 1][..i] == cs[..i];
  }

  /**
   * Every sweep a scan records is pending, belongs to the context, is made
   * by one of the scanned candles, and sits at the level that candle
   * crossed: a buy-side sweep at the recent high, below the candle's high;
   * a sell-side sweep at the recent low, above the candle's low.
   */
  lemma {:induction false} ScanSweepRows(ctx: ContextRow, id: nat, symbol: string, timeframe: string, cs: seq<Candle>)
    ensures forall r :: r in Scan(ctx, id, symbol, timeframe, cs).sweeps ==>
      r.contextId == id && r.symbol == symbol && r.timeframe == timeframe &&
      r.status == SweepPending && r.rejectionTime.None? && r.candle in cs &&
      (r.side == BuySide ==> ctx.recentHigh == Some(r.level) && r.candle.high > r.level) &&
      (r.side == SellSide ==> ctx.recentLow == Some(r.level) && r.candle.low < r.level)
    decreases |cs|
  {
    if |cs| > 0 {
      var front := cs[..|cs| - 1];
      ScanSweepRows(ctx, id, symbol, timeframe, front);
      ScanOncePerSide(ctx, id, symbol, timeframe, front);
    }
  }

  /** A scan that did not raise has examined every candle, and records the last one's time. */
  lemma {:induction false} ScanAdvances(ctx: ContextRow, id: nat, symbol: string, timeframe: string, cs: seq<Candle>)
    ensures var s := Scan(ctx, id, symbol, timeframe, cs);
      !s.raised ==> s.ctx.lastChecked == (if |cs| == 0 then ctx.lastChecked else Some(cs[|cs| - 1].time))
    decreases |cs|
  {
    if |cs| > 0 {
      ScanAdvances(ctx, id, symbol, timeframe, cs[..|cs| - 1]);
    }
  }

  /**
   * On a time-ordered feed, a run that did not raise leaves no candle it
   * examined for the next run: the candles still new afterwards are all
   * later than every examined one.
   */
  lemma NoCandleTwice(ctx: ContextRow, id: nat, symbol: string, timeframe: string, feed: seq<Candle>)
    requires BosFvgStore.Chronological(feed)
    ensures var cs := NewCandles(ctx, feed); var s := Scan(ctx, id, symbol, timeframe, cs);
      !s.raised ==> forall c, d :: c in cs && d in NewCandles(s.ctx, feed) ==> c.time < d.time
  {
    var cs := NewCandles(ctx, feed);
    var s := Scan(ctx, id, symbol, timeframe, cs);
    ScanAdvances(ctx, id, symbol, timeframe, cs);
    ScanOncePerSide(ctx, id, symbol, timeframe, cs);
    if !s.raised && |cs| > 0 {
      var t := if ctx.lastChecked.Some? then ctx.lastChecked.value else ctx.createdAt;
      BosFvgStore.AfterChronological(feed, t);
      assert forall c :: c in cs ==> c.time <= cs[|cs| - 1].time by {
        forall c | c in cs
          ensures c.time <= cs[|cs| - 1].time
        {
          var j :| 0 <= j < |cs| && cs[j] == c;
        }
      }
    }
  }

  /** A step's recorded sweeps are those before it plus what the step alone records. */
  lemma StepShift(st: ScanState, id: nat, symbol: string, timeframe: string, c: Candle)
    requires !st.raised
    ensures var one := Step(ScanState(st.ctx, [], false), id, symbol, timeframe, c);
      Step(st, id, symbol, timeframe, c) == ScanState(one.ctx, st.sweeps + one.sweeps, one.raised)
  {
  }

  /**
   * One candle of the loop on context row `k`: a check that raises changes
   * nothing; otherwise a sweep is recorded and its side marked, and the
   * candle's time is stored.
   */
  method ProcessCandle(contexts: ContextTable, sweeps: SweepTable, k: nat, symbol: string, timeframe: string, c: Candle)
    returns (raised: bool)
    requires k < |contexts.rows|
    modifies contexts, sweeps
    ensures var t := Step(ScanState(old(contexts.rows)[k], [], false), k + 1, symbol, timeframe, c);
      raised == t.raised &&
      contexts.rows == (if raised then old(contexts.rows) else old(contexts.rows)[k := t.ctx]) &&
      sweeps.rows == old(sweeps.rows) + t.sweeps
  {
    var check := CheckForSweep(contexts.rows[k], c);
    if check.CheckRaised? {
      return true;
    }
    if check.Swept? {
      sweeps.rows := sweeps.rows + [SweepFor(contexts.rows[k], k + 1, symbol, timeframe, c, check.side)];
      contexts.rows := contexts.rows[k := Marked(contexts.rows[k], check.side)];
    }
    contexts.rows := contexts.rows[k := contexts.rows[k].(lastChecked := Some(c.time))];
    raised := false;
  }

  /** The loop over the new candles of context row `k`, stopping at the first check that raises. */
  method ScanCandles(contexts: ContextTable, sweeps: SweepTable, k: nat, symbol: string, timeframe: string,
                     cs: seq<Candle>) returns (raised: bool)
    requires k < |contexts.rows|
    modifies contexts, sweeps
    ensures var s := Scan(old(contexts.rows)[k], k + 1, symbol, timeframe, cs);
      contexts.rows == old(contexts.rows)[k := s.ctx] && sweeps.rows == old(sweeps.rows) + s.sweeps &&
      raised == s.raised
  {
    ghost var start := contexts.rows;
    ghost var recorded := sweeps.rows;
    var i := 0;
    while i < |cs|
      invariant 0 <= i <= |cs|
      invariant !Scan(start[k], k + 1, symbol, timeframe, cs[..i]).raised
      invariant contexts.rows == start[k := Scan(start[k], k + 1, symbol, timeframe, cs[..i]).ctx]
      invariant sweeps.rows == recorded + Scan(start[k], k + 1, symbol, timeframe, cs[..i]).sweeps
    {
      ghost var prev := Scan(start[k], k + 1, symbol, timeframe, cs[..i]);
      ScanSnoc(start[k], k + 1, symbol, timeframe, cs, i);
      StepShift(prev, k + 1, symbol, timeframe, cs[i]);
      raised := ProcessCandle(contexts, sweeps, k, symbol, timeframe, cs[i]);
      if raised {
        ScanStaysRaised(start[k], k + 1, symbol, timeframe, cs, i + 1);
        return;
      }
      i := i + 1;
    }
    assert cs[..|cs|] == cs;
    raised := false;
  }

  /** A run scans: the traded symbol on M15, candles present, and an active context. */
  predicate Scans(rows: seq<ContextRow>, symbol: string, timeframe: string, feed: seq<Candle>)
  {
    symbol == DataSymbol && timeframe == SweepTimeframe && |feed| > 0 && LatestContext(rows, symbol, true) >= 0
  }

  /**
   * run_step: fetch the newest 300 candles (raising for another symbol or
   * timeframe, and on an empty table when the missing time column is read), take the
   * latest active context, and scan the candles after its last-checked
   * time in order. Each sweep is recorded and its side marked as it is
   * found, and each candle's time is stored as it is examined, so a check
   * that raises keeps what came before it. Errors are logged and swallowed.
   */
  method RunStep(contexts: ContextTable, sweeps: SweepTable, symbol: string, timeframe: string, feed: seq<Candle>)
    returns (raised: bool)
    modifies contexts, sweeps
    ensures !Scans(old(contexts.rows), symbol, timeframe, RecentCandles(feed)) ==>
      contexts.rows == old(contexts.rows) && sweeps.rows == old(sweeps.rows) &&
      raised == (symbol != DataSymbol || timeframe != SweepTimeframe || |feed| == 0)
    ensures Scans(old(contexts.rows), symbol, timeframe, RecentCandles(feed)) ==>
      var k := LatestContext(old(contexts.rows), symbol, true);
      var s := Scan(old(contexts.rows)[k], k + 1, symbol, timeframe, NewCandles(old(contexts.rows)[k], RecentCandles(feed)));
      contexts.rows == old(contexts.rows)[k := s.ctx] && sweeps.rows == old(sweeps.rows) + s.sweeps &&
      raised == s.raised
  {
    var df := RecentCandles(feed);
    assert |df| == 0 <==> |feed| == 0;
    if symbol != DataSymbol || timeframe != SweepTimeframe || |df| == 0 {
      return true;
    }
    var k := LatestContext(contexts.rows, symbol, true);
    if k < 0 {
      return false;
    }
    raised := ScanCandles(contexts, sweeps, k, symbol, timeframe, NewCandles(contexts.rows[k], df));
  }
}

=== FILE: major_wave_fib.dfy ===
/**
 * The major-wave Fibonacci stage: slides a window of nine consecutive
 * recorded swings over the swings of one symbol and timeframe. For each
 * window whose last swing is not yet processed it reads the trend from the
 * first and last swing high and swing low of the window; a trending window
 * saves a Fibonacci setup spanning the lowest low and the highest high of
 * the window. Either way the window's last swing is marked processed, so a
 * window is handled once.
 */
module MajorWaveFib {
  import opened Common
  import opened FibStore

  /** The number of swings in a window. */
  const WindowSize: nat := 9

  // ---------------------------------------------------------------------
  // Fetching and windows
  // ---------------------------------------------------------------------

  /** Ids of the swings of `symbol` and `timeframe`, in table order. */
  function SwingIds(rows: seq<SwingRow>, symbol: string, timeframe: string): (ids: seq<nat>)
    ensures InTable(rows, ids) && Increasing(ids)
    ensures forall i {:trigger InMarket(rows[i], symbol, timeframe)} :: 0 <= i < |rows| ==>
      (i + 1 in ids <==> InMarket(rows[i], symbol, timeframe))
  {
    if |rows| == 0 then []
    else
      var front := SwingIds(rows[..|rows| - 1], symbol, timeframe);
      assert forall i :: 0 <= i < |rows| - 1 ==> rows[..|rows| - 1][i] == rows[i];
      if InMarket(rows[|rows| - 1], symbol, timeframe) then front + [|rows|] else front
  }

  predicate InMarket(s: SwingRow, symbol: string, timeframe: string)
  {
    s.symbol == symbol && s.timeframe == timeframe
  }

  predicate Increasing(ids: seq<nat>)
  {
    forall j, k :: 0 <= j < k < |ids| ==> ids[j] < ids[k]
  }

  /** Ids that all name rows of the table. */
  predicate InTable(rows: seq<SwingRow>, ids: seq<nat>)
  {
    forall j :: 0 <= j < |ids| ==> 1 <= ids[j] <= |rows|
  }

  /** How many windows `ids` holds: one per start position. */
  function Windows(ids: seq<nat>): nat
  {
    if |ids| >= WindowSize then |ids| - WindowSize + 1 else 0
  }

  /** The id of the last swing of window `k`. */
  function LastOf(ids: seq<nat>, k: nat): nat
    requires k < Windows(ids)
  {
    ids[k + WindowSize - 1]
  }

  // ---------------------------------------------------------------------
  // Trend and Fibonacci points
  // ---------------------------------------------------------------------

  /** The prices of the swings of `kind` among `ids[lo..hi]`, in that order. */
  function Prices(rows: seq<SwingRow>, ids: seq<nat>, lo: nat, hi: nat, kind: SwingKind): seq<real>
    requires InTable(rows, ids) && lo <= hi <= |ids|
    decreases hi
  {
    if hi == lo then []
    else
      var front := Prices(rows, ids, lo, hi - 1, kind);
      var s := rows[ids[hi - 1] - 1];
      if s.kind == kind then front + [s.price] else front
  }

  /**
   * The trend of a window: bullish when both the last swing high and the
   * last swing low are above the first ones, bearish when both are below,
   * neutral otherwise or with fewer than two of either.
   */
  function DetectTrend(highs: seq<real>, lows: seq<real>): (t: Trend)
    ensures t != NeutralTrend ==> |highs| >= 2 && |lows| >= 2
    ensures t == BullishTrend <==>
      |highs| >= 2 && |lows| >= 2 && highs[|highs| - 1] > highs[0] && lows[|lows| - 1] > lows[0]
    ensures t == BearishTrend <==>
      |highs| >= 2 && |lows| >= 2 && highs[|highs| - 1] < highs[0] && lows[|lows| - 1] < lows[0]
  {
    if |highs| < 2 || |lows| < 2 then NeutralTrend
    else if highs[|highs| - 1] > highs[0] && lows[|lows| - 1] > lows[0] then BullishTrend
    else if highs[|highs| - 1] < highs[0] && lows[|lows| - 1] < lows[0] then BearishTrend
    else NeutralTrend
  }

  function Opposite(t: Trend): Trend
  {
    match t
    case BullishTrend => BearishTrend
    case BearishTrend => BullishTrend
    case NeutralTrend => NeutralTrend
  }

  function Negated(s: seq<real>): (r: seq<real>)
    ensures |r| == |s| && forall i :: 0 <= i < |s| ==> r[i] == -s[i]
  {
    seq(|s|, i requires 0 <= i < |s| => -s[i])
  }

  /** Mirroring every price turns a bullish window bearish and back; a neutral window stays neutral. */
  lemma TrendMirror(highs: seq<real>, lows: seq<real>)
    ensures DetectTrend(Negated(highs), Negated(lows)) == Opposite(DetectTrend(highs, lows))
  {
  }

  /** The lowest value of a non-empty sequence. */
  function SeqMin(s: seq<real>): (m: real)
    requires |s| > 0
    ensures forall x :: x in s ==> m <= x
    ensures m in s
  {
    if |s| == 1 then s[0]
    else
      var m := SeqMin(s[..|s| - 1]);
      assert forall x :: x in s ==> x in s[..|s| - 1] || x == s[|s| - 1];
      Min(m, s[|s| - 1])
  }

  /** The highest value of a non-empty sequence. */
  function SeqMax(s: seq<real>): (m: real)
    requires |s| > 0
    ensures forall x :: x in s ==> x <= m
    ensures m in s
  {
    if |s| == 1 then s[0]
    else
      var m := SeqMax(s[..|s| - 1]);
      assert forall x :: x in s ==> x in s[..|s| - 1] || x == s[|s| - 1];
      Max(m, s[|s| - 1])
  }

  /**
   * The Fibonacci setup of window `k`, the swings `ids[k..k + WindowSize]`:
   * none for a neutral window, otherwise one spanning the lowest low and the
   * highest high.
   */
  function WindowFib(rows: seq<SwingRow>, ids: seq<nat>, k: nat, symbol: string, timeframe: string): seq<FibRow>
    requires InTable(rows, ids) && k < Windows(ids)
  {
    var highs := Prices(rows, ids, k, k + WindowSize, High);
    var lows := Prices(rows, ids, k, k + WindowSize, Low);
    var trend := DetectTrend(highs, lows);
    if trend == NeutralTrend then []
    else
      var last := LastOf(ids, k);
      [FibRow(symbol, timeframe, trend, SeqMin(lows), SeqMax(highs), last,
              rows[last - 1].candleTime, rows[last - 1].discoveredAt, false)]
  }

  /**
   * A saved setup spans the window: its low is the lowest swing low and its
   * high the highest swing high, both attained; in a bullish window the
   * high is above the first swing high and the low below the last swing
   * low, in a bearish one the high is above the last swing high and the low
   * below the first swing low; it points at the window's last swing.
   */
  lemma WindowFibSpans(rows: seq<SwingRow>, ids: seq<nat>, k: nat, symbol: string, timeframe: string)
    requires InTable(rows, ids) && k < Windows(ids)
    ensures var f := WindowFib(rows, ids, k, symbol, timeframe);
      var highs := Prices(rows, ids, k, k + WindowSize, High);
      var lows := Prices(rows, ids, k, k + WindowSize, Low);
      |f| <= 1 &&
      (|f| == 1 <==> DetectTrend(highs, lows) != NeutralTrend) &&
      (|f| == 1 ==>
        && f[0].trend == DetectTrend(highs, lows)
        && f[0].lastSwingId == LastOf(ids, k)
        && f[0].fibLow in lows && f[0].fibHigh in highs
        && (forall x :: x in lows ==> f[0].fibLow <= x)
        && (forall x :: x in highs ==> x <= f[0].fibHigh)
        && (f[0].trend == BullishTrend ==> f[0].fibHigh > highs[0] && f[0].fibLow < lows[|lows| - 1])
        && (f[0].trend == BearishTrend ==> f[0].fibHigh > highs[|highs| - 1] && f[0].fibLow < lows[0]))
  {
    var highs := Prices(rows, ids, k, k + WindowSize, High);
    var lows := Prices(rows, ids, k, k + WindowSize, Low);
    if DetectTrend(highs, lows) != NeutralTrend {
      assert highs[0] in highs && highs[|highs| - 1] in highs;
      assert lows[0] in lows && lows[|lows| - 1] in lows;
    }
  }

  // ---------------------------------------------------------------------
  // What a run does
  // ---------------------------------------------------------------------

  /** What window `k` marks: its last swing, unless that was processed when fetched. */
  function WindowMark(rows: seq<SwingRow>, ids: seq<nat>, k: nat): (m: seq<nat>)
    requires InTable(rows, ids) && k < Windows(ids)
    ensures m == [] || m == [LastOf(ids, k)]
    ensures m == [] <==> rows[LastOf(ids, k) - 1].processed
  {
    var last := LastOf(ids, k);
    if rows[last - 1].processed then [] else [last]
  }

  /** What window `k` saves: nothing when its last swing was processed when fetched, otherwise its setup, if any. */
  function WindowSave(rows: seq<SwingRow>, ids: seq<nat>, symbol: string, timeframe: string, k: nat): seq<FibRow>
    requires InTable(rows, ids) && k < Windows(ids)
  {
    if rows[LastOf(ids, k) - 1].processed then []
    else WindowFib(rows, ids, k, symbol, timeframe)
  }

  /** A window saves at most one setup, pointing at its last swing, which was unprocessed when fetched. */
  lemma WindowSavePoints(rows: seq<SwingRow>, ids: seq<nat>, symbol: string, timeframe: string, k: nat)
    requires InTable(rows, ids) && k < Windows(ids)
    ensures var o := WindowSave(rows, ids, symbol, timeframe, k);
      && |o| <= 1
      && (|o| == 1 ==> o[0].lastSwingId == LastOf(ids, k) && !rows[LastOf(ids, k) - 1].processed)
  {
    if !rows[LastOf(ids, k) - 1].processed {
      WindowFibSpans(rows, ids, k, symbol, timeframe);
    }
  }

  /** The swings the run marks over windows `0 .. k-1`. */
  ghost function MarkedIds(rows: seq<SwingRow>, ids: seq<nat>, k: nat): seq<nat>
    requires InTable(rows, ids) && k <= Windows(ids)
  {
    if k == 0 then [] else MarkedIds(rows, ids, k - 1) + WindowMark(rows, ids, k - 1)
  }

  /** The setups the run saves over windows `0 .. k-1`. */
  ghost function NewFibs(rows: seq<SwingRow>, ids: seq<nat>, symbol: string, timeframe: string, k: nat): seq<FibRow>
    requires InTable(rows, ids) && k <= Windows(ids)
  {
    if k == 0 then [] else NewFibs(rows, ids, symbol, timeframe, k - 1) + WindowSave(rows, ids, symbol, timeframe, k - 1)
  }

  /** The table with the swings `done` marked processed. */
  function MarkProcessed(rows: seq<SwingRow>, done: seq<nat>): (r: seq<SwingRow>)
    ensures |r| == |rows|
    ensures forall i {:trigger r[i]} :: 0 <= i < |rows| ==> r[i] == if i + 1 in done then rows[i].(processed := true) else rows[i]
  {
    seq(|rows|, i requires 0 <= i < |rows| => if i + 1 in done then rows[i].(processed := true) else rows[i])
  }

  /** Marking one more swing changes just that row. */
  lemma {:induction false} MarkOneMore(rows: seq<SwingRow>, done: seq<nat>, id: nat)
    requires 1 <= id <= |rows|
    ensures MarkProcessed(rows, done + [id]) == MarkProcessed(rows, done)[id - 1 := rows[id - 1].(processed := true)]
  {
    var before := MarkProcessed(rows, done);
    var after := MarkProcessed(rows, done + [id]);
    forall i | 0 <= i < |rows|
      ensures after[i] == before[id - 1 := rows[id - 1].(processed := true)][i]
    {
      assert i + 1 in done + [id] <==> i + 1 in done || i + 1 == id;
    }
  }

  // ---------------------------------------------------------------------
  // The stage
  // ---------------------------------------------------------------------

  /** `_mark_swing_processed`: an update by id, which touches nothing when no row has that id. */
  method MarkSwing(swings: SwingTable, id: nat)
    modifies swings
    ensures swings.rows ==
      if 1 <= id <= |old(swings.rows)| then old(swings.rows)[id - 1 := old(swings.rows)[id - 1].(processed := true)]
      else old(swings.rows)
  {
    if 1 <= id <= |swings.rows| {
      swings.rows := swings.rows[id - 1 := swings.rows[id - 1].(processed := true)];
    }
  }

  /**
   * The body of the window loop for window `start` of the fetched swings:
   * a window whose last swing was processed when fetched is skipped;
   * otherwise a trending window saves its setup and the last swing is
   * marked processed either way.
   */
  method HandleWindow(swings: SwingTable, fibs: FibTable, fetched: seq<SwingRow>, ids: seq<nat>,
                      symbol: string, timeframe: string, start: nat)
    requires InTable(fetched, ids) && start < Windows(ids)
    requires swings.rows == MarkProcessed(fetched, MarkedIds(fetched, ids, start))
    modifies swings, fibs
    ensures swings.rows == MarkProcessed(fetched, MarkedIds(fetched, ids, start + 1))
    ensures fibs.rows == old(fibs.rows) + WindowSave(fetched, ids, symbol, timeframe, start)
  {
    var last := ids[start + WindowSize - 1];
    MarkWindow(fetched, ids, start);
    if !fetched[last - 1].processed {
      SaveSetup(fibs, fetched, ids, start, symbol, timeframe);
      MarkSwing(swings, last);
    }
  }

  /** Handling window `k` marks its last swing, unless that was processed when fetched. */
  lemma MarkWindow(fetched: seq<SwingRow>, ids: seq<nat>, k: nat)
    requires InTable(fetched, ids) && k < Windows(ids)
    ensures var last := LastOf(ids, k);
      var before := MarkProcessed(fetched, MarkedIds(fetched, ids, k));
      MarkProcessed(fetched, MarkedIds(fetched, ids, k + 1)) ==
        if fetched[last - 1].processed then before else before[last - 1 := fetched[last - 1].(processed := true)]
  {
    var last := LastOf(ids, k);
    if !fetched[last - 1].processed {
      MarkOneMore(fetched, MarkedIds(fetched, ids, k), last);
    }
  }

  /** A window's trend, and for a trending window the saved setup over its lowest low and highest high. */
  method SaveSetup(fibs: FibTable, fetched: seq<SwingRow>, ids: seq<nat>, start: nat, symbol: string, timeframe: string)
    requires InTable(fetched, ids) && start < Windows(ids)
    modifies fibs
    ensures fibs.rows == old(fibs.rows) + WindowFib(fetched, ids, start, symbol, timeframe)
  {
    var last := ids[start + WindowSize - 1];
    var highs := Prices(fetched, ids, start, start + WindowSize, High);
    var lows := Prices(fetched, ids, start, start + WindowSize, Low);
    var trend := DetectTrend(highs, lows);
    if trend != NeutralTrend {
      var fibLow, fibHigh := SeqMin(lows), SeqMax(highs);
      fibs.rows := fibs.rows + [FibRow(symbol, timeframe, trend, fibLow, fibHigh, last,
                                       fetched[last - 1].candleTime, fetched[last - 1].discoveredAt, false)];
    }
  }

  /** One run of the stage over the swings of `symbol` and `timeframe`, fetched once at the start. */
  method RunStep(swings: SwingTable, fibs: FibTable, symbol: string, timeframe: string)
    modifies swings, fibs
    ensures var ids := SwingIds(old(swings.rows), symbol, timeframe);
      && swings.rows == MarkProcessed(old(swings.rows), MarkedIds(old(swings.rows), ids, Windows(ids)))
      && fibs.rows == old(fibs.rows) + NewFibs(old(swings.rows), ids, symbol, timeframe, Windows(ids))
  {
    var fetched := swings.rows;
    var ids := SwingIds(fetched, symbol, timeframe);
    ghost var before := fibs.rows;
    assert MarkProcessed(fetched, []) == fetched;
    var start := 0;
    while start < Windows(ids)
      invariant 0 <= start <= Windows(ids)
      invariant swings.rows == MarkProcessed(fetched, MarkedIds(fetched, ids, start))
      invariant fibs.rows == before + NewFibs(fetched, ids, symbol, timeframe, start)
    {
      HandleWindow(swings, fibs, fetched, ids, symbol, timeframe, start);
      start := start + 1;
    }
  }

  // ---------------------------------------------------------------------
  // Properties of a run
  // ---------------------------------------------------------------------

  /** The swings marked so far are fetched ids of windows already passed, in increasing order. */
  lemma {:induction false} MarkedIdsBelow(rows: seq<SwingRow>, ids: seq<nat>, k: nat)
    requires InTable(rows, ids) && Increasing(ids) && k <= Windows(ids)
    ensures forall x :: x in MarkedIds(rows, ids, k) ==> x in ids && !rows[x - 1].processed
    ensures k < Windows(ids) ==> forall x :: x in MarkedIds(rows, ids, k) ==> x < LastOf(ids, k)
    ensures forall j :: 0 <= j < k && !rows[LastOf(ids, j) - 1].processed ==> LastOf(ids, j) in MarkedIds(rows, ids, k)
    decreases k
  {
    if k > 0 {
      MarkedIdsBelow(rows, ids, k - 1);
    }
  }

  /** The swings the run's setups point at: one per saved setup, in order. */
  function PointedIds(fibs: seq<FibRow>): (r: seq<nat>)
    ensures |r| == |fibs| && forall f :: 0 <= f < |fibs| ==> r[f] == fibs[f].lastSwingId
  {
    seq(|fibs|, f requires 0 <= f < |fibs| => fibs[f].lastSwingId)
  }

  /** Whether window `k` saves a setup: its last swing was unprocessed when fetched and its trend is not neutral. */
  predicate Saves(rows: seq<SwingRow>, ids: seq<nat>, k: nat)
    requires InTable(rows, ids) && k < Windows(ids)
  {
    && !rows[LastOf(ids, k) - 1].processed
    && DetectTrend(Prices(rows, ids, k, k + WindowSize, High), Prices(rows, ids, k, k + WindowSize, Low)) != NeutralTrend
  }

  /** The last swings of the windows among `0 .. k-1` that save a setup. */
  ghost function SavedIds(rows: seq<SwingRow>, ids: seq<nat>, k: nat): seq<nat>
    requires InTable(rows, ids) && k <= Windows(ids)
  {
    if k == 0 then [] else SavedIds(rows, ids, k - 1) + SavedBy(rows, ids, k - 1)
  }

  /** The last swing of window `k` when it saves a setup, nothing otherwise. */
  ghost function SavedBy(rows: seq<SwingRow>, ids: seq<nat>, k: nat): seq<nat>
    requires InTable(rows, ids) && k < Windows(ids)
  {
    if Saves(rows, ids, k) then [LastOf(ids, k)] else []
  }

  /** The setups saved over windows `0 .. k-1` point, in order, at the last swings of the windows that save one. */
  lemma NewFibsPointAtSaved(rows: seq<SwingRow>, ids: seq<nat>, symbol: string, timeframe: string, k: nat)
    requires InTable(rows, ids) && k <= Windows(ids)
    ensures PointedIds(NewFibs(rows, ids, symbol, timeframe, k)) == SavedIds(rows, ids, k)
  {
    var j := 0;
    while j < k
      invariant j <= k
      invariant PointedIds(NewFibs(rows, ids, symbol, timeframe, j)) == SavedIds(rows, ids, j)
    {
      NewFibsStep(rows, ids, symbol, timeframe, j + 1);
      j := j + 1;
    }
  }

  /** When the setups of the first `k - 1` windows point at their saved swings, so do those of the first `k`. */
  lemma NewFibsStep(rows: seq<SwingRow>, ids: seq<nat>, symbol: string, timeframe: string, k: nat)
    requires InTable(rows, ids) && 0 < k <= Windows(ids)
    requires PointedIds(NewFibs(rows, ids, symbol, timeframe, k - 1)) == SavedIds(rows, ids, k - 1)
    ensures PointedIds(NewFibs(rows, ids, symbol, timeframe, k)) == SavedIds(rows, ids, k)
  {
    PointedIdsAppend(NewFibs(rows, ids, symbol, timeframe, k - 1), WindowSave(rows, ids, symbol, timeframe, k - 1));
    WindowSaveShape(rows, ids, symbol, timeframe, k - 1);
  }

  lemma PointedIdsAppend(a: seq<FibRow>, b: seq<FibRow>)
    ensures PointedIds(a + b) == PointedIds(a) + PointedIds(b)
  {
    assert forall f :: 0 <= f < |a + b| ==> (a + b)[f] == if f < |a| then a[f] else b[f - |a|];
  }

  /** The swings window `k`'s saved setups point at: its last swing when it saves one, none otherwise. */
  lemma WindowSaveShape(rows: seq<SwingRow>, ids: seq<nat>, symbol: string, timeframe: string, k: nat)
    requires InTable(rows, ids) && k < Windows(ids)
    ensures PointedIds(WindowSave(rows, ids, symbol, timeframe, k)) == SavedBy(rows, ids, k)
  {
    var o := WindowSave(rows, ids, symbol, timeframe, k);
    if !rows[LastOf(ids, k) - 1].processed {
      WindowFibSpans(rows, ids, k, symbol, timeframe);
    }
    if Saves(rows, ids, k) {
      assert |o| == 1 && o[0].lastSwingId == LastOf(ids, k);
    } else {
      assert o == [];
    }
  }

  /** Every window that saves a setup also marks its last swing. */
  lemma {:induction false} SavedAreMarked(rows: seq<SwingRow>, ids: seq<nat>, k: nat)
    requires InTable(rows, ids) && k <= Windows(ids)
    ensures forall x :: x in SavedIds(rows, ids, k) ==> x in MarkedIds(rows, ids, k)
    decreases k
  {
    if k > 0 {
      SavedAreMarked(rows, ids, k - 1);
    }
  }

  /** The saved ids increase, and all lie below the last swing of window `k`. */
  lemma {:induction false} SavedIncreasing(rows: seq<SwingRow>, ids: seq<nat>, k: nat)
    requires InTable(rows, ids) && Increasing(ids) && k <= Windows(ids)
    ensures Increasing(SavedIds(rows, ids, k))
    ensures k < Windows(ids) ==> forall x :: x in SavedIds(rows, ids, k) ==> x < LastOf(ids, k)
    decreases k
  {
    if k > 0 {
      SavedIncreasing(rows, ids, k - 1);
      var prev := SavedIds(rows, ids, k - 1);
      var last := LastOf(ids, k - 1);
      assert k < Windows(ids) ==> last < LastOf(ids, k);
      if Saves(rows, ids, k - 1) {
        AppendAbove(prev, last);
      } else {
        assert prev + [] == prev;
      }
    }
  }

  /** Appending an id above every id of an increasing sequence keeps it increasing. */
  lemma AppendAbove(p: seq<nat>, last: nat)
    requires Increasing(p) && forall x :: x in p ==> x < last
    ensures Increasing(p + [last])
  {
    var q := p + [last];
    forall f, g | 0 <= f < g < |q|
      ensures q[f] < q[g]
    {
      if g == |p| {
        assert q[f] in p;
      }
    }
  }

  /**
   * The link between the two tables: every setup points at a processed
   * swing, and no two setups point at the same one.
   */
  ghost predicate Linked(swings: seq<SwingRow>, fibs: seq<FibRow>)
  {
    && (forall f :: 0 <= f < |fibs| ==> 1 <= fibs[f].lastSwingId <= |swings| && swings[fibs[f].lastSwingId - 1].processed)
    && (forall f, g :: 0 <= f < g < |fibs| ==> fibs[f].lastSwingId != fibs[g].lastSwingId)
  }

  /**
   * Marking swings `done`, all unprocessed before, while appending setups
   * that point at increasing ids among `done`, keeps the tables linked.
   */
  lemma MarkAndSaveKeepLinked(rows: seq<SwingRow>, fibs: seq<FibRow>, done: seq<nat>, nf: seq<FibRow>)
    requires Linked(rows, fibs)
    requires forall x :: x in done ==> 1 <= x <= |rows| && !rows[x - 1].processed
    requires forall x :: x in PointedIds(nf) ==> x in done
    requires Increasing(PointedIds(nf))
    ensures Linked(MarkProcessed(rows, done), fibs + nf)
  {
    var r := MarkProcessed(rows, done);
    var all := fibs + nf;
    var p := PointedIds(nf);
    forall f | 0 <= f < |all|
      ensures 1 <= all[f].lastSwingId <= |r| && r[all[f].lastSwingId - 1].processed
    {
      var id := all[f].lastSwingId;
      if f < |fibs| {
        assert all[f] == fibs[f];
      } else {
        assert all[f] == nf[f - |fibs|] && id == p[f - |fibs|];
        assert id in p;
      }
      assert r[id - 1] == if id - 1 + 1 in done then rows[id - 1].(processed := true) else rows[id - 1];
    }
    forall f, g | 0 <= f < g < |all|
      ensures all[f].lastSwingId != all[g].lastSwingId
    {
      if f < |fibs| && g >= |fibs| {
        assert all[f] == fibs[f];
        assert all[g] == nf[g - |fibs|] && all[g].lastSwingId == p[g - |fibs|];
        assert p[g - |fibs|] in p;
      } else if f >= |fibs| {
        assert all[f] == nf[f - |fibs|] && all[g] == nf[g - |fibs|];
        assert all[f].lastSwingId == p[f - |fibs|] && all[g].lastSwingId == p[g - |fibs|];
      } else {
        assert all[f] == fibs[f] && all[g] == fibs[g];
      }
    }
  }

  /** A run keeps the tables linked: its setups point at swings it marks, which no earlier setup pointed at. */
  lemma RunKeepsLinked(rows: seq<SwingRow>, fibs: seq<FibRow>, symbol: string, timeframe: string)
    requires Linked(rows, fibs)
    ensures var ids := SwingIds(rows, symbol, timeframe);
      Linked(MarkProcessed(rows, MarkedIds(rows, ids, Windows(ids))),
             fibs + NewFibs(rows, ids, symbol, timeframe, Windows(ids)))
  {
    var ids := SwingIds(rows, symbol, timeframe);
    var done := MarkedIds(rows, ids, Windows(ids));
    var nf := NewFibs(rows, ids, symbol, timeframe, Windows(ids));
    NewFibsPointAtSaved(rows, ids, symbol, timeframe, Windows(ids));
    SavedAreMarked(rows, ids, Windows(ids));
    SavedIncreasing(rows, ids, Windows(ids));
    MarkedIdsBelow(rows, ids, Windows(ids));
    forall x | x in done
      ensures 1 <= x <= |rows| && !rows[x - 1].processed
    {
      assert x in ids;
      var j :| 0 <= j < |ids| && ids[j] == x;
    }
    MarkAndSaveKeepLinked(rows, fibs, done, nf);
  }

  /** Marking swings processed does not change which swings belong to a symbol and timeframe. */
  lemma {:induction false} SameMarketSameIds(a: seq<SwingRow>, b: seq<SwingRow>, symbol: string, timeframe: string)
    requires |a| == |b|
    requires forall i :: 0 <= i < |a| ==> a[i].symbol == b[i].symbol && a[i].timeframe == b[i].timeframe
    ensures SwingIds(a, symbol, timeframe) == SwingIds(b, symbol, timeframe)
    decreases |a|
  {
    if |a| > 0 {
      SameMarketSameIds(a[..|a| - 1], b[..|b| - 1], symbol, timeframe);
    }
  }

  /** When every window's last swing is processed, a run marks nothing and saves nothing. */
  lemma {:induction false} AllProcessedNothingToDo(rows: seq<SwingRow>, ids: seq<nat>, symbol: string, timeframe: string, k: nat)
    requires InTable(rows, ids) && k <= Windows(ids)
    requires forall j :: 0 <= j < k ==> rows[LastOf(ids, j) - 1].processed
    ensures MarkedIds(rows, ids, k) == [] && NewFibs(rows, ids, symbol, timeframe, k) == []
    decreases k
  {
    if k > 0 {
      AllProcessedNothingToDo(rows, ids, symbol, timeframe, k - 1);
      assert WindowMark(rows, ids, k - 1) == [] && WindowSave(rows, ids, symbol, timeframe, k - 1) == [];
    }
  }

  /** A second run straight after a first finds every window handled: it marks nothing and saves nothing. */
  lemma RunIsIdempotent(rows: seq<SwingRow>, symbol: string, timeframe: string)
    ensures var ids := SwingIds(rows, symbol, timeframe);
      var after := MarkProcessed(rows, MarkedIds(rows, ids, Windows(ids)));
      && SwingIds(after, symbol, timeframe) == ids
      && MarkedIds(after, ids, Windows(ids)) == []
      && NewFibs(after, ids, symbol, timeframe, Windows(ids)) == []
  {
    var ids := SwingIds(rows, symbol, timeframe);
    var done := MarkedIds(rows, ids, Windows(ids));
    var after := MarkProcessed(rows, done);
    SameMarketSameIds(rows, after, symbol, timeframe);
    MarkedIdsBelow(rows, ids, Windows(ids));
    forall j | 0 <= j < Windows(ids)
      ensures after[LastOf(ids, j) - 1].processed
    {
      var i := LastOf(ids, j) - 1;
      assert after[i] == if i + 1 in done then rows[i].(processed := true) else rows[i];
    }
    AllProcessedNothingToDo(after, ids, symbol, timeframe, Windows(ids));
  }
}

=== FILE: mt5_logic.dfy ===
/**
 * Broker-facing helpers: the expiry text of a signal message, lot sizing from
 * the daily baseline, and the price/range guards that decide, for each of the
 * three order functions, whether a request is sent and with what price.
 *
 * The broker itself is abstract: a `Market` snapshot (connection, bid, ask,
 * symbol information, minimum stop distance) and a `send` function standing
 * for `order_send`.
 */
module Mt5Logic {
  import opened Common
  import TradeSignalLogic
  import AccountMetrics

  // ---------------------------------------------------------------------
  // extract_days_from_comment: the first match of `Expired (\d+(\.\d+)?) days`
  // ---------------------------------------------------------------------

  const ExpiredWord: string := "Expired "
  const DaysWord: string := " days"

  /** Length of the run of digits at the start of `s`. */
  function DigitRun(s: string): (n: nat)
    ensures n <= |s|
    ensures forall i :: 0 <= i < n ==> IsDigit(s[i])
    ensures n < |s| ==> !IsDigit(s[n])
  {
    if |s| == 0 || !IsDigit(s[0]) then 0 else 1 + DigitRun(s[1..])
  }

  function Pow10(n: nat): (r: nat)
    ensures r >= 1
  {
    if n == 0 then 1 else 10 * Pow10(n - 1)
  }

  /** Value of the digits after a decimal point. */
  function FractionValue(f: string): real
    requires AllDigits(f)
  {
    DigitsValue(f) as real / Pow10(|f|) as real
  }

  predicate StartsWith(s: string, w: string)
  {
    |w| <= |s| && s[..|w|] == w
  }

  /** The pattern matched at the very start of `t`, with the number it captures. */
  /** The number written as the digits `d`, a decimal point and the digits `f`. */
  function DecimalValue(d: string, f: string): real
    requires AllDigits(d) && AllDigits(f)
  {
    DigitsValue(d) as real + FractionValue(f)
  }

  function MatchDays(t: string): (r: Option<real>)
    ensures r.Some? ==> StartsWith(t, ExpiredWord)
  {
    if StartsWith(t, ExpiredWord) then MatchNumber(t[|ExpiredWord|..]) else None
  }

  /** `\d+(\.\d+)? days` at the start of `u`; the greedy digit runs leave no alternative. */
  function MatchNumber(u: string): Option<real>
  {
    var n1 := DigitRun(u);
    if n1 == 0 then None
    else
      assert AllDigits(u[..n1]);
      AfterWhole(DigitsValue(u[..n1]) as real, u[n1..])
  }

  function AfterWhole(whole: real, rest: string): Option<real>
  {
    if 2 <= |rest| && rest[0] == '.' && IsDigit(rest[1]) then AfterPoint(whole, rest[1..])
    else if StartsWith(rest, DaysWord) then Some(whole)
    else None
  }

  function AfterPoint(whole: real, v: string): Option<real>
  {
    var n2 := DigitRun(v);
    assert AllDigits(v[..n2]);
    if StartsWith(v[n2..], DaysWord) then Some(whole + FractionValue(v[..n2])) else None
  }

  /** Leftmost match over all start positions, as `re.search` does. */
  function ExtractDays(s: string): (r: Option<real>)
  {
    if |s| == 0 then None
    else match MatchDays(s)
      case Some(d) => Some(d)
      case None => ExtractDays(s[1..])
  }

  /** The search finds nothing exactly when the pattern matches at no position. */
  lemma {:induction false} ExtractDaysNone(s: string)
    ensures ExtractDays(s).None? <==> forall k :: 0 <= k < |s| ==> MatchDays(s[k..]).None?
    decreases |s|
  {
    if |s| > 0 {
      assert s[0..] == s;
      if MatchDays(s).None? {
        ExtractDaysNone(s[1..]);
        forall k | 0 < k < |s|
          ensures s[k..] == s[1..][k - 1..]
        {
        }
      }
    }
  }

  /** A search that finds something returns the match at the first position where the pattern matches. */
  lemma {:induction false} ExtractDaysLeftmost(s: string)
    ensures ExtractDays(s).Some? ==>
      exists k :: 0 <= k < |s| && MatchDays(s[k..]) == ExtractDays(s) &&
                  forall j :: 0 <= j < k ==> MatchDays(s[j..]).None?
    decreases |s|
  {
    if |s| > 0 {
      assert s[0..] == s;
      if MatchDays(s).None? && ExtractDays(s).Some? {
        ExtractDaysLeftmost(s[1..]);
        var k' :| 0 <= k' < |s| - 1 && MatchDays(s[1..][k'..]) == ExtractDays(s[1..]) &&
                  forall j :: 0 <= j < k' ==> MatchDays(s[1..][j..]).None?;
        assert s[1..][k'..] == s[k' + 1..];
        forall j | 0 < j < k' + 1
          ensures MatchDays(s[j..]).None?
        {
          assert s[1..][j - 1..] == s[j..];
        }
      }
    }
  }

  /** Text ahead of the first match is skipped without effect. */
  lemma {:induction false} ExtractSkipsPrefix(p: string, t: string)
    requires forall k :: 0 <= k < |p| ==> MatchDays((p + t)[k..]) == None
    ensures ExtractDays(p + t) == ExtractDays(t)
  {
    if |p| > 0 {
      assert MatchDays((p + t)[0..]) == None;
      assert (p + t)[0..] == p + t;
      assert (p + t)[1..] == p[1..] + t;
      forall k | 0 <= k < |p[1..]|
        ensures MatchDays((p[1..] + t)[k..]) == None
      {
        assert (p[1..] + t)[k..] == (p + t)[k + 1..];
      }
      ExtractSkipsPrefix(p[1..], t);
    } else {
      assert p + t == t;
    }
  }

  /** A match needs an 'E' followed by an 'x' at its start. */
  lemma MatchNeedsEx(t: string)
    requires MatchDays(t).Some?
    ensures |t| >= 2 && t[0] == 'E' && t[1] == 'x'
  {
    assert t[..8] == ExpiredWord;
    assert t[0] == t[..8][0] && t[1] == t[..8][1];
  }

  /** A text in which no 'x' follows an 'E' holds no expiry. */
  lemma {:induction false} NoExNoDays(s: string)
    requires forall k :: 0 <= k < |s| - 1 ==> s[k] != 'E' || s[k + 1] != 'x'
    ensures ExtractDays(s) == None
  {
    if |s| > 0 {
      if MatchDays(s).Some? {
        MatchNeedsEx(s);
        assert false;
      }
      forall k | 0 <= k < |s[1..]| - 1
        ensures s[1..][k] != 'E' || s[1..][k + 1] != 'x'
      {
        assert s[1..][k] == s[k + 1] && s[1..][k + 1] == s[k + 2];
      }
      NoExNoDays(s[1..]);
    }
  }

  lemma {:induction false} DigitRunOfDigitsThen(d: string, rest: string)
    requires AllDigits(d)
    requires |rest| == 0 || !IsDigit(rest[0])
    ensures DigitRun(d + rest) == |d|
    decreases |d|
  {
    if |d| > 0 {
      assert (d + rest)[1..] == d[1..] + rest;
      DigitRunOfDigitsThen(d[1..], rest);
    } else {
      assert d + rest == rest;
    }
  }

  /** A match at the start of the text is the first match. */
  lemma ExtractAtStart(t: string)
    requires MatchDays(t).Some?
    ensures ExtractDays(t) == MatchDays(t)
  {
  }

  lemma MatchAfterWord(u: string)
    ensures MatchDays(ExpiredWord + u) == MatchNumber(u)
  {
    var t := ExpiredWord + u;
    assert t[..|ExpiredWord|] == ExpiredWord;
    assert t[|ExpiredWord|..] == u;
  }

  /** The number after "Expired " is read from the digits that follow it. */
  lemma MatchAfterExpired(d: string, tail: string)
    requires |d| > 0 && AllDigits(d)
    requires |tail| == 0 || !IsDigit(tail[0])
    ensures MatchDays(ExpiredWord + d + tail) == AfterWhole(DigitsValue(d) as real, tail)
  {
    AppendAssoc(ExpiredWord, d, tail);
    MatchAfterWord(d + tail);
    MatchNumberOf(d, tail);
  }

  /** "Expired N days" with a whole number N yields N. */
  lemma ExtractWholeDays(d: string)
    requires |d| > 0 && AllDigits(d)
    ensures ExtractDays(ExpiredWord + d + DaysWord) == Some(DigitsValue(d) as real)
  {
    MatchAfterExpired(d, DaysWord);
    assert DaysWord[0] == ' ';
    assert StartsWith(DaysWord, DaysWord);
    ExtractAtStart(ExpiredWord + d + DaysWord);
  }

  /** The digits after the decimal point and the closing " days". */
  lemma AfterPointOf(whole: real, f: string)
    requires |f| > 0 && AllDigits(f)
    ensures AfterWhole(whole, "." + f + DaysWord) == Some(whole + FractionValue(f))
  {
    var tail := "." + f + DaysWord;
    assert tail[1..] == f + DaysWord;
    DigitRunOfDigitsThen(f, DaysWord);
    assert (f + DaysWord)[..|f|] == f;
    assert (f + DaysWord)[|f|..] == DaysWord;
  }

  /** "Expired N.F days" yields N plus the fraction F. */
  lemma ExtractDecimalDays(d: string, f: string)
    requires |d| > 0 && AllDigits(d)
    requires |f| > 0 && AllDigits(f)
    ensures ExtractDays(ExpiredWord + d + "." + f + DaysWord) == Some(DecimalValue(d, f))
  {
    var x := ExpiredWord + d;
    AppendAssoc(x, ".", f);
    AppendAssoc(x, "." + f, DaysWord);
    ExtractDecimalTail(d, f);
  }

  /** The same text, read as the word and the digits followed by the decimal tail. */
  lemma ExtractDecimalTail(d: string, f: string)
    requires |d| > 0 && AllDigits(d)
    requires |f| > 0 && AllDigits(f)
    ensures ExtractDays(ExpiredWord + d + ("." + f + DaysWord)) == Some(DecimalValue(d, f))
  {
    MatchDecimal(d, f);
    ExtractAtStart(ExpiredWord + d + ("." + f + DaysWord));
  }

  /** The pattern matches at the start of "Expired N.F days" and captures N plus the fraction F. */
  lemma MatchDecimal(d: string, f: string)
    requires |d| > 0 && AllDigits(d)
    requires |f| > 0 && AllDigits(f)
    ensures MatchDays(ExpiredWord + d + ("." + f + DaysWord)) == Some(DecimalValue(d, f))
  {
    var tail := "." + f + DaysWord;
    assert tail[0] == '.';
    AfterPointDecimal(d, f);
    MatchWithTail(d, tail, DecimalValue(d, f));
  }

  lemma AfterPointDecimal(d: string, f: string)
    requires |d| > 0 && AllDigits(d)
    requires |f| > 0 && AllDigits(f)
    ensures AfterWhole(DigitsValue(d) as real, "." + f + DaysWord) == Some(DecimalValue(d, f))
  {
    AfterPointOf(DigitsValue(d) as real, f);
  }

  /** Whatever the tail after the digits yields, the whole "Expired ..." text yields. */
  lemma MatchWithTail(d: string, tail: string, v: real)
    requires |d| > 0 && AllDigits(d)
    requires |tail| == 0 || !IsDigit(tail[0])
    requires AfterWhole(DigitsValue(d) as real, tail) == Some(v)
    ensures MatchDays(ExpiredWord + d + tail) == Some(v)
  {
    MatchAfterExpired(d, tail);
  }

  lemma MatchNumberOf(d: string, tail: string)
    requires |d| > 0 && AllDigits(d)
    requires |tail| == 0 || !IsDigit(tail[0])
    ensures MatchNumber(d + tail) == AfterWhole(DigitsValue(d) as real, tail)
  {
    DigitRunOfDigitsThen(d, tail);
    assert (d + tail)[..|d|] == d;
    assert (d + tail)[|d|..] == tail;
  }

  // ---------------------------------------------------------------------
  // calculate_position_size
  // ---------------------------------------------------------------------

  const DefaultRisk: real := 0.01
  const MinLot: real := 0.01

  /**
   * Lot size risking `risk` of `balance` when the stop is `priceDiff` away,
   * where 0.01 lot loses 1 per 1.0 of price; floored to the 0.01 lot step and
   * never below 0.01. `None` stands for the ValueError raised when
   * `priceDiff <= 0`.
   */
  function PositionSize(balance: real, priceDiff: real, risk: real): (r: Option<real>)
    ensures r.None? <==> priceDiff <= 0.0
    ensures r.Some? ==> r.value >= MinLot
    ensures r.Some? ==> (r.value * 100.0).Floor as real == r.value * 100.0
    ensures r.Some? && r.value > MinLot ==> r.value * 100.0 * priceDiff <= balance * risk
    ensures r.Some? ==> (r.value + MinLot) * 100.0 * priceDiff > balance * risk
  {
    if priceDiff <= 0.0 then None
    else
      var units := balance * risk / priceDiff;
      var size := units * 0.01;
      var rounded := (size * 100.0).Floor as real / 100.0;
      assert size * 100.0 == units;
      assert units * priceDiff == balance * risk;
      var fl := units.Floor;
      assert rounded * 100.0 == fl as real;
      assert fl as real <= units < fl as real + 1.0;
      ScaleFacts(units, priceDiff, balance * risk, fl as real);
      if rounded >= MinLot then
        assert (rounded + MinLot) * 100.0 == fl as real + 1.0;
        Some(rounded)
      else
        assert fl <= 0;
        assert units < 1.0;
        assert (MinLot + MinLot) * 100.0 * priceDiff == 2.0 * priceDiff;
        assert (2.0 - units) * priceDiff > 0.0;
        Some(MinLot)
  }

  lemma ScaleFacts(units: real, diff: real, budget: real, f: real)
    requires diff > 0.0 && units * diff == budget
    requires f <= units < f + 1.0
    ensures f * diff <= budget
    ensures (f + 1.0) * diff > budget
  {
    var b := f + 1.0;
    MulLess(units, b, diff);
    assert b * diff > budget;
    MulAtMost(f, units, diff);
    assert f * diff <= budget;
  }

  // ---------------------------------------------------------------------
  // Order plans: place_order_with_sl_tp, place_stop_order, place_limit_order
  // ---------------------------------------------------------------------

  /**
   * What the broker shows at one moment. `reachable` covers the connection,
   * the symbol selection and the presence of a tick; without symbol
   * information the common preparation step raises; `stopLevel` is
   * `trade_stops_level * point`; `baseline` is the daily baseline balance the
   * lot size is computed from.
   */
  datatype Market = Market(reachable: bool, bid: real, ask: real, hasSymbolInfo: bool,
                           stopLevel: real, baseline: real)

  /** The fields of a stored signal that the order functions read. */
  datatype OrderSpec = OrderSpec(side: Side, range1: Option<real>, range2: Option<real>,
                                 sl: real, tp1: real, message: string)

  datatype RequestKind = MarketDeal | StopEntry | LimitEntry

  datatype OrderRequest = OrderRequest(kind: RequestKind, side: Side, price: real, volume: real,
                                       sl: real, tp: real, expiryDays: Option<real>)

  /** How an order function ends before `order_send`, or the request it sends. */
  datatype Plan = Decline | OutOfRange | Throw | Submit(request: OrderRequest)

  /** What `order_send` gives: a done result with its ticket, a failed result, or an exception. */
  datatype SendOutcome = Filled(ticket: int) | Rejected | SendFailed

  /** What an order function returns to its caller: ticket, None, "break", or an exception. */
  datatype Placement = Ticket(ticket: int) | NoTicket | Break | Raised

  function CurrentPrice(side: Side, m: Market): real
  {
    if side == Sell then m.bid else m.ask
  }

  function Mid(r1: real, r2: real): real { (r1 + r2) / 2.0 }

  /**
   * calculate_position_size: reads the daily baseline through the metrics
   * service (which may fetch and cache it) before the check on `priceDiff`,
   * then sizes the position on that baseline.
   */
  method CalculatePositionSize(metrics: AccountMetrics.AccountMetricService, today: int, priceDiff: real, risk: real)
    returns (r: Option<real>)
    requires metrics.daily.Valid() && AccountMetrics.AgreesWith(metrics.cache, metrics.daily.rows)
    modifies metrics, metrics.daily
    ensures metrics.daily.Valid() && AccountMetrics.AgreesWith(metrics.cache, metrics.daily.rows)
    ensures old(metrics.cache).Some? ==>
      r == PositionSize(old(metrics.cache).value.balance, priceDiff, risk) && metrics.cache == old(metrics.cache)
    ensures old(metrics.cache).None? ==>
      r == PositionSize(AccountMetrics.BaselineFrom(old(metrics.daily.rows), today), priceDiff, risk)
  {
    var balance := metrics.GetDailyBaselineValue(today);
    r := PositionSize(balance, priceDiff, risk);
  }

  /** Expiry in days for pending orders: only a non-zero match counts. */
  function Expiry(message: string): (r: Option<real>)
    ensures r.Some? ==> r.value != 0.0 && ExtractDays(message) == r
    ensures r.None? <==> ExtractDays(message).None? || ExtractDays(message) == Some(0.0)
  {
    match ExtractDays(message)
    case Some(d) => if d != 0.0 then Some(d) else None
    case None => None
  }

  /** place_order_with_sl_tp up to `order_send`. */
  function InstantPlan(o: OrderSpec, m: Market): (p: Plan)
    ensures p.OutOfRange? <==>
      m.reachable && m.hasSymbolInfo && o.sl != CurrentPrice(o.side, m) && o.range1.Some? && o.range2.Some? &&
      !(Min(o.range1.value, o.range2.value) - 1.0 <= CurrentPrice(o.side, m) <= Max(o.range1.value, o.range2.value) + 1.0)
    ensures p.Throw? <==> m.reachable && (!m.hasSymbolInfo || o.sl == CurrentPrice(o.side, m))
    ensures p.Decline? <==> !m.reachable
    ensures p.Submit? ==>
      (p.request.kind == MarketDeal && p.request.side == o.side &&
       p.request.price == CurrentPrice(o.side, m) && p.request.sl == o.sl && p.request.tp == o.tp1)
  {
    if !m.reachable then Decline
    else if !m.hasSymbolInfo then Throw
    else
      var cur := CurrentPrice(o.side, m);
      match PositionSize(m.baseline, Abs(o.sl - cur), DefaultRisk)
      case None => Throw
      case Some(lot) =>
        if o.range1.Some? && o.range2.Some? &&
           !(Min(o.range1.value, o.range2.value) - 1.0 <= cur <= Max(o.range1.value, o.range2.value) + 1.0)
        then OutOfRange
        else Submit(OrderRequest(MarketDeal, o.side, cur, lot, o.sl, o.tp1, None))
  }

  /** place_stop_order up to `order_send`. */
  function StopPlan(o: OrderSpec, m: Market): (p: Plan)
    ensures !p.OutOfRange?
    ensures m.reachable && m.hasSymbolInfo && o.range1.Some? && o.range2.Some? &&
      (var mid := Mid(o.range1.value, o.range2.value);
       (o.side == Buy && mid <= CurrentPrice(o.side, m)) || (o.side == Sell && mid >= CurrentPrice(o.side, m)))
      ==> p == Decline
    ensures p.Submit? ==>
      o.range1.Some? && o.range2.Some? &&
      p.request.kind == StopEntry && p.request.side == o.side && p.request.sl == o.sl && p.request.tp == o.tp1 &&
      p.request.expiryDays == Expiry(o.message) &&
      (var cur := CurrentPrice(o.side, m);
       var mid := Mid(o.range1.value, o.range2.value);
       (o.side == Buy ==> mid > cur) && (o.side == Sell ==> mid < cur) &&
       (m.stopLevel >= 0.0 ==>
          (o.side == Buy ==> p.request.price >= cur + m.stopLevel) &&
          (o.side == Sell ==> p.request.price <= cur - m.stopLevel)))
    // the order goes at the middle of the range when that clears the broker's stop distance, else twice that distance away
    ensures p.Submit? ==>
      (var cur := CurrentPrice(o.side, m);
       var mid := Mid(o.range1.value, o.range2.value);
       (o.side == Buy ==> p.request.price == (if mid < cur + m.stopLevel then cur + 2.0 * m.stopLevel else mid)) &&
       (o.side == Sell ==> p.request.price == (if mid > cur - m.stopLevel then cur - 2.0 * m.stopLevel else mid)))
  {
    if !m.reachable then Decline
    else if !m.hasSymbolInfo then Throw
    else if o.range1.None? || o.range2.None? then Decline
    else
      var cur := CurrentPrice(o.side, m);
      var mid := Mid(o.range1.value, o.range2.value);
      // the second symbol-information check sees the same snapshot and passes
      if (o.side == Buy && mid <= cur) || (o.side == Sell && mid >= cur) then Decline
      else
        var price :=
          if o.side == Buy && mid < cur + m.stopLevel then cur + 2.0 * m.stopLevel
          else if o.side == Sell && mid > cur - m.stopLevel then cur - 2.0 * m.stopLevel
          else mid;
        match PositionSize(m.baseline, Abs(o.sl - cur), DefaultRisk)
        case None => Throw
        case Some(lot) => Submit(OrderRequest(StopEntry, o.side, price, lot, o.sl, o.tp1, Expiry(o.message)))
  }

  /** place_limit_order up to `order_send`. */
  function LimitPlan(o: OrderSpec, m: Market): (p: Plan)
    ensures !p.OutOfRange?
    ensures m.reachable && m.hasSymbolInfo && o.range1.Some? && o.range2.Some? &&
      (var mid := Mid(o.range1.value, o.range2.value);
       (o.side == Buy && mid >= CurrentPrice(o.side, m)) || (o.side == Sell && mid <= CurrentPrice(o.side, m)))
      ==> p == Decline
    ensures p.Submit? ==>
      o.range1.Some? && o.range2.Some? &&
      p.request.kind == LimitEntry && p.request.side == o.side && p.request.sl == o.sl && p.request.tp == o.tp1 &&
      p.request.expiryDays == Expiry(o.message) &&
      p.request.price == Mid(o.range1.value, o.range2.value) &&
      (o.side == Buy ==> p.request.price < CurrentPrice(o.side, m)) &&
      (o.side == Sell ==> p.request.price > CurrentPrice(o.side, m))
  {
    if !m.reachable then Decline
    else if !m.hasSymbolInfo then Throw
    else if o.range1.None? || o.range2.None? then Decline
    else
      var cur := CurrentPrice(o.side, m);
      var price := Mid(o.range1.value, o.range2.value);
      if (o.side == Buy && price >= cur) || (o.side == Sell && price <= cur) then Decline
      else
        match PositionSize(m.baseline, Abs(o.sl - cur), DefaultRisk)
        case None => Throw
        case Some(lot) => Submit(OrderRequest(LimitEntry, o.side, price, lot, o.sl, o.tp1, Expiry(o.message)))
  }

  /** The order function's return value once the plan meets the broker. */
  function Carry(p: Plan, send: OrderRequest -> SendOutcome): (r: Placement)
    ensures r.Break? <==> p.OutOfRange?
    ensures r.Ticket? ==> p.Submit? && send(p.request) == Filled(r.ticket)
    ensures p.Submit? && send(p.request).Filled? ==> r == Ticket(send(p.request).ticket)
    ensures r.Raised? <==> p.Throw? || (p.Submit? && send(p.request).SendFailed?)
  {
    match p
    case Decline => NoTicket
    case OutOfRange => Break
    case Throw => Raised
    case Submit(req) =>
      match send(req)
      case Filled(t) => Ticket(t)
      case Rejected => NoTicket
      case SendFailed => Raised
  }

  /** The order function for an order type, run against one broker snapshot. */
  function PlaceBy(t: TradeSignalLogic.OrderType, o: OrderSpec, m: Market, send: OrderRequest -> SendOutcome): (r: Placement)
    ensures r.Break? ==> t == TradeSignalLogic.InstantOrder
  {
    match t
    case InstantOrder => Carry(InstantPlan(o, m), send)
    case LimitOrder => Carry(LimitPlan(o, m), send)
    case StopOrder => Carry(StopPlan(o, m), send)
  }

  /** check_price_now: the price a new order would trade at, or None when the broker cannot be reached. */
  function PriceNow(side: Side, m: Market): (r: Option<real>)
    ensures r.Some? <==> m.reachable
    ensures r.Some? ==> r.value == CurrentPrice(side, m)
  {
    if m.reachable then Some(CurrentPrice(side, m)) else None
  }
}

=== FILE: pagination.dfy ===
/**
 * The front end's pagination state: the page count and the items of the
 * current page, computed from the item list, and the current page moved by
 * next, previous and go-to and reset to the first page when the list is
 * replaced.
 *
 * A missing item list (null or undefined) is `None` and counts as empty.
 */
module Pagination {
  import opened Common

  /** The number of items, 0 for a missing list. */
  function Count<T>(items: Option<seq<T>>): nat
  {
    match items
    case Some(xs) => |xs|
    case None => 0
  }

  /** The smaller of two integers (slice bounds are clamped to the length). */
  function Least(a: int, b: int): int
  {
    if a <= b then a else b
  }

  /** totalPages: one page for no items, else the number of pages of `perPage` items needed to hold them all. */
  function TotalPages(len: nat, perPage: nat): (n: nat)
    requires perPage > 0
    ensures n >= 1
    ensures len == 0 ==> n == 1
    ensures len > 0 ==> (n - 1) * perPage < len <= n * perPage
  {
    if len == 0 then 1 else (len + perPage - 1) / perPage
  }

  /** paginatedData: the items of `page`, cut from the list as `slice` cuts (indices past the end are clamped). */
  function PageItems<T>(items: Option<seq<T>>, page: int, perPage: nat): (r: seq<T>)
    requires perPage > 0 && page >= 1
    ensures Count(items) == 0 ==> r == []
    ensures |r| <= perPage
    ensures forall i :: 0 <= i < |r| ==> (page - 1) * perPage + i < Count(items) && r[i] == items.value[(page - 1) * perPage + i]
    ensures (page - 1) * perPage < Count(items) ==> |r| == Least(perPage, Count(items) - (page - 1) * perPage)
  {
    match items
    case None => []
    case Some(xs) =>
      if |xs| == 0 then []
      else
        var start := (page - 1) * perPage;
        if start >= |xs| then []
        else xs[start..Least(start + perPage, |xs|)]
  }

  /** The pages from `page` to the last one, joined. */
  function PagesFrom<T>(xs: seq<T>, page: nat, perPage: nat): seq<T>
    requires perPage > 0 && page >= 1
    decreases TotalPages(|xs|, perPage) + 1 - page
  {
    if page > TotalPages(|xs|, perPage) then []
    else PageItems(Some(xs), page, perPage) + PagesFrom(xs, page + 1, perPage)
  }

  /** Read in order, the pages hold every item exactly once: joined, they are the list. */
  lemma PagesCoverItems<T>(xs: seq<T>, perPage: nat)
    requires perPage > 0
    ensures PagesFrom(xs, 1, perPage) == xs
  {
    PagesFromSuffix(xs, 1, perPage);
  }

  /** The pages from `page` on hold the items from the start of `page` on. */
  lemma {:induction false} PagesFromSuffix<T>(xs: seq<T>, page: nat, perPage: nat)
    requires perPage > 0 && page >= 1
    ensures PagesFrom(xs, page, perPage) ==
      (if (page - 1) * perPage >= |xs| then [] else xs[(page - 1) * perPage..])
    decreases TotalPages(|xs|, perPage) + 1 - page
  {
    var n := TotalPages(|xs|, perPage);
    if page > n {
      MulAtMostNat(n, page - 1, perPage);
    } else if |xs| > 0 {
      NextPageStart(page, perPage);
      PagesFromSuffix(xs, page + 1, perPage);
      PagesFromStep(xs, page, perPage, (page - 1) * perPage);
    }
  }

  /** One page, starting at `start`, in front of the later pages, for a page that exists. */
  lemma PagesFromStep<T>(xs: seq<T>, page: nat, perPage: nat, start: nat)
    requires perPage > 0 && 1 <= page <= TotalPages(|xs|, perPage) && |xs| > 0
    requires start == (page - 1) * perPage
    requires PagesFrom(xs, page + 1, perPage) == (if start + perPage >= |xs| then [] else xs[start + perPage..])
    ensures start < |xs|
    ensures PagesFrom(xs, page, perPage) == xs[start..]
  {
    PageStartsInside(|xs|, page, perPage);
    var end := Least(start + perPage, |xs|);
    assert PageItems(Some(xs), page, perPage) == xs[start..end];
    SliceSplit(xs, start, end);
  }

  /** The next page starts one page further on. */
  lemma NextPageStart(page: nat, perPage: nat)
    requires page >= 1
    ensures page * perPage == (page - 1) * perPage + perPage
    ensures (page - 1) * perPage >= 0
  {
    MulAtMostNat(0, page - 1, perPage);
  }

  /** A suffix is the slice up to a later point followed by the rest. */
  lemma SliceSplit<T>(xs: seq<T>, a: nat, b: nat)
    requires a <= b <= |xs|
    ensures xs[a..] == xs[a..b] + xs[b..]
  {
  }

  /** Every existing page of a non-empty list starts inside the list. */
  lemma PageStartsInside(len: nat, page: int, perPage: nat)
    requires perPage > 0 && 1 <= page <= TotalPages(len, perPage)
    ensures len > 0 ==> (page - 1) * perPage < len
  {
    if len > 0 {
      MulAtMostNat(page - 1, TotalPages(len, perPage) - 1, perPage);
    }
  }

  /** Multiplying a smaller natural number by the same positive factor gives no more. */
  lemma MulAtMostNat(a: nat, b: nat, c: nat)
    requires a <= b
    ensures a * c <= b * c
  {
    if c > 0 {
      MulAtMost(a as real, b as real, c as real);
    }
  }

  class Paginator<T> {
    var items: Option<seq<T>>
    var currentPage: int
    const perPage: nat

    /** The current page is a real page. */
    predicate Valid()
      reads this
    {
      perPage > 0 && 1 <= currentPage <= TotalPages(Count(items), perPage)
    }

    /** usePagination: starts on page 1. */
    constructor (items: Option<seq<T>>, perPage: nat)
      requires perPage > 0
      ensures Valid() && this.items == items && this.perPage == perPage && currentPage == 1
    {
      this.items := items;
      this.perPage := perPage;
      currentPage := 1;
    }

    /** nextPage: moves on only when a later page exists. */
    method NextPage()
      requires Valid()
      modifies this
      ensures Valid() && items == old(items)
      ensures currentPage == if old(currentPage) < TotalPages(Count(items), perPage) then old(currentPage) + 1 else old(currentPage)
    {
      if currentPage < TotalPages(Count(items), perPage) {
        currentPage := currentPage + 1;
      }
    }

    /** prevPage: moves back only from a page after the first. */
    method PrevPage()
      requires Valid()
      modifies this
      ensures Valid() && items == old(items)
      ensures currentPage == if old(currentPage) > 1 then old(currentPage) - 1 else old(currentPage)
    {
      if currentPage > 1 {
        currentPage := currentPage - 1;
      }
    }

    /** goToPage: jumps only to an existing page and otherwise stays. */
    method GoToPage(page: int)
      requires Valid()
      modifies this
      ensures Valid() && items == old(items)
      ensures currentPage == if 1 <= page <= TotalPages(Count(items), perPage) then page else old(currentPage)
    {
      if page >= 1 && page <= TotalPages(Count(items), perPage) {
        currentPage := page;
      }
    }

    /** The watcher on the list: a new list sends the view back to page 1. */
    method SetItems(newItems: Option<seq<T>>)
      requires Valid()
      modifies this
      ensures Valid() && items == newItems && currentPage == 1
    {
      items := newItems;
      currentPage := 1;
    }

    /** paginatedData for the current page: never empty while there are items. */
    function Current(): (r: seq<T>)
      requires Valid()
      reads this
      ensures Count(items) > 0 ==> |r| > 0
      ensures r == PageItems(items, currentPage, perPage)
    {
      PageStartsInside(Count(items), currentPage, perPage);
      PageItems(items, currentPage, perPage)
    }
  }
}

=== FILE: retrace_scan.dfy ===
/**
 * The retrace stage: for each fair-value-gap zone still waiting (pending or
 * active), scan up to fifteen candles after the zone's third candle and mark
 * the zone mitigated at the first candle that re-enters the gap, expired
 * after fifteen candles without one, or active with the count scanned.
 */
module RetraceScan {
  import opened Common
  import opened BosFvgStore

  /** At most this many candles after the zone are scanned. */
  const MaxCandles: nat := 15

  /** A candle re-enters a bullish zone when its low reaches the gap's top, a bearish one when its high reaches the gap's bottom. */
  predicate Touches(c: Candle, z: ZoneRow)
  {
    (z.direction == Bullish && c.low <= z.gapHigh) || (z.direction == Bearish && c.high >= z.gapLow)
  }

  /** The index of the first candle from `i` on that re-enters the zone, or the length when none does. */
  function FirstTouch(df: seq<Candle>, z: ZoneRow, i: nat): (k: nat)
    requires i <= |df|
    ensures i <= k <= |df|
    ensures k < |df| ==> Touches(df[k], z)
    ensures forall m :: i <= m < k ==> !Touches(df[m], z)
    decreases |df| - i
  {
    if i == |df| then i
    else if Touches(df[i], z) then i
    else FirstTouch(df, z, i + 1)
  }

  /** The zone after scanning `df`: unchanged without candles, else mitigated, expired or active. */
  function Retraced(z: ZoneRow, df: seq<Candle>): ZoneRow
  {
    if |df| == 0 then z
    else
      var k := FirstTouch(df, z, 0);
      if k < |df| && k < MaxCandles then
        z.(status := Mitigated, candlesChecked := k + 1, mitigatedAt := Some(df[k].time))
      else if |df| >= MaxCandles then z.(status := Expired, candlesChecked := MaxCandles)
      else z.(status := Active, candlesChecked := |df|)
  }

  /** The zone's identity columns: everything but its status, count and mitigation time. */
  predicate SameZone(a: ZoneRow, b: ZoneRow)
  {
    a.symbol == b.symbol && a.timeframe == b.timeframe && a.bosId == b.bosId && a.direction == b.direction &&
    a.gapLow == b.gapLow && a.gapHigh == b.gapHigh && a.startTime == b.startTime && a.endTime == b.endTime &&
    a.createdAt == b.createdAt
  }

  /**
   * What the scan decides, stated without the search: no candles leave the
   * zone alone; the zone is mitigated exactly when one of the first fifteen
   * candles re-enters it, and then at the first such candle, with its time
   * and position counted (so a re-entering fifteenth candle still mitigates);
   * it expires exactly when fifteen candles pass without one, with the count
   * fifteen; and otherwise it stays active with every candle counted.
   */
  lemma RetracedFacts(z: ZoneRow, df: seq<Candle>)
    ensures |df| == 0 ==> Retraced(z, df) == z
    ensures SameZone(Retraced(z, df), z)
    ensures |df| > 0 ==>
      (Retraced(z, df).status == Mitigated <==>
       exists k :: 0 <= k < |df| && k < MaxCandles && Touches(df[k], z))
    ensures |df| > 0 && Retraced(z, df).status == Mitigated ==>
      var n := Retraced(z, df).candlesChecked;
      1 <= n <= MaxCandles && n <= |df| && Touches(df[n - 1], z) &&
      Retraced(z, df).mitigatedAt == Some(df[n - 1].time) &&
      (forall m :: 0 <= m < n - 1 ==> !Touches(df[m], z))
    ensures |df| > 0 ==>
      (Retraced(z, df).status == Expired <==>
       |df| >= MaxCandles && forall m :: 0 <= m < MaxCandles ==> !Touches(df[m], z))
    ensures |df| > 0 && Retraced(z, df).status == Expired ==>
      Retraced(z, df).candlesChecked == MaxCandles && Retraced(z, df).mitigatedAt == z.mitigatedAt
    ensures |df| > 0 ==>
      (Retraced(z, df).status == Active <==>
       |df| < MaxCandles && forall m :: 0 <= m < |df| ==> !Touches(df[m], z))
    ensures |df| > 0 && Retraced(z, df).status == Active ==>
      Retraced(z, df).candlesChecked == |df| < MaxCandles && Retraced(z, df).mitigatedAt == z.mitigatedAt
  {
    if |df| > 0 {
      var k := FirstTouch(df, z, 0);
      if k < |df| && k < MaxCandles {
        assert Touches(df[k], z);
      } else if |df| >= MaxCandles {
        assert forall m :: 0 <= m < MaxCandles ==> !Touches(df[m], z);
      }
    }
  }

  /** The candles scanned for a zone: those after its third candle, at most fifteen. */
  function CandlesAfterZone(z: ZoneRow, feed: seq<Candle>): (df: seq<Candle>)
    ensures |df| <= MaxCandles
  {
    Head(After(feed, z.endTime), MaxCandles)
  }

  /** A zone is mitigated at a candle that comes after the zone's third candle. */
  lemma MitigatedAfterZone(z: ZoneRow, feed: seq<Candle>)
    ensures var r := Retraced(z, CandlesAfterZone(z, feed));
      r.status == Mitigated && z.status != Mitigated ==> r.mitigatedAt.Some? && r.mitigatedAt.value > z.endTime
  {
    var df := CandlesAfterZone(z, feed);
    if |df| > 0 {
      var k := FirstTouch(df, z, 0);
      if k < |df| && k < MaxCandles {
        assert df[k] in After(feed, z.endTime);
      }
    }
  }

  /**
   * _process_fvg for the zone with id `id`: walks the candles in order,
   * checking re-entry before expiry on each, and writes the count and the
   * status as the scan ends.
   */
  method ProcessFvg(zones: ZoneTable, id: nat, feed: seq<Candle>)
    requires 1 <= id <= |zones.rows|
    modifies zones
    ensures zones.rows == old(zones.rows)[id - 1 := Retraced(old(zones.rows)[id - 1], CandlesAfterZone(old(zones.rows)[id - 1], feed))]
  {
    var z := zones.rows[id - 1];
    var df := CandlesAfterZone(z, feed);
    if |df| == 0 {
      return;
    }
    var i := 0;
    while i < |df|
      invariant 0 <= i <= |df| && i < MaxCandles
      invariant FirstTouch(df, z, i) == FirstTouch(df, z, 0)
      invariant zones.rows == old(zones.rows)
    {
      var c := df[i];
      if z.direction == Bullish && c.low <= z.gapHigh {
        zones.rows := zones.rows[id - 1 := z.(status := Active, candlesChecked := i + 1)];
        zones.rows := zones.rows[id - 1 := zones.rows[id - 1].(status := Mitigated, mitigatedAt := Some(c.time))];
        return;
      }
      if z.direction == Bearish && c.high >= z.gapLow {
        zones.rows := zones.rows[id - 1 := z.(status := Active, candlesChecked := i + 1)];
        zones.rows := zones.rows[id - 1 := zones.rows[id - 1].(status := Mitigated, mitigatedAt := Some(c.time))];
        return;
      }
      if i + 1 >= MaxCandles {
        zones.rows := zones.rows[id - 1 := z.(status := Active, candlesChecked := MaxCandles)];
        zones.rows := zones.rows[id - 1 := zones.rows[id - 1].(status := Expired)];
        return;
      }
      i := i + 1;
    }
    zones.rows := zones.rows[id - 1 := z.(status := Active, candlesChecked := |df|)];
  }

  /** Ids of the zones of this symbol and timeframe waiting for a retrace (pending or active), in table order. */
  function RetraceIds(rows: seq<ZoneRow>, symbol: string, timeframe: string): (ids: seq<nat>)
    ensures forall j :: 0 <= j < |ids| ==> 1 <= ids[j] <= |rows|
    ensures forall i :: 0 <= i < |rows| ==>
      (i + 1 in ids <==> rows[i].symbol == symbol && rows[i].timeframe == timeframe &&
                         (rows[i].status == ZonePending || rows[i].status == Active))
    ensures forall j, k :: 0 <= j < k < |ids| ==> ids[j] < ids[k]
  {
    if |rows| == 0 then []
    else
      var front := RetraceIds(rows[..|rows| - 1], symbol, timeframe);
      assert forall i :: 0 <= i < |rows| - 1 ==> rows[..|rows| - 1][i] == rows[i];
      var last := rows[|rows| - 1];
      if last.symbol == symbol && last.timeframe == timeframe && (last.status == ZonePending || last.status == Active)
      then front + [|rows|] else front
  }

  /** The zones listed in `done` carry their scan; every other row is as it started. */
  ghost predicate RetracedOnly(rows: seq<ZoneRow>, start: seq<ZoneRow>, done: seq<nat>, feed: seq<Candle>)
  {
    |rows| == |start| &&
    forall i :: 0 <= i < |start| ==>
      rows[i] == (if i + 1 in done then Retraced(start[i], CandlesAfterZone(start[i], feed)) else start[i])
  }

  /** Scanning one more zone, not scanned before, extends the scanned list by it. */
  lemma RetracedOneMore(before: seq<ZoneRow>, start: seq<ZoneRow>, done: seq<nat>, id: nat, feed: seq<Candle>)
    requires RetracedOnly(before, start, done, feed)
    requires 1 <= id <= |start| && id !in done
    ensures RetracedOnly(before[id - 1 := Retraced(before[id - 1], CandlesAfterZone(before[id - 1], feed))],
                         start, done + [id], feed)
  {
    assert before[id - 1] == start[id - 1];
  }

  /**
   * run_step: every pending or active zone of the symbol and timeframe is
   * scanned once; mitigated and expired zones, and those of other symbols
   * or timeframes, are left alone.
   */
  method RunStep(zones: ZoneTable, symbol: string, timeframe: string, feed: seq<Candle>)
    modifies zones
    ensures |zones.rows| == |old(zones.rows)|
    ensures forall i :: 0 <= i < |zones.rows| ==>
      zones.rows[i] == (if i + 1 in RetraceIds(old(zones.rows), symbol, timeframe)
                        then Retraced(old(zones.rows)[i], CandlesAfterZone(old(zones.rows)[i], feed))
                        else old(zones.rows)[i])
  {
    var ids := RetraceIds(zones.rows, symbol, timeframe);
    ghost var start := zones.rows;
    var k := 0;
    while k < |ids|
      invariant 0 <= k <= |ids|
      invariant RetracedOnly(zones.rows, start, ids[..k], feed)
    {
      var id := ids[k];
      assert id !in ids[..k];
      assert ids[..k + 1] == ids[..k] + [id];
      RetracedOneMore(zones.rows, start, ids[..k], id, feed);
      ProcessFvg(zones, id, feed);
      k := k + 1;
    }
    assert ids[..|ids|] == ids;
  }
}

=== FILE: scheduler.dfy ===
/**
 * The scheduler: a registry of services keyed by name, kept in registration
 * order, with start and stop for all of them or for one by name, and the
 * status list the user interface shows.
 */
module Scheduler {
  import opened Common
  import opened BaseService

  const RunningLabel: string := "running"
  const StoppedLabel: string := "stopped"

  datatype StatusEntry = StatusEntry(name: string, description: string, status: string)

  class Scheduler {
    /** Registered names in registration order (the dictionary's key order). */
    var names: seq<string>
    var services: map<string, Service>

    /** Each name appears once, and maps to the service carrying that name. */
    ghost predicate Valid()
      reads this
    {
      (forall i, j :: 0 <= i < j < |names| ==> names[i] != names[j]) &&
      (forall n :: n in services <==> n in names) &&
      (forall n :: n in services ==> services[n].name == n)
    }

    /** The services the registry holds. */
    function Registered(): set<Service>
      reads this
    {
      set n | n in services :: services[n]
    }

    constructor ()
      ensures Valid() && names == [] && services == map[]
    {
      names := [];
      services := map[];
    }

    /** register: a new name is added at the end; a known name keeps its place and gets the new service. */
    method Register(s: Service)
      requires Valid()
      modifies this
      ensures Valid()
      ensures services == old(services)[s.name := s]
      ensures names == if s.name in old(services) then old(names) else old(names) + [s.name]
    {
      if s.name !in services {
        names := names + [s.name];
      }
      services := services[s.name := s];
    }

    /**
     * get_status: one entry per registered service in registration order,
     * with its description ("" when it has none) and "running" exactly when
     * its flag is set, else "stopped".
     */
    function GetStatus(): (r: seq<StatusEntry>)
      requires Valid()
      reads this, Registered()
      ensures |r| == |names|
      ensures forall i :: 0 <= i < |names| ==>
        r[i].name == names[i] &&
        (r[i].status == RunningLabel <==> services[names[i]].running) &&
        (r[i].status == StoppedLabel <==> !services[names[i]].running) &&
        r[i].description == (match services[names[i]].description case Some(d) => d case None => "")
    {
      seq(|names|, i requires 0 <= i < |names| && names[i] in services reads this, Registered() =>
        var s := services[names[i]];
        StatusEntry(names[i], match s.description case Some(d) => d case None => "",
                    if s.running then RunningLabel else StoppedLabel))
    }

    /**
     * start_all: starts each registered service in registration order; every
     * one is running afterwards, and only those that were stopped get a new
     * loop task.
     */
    method StartAll()
      requires Valid()
      modifies Registered()
      ensures forall n :: n in services ==> services[n].running
      ensures forall n :: n in services ==>
        services[n].task == (if old(services[n].running) then old(services[n].task) else Looping)
    {
      var i := 0;
      while i < |names|
        invariant 0 <= i <= |names|
        invariant forall j :: 0 <= j < i ==>
          (services[names[j]].running &&
           services[names[j]].task == (if old(services[names[j]].running) then old(services[names[j]].task) else Looping))
        invariant forall j :: i <= j < |names| ==>
          services[names[j]].running == old(services[names[j]].running) &&
          services[names[j]].task == old(services[names[j]].task)
      {
        services[names[i]].Start();
        i := i + 1;
      }
    }

    /**
     * stop_all: stops each registered service in registration order; none is
     * running afterwards, and the looping tasks of the running ones are
     * asked to cancel.
     */
    method StopAll()
      requires Valid()
      modifies Registered()
      ensures forall n :: n in services ==> !services[n].running
      ensures forall n :: n in services ==>
        services[n].task == (if old(services[n].running) && old(services[n].task) == Looping
                             then CancelRequested else old(services[n].task))
    {
      var i := 0;
      while i < |names|
        invariant 0 <= i <= |names|
        invariant forall j :: 0 <= j < i ==>
          (!services[names[j]].running &&
           services[names[j]].task == (if old(services[names[j]].running) && old(services[names[j]].task) == Looping
                                       then CancelRequested else old(services[names[j]].task)))
        invariant forall j :: i <= j < |names| ==>
          services[names[j]].running == old(services[names[j]].running) &&
          services[names[j]].task == old(services[names[j]].task)
      {
        services[names[i]].Stop();
        i := i + 1;
      }
    }

    /** start_service: true, with the service started, exactly when the name is registered and its service stopped. */
    method StartService(name: string) returns (ok: bool)
      requires Valid()
      modifies if name in services then {services[name]} else {}
      ensures ok <==> name in services && !old(services[name].running)
      ensures ok ==> services[name].running && services[name].task == Looping
      ensures !ok && name in services ==> services[name].running == old(services[name].running) &&
                                          services[name].task == old(services[name].task)
    {
      if name in services && !services[name].running {
        services[name].Start();
        return true;
      }
      return false;
    }

    /** stop_service: true, with the service stopped, exactly when the name is registered and its service running. */
    method StopService(name: string) returns (ok: bool)
      requires Valid()
      modifies if name in services then {services[name]} else {}
      ensures ok <==> name in services && old(services[name].running)
      ensures ok ==>
        (!services[name].running &&
         services[name].task == (if old(services[name].task) == Looping then CancelRequested else old(services[name].task)))
      ensures !ok && name in services ==> services[name].running == old(services[name].running) &&
                                          services[name].task == old(services[name].task)
    {
      if name in services && services[name].running {
        services[name].Stop();
        return true;
      }
      return false;
    }
  }
}

=== FILE: signal_parser_manager.dfy ===
/**
 * From a chat message to a stored signal: the registry of per-sender parsers,
 * the adjustment of the first take profit to a minimum reward-to-risk ratio,
 * and the saving of the adjusted signal.
 *
 * The parsers themselves are an input (`parse`); what one returns for a
 * message is not modelled. The dictionary a parser returns belongs to this
 * call alone, so its in-place updates are modelled as map updates.
 */
module SignalParserManager {
  import opened Common
  import opened SignalsDb

  /** The parser modules the registry refers to. */
  datatype Parser = Wolfx | NasdqGoldUs30 | Kiboyhx | CaesarInvest1206

  /** Sender name to parser; two senders share the Wolfx parser. */
  const Parsers: map<string, Parser> := map[
    "J111117" := Wolfx,
    "Wolfxsignalsforex" := Wolfx,
    "NasdaqGoldUs30" := NasdqGoldUs30,
    "kiboyhx" := Kiboyhx,
    "caesarinvest1206" := CaesarInvest1206]

  /** The default minimum reward-to-risk ratio. */
  const TargetRR: real := 2.0

  /** What a parser gives for a message: a signal dictionary, nothing, or an exception. */
  datatype ParseResult = Parsed(signal: map<string, Value>) | NoSignal | ParserRaised

  /** The entry price the adjustment works from: the middle of the entry range. */
  function Entry(r1: real, r2: real): real
  {
    (r1 + r2) / 2.0
  }

  /** Distance from the entry to the stop, and from the entry to the target, for an action; None for an unknown action. */
  function Legs(action: string, entry: real, sl: real, tp1: real): (l: Option<(real, real)>)
    ensures l.Some? <==> Lower(action) == "buy" || Lower(action) == "sell"
    ensures l.Some? && Lower(action) == "buy" ==> l.value == (entry - sl, tp1 - entry)
    ensures l.Some? && Lower(action) == "sell" ==> l.value == (sl - entry, entry - tp1)
  {
    var a := Lower(action);
    if a == "buy" then Some((entry - sl, tp1 - entry))
    else if a == "sell" then Some((sl - entry, entry - tp1))
    else None
  }

  /** The dictionary has the action as text and the four prices as numbers. */
  predicate Adjustable(signal: map<string, Value>)
  {
    "action" in signal && signal["action"].Text? &&
    "range1" in signal && signal["range1"].Num? && "range2" in signal && signal["range2"].Num? &&
    "sl" in signal && signal["sl"].Num? && "tp1" in signal && signal["tp1"].Num?
  }

  /** The legs of an adjustable signal, from the midpoint entry. */
  function SignalLegs(signal: map<string, Value>): Option<(real, real)>
    requires Adjustable(signal)
  {
    Legs(signal["action"].s, Entry(signal["range1"].x, signal["range2"].x), signal["sl"].x, signal["tp1"].x)
  }

  /** A signal the adjustment rewrites: known action, positive risk and positive reward. */
  predicate Rewritten(signal: map<string, Value>)
  {
    Adjustable(signal) && SignalLegs(signal).Some? &&
    SignalLegs(signal).value.0 > 0.0 && SignalLegs(signal).value.1 > 0.0
  }

  datatype Adjusted = AdjustedTo(signal: map<string, Value>) | AdjustRaised

  /**
   * adjust_signal_rr: the missing key or the value `lower` or `float` cannot
   * take raises; an unknown action or a non-positive risk or reward leaves the
   * signal as it is; otherwise the original ratio is stored under "rr" and a
   * take profit short of the target ratio is moved out to exactly that ratio.
   */
  function AdjustSignalRR(signal: map<string, Value>, target: real): (r: Adjusted)
    ensures r.AdjustRaised? <==> !Adjustable(signal)
    ensures Adjustable(signal) && !Rewritten(signal) ==> r == AdjustedTo(signal)
    ensures Rewritten(signal) ==>
      r.AdjustedTo? && r.signal.Keys == signal.Keys + {"rr"} &&
      (forall k :: k in signal && k != "tp1" && k != "rr" ==> r.signal[k] == signal[k]) &&
      r.signal["rr"] == Num(SignalLegs(signal).value.1 / SignalLegs(signal).value.0) &&
      r.signal["tp1"].Num?
  {
    if !Adjustable(signal) then AdjustRaised
    else
      var entry := Entry(signal["range1"].x, signal["range2"].x);
      var sl := signal["sl"].x;
      var tp1 := signal["tp1"].x;
      match Legs(signal["action"].s, entry, sl, tp1)
      case None => AdjustedTo(signal)
      case Some((risk, reward)) =>
        if risk <= 0.0 || reward <= 0.0 then AdjustedTo(signal)
        else
          var rr := reward / risk;
          var tp := if rr < target then
                      (if Lower(signal["action"].s) == "buy" then entry + risk * target else entry - risk * target)
                    else tp1;
          AdjustedTo(signal["tp1" := Num(tp)]["rr" := Num(rr)])
  }

  /**
   * The adjusted take profit: kept when the ratio already meets the target,
   * otherwise moved so that reward over risk is exactly the target; in both
   * cases the new reward is at least the target times the risk.
   */
  lemma {:induction false} AdjustedMeetsTarget(signal: map<string, Value>, target: real)
    requires Rewritten(signal)
    ensures var risk := SignalLegs(signal).value.0;
      var reward := SignalLegs(signal).value.1;
      var a := signal["action"].s;
      var tp := AdjustSignalRR(signal, target).signal["tp1"].x;
      var reward' := Legs(a, Entry(signal["range1"].x, signal["range2"].x), signal["sl"].x, tp).value.1;
      (reward / risk >= target ==> tp == signal["tp1"].x) &&
      (reward / risk < target ==> reward' == target * risk) &&
      reward' >= target * risk
  {
    var risk := SignalLegs(signal).value.0;
    var reward := SignalLegs(signal).value.1;
    var q := reward / risk;
    assert q * risk == reward;
    if q >= target {
      MulAtMost(target, q, risk);
    }
  }

  /** What the save step does with a message. */
  datatype Prepared = Submit(signal: map<string, Value>) | NothingToSave | PrepareRaised

  /**
   * parse_signal_and_save up to the insert: an unregistered sender, a parser
   * exception, no signal or an empty dictionary save nothing; the adjustment
   * may raise; otherwise the adjusted dictionary gets the sender and a message
   * made of the parser model's name, a space and the original text. `show`
   * is Python's text rendering of the model name's value.
   */
  function Prepare(sender: string, text: string, parse: Parser -> string -> ParseResult,
                   show: Value -> string): (p: Prepared)
    ensures p.NothingToSave? <==>
      sender !in Parsers || !parse(Parsers[sender])(text).Parsed? || parse(Parsers[sender])(text).signal == map[]
    ensures p.PrepareRaised? <==>
      sender in Parsers && parse(Parsers[sender])(text).Parsed? && parse(Parsers[sender])(text).signal != map[] &&
      !Adjustable(parse(Parsers[sender])(text).signal)
    ensures p.Submit? ==>
      "sender_username" in p.signal && p.signal["sender_username"] == Text(sender) && "message" in p.signal
    ensures p.Submit? && "model_used" in parse(Parsers[sender])(text).signal ==>
      p.signal["message"] == Text(show(parse(Parsers[sender])(text).signal["model_used"]) + " " + text)
    ensures p.Submit? && "model_used" !in parse(Parsers[sender])(text).signal ==>
      p.signal["message"] == Text("unknown" + " " + text)
    // the rest of the submitted dictionary is the adjusted one, untouched
    ensures p.Submit? ==>
      var adjusted := AdjustSignalRR(parse(Parsers[sender])(text).signal, TargetRR);
      && adjusted.AdjustedTo?
      && p.signal.Keys == adjusted.signal.Keys + {"sender_username", "message"}
      && forall k :: k in adjusted.signal && k != "sender_username" && k != "message" ==>
           p.signal[k] == adjusted.signal[k]
  {
    if sender !in Parsers then NothingToSave
    else match parse(Parsers[sender])(text)
      case Parsed(s) =>
        if s == map[] then NothingToSave
        else
          (match AdjustSignalRR(s, TargetRR)
           case AdjustRaised => PrepareRaised
           case AdjustedTo(a) =>
             var withSender := a["sender_username" := Text(sender)];
             var model := if "model_used" in withSender then show(withSender["model_used"]) else "unknown";
             Submit(withSender["message" := Text(model + " " + text)]))
      case _ => NothingToSave
  }

  /** The end of a save: the insert's verdict, nothing saved, or an exception before the insert. */
  datatype SaveOutcome = Saved(checked: Checked) | NotSaved | SaveRaised

  /** parse_signal_and_save: prepares the signal and hands it to the insert. */
  method ParseSignalAndSave(table: SignalTable, sender: string, text: string,
                            parse: Parser -> string -> ParseResult, show: Value -> string)
    returns (out: SaveOutcome)
    modifies table
    ensures !Prepare(sender, text, parse, show).Submit? ==> table.rows == old(table.rows)
    ensures Prepare(sender, text, parse, show).NothingToSave? ==> out == NotSaved
    ensures Prepare(sender, text, parse, show).PrepareRaised? ==> out == SaveRaised
    ensures Prepare(sender, text, parse, show).Submit? ==>
      out == Saved(CheckSignal(Prepare(sender, text, parse, show).signal)) &&
      table.rows == old(table.rows) + (if out.checked.Accept? then [out.checked.row] else [])
  {
    match Prepare(sender, text, parse, show)
    case NothingToSave =>
      out := NotSaved;
    case PrepareRaised =>
      out := SaveRaised;
    case Submit(signal) =>
      var checked := table.Insert(signal);
      out := Saved(checked);
  }
}

=== FILE: signals_db.dfy ===
/**
 * The trading-signals table: validation and risk/reward of a new signal, the
 * pending-signal query and the two status updates (the guarded one of the
 * signals module and the unconditional one the order handler uses).
 *
 * A row's id is its position in `rows` plus one, as an auto-increment key
 * starting at 1 gives it.
 */
module SignalsDb {
  import opened Common
  import TradeSignalLogic

  /**
   * A value of an incoming signal dictionary: a number (numeric text that
   * `float` accepts is represented here by its number), any other text, or
   * None.
   */
  datatype Value = Num(x: real) | Text(s: string) | Null

  datatype SignalRow = SignalRow(
    instrument: Value, side: Side,
    range1: real, range2: real, tp1: real, tp2: real, sl: real,
    comment: Value, message: Value,
    risk: real, reward: real,
    status: string, priceEntry: Option<real>, typeOrder: Option<TradeSignalLogic.OrderType>)

  const PendingStatus: string := "pending"

  /** The eight keys a signal must carry to be inserted. */
  predicate HasRequiredKeys(signal: map<string, Value>)
  {
    "instrument" in signal && "action" in signal && "range1" in signal && "range2" in signal &&
    "tp1" in signal && "tp2" in signal && "sl" in signal && "comment" in signal
  }

  /** `float(v)`: a number, a ValueError (caught by the insert), or a TypeError (not caught). */
  datatype Conversion = Converted(xs: seq<real>) | ValueErr | TypeErr

  /** Converts the values left to right; the first failure decides the error. */
  function ToFloats(vs: seq<Value>): (r: Conversion)
    ensures r.Converted? <==> forall i :: 0 <= i < |vs| ==> vs[i].Num?
    ensures r.Converted? ==> |r.xs| == |vs| && forall i :: 0 <= i < |vs| ==> r.xs[i] == vs[i].x
  {
    if |vs| == 0 then Converted([])
    else match vs[0]
      case Num(x) =>
        (match ToFloats(vs[1..])
         case Converted(rest) => Converted([x] + rest)
         case e => assert !vs[1..][0].Num? || exists i :: 0 <= i < |vs[1..]| && !vs[1..][i].Num?; e)
      case Text(_) => ValueErr
      case Null => TypeErr
  }

  /** risk = distance from the worse range edge to the stop; reward = distance from that edge to tp1. */
  function RiskReward(side: Side, r1: real, r2: real, sl: real, tp1: real): (rr: (real, real))
    ensures rr.0 >= 0.0 && rr.1 >= 0.0
    ensures side == Buy ==> rr.0 == Abs(Max(r1, r2) - sl) && rr.1 == Abs(tp1 - Max(r1, r2))
    ensures side == Sell ==> rr.0 == Abs(sl - Min(r1, r2)) && rr.1 == Abs(Min(r1, r2) - tp1)
  {
    var edge := if side == Buy then Max(r1, r2) else Min(r1, r2);
    (Abs(edge - sl), Abs(tp1 - edge))
  }

  /** For levels in trading order (stop, entry edge, target), risk and reward add up to the stop-to-target span. */
  lemma RiskRewardSpan(side: Side, r1: real, r2: real, sl: real, tp1: real)
    requires side == Buy ==> sl <= Max(r1, r2) <= tp1
    requires side == Sell ==> tp1 <= Min(r1, r2) <= sl
    ensures var rr := RiskReward(side, r1, r2, sl, tp1); rr.0 + rr.1 == Abs(tp1 - sl)
  {
  }

  /** How `insert_signal` treats a signal: the row it inserts, a logged rejection, or an escaping exception. */
  datatype Checked = Accept(row: SignalRow) | Reject | Raise

  function ParseSide(action: string): (r: Option<Side>)
    ensures r == Some(Buy) <==> Lower(action) == "buy"
    ensures r == Some(Sell) <==> Lower(action) == "sell"
    ensures r.None? <==> Lower(action) != "buy" && Lower(action) != "sell"
  {
    var a := Lower(action);
    if a == "buy" then Some(Buy) else if a == "sell" then Some(Sell) else None
  }

  function CheckSignal(signal: map<string, Value>): (r: Checked)
    ensures !HasRequiredKeys(signal) ==> r == Reject
    ensures HasRequiredKeys(signal) && !signal["action"].Text? ==> r == Raise
    ensures HasRequiredKeys(signal) && signal["action"].Text? && ParseSide(signal["action"].s).None? ==> r == Reject
    ensures r.Accept? ==>
      HasRequiredKeys(signal) && signal["action"].Text? &&
      ParseSide(signal["action"].s) == Some(r.row.side) &&
      Num(r.row.range1) == signal["range1"] && Num(r.row.range2) == signal["range2"] &&
      Num(r.row.sl) == signal["sl"] && Num(r.row.tp1) == signal["tp1"] && Num(r.row.tp2) == signal["tp2"] &&
      r.row.instrument == signal["instrument"] && r.row.comment == signal["comment"] &&
      r.row.message == (if "message" in signal then signal["message"] else Null) &&
      (r.row.risk, r.row.reward) == RiskReward(r.row.side, r.row.range1, r.row.range2, r.row.sl, r.row.tp1) &&
      r.row.status == PendingStatus && r.row.priceEntry == None && r.row.typeOrder == None
  {
    if !HasRequiredKeys(signal) then Reject
    else match signal["action"]
      case Text(a) =>
        (match ParseSide(a)
         case None => Reject
         case Some(side) =>
           match ToFloats([signal["range1"], signal["range2"], signal["sl"], signal["tp1"], signal["tp2"]])
           case ValueErr => Reject
           case TypeErr => Raise
           case Converted(xs) =>
             var rr := RiskReward(side, xs[0], xs[1], xs[2], xs[3]);
             Accept(SignalRow(signal["instrument"], side, xs[0], xs[1], xs[3], xs[4], xs[2],
                              signal["comment"], if "message" in signal then signal["message"] else Null,
                              rr.0, rr.1, PendingStatus, None, None)))
      case _ => Raise
  }

  /** One status write of the order handler: status, entry price and order type together. */
  datatype StatusWrite = StatusWrite(status: string, price: Option<real>, typeOrder: Option<TradeSignalLogic.OrderType>)

  function Written(row: SignalRow, w: StatusWrite): SignalRow
  {
    row.(status := w.status, priceEntry := w.price, typeOrder := w.typeOrder)
  }

  /** A row after a sequence of writes: the last write decides, no write leaves it as it was. */
  function AfterWrites(row: SignalRow, ws: seq<StatusWrite>): (r: SignalRow)
    ensures |ws| == 0 ==> r == row
    ensures |ws| > 0 ==> r == Written(row, ws[|ws| - 1])
  {
    if |ws| == 0 then row else Written(AfterWrites(row, ws[..|ws| - 1]), ws[|ws| - 1])
  }

  /** The table after the handler's write to row `id`; an id no row has changes nothing. */
  function WriteAt(rows: seq<SignalRow>, id: int, w: StatusWrite): (r: seq<SignalRow>)
    ensures |r| == |rows|
    ensures forall i :: 0 <= i < |rows| ==> r[i] == (if i == id - 1 then Written(rows[i], w) else rows[i])
  {
    if 1 <= id <= |rows| then rows[id - 1 := Written(rows[id - 1], w)] else rows
  }

  /** The table after a sequence of writes to row `id`. */
  function WritesAt(rows: seq<SignalRow>, id: int, ws: seq<StatusWrite>): (r: seq<SignalRow>)
    ensures |r| == |rows|
    ensures forall i :: 0 <= i < |rows| ==> r[i] == (if i == id - 1 then AfterWrites(rows[i], ws) else rows[i])
  {
    if |ws| == 0 then rows else WriteAt(WritesAt(rows, id, ws[..|ws| - 1]), id, ws[|ws| - 1])
  }

  lemma WritesAtSnoc(rows: seq<SignalRow>, id: int, ws: seq<StatusWrite>, w: StatusWrite)
    ensures WritesAt(rows, id, ws + [w]) == WriteAt(WritesAt(rows, id, ws), id, w)
  {
    assert (ws + [w])[..|ws|] == ws;
  }

  /** Ids (position + 1) of the rows whose status is pending, in table order. */
  function PendingIds(rows: seq<SignalRow>): (ids: seq<nat>)
    ensures forall j :: 0 <= j < |ids| ==> 1 <= ids[j] <= |rows| && rows[ids[j] - 1].status == PendingStatus
    ensures forall j, k :: 0 <= j < k < |ids| ==> ids[j] < ids[k]
  {
    if |rows| == 0 then []
    else
      var front := PendingIds(rows[..|rows| - 1]);
      assert forall j :: 0 <= j < |front| ==> rows[..|rows| - 1][front[j] - 1] == rows[front[j] - 1];
      if rows[|rows| - 1].status == PendingStatus then front + [|rows|] else front
  }

  /** Every pending row's id is listed. */
  lemma {:induction false} PendingIdsComplete(rows: seq<SignalRow>)
    ensures forall i :: 0 <= i < |rows| && rows[i].status == PendingStatus ==> i + 1 in PendingIds(rows)
  {
    if |rows| > 0 {
      var front := rows[..|rows| - 1];
      PendingIdsComplete(front);
      forall i | 0 <= i < |rows| - 1 && rows[i].status == PendingStatus
        ensures i + 1 in PendingIds(rows)
      {
        assert front[i] == rows[i];
        assert i + 1 in PendingIds(front);
      }
    }
  }

  class SignalTable {
    var rows: seq<SignalRow>

    constructor ()
      ensures rows == []
    {
      rows := [];
    }

    /** insert_signal */
    method Insert(signal: map<string, Value>) returns (r: Checked)
      modifies this
      ensures r == CheckSignal(signal)
      ensures r.Accept? ==> rows == old(rows) + [r.row]
      ensures !r.Accept? ==> rows == old(rows)
    {
      r := CheckSignal(signal);
      if r.Accept? {
        rows := rows + [r.row];
      }
    }

    /**
     * update_signal_status of the signals module: refuses a falsy id or status;
     * otherwise sets the status and the entry price (None, the default,
     * clears it) and reports success, whether or not a row has that id.
     */
    method UpdateStatus(id: int, status: string, priceEntry: Option<real>) returns (ok: bool)
      modifies this
      ensures ok <==> id != 0 && status != ""
      ensures !ok ==> rows == old(rows)
      ensures ok && 1 <= id <= |old(rows)| ==>
        rows == old(rows)[id - 1 := old(rows)[id - 1].(status := status, priceEntry := priceEntry)]
      ensures ok && !(1 <= id <= |old(rows)|) ==> rows == old(rows)
    {
      if id == 0 || status == "" {
        return false;
      }
      if 1 <= id <= |rows| {
        rows := rows[id - 1 := rows[id - 1].(status := status, priceEntry := priceEntry)];
      }
      return true;
    }

    /** update_signal_status of the repository: writes status, entry price and order type of row `id`. */
    method WriteStatus(id: int, w: StatusWrite)
      modifies this
      ensures rows == WriteAt(old(rows), id, w)
    {
      if 1 <= id <= |rows| {
        rows := rows[id - 1 := Written(rows[id - 1], w)];
      }
    }
  }
}

=== FILE: swing_points.dfy ===
/**
 * The swing-point stage: scans the recent candles for swing highs and lows,
 * scores each one, and records it unless a swing of the same kind at the
 * same candle is already recorded.
 *
 * Two detectors exist. The strict one marks candle `i` when its high (low)
 * is the highest (lowest) of the seven candles `i-3 .. i+3`; such a swing is
 * only known once candle `i+3` has closed, which is its discovery time. The
 * loose one marks every candle whose high (low) exceeds (undercuts) the
 * previous candle's, discovered at its own time.
 */
module SwingPoints {
  import opened Common
  import opened FibStore
  import BosFvgStore

  /** How many of the newest candles a step looks at. */
  const RecentLimit: nat := 5000
  /** A step with fewer candles records nothing. */
  const MinCandles: nat := 10
  /** The half-width of the strict detector's window. */
  const WindowSize: nat := 3
  /** The rolling window of the power score. */
  const Lookback: nat := 10
  const PowerFloor: real := 0.5
  const PowerCap: real := 5.0

  /** The detector; any mode other than loose selects the strict one. */
  datatype Mode = Strict | Loose

  // ---------------------------------------------------------------------
  // Extremes and the power score
  // ---------------------------------------------------------------------

  /** The highest high of the candles `lo .. hi-1`. */
  function HighestHigh(df: seq<Candle>, lo: nat, hi: nat): (r: real)
    requires lo < hi <= |df|
    ensures forall j :: lo <= j < hi ==> df[j].high <= r
    ensures exists j :: lo <= j < hi && df[j].high == r
    decreases hi - lo
  {
    if lo + 1 == hi then df[lo].high else Max(df[lo].high, HighestHigh(df, lo + 1, hi))
  }

  /** The lowest low of the candles `lo .. hi-1`. */
  function LowestLow(df: seq<Candle>, lo: nat, hi: nat): (r: real)
    requires lo < hi <= |df|
    ensures forall j :: lo <= j < hi ==> r <= df[j].low
    ensures exists j :: lo <= j < hi && df[j].low == r
    decreases hi - lo
  {
    if lo + 1 == hi then df[lo].low else Min(df[lo].low, LowestLow(df, lo + 1, hi))
  }

  /** The sum of the candle ranges (high minus low) of the candles `lo .. hi-1`. */
  function RangeSum(df: seq<Candle>, lo: nat, hi: nat): real
    requires lo <= hi <= |df|
    decreases hi - lo
  {
    if lo == hi then 0.0 else (df[lo].high - df[lo].low) + RangeSum(df, lo + 1, hi)
  }

  /** Limits a raw score to the interval from the floor to the cap. */
  function Clamp(p: real): (r: real)
    ensures PowerFloor <= r <= PowerCap
    ensures PowerFloor <= p <= PowerCap ==> r == p
    ensures p < PowerFloor ==> r == PowerFloor
    ensures p > PowerCap ==> r == PowerCap
  {
    Max(PowerFloor, Min(p, PowerCap))
  }

  /**
   * The power score of the swing at candle `idx`: the candle's range, the
   * close-to-close move over three candles and how far the extreme passes
   * the previous ten candles, each measured in units of the ten-candle
   * average range, weighted and limited to [0.5, 5.0]. Before the tenth
   * candle the rolling average does not exist and the score is the floor;
   * so it is when the average range is not positive.
   */
  function PowerScore(df: seq<Candle>, idx: nat, kind: SwingKind): (r: real)
    requires idx < |df|
    ensures PowerFloor <= r <= PowerCap
    ensures idx + 1 < Lookback ==> r == PowerFloor
  {
    if idx + 1 < Lookback then PowerFloor
    else
      var avg := RangeSum(df, idx + 1 - Lookback, idx + 1) / (Lookback as real);
      if avg <= 0.0 then PowerFloor
      else
        var current := df[idx].high - df[idx].low;
        var back := if idx >= 3 then idx - 3 else 0;
        var momentum := Abs(df[idx].close - df[back].close) / avg;
        var from := if idx >= Lookback then idx - Lookback else 0;
        var extremity :=
          if kind == High then (df[idx].high - HighestHigh(df, from, idx)) / avg
          else (LowestLow(df, from, idx) - df[idx].low) / avg;
        Clamp(0.5 + (current / avg) * 0.3 + momentum * 0.3 + extremity * 0.4)
  }

  // ---------------------------------------------------------------------
  // The swings a scan finds
  // ---------------------------------------------------------------------

  /** No candle of the seven-candle window around `i` has a higher high. */
  predicate IsWindowHigh(df: seq<Candle>, i: nat)
  {
    && WindowSize <= i && i + WindowSize < |df|
    && forall j :: i - WindowSize <= j <= i + WindowSize ==> df[j].high <= df[i].high
  }

  /** No candle of the seven-candle window around `i` has a lower low. */
  predicate IsWindowLow(df: seq<Candle>, i: nat)
  {
    && WindowSize <= i && i + WindowSize < |df|
    && forall j :: i - WindowSize <= j <= i + WindowSize ==> df[i].low <= df[j].low
  }

  /** The detector's test, the high at `i` equalling the highest high of its window, is exactly `IsWindowHigh`. */
  lemma WindowHighIsMax(df: seq<Candle>, i: nat)
    requires WindowSize <= i && i + WindowSize < |df|
    ensures df[i].high == HighestHigh(df, i - WindowSize, i + WindowSize + 1) <==> IsWindowHigh(df, i)
  {
    var m := HighestHigh(df, i - WindowSize, i + WindowSize + 1);
    if IsWindowHigh(df, i) {
      var w :| i - WindowSize <= w < i + WindowSize + 1 && df[w].high == m;
      assert df[i].high <= m;
    }
  }

  /** The detector's test, the low at `i` equalling the lowest low of its window, is exactly `IsWindowLow`. */
  lemma WindowLowIsMin(df: seq<Candle>, i: nat)
    requires WindowSize <= i && i + WindowSize < |df|
    ensures df[i].low == LowestLow(df, i - WindowSize, i + WindowSize + 1) <==> IsWindowLow(df, i)
  {
    var m := LowestLow(df, i - WindowSize, i + WindowSize + 1);
    if IsWindowLow(df, i) {
      var w :| i - WindowSize <= w < i + WindowSize + 1 && df[w].low == m;
      assert m <= df[i].low;
    }
  }

  /** Candle `i` lies in the range the detector scans: `3 .. |df|-4` for the strict one, `1 .. |df|-1` for the loose one. */
  predicate InRange(df: seq<Candle>, mode: Mode, i: nat)
  {
    if mode == Strict then WindowSize <= i && i + WindowSize < |df| else 1 <= i < |df|
  }

  /** The detector marks candle `i` as a swing of `kind`. */
  predicate Found(df: seq<Candle>, mode: Mode, kind: SwingKind, i: nat)
  {
    match (mode, kind)
    case (Strict, High) => IsWindowHigh(df, i)
    case (Strict, Low) => IsWindowLow(df, i)
    case (Loose, High) => 1 <= i < |df| && df[i].high > df[i - 1].high
    case (Loose, Low) => 1 <= i < |df| && df[i].low < df[i - 1].low
  }

  /**
   * The row recorded for the swing of `kind` at candle `i`: its price is the
   * candle's high or low; a strict swing is discovered when candle `i+3`
   * appears, a loose one at its own candle.
   */
  function Swing(df: seq<Candle>, symbol: string, timeframe: string, mode: Mode, kind: SwingKind, i: nat): (r: SwingRow)
    requires InRange(df, mode, i)
    ensures r.kind == kind && r.candleTime == df[i].time && PowerFloor <= r.power <= PowerCap
  {
    SwingRow(symbol, timeframe, kind, if kind == High then df[i].high else df[i].low,
             df[i].time, if mode == Strict then df[i + WindowSize].time else df[i].time,
             PowerScore(df, i, kind), if mode == Strict then StrictSource else LooseSource, false)
  }

  /** The swings found at candle `i`: the high first, then the low. */
  function SwingsAt(df: seq<Candle>, symbol: string, timeframe: string, mode: Mode, i: nat): seq<SwingRow>
  {
    (if Found(df, mode, High, i) then [Swing(df, symbol, timeframe, mode, High, i)] else [])
    + (if Found(df, mode, Low, i) then [Swing(df, symbol, timeframe, mode, Low, i)] else [])
  }

  /** The first candle the detector looks at. */
  function First(mode: Mode): nat
  {
    if mode == Strict then WindowSize else 1
  }

  /** One past the last candle the detector looks at. */
  function End(df: seq<Candle>, mode: Mode): (r: nat)
    ensures First(mode) <= r
    ensures forall i: nat :: First(mode) <= i < r <==> InRange(df, mode, i)
  {
    if mode == Strict then (if |df| > WindowSize + WindowSize then |df| - WindowSize else WindowSize)
    else (if |df| > 1 then |df| else 1)
  }

  /** `x` is the swing the detector finds at candle `i`. */
  predicate SwingOf(df: seq<Candle>, symbol: string, timeframe: string, mode: Mode, x: SwingRow, i: nat)
  {
    Found(df, mode, x.kind, i) && x == Swing(df, symbol, timeframe, mode, x.kind, i)
  }

  /** `x` is a swing the detector marks at one of the candles before `n`. */
  predicate MarkedBefore(df: seq<Candle>, symbol: string, timeframe: string, mode: Mode, x: SwingRow, n: nat)
  {
    exists i: nat :: i < n && SwingOf(df, symbol, timeframe, mode, x, i)
  }

  // ---------------------------------------------------------------------
  // Recording
  // ---------------------------------------------------------------------

  /** Two swings share the key the table is searched by. */
  predicate SameKey(a: SwingRow, b: SwingRow)
  {
    a.symbol == b.symbol && a.timeframe == b.timeframe && a.kind == b.kind && a.candleTime == b.candleTime
  }

  predicate HasKey(rows: seq<SwingRow>, s: SwingRow)
  {
    exists j :: 0 <= j < |rows| && SameKey(rows[j], s)
  }

  /** No two rows share a key. */
  predicate UniqueKeys(rows: seq<SwingRow>)
  {
    forall j, k :: 0 <= j < k < |rows| ==> !SameKey(rows[j], rows[k])
  }

  /** Recording one swing: it is appended unless its key is already present. */
  function Record(rows: seq<SwingRow>, s: SwingRow): seq<SwingRow>
  {
    if HasKey(rows, s) then rows else rows + [s]
  }

  /** Recording the swings `cs` one after another. */
  function RecordAll(rows: seq<SwingRow>, cs: seq<SwingRow>): seq<SwingRow>
  {
    if |cs| == 0 then rows else Record(RecordAll(rows, cs[..|cs| - 1]), cs[|cs| - 1])
  }

  /** Scanning candles `First(mode) .. n-1`, recording each candle's swings in turn. */
  ghost function Scan(rows: seq<SwingRow>, df: seq<Candle>, symbol: string, timeframe: string, mode: Mode, n: nat): seq<SwingRow>
  {
    if n <= First(mode) then rows
    else RecordAll(Scan(rows, df, symbol, timeframe, mode, n - 1), SwingsAt(df, symbol, timeframe, mode, n - 1))
  }

  /** Recording keeps the existing rows, never duplicates a key, adds only given swings and leaves every given swing's key present. */
  lemma {:induction false} RecordAllFacts(rows: seq<SwingRow>, cs: seq<SwingRow>)
    requires UniqueKeys(rows)
    ensures var r := RecordAll(rows, cs);
      && UniqueKeys(r)
      && rows <= r
      && (forall j :: |rows| <= j < |r| ==> r[j] in cs)
      && (forall s :: s in cs ==> HasKey(r, s))
    decreases |cs|
  {
    if |cs| > 0 {
      var front := cs[..|cs| - 1];
      var s := cs[|cs| - 1];
      RecordAllFacts(rows, front);
      var p := RecordAll(rows, front);
      assert forall c :: c in cs <==> c in front || c == s;
      if !HasKey(p, s) {
        var r := p + [s];
        assert HasKey(r, s) by { assert SameKey(r[|p|], s); }
        forall c | c in front
          ensures HasKey(r, c)
        {
          var j :| 0 <= j < |p| && SameKey(p[j], c);
          assert r[j] == p[j];
        }
      }
    }
  }

  /** The swings found at one candle are exactly what the detector marks there. */
  lemma SwingsAtExact(df: seq<Candle>, symbol: string, timeframe: string, mode: Mode, i: nat)
    ensures forall x :: x in SwingsAt(df, symbol, timeframe, mode, i) ==> SwingOf(df, symbol, timeframe, mode, x, i)
    ensures forall kind :: Found(df, mode, kind, i) ==>
      (InRange(df, mode, i) && Swing(df, symbol, timeframe, mode, kind, i) in SwingsAt(df, symbol, timeframe, mode, i))
  {
  }

  /** A key present in a prefix is present in the whole. */
  lemma HasKeyExtends(p: seq<SwingRow>, r: seq<SwingRow>, s: SwingRow)
    requires p <= r && HasKey(p, s)
    ensures HasKey(r, s)
  {
    var j :| 0 <= j < |p| && SameKey(p[j], s);
    assert r[j] == p[j];
  }

  /** A scan keeps the earlier rows and never duplicates a key. */
  lemma {:induction false} ScanKeeps(rows: seq<SwingRow>, df: seq<Candle>, symbol: string, timeframe: string, mode: Mode, n: nat)
    requires UniqueKeys(rows)
    ensures UniqueKeys(Scan(rows, df, symbol, timeframe, mode, n))
    ensures rows <= Scan(rows, df, symbol, timeframe, mode, n)
    decreases n
  {
    if n > First(mode) {
      ScanKeeps(rows, df, symbol, timeframe, mode, n - 1);
      RecordAllFacts(Scan(rows, df, symbol, timeframe, mode, n - 1), SwingsAt(df, symbol, timeframe, mode, n - 1));
    }
  }

  /** Every row a scan of candles up to `n` adds is a swing the detector marks at one of those candles. */
  lemma {:induction false} ScanSound(rows: seq<SwingRow>, df: seq<Candle>, symbol: string, timeframe: string, mode: Mode, n: nat)
    requires UniqueKeys(rows)
    ensures forall j :: |rows| <= j < |Scan(rows, df, symbol, timeframe, mode, n)| ==>
      MarkedBefore(df, symbol, timeframe, mode, Scan(rows, df, symbol, timeframe, mode, n)[j], n)
    decreases n
  {
    if n > First(mode) {
      ScanSound(rows, df, symbol, timeframe, mode, n - 1);
      ScanKeeps(rows, df, symbol, timeframe, mode, n - 1);
      var p := Scan(rows, df, symbol, timeframe, mode, n - 1);
      var at := SwingsAt(df, symbol, timeframe, mode, n - 1);
      var r := RecordAll(p, at);
      assert r == Scan(rows, df, symbol, timeframe, mode, n);
      RecordAllFacts(p, at);
      SwingsAtExact(df, symbol, timeframe, mode, n - 1);
      forall j | |rows| <= j < |r|
        ensures MarkedBefore(df, symbol, timeframe, mode, r[j], n)
      {
        if j < |p| {
          assert r[j] == p[j];
          assert MarkedBefore(df, symbol, timeframe, mode, p[j], n - 1);
          var i: nat :| i < n - 1 && SwingOf(df, symbol, timeframe, mode, p[j], i);
          assert i < n && SwingOf(df, symbol, timeframe, mode, r[j], i);
        } else {
          assert SwingOf(df, symbol, timeframe, mode, r[j], n - 1);
        }
      }
    } else {
      assert Scan(rows, df, symbol, timeframe, mode, n) == rows;
    }
  }

  /** After a scan of candles up to `n`, every swing the detector marks at one of those candles has its key in the table. */
  lemma {:induction false} ScanComplete(rows: seq<SwingRow>, df: seq<Candle>, symbol: string, timeframe: string, mode: Mode, n: nat)
    requires UniqueKeys(rows)
    ensures var r := Scan(rows, df, symbol, timeframe, mode, n);
      forall i: nat, kind :: First(mode) <= i < n && Found(df, mode, kind, i) ==>
        (InRange(df, mode, i) && HasKey(r, Swing(df, symbol, timeframe, mode, kind, i)))
    decreases n
  {
    if n > First(mode) {
      ScanComplete(rows, df, symbol, timeframe, mode, n - 1);
      ScanKeeps(rows, df, symbol, timeframe, mode, n - 1);
      var p := Scan(rows, df, symbol, timeframe, mode, n - 1);
      var at := SwingsAt(df, symbol, timeframe, mode, n - 1);
      var r := RecordAll(p, at);
      assert r == Scan(rows, df, symbol, timeframe, mode, n);
      RecordAllFacts(p, at);
      SwingsAtExact(df, symbol, timeframe, mode, n - 1);
      forall i: nat, kind | First(mode) <= i < n && Found(df, mode, kind, i)
        ensures InRange(df, mode, i) && HasKey(r, Swing(df, symbol, timeframe, mode, kind, i))
      {
        var x := Swing(df, symbol, timeframe, mode, kind, i);
        if i < n - 1 {
          HasKeyExtends(p, r, x);
        } else {
          assert x in at;
        }
      }
    }
  }

  /** Candles before the first scanned one are never marked, so a full scan marks every swing the detector can find in `df`. */
  lemma FoundInRange(df: seq<Candle>, mode: Mode, kind: SwingKind, i: nat)
    requires Found(df, mode, kind, i)
    ensures First(mode) <= i < End(df, mode)
  {
  }

  /** On a time-ordered feed a strict swing is discovered three candles after its own candle, so strictly later; a loose one at its own candle. */
  lemma DiscoveredAfterCandle(rows: seq<SwingRow>, df: seq<Candle>, symbol: string, timeframe: string, mode: Mode, n: nat)
    requires UniqueKeys(rows)
    requires BosFvgStore.Chronological(df)
    ensures var r := Scan(rows, df, symbol, timeframe, mode, n);
      forall j :: |rows| <= j < |r| ==>
        if mode == Strict then r[j].discoveredAt > r[j].candleTime else r[j].discoveredAt == r[j].candleTime
  {
    ScanSound(rows, df, symbol, timeframe, mode, n);
    var r := Scan(rows, df, symbol, timeframe, mode, n);
    forall j | |rows| <= j < |r|
      ensures if mode == Strict then r[j].discoveredAt > r[j].candleTime else r[j].discoveredAt == r[j].candleTime
    {
      assert MarkedBefore(df, symbol, timeframe, mode, r[j], n);
      var i: nat :| i < n && SwingOf(df, symbol, timeframe, mode, r[j], i);
      if mode == Strict {
        assert df[i].time < df[i + WindowSize].time;
      }
    }
  }

  // ---------------------------------------------------------------------
  // The stage
  // ---------------------------------------------------------------------

  /** Records swing `s` unless a swing with its key is already present. */
  method RecordSwing(swings: SwingTable, s: SwingRow)
    modifies swings
    ensures swings.rows == Record(old(swings.rows), s)
  {
    if HasKey(swings.rows, s) {
      return;
    }
    swings.rows := swings.rows + [s];
  }

  /** Records the swings found at one candle, high first. */
  method RecordPair(swings: SwingTable, high: seq<SwingRow>, low: seq<SwingRow>)
    requires |high| <= 1 && |low| <= 1
    modifies swings
    ensures swings.rows == RecordAll(old(swings.rows), high + low)
  {
    ghost var start := swings.rows;
    if |high| == 1 {
      RecordSwing(swings, high[0]);
      assert [high[0]][..0] == [];
    }
    assert swings.rows == RecordAll(start, high);
    if |low| == 1 {
      RecordSwing(swings, low[0]);
      assert high + low == high + [low[0]];
      assert (high + low)[..|high|] == high;
    } else {
      assert high + low == high;
    }
  }

  /** The strict scan over candles `3 .. |df|-4`. */
  method DetectStrict(swings: SwingTable, df: seq<Candle>, symbol: string, timeframe: string)
    modifies swings
    ensures swings.rows == Scan(old(swings.rows), df, symbol, timeframe, Strict, End(df, Strict))
  {
    ghost var start := swings.rows;
    var i := WindowSize;
    while i < End(df, Strict)
      invariant WindowSize <= i <= End(df, Strict)
      invariant swings.rows == Scan(start, df, symbol, timeframe, Strict, i)
    {
      var high := if IsWindowHigh(df, i) then [Swing(df, symbol, timeframe, Strict, High, i)] else [];
      var low := if IsWindowLow(df, i) then [Swing(df, symbol, timeframe, Strict, Low, i)] else [];
      RecordPair(swings, high, low);
      i := i + 1;
    }
  }

  /** The loose scan over candles `1 .. |df|-1`. */
  method DetectLoose(swings: SwingTable, df: seq<Candle>, symbol: string, timeframe: string)
    modifies swings
    ensures swings.rows == Scan(old(swings.rows), df, symbol, timeframe, Loose, End(df, Loose))
  {
    ghost var start := swings.rows;
    var i := 1;
    while i < End(df, Loose)
      invariant 1 <= i <= End(df, Loose)
      invariant swings.rows == Scan(start, df, symbol, timeframe, Loose, i)
    {
      var high := if df[i].high > df[i - 1].high then [Swing(df, symbol, timeframe, Loose, High, i)] else [];
      var low := if df[i].low < df[i - 1].low then [Swing(df, symbol, timeframe, Loose, Low, i)] else [];
      RecordPair(swings, high, low);
      i := i + 1;
    }
  }

  /** One run of the stage; a symbol without a candle source raises, which the stage catches, leaving the table unchanged. */
  method RunStep(swings: SwingTable, feed: seq<Candle>, symbol: string, timeframe: string, mode: Mode)
    modifies swings
    ensures var df := BosFvgStore.Tail(feed, RecentLimit);
      swings.rows ==
        if symbol != DataSymbol || timeframe != DataTimeframe || |df| < MinCandles then old(swings.rows)
        else Scan(old(swings.rows), df, symbol, timeframe, mode, End(df, mode))
  {
    if symbol != DataSymbol || timeframe != DataTimeframe {
      return;
    }
    var df := BosFvgStore.Tail(feed, RecentLimit);
    if |df| < MinCandles {
      return;
    }
    if mode == Loose {
      DetectLoose(swings, df, symbol, timeframe);
    } else {
      DetectStrict(swings, df, symbol, timeframe);
    }
  }

  /**
   * After a full scan every swing the detector can find in the candles has
   * its key in the table, keys stay unique, and no row was changed.
   */
  lemma FullScanRecordsEverySwing(rows: seq<SwingRow>, df: seq<Candle>, symbol: string, timeframe: string,
                                  mode: Mode, kind: SwingKind, i: nat)
    requires UniqueKeys(rows)
    requires Found(df, mode, kind, i)
    ensures var r := Scan(rows, df, symbol, timeframe, mode, End(df, mode));
      UniqueKeys(r) && rows <= r && HasKey(r, Swing(df, symbol, timeframe, mode, kind, i))
  {
    FoundInRange(df, mode, kind, i);
    ScanKeeps(rows, df, symbol, timeframe, mode, End(df, mode));
    ScanComplete(rows, df, symbol, timeframe, mode, End(df, mode));
  }
}

=== FILE: trade_signal_handler.dfy ===
/**
 * The order handler: one order attempt with its re-dispatch and forced
 * fallback over the three order functions, and the bounded retry loop that
 * processes one pending signal and records its outcome in the signals table.
 *
 * The retry loop sees, for attempt k, what each of the three order
 * functions returns at that moment (`venue(k)`); `PlaceAll` gives these
 * results for one broker snapshot (market and answers to requests).
 */
module TradeSignalHandler {
  import opened Common
  import opened TradeSignalLogic
  import opened Mt5Logic
  import opened SignalsDb

  /** One broker snapshot: the market as the order functions read it and the broker's answer to each request. */
  datatype Snapshot = Snapshot(market: Market, send: OrderRequest -> SendOutcome)

  /** What the order function of each type returns. */
  type Venue = OrderType -> Placement

  /** The other order types in the order of the handler's method table, without `primary`. */
  function Alternatives(primary: OrderType): (alts: seq<OrderType>)
    ensures |alts| == 2 && primary !in alts && alts[0] != alts[1]
    ensures InstantOrder in alts + [primary] && LimitOrder in alts + [primary] && StopOrder in alts + [primary]
  {
    match primary
    case InstantOrder => [LimitOrder, StopOrder]
    case LimitOrder => [InstantOrder, StopOrder]
    case StopOrder => [InstantOrder, LimitOrder]
  }

  /** The forced fallback: the first alternative that yields a ticket; exceptions are swallowed. */
  function Fallback(primary: OrderType, place: OrderType -> Placement): (r: Option<int>)
    ensures r.Some? <==> place(Alternatives(primary)[0]).Ticket? || place(Alternatives(primary)[1]).Ticket?
    ensures r.Some? ==> place(Alternatives(primary)[0]) == Ticket(r.value) || place(Alternatives(primary)[1]) == Ticket(r.value)
    // the alternatives are tried in order: the first one that yields a ticket wins
    ensures place(Alternatives(primary)[0]).Ticket? ==> r == Some(place(Alternatives(primary)[0]).ticket)
  {
    var alts := Alternatives(primary);
    var a := place(alts[0]);
    if a.Ticket? then Some(a.ticket)
    else
      var b := place(alts[1]);
      if b.Ticket? then Some(b.ticket) else None
  }

  /**
   * _execute_order in force mode, with `place(t)` the result of the order
   * function for type t. When the instant order answers "break", the
   * re-dispatch first looks the current price up as a mapping, but the price
   * lookup returns a bare number (or None), so that step raises and control
   * reaches the forced fallback, exactly as any other failure does.
   */
  function ExecuteOrder(primary: OrderType, place: OrderType -> Placement): (r: Option<int>)
    ensures place(primary).Ticket? ==> r == Some(place(primary).ticket)
    ensures r.None? <==> !place(InstantOrder).Ticket? && !place(LimitOrder).Ticket? && !place(StopOrder).Ticket?
    ensures r.Some? ==>
      place(InstantOrder) == Ticket(r.value) || place(LimitOrder) == Ticket(r.value) || place(StopOrder) == Ticket(r.value)
  {
    var first := place(primary);
    if first.Break? && primary == InstantOrder then
      Fallback(primary, place)
    else if first.Ticket? then Some(first.ticket)
    else Fallback(primary, place)
  }

  /** The placement results of one snapshot. */
  function PlaceAll(o: OrderSpec, v: Snapshot): Venue
  {
    t => PlaceBy(t, o, v.market, v.send)
  }

  /** A result returned by an order function, as the handler returns it from the re-dispatch. */
  function Returned(p: Placement, o: OrderSpec, v: Snapshot): Option<int>
  {
    match p
    case Ticket(t) => Some(t)
    case Raised => Fallback(InstantOrder, PlaceAll(o, v))
    case _ => None
  }

  /**
   * The re-dispatch the handler describes: after "break", a stop order when
   * the range midpoint lies beyond the current price in the trade's
   * direction, a limit order otherwise, and that order's result is returned
   * with no further fallback unless it raises.
   */
  function IntendedExecute(o: OrderSpec, v: Snapshot): Option<int>
  {
    var first := PlaceBy(InstantOrder, o, v.market, v.send);
    var price := PriceNow(o.side, v.market);
    if first.Break? && price.Some? && o.range1.Some? && o.range2.Some? &&
       o.range1.value != 0.0 && o.range2.value != 0.0
    then
      var mid := Mid(o.range1.value, o.range2.value);
      if (o.side == Buy && mid > price.value) || (o.side == Sell && mid < price.value)
      then Returned(PlaceBy(StopOrder, o, v.market, v.send), o, v)
      else Returned(PlaceBy(LimitOrder, o, v.market, v.send), o, v)
    else if first.Ticket? then Some(first.ticket)
    else Fallback(InstantOrder, PlaceAll(o, v))
  }

  /**
   * Against a single broker snapshot the fallback that the failing price
   * lookup leads to gives the same result as the re-dispatch the handler
   * describes: of the two pending types, the one the re-dispatch would not
   * choose is always refused by its own direction check.
   */
  lemma {:induction false} RedispatchAsIntended(o: OrderSpec, v: Snapshot)
    ensures ExecuteOrder(InstantOrder, PlaceAll(o, v)) == IntendedExecute(o, v)
  {
    var m := v.market;
    var first := PlaceBy(InstantOrder, o, m, v.send);
    if first.Break? {
      assert InstantPlan(o, m).OutOfRange?;
      var cur := CurrentPrice(o.side, m);
      var lo := Min(o.range1.value, o.range2.value);
      var hi := Max(o.range1.value, o.range2.value);
      var mid := Mid(o.range1.value, o.range2.value);
      assert lo <= mid <= hi;
      assert mid > cur || mid < cur;
      var lot := PositionSize(m.baseline, Abs(o.sl - cur), DefaultRisk);
      assert lot.Some?;
      if (o.side == Buy && mid > cur) || (o.side == Sell && mid < cur) {
        assert LimitPlan(o, m) == Decline;
      } else {
        assert StopPlan(o, m) == Decline;
      }
    }
  }

  /** What one attempt of the retry loop ends in. */
  datatype Attempt = Placed(ticket: int, orderType: OrderType) | NotPlaced | AttemptRaised

  /** The order parameters the order functions read from a stored signal; `PlaceAll(SpecOf(row), s)` is the venue of snapshot s. */
  function SpecOf(row: SignalRow): OrderSpec
  {
    OrderSpec(row.side, Some(row.range1), Some(row.range2), row.sl, row.tp1,
              if row.message.Text? then row.message.s else "")
  }

  /**
   * One attempt: the order type is selected from the message (which raises
   * for a message that is not text), then the order is executed.
   */
  function RunAttempt(row: SignalRow, v: Venue): (a: Attempt)
    ensures a.AttemptRaised? <==> !row.message.Text?
    ensures a.Placed? ==> a.orderType == SelectOrderType(row.message.s)
    // a text message is placed exactly when the order executed for its selected type yields a ticket
    ensures row.message.Text? ==> (a.Placed? <==> ExecuteOrder(SelectOrderType(row.message.s), v).Some?)
    ensures a.Placed? ==> ExecuteOrder(a.orderType, v) == Some(a.ticket)
  {
    match row.message
    case Text(m) =>
      var t := SelectOrderType(m);
      (match ExecuteOrder(t, v)
       case Some(k) => Placed(k, t)
       case None => NotPlaced)
    case _ => AttemptRaised
  }

  const CompletedStatus: string := "completed"
  const FailedStatus: string := "failed"
  const ErrorStatus: string := "error"
  const CancelledStatus: string := "cancelled"

  /** The number of successful placements a signal aims for. */
  function SuccessTarget(comment: Value): nat
  {
    if comment == Text("FVG_SIGNALH4") then 1 else 3
  }

  /** The status an attempt's outcome is recorded with. */
  function WriteFor(a: Attempt, priceInfo: Option<real>): StatusWrite
  {
    match a
    case AttemptRaised => StatusWrite(ErrorStatus, None, None)
    case Placed(_, t) => StatusWrite(CompletedStatus, priceInfo, Some(t))
    case NotPlaced => StatusWrite(FailedStatus, None, None)
  }

  /** The status writes of the retry loop from `failed` failures on (no success yet). */
  function AttemptLog(row: SignalRow, target: nat, maxRetries: nat, failed: nat,
                      priceInfo: Option<real>, venue: nat -> Venue): (ws: seq<StatusWrite>)
    decreases maxRetries - failed
  {
    if !ShouldRetry(0, failed, maxRetries, target) then []
    else
      var a := RunAttempt(row, venue(failed));
      if a.NotPlaced? then [WriteFor(a, priceInfo)] + AttemptLog(row, target, maxRetries, failed + 1, priceInfo, venue)
      else [WriteFor(a, priceInfo)]
  }

  /** One step of the loop's history. */
  lemma AttemptLogStep(row: SignalRow, target: nat, maxRetries: nat, failed: nat,
                       priceInfo: Option<real>, venue: nat -> Venue)
    requires ShouldRetry(0, failed, maxRetries, target)
    ensures var a := RunAttempt(row, venue(failed));
      AttemptLog(row, target, maxRetries, failed, priceInfo, venue) ==
      [WriteFor(a, priceInfo)] + (if a.NotPlaced? then AttemptLog(row, target, maxRetries, failed + 1, priceInfo, venue) else [])
  {
  }

  /** Signals with a zero (falsy) stop loss or take profit are not attempted. */
  predicate HasStops(row: SignalRow)
  {
    row.sl != 0.0 && row.tp1 != 0.0 && row.tp2 != 0.0
  }

  /** process_signal's writes for a signal; `priceInfo` is the price looked up before the first attempt. */
  function ProcessLog(row: SignalRow, maxRetries: nat, priceInfo: Option<real>, venue: nat -> Venue): seq<StatusWrite>
  {
    if !HasStops(row) then []
    else AttemptLog(row, SuccessTarget(row.comment), maxRetries, 0, priceInfo, venue)
  }

  /**
   * The shape of the loop's history: a run of "failed" writes, at most one per
   * permitted retry, possibly closed by a single "completed" or "error".
   */
  lemma AttemptLogShape(row: SignalRow, target: nat, maxRetries: nat, failed: nat,
                        priceInfo: Option<real>, venue: nat -> Venue)
    requires failed <= maxRetries
    ensures var ws := AttemptLog(row, target, maxRetries, failed, priceInfo, venue);
      |ws| <= maxRetries - failed &&
      (forall i :: 0 <= i < |ws| - 1 ==> ws[i] == StatusWrite(FailedStatus, None, None)) &&
      (|ws| > 0 ==> ws[|ws| - 1].status in {FailedStatus, CompletedStatus, ErrorStatus}) &&
      (|ws| > 0 && ws[|ws| - 1].status == CompletedStatus ==>
         ws[|ws| - 1].price == priceInfo && ws[|ws| - 1].typeOrder.Some?)
  {
    AttemptLogLength(row, target, maxRetries, failed, priceInfo, venue);
    AttemptLogFailures(row, target, maxRetries, failed, priceInfo, venue);
    AttemptLogLast(row, target, maxRetries, failed, priceInfo, venue);
  }

  /** The loop attempts at most once per permitted retry. */
  lemma {:induction false} AttemptLogLength(row: SignalRow, target: nat, maxRetries: nat, failed: nat,
                                            priceInfo: Option<real>, venue: nat -> Venue)
    requires failed <= maxRetries
    ensures |AttemptLog(row, target, maxRetries, failed, priceInfo, venue)| <= maxRetries - failed
    decreases maxRetries - failed
  {
    if ShouldRetry(0, failed, maxRetries, target) && RunAttempt(row, venue(failed)).NotPlaced? {
      AttemptLogLength(row, target, maxRetries, failed + 1, priceInfo, venue);
    }
  }

  /** Every write but the last records a failed attempt. */
  lemma {:induction false} AttemptLogFailures(row: SignalRow, target: nat, maxRetries: nat, failed: nat,
                                              priceInfo: Option<real>, venue: nat -> Venue)
    requires failed <= maxRetries
    ensures forall i :: 0 <= i < |AttemptLog(row, target, maxRetries, failed, priceInfo, venue)| - 1 ==>
      AttemptLog(row, target, maxRetries, failed, priceInfo, venue)[i] == StatusWrite(FailedStatus, None, None)
    decreases maxRetries - failed
  {
    if ShouldRetry(0, failed, maxRetries, target) && RunAttempt(row, venue(failed)).NotPlaced? {
      var ws := AttemptLog(row, target, maxRetries, failed, priceInfo, venue);
      var rest := AttemptLog(row, target, maxRetries, failed + 1, priceInfo, venue);
      AttemptLogFailures(row, target, maxRetries, failed + 1, priceInfo, venue);
      assert ws == [StatusWrite(FailedStatus, None, None)] + rest;
      forall i | 1 <= i < |ws| - 1
        ensures ws[i] == StatusWrite(FailedStatus, None, None)
      {
        assert ws[i] == rest[i - 1];
      }
    }
  }

  /** The last write is "failed", "completed" or "error", and a "completed" one carries the price and the order type selected from the message. */
  lemma {:induction false} AttemptLogLast(row: SignalRow, target: nat, maxRetries: nat, failed: nat,
                                          priceInfo: Option<real>, venue: nat -> Venue)
    requires failed <= maxRetries
    ensures var ws := AttemptLog(row, target, maxRetries, failed, priceInfo, venue);
      |ws| > 0 ==>
        (ws[|ws| - 1].status == FailedStatus || ws[|ws| - 1].status == CompletedStatus ||
         ws[|ws| - 1].status == ErrorStatus) &&
        (ws[|ws| - 1].status == CompletedStatus ==>
           row.message.Text? && ws[|ws| - 1].price == priceInfo &&
           ws[|ws| - 1].typeOrder == Some(SelectOrderType(row.message.s)))
    decreases maxRetries - failed
  {
    if ShouldRetry(0, failed, maxRetries, target) && RunAttempt(row, venue(failed)).NotPlaced? {
      var ws := AttemptLog(row, target, maxRetries, failed, priceInfo, venue);
      var rest := AttemptLog(row, target, maxRetries, failed + 1, priceInfo, venue);
      AttemptLogLast(row, target, maxRetries, failed + 1, priceInfo, venue);
      assert ws == [StatusWrite(FailedStatus, None, None)] + rest;
      if |rest| > 0 {
        assert ws[|ws| - 1] == rest[|rest| - 1];
      }
    }
  }

  /**
   * The attempt against `v` places the order; by `RunAttempt`'s contract, the
   * message is text and executing its selected order type yields a ticket.
   */
  predicate Places(row: SignalRow, v: Venue)
  {
    RunAttempt(row, v).Placed?
  }

  /** Some attempt numbered from `lo` up to, but not including, `hi` places the order. */
  predicate AnyPlaces(row: SignalRow, venue: nat -> Venue, lo: nat, hi: nat)
    decreases hi - lo
  {
    if lo < hi then Places(row, venue(lo)) || AnyPlaces(row, venue, lo + 1, hi) else false
  }

  lemma {:induction false} AnyPlacesIff(row: SignalRow, venue: nat -> Venue, lo: nat, hi: nat)
    requires lo <= hi
    ensures AnyPlaces(row, venue, lo, hi) <==> exists j :: lo <= j < hi && Places(row, venue(j))
    decreases hi - lo
  {
    if lo < hi {
      AnyPlacesIff(row, venue, lo + 1, hi);
      if exists j :: lo <= j < hi && Places(row, venue(j)) {
        var j :| lo <= j < hi && Places(row, venue(j));
        assert j == lo || lo + 1 <= j;
      }
    }
  }

  /** The history ends "completed" exactly when some remaining attempt places the order. */
  lemma {:induction false} EndsCompletedIffAny(row: SignalRow, target: nat, maxRetries: nat, failed: nat,
                                               priceInfo: Option<real>, venue: nat -> Venue)
    requires row.message.Text? && target >= 1 && failed <= maxRetries
    ensures var ws := AttemptLog(row, target, maxRetries, failed, priceInfo, venue);
      (|ws| > 0 && ws[|ws| - 1].status == CompletedStatus) <==> AnyPlaces(row, venue, failed, maxRetries)
    decreases maxRetries - failed
  {
    if failed < maxRetries {
      var ws := AttemptLog(row, target, maxRetries, failed, priceInfo, venue);
      if RunAttempt(row, venue(failed)).NotPlaced? {
        var rest := AttemptLog(row, target, maxRetries, failed + 1, priceInfo, venue);
        EndsCompletedIffAny(row, target, maxRetries, failed + 1, priceInfo, venue);
        assert ws == [StatusWrite(FailedStatus, None, None)] + rest;
        if |rest| > 0 {
          assert ws[|ws| - 1] == rest[|rest| - 1];
        }
      }
    }
  }

  /**
   * For a text message the history ends "completed" exactly when one of the
   * remaining attempts gets a ticket.
   */
  lemma AttemptLogCompleted(row: SignalRow, target: nat, maxRetries: nat, failed: nat,
                            priceInfo: Option<real>, venue: nat -> Venue)
    requires row.message.Text? && target >= 1 && failed <= maxRetries
    ensures var ws := AttemptLog(row, target, maxRetries, failed, priceInfo, venue);
      (|ws| > 0 && ws[|ws| - 1].status == CompletedStatus) <==>
        exists j :: failed <= j < maxRetries && Places(row, venue(j))
  {
    EndsCompletedIffAny(row, target, maxRetries, failed, priceInfo, venue);
    AnyPlacesIff(row, venue, failed, maxRetries);
  }

  /** For a text message that no remaining attempt places, every remaining attempt writes "failed". */
  lemma {:induction false} AttemptLogAllFailed(row: SignalRow, target: nat, maxRetries: nat, failed: nat,
                                               priceInfo: Option<real>, venue: nat -> Venue)
    requires row.message.Text? && target >= 1 && failed <= maxRetries
    requires forall j :: failed <= j < maxRetries ==> !Places(row, venue(j))
    ensures AttemptLog(row, target, maxRetries, failed, priceInfo, venue) ==
      seq(maxRetries - failed, _ => StatusWrite(FailedStatus, None, None))
    decreases maxRetries - failed
  {
    if failed < maxRetries {
      assert !Places(row, venue(failed));
      var rest := AttemptLog(row, target, maxRetries, failed + 1, priceInfo, venue);
      AttemptLogAllFailed(row, target, maxRetries, failed + 1, priceInfo, venue);
      assert AttemptLog(row, target, maxRetries, failed, priceInfo, venue) == [StatusWrite(FailedStatus, None, None)] + rest;
    }
  }

  /**
   * The success target has no effect: the loop leaves at the first success,
   * so a target of 1 and a target of 3 give the same history.
   */
  lemma {:induction false} TargetIrrelevant(row: SignalRow, t1: nat, t2: nat, maxRetries: nat, failed: nat,
                                            priceInfo: Option<real>, venue: nat -> Venue)
    requires t1 >= 1 && t2 >= 1
    ensures AttemptLog(row, t1, maxRetries, failed, priceInfo, venue) ==
            AttemptLog(row, t2, maxRetries, failed, priceInfo, venue)
    decreases maxRetries - failed
  {
    if failed < maxRetries && RunAttempt(row, venue(failed)).NotPlaced? {
      TargetIrrelevant(row, t1, t2, maxRetries, failed + 1, priceInfo, venue);
    }
  }

  /** A signal whose message is not text ends in a single "error" write. */
  lemma MessageNotTextIsError(row: SignalRow, maxRetries: nat, priceInfo: Option<real>, venue: nat -> Venue)
    requires HasStops(row) && maxRetries > 0 && !row.message.Text?
    ensures ProcessLog(row, maxRetries, priceInfo, venue) == [StatusWrite(ErrorStatus, None, None)]
  {
  }

  /**
   * process_signal: attempts the order while no success is recorded and fewer
   * than `maxRetries` attempts have failed, writing each outcome to row `id`.
   */
  method ProcessSignal(table: SignalTable, id: int, row: SignalRow, maxRetries: nat,
                       priceInfo: Option<real>, venue: nat -> Venue) returns (writes: seq<StatusWrite>)
    modifies table
    ensures writes == ProcessLog(row, maxRetries, priceInfo, venue)
    ensures table.rows == WritesAt(old(table.rows), id, writes)
  {
    writes := [];
    if !HasStops(row) {
      return;
    }
    var target := SuccessTarget(row.comment);
    assert ProcessLog(row, maxRetries, priceInfo, venue) == AttemptLog(row, target, maxRetries, 0, priceInfo, venue);
    var success, failed := 0, 0;
    ghost var start := table.rows;
    ghost var whole := AttemptLog(row, target, maxRetries, 0, priceInfo, venue);
    while ShouldRetry(success, failed, maxRetries, target)
      invariant success == 0 && failed <= maxRetries
      invariant writes + AttemptLog(row, target, maxRetries, failed, priceInfo, venue) == whole
      invariant table.rows == WritesAt(start, id, writes)
      decreases maxRetries - failed
    {
      var a;
      a, writes := AttemptNext(table, id, row, target, maxRetries, failed, priceInfo, venue, start, whole, writes);
      if a.NotPlaced? {
        failed := failed + 1;
      } else {
        if a.Placed? {
          success := success + 1;
        }
        break;
      }
    }
  }

  /** One turn of process_signal's loop: the attempt at `failed` failures, its write, and the history left. */
  method AttemptNext(table: SignalTable, id: int, row: SignalRow, target: nat, maxRetries: nat, failed: nat,
                     priceInfo: Option<real>, venue: nat -> Venue, ghost start: seq<SignalRow>,
                     ghost whole: seq<StatusWrite>, writes: seq<StatusWrite>)
    returns (a: Attempt, after: seq<StatusWrite>)
    requires ShouldRetry(0, failed, maxRetries, target)
    requires writes + AttemptLog(row, target, maxRetries, failed, priceInfo, venue) == whole
    requires table.rows == WritesAt(start, id, writes)
    modifies table
    ensures a == RunAttempt(row, venue(failed)) && after == writes + [WriteFor(a, priceInfo)]
    ensures table.rows == WritesAt(start, id, after)
    ensures a.NotPlaced? ==> after + AttemptLog(row, target, maxRetries, failed + 1, priceInfo, venue) == whole
    ensures !a.NotPlaced? ==> after == whole
  {
    a := RunAttempt(row, venue(failed));
    var w := WriteFor(a, priceInfo);
    AttemptLogStep(row, target, maxRetries, failed, priceInfo, venue);
    table.WriteStatus(id, w);
    WritesAtSnoc(start, id, writes, w);
    after := writes + [w];
    if a.NotPlaced? {
      AppendAssoc(writes, [w], AttemptLog(row, target, maxRetries, failed + 1, priceInfo, venue));
    }
  }

  /** cancel_signal: the row's status becomes "cancelled", with no entry price or order type. */
  method CancelSignal(table: SignalTable, id: int)
    modifies table
    ensures table.rows == WriteAt(old(table.rows), id, StatusWrite(CancelledStatus, None, None))
  {
    table.WriteStatus(id, StatusWrite(CancelledStatus, None, None));
  }

  /** The ten columns a positional row is read by, in order. */
  const SignalFields: seq<string> := ["id", "instrument", "action", "range1", "range2", "tp1", "tp2", "sl", "comment", "message"]

  /** _normalize_signal for a positional row: pairs the field names with the values, up to the shorter of the two. */
  function NormalizeTuple(values: seq<Value>): (d: map<string, Value>)
    ensures forall i :: 0 <= i < |SignalFields| && i < |values| ==> SignalFields[i] in d && d[SignalFields[i]] == values[i]
    ensures forall k :: k in d ==> exists i :: 0 <= i < |SignalFields| && i < |values| && SignalFields[i] == k
  {
    Zip(SignalFields, values)
  }

  function Zip(keys: seq<string>, values: seq<Value>): (d: map<string, Value>)
    requires forall i, j :: 0 <= i < j < |keys| ==> keys[i] != keys[j]
    ensures forall i :: 0 <= i < |keys| && i < |values| ==> keys[i] in d && d[keys[i]] == values[i]
    ensures forall k :: k in d ==> exists i :: 0 <= i < |keys| && i < |values| && keys[i] == k
  {
    if |keys| == 0 || |values| == 0 then map[]
    else
      var rest := Zip(keys[1..], values[1..]);
      assert forall i :: 1 <= i < |keys| && i < |values| ==> keys[1..][i - 1] == keys[i] && values[1..][i - 1] == values[i];
      rest[keys[0] := values[0]]
  }
}

=== FILE: trade_signal_logic.dfy ===
/**
 * Order-type selection from a signal's message text and the retry predicate
 * of the execution loop.
 */
module TradeSignalLogic {

  datatype OrderType = InstantOrder | LimitOrder | StopOrder

  /** ASCII upper-casing of one character. */
  function UpperChar(c: char): char
  {
    if 'a' <= c <= 'z' then (c as int - 32) as char else c
  }

  function Upper(s: string): (r: string)
    ensures |r| == |s|
    ensures forall i :: 0 <= i < |s| ==> r[i] == UpperChar(s[i])
  {
    if |s| == 0 then [] else Upper(s[..|s| - 1]) + [UpperChar(s[|s| - 1])]
  }

  predicate OccursAt(s: string, w: string, k: nat)
  {
    k + |w| <= |s| && s[k..k + |w|] == w
  }

  /** Python's substring test `w in s`. */
  predicate Contains(s: string, w: string)
  {
    exists k :: 0 <= k <= |s| && OccursAt(s, w, k)
  }

  /** The message decides the order type: LIMIT first, then STOP, else an instant order. */
  function SelectOrderType(message: string): (r: OrderType)
    ensures r == LimitOrder <==> Contains(Upper(message), "LIMIT")
    ensures r == StopOrder <==> !Contains(Upper(message), "LIMIT") && Contains(Upper(message), "STOP")
    ensures r == InstantOrder <==> !Contains(Upper(message), "LIMIT") && !Contains(Upper(message), "STOP")
  {
    var up := Upper(message);
    if Contains(up, "LIMIT") then LimitOrder
    else if Contains(up, "STOP") then StopOrder
    else InstantOrder
  }

  predicate ShouldRetry(success: nat, failed: nat, maxRetries: nat, successTarget: nat)
    // retrying stops as soon as either the success target or the retry budget is reached
    ensures !ShouldRetry(success, failed, maxRetries, successTarget) <==>
      success >= successTarget || failed >= maxRetries
  {
    success < successTarget && failed < maxRetries
  }

  lemma {:induction false} UpperAppend(a: string, b: string)
    ensures Upper(a + b) == Upper(a) + Upper(b)
  {
    assert |Upper(a + b)| == |Upper(a) + Upper(b)|;
    forall i | 0 <= i < |a + b|
      ensures Upper(a + b)[i] == (Upper(a) + Upper(b))[i]
    {
      if i < |a| { assert (a + b)[i] == a[i]; } else { assert (a + b)[i] == b[i - |a|]; }
    }
  }

  /** Selection ignores letter case: the message and its upper-cased form select the same type. */
  lemma {:induction false} SelectIgnoresCase(message: string)
    ensures SelectOrderType(Upper(message)) == SelectOrderType(message)
  {
    UpperIdempotent(message);
  }

  /** Upper-casing twice is upper-casing once. */
  lemma UpperIdempotent(s: string)
    ensures Upper(Upper(s)) == Upper(s)
  {
    var u := Upper(s);
    var uu := Upper(u);
    assert |uu| == |u|;
    forall i | 0 <= i < |u|
      ensures uu[i] == u[i]
    {
      UpperCharIdempotent(s[i]);
    }
  }

  lemma UpperCharIdempotent(c: char)
    ensures UpperChar(UpperChar(c)) == UpperChar(c)
  {
  }

  /** A word spelled with `w`, in any letter case, anywhere in the message, is found in the upper-cased message. */
  lemma {:induction false} WordFound(p: string, w: string, q: string, word: string)
    requires Upper(w) == word
    ensures Contains(Upper(p + w + q), word)
  {
    UpperAppend(p + w, q);
    UpperAppend(p, w);
    var up := Upper(p + w + q);
    assert up == Upper(p) + word + Upper(q);
    assert up[|p|..|p| + |word|] == word;
    assert OccursAt(up, word, |p|);
  }

  /** "LIMIT" in any letter case takes precedence over everything else. */
  lemma LimitWins(p: string, w: string, q: string)
    requires Upper(w) == "LIMIT"
    ensures SelectOrderType(p + w + q) == LimitOrder
  {
    WordFound(p, w, q, "LIMIT");
  }

  /** "STOP" in any case, even inside a longer word such as "stoploss", selects a stop order unless "LIMIT" occurs. */
  lemma StopSelected(p: string, w: string, q: string)
    requires Upper(w) == "STOP"
    requires !Contains(Upper(p + w + q), "LIMIT")
    ensures SelectOrderType(p + w + q) == StopOrder
  {
    WordFound(p, w, q, "STOP");
  }

  /** A word cannot occur in a text that lacks the word's first character. */
  lemma AbsentInitial(s: string, w: string)
    requires |w| > 0 && w[0] !in s
    ensures !Contains(s, w)
  {
    forall k | 0 <= k <= |s| && k + |w| <= |s|
      ensures !OccursAt(s, w, k)
    {
      assert s[k] in s;
    }
  }

  /** A word cannot occur when its first character appears only in the last |w|-1 positions of the text. */
  lemma InitialOnlyAtEnd(p: string, tail: string, w: string)
    requires |w| > |tail| && w[0] !in p
    ensures !Contains(p + tail, w)
  {
    var s := p + tail;
    forall k | 0 <= k <= |s| && k + |w| <= |s|
      ensures !OccursAt(s, w, k)
    {
      assert s[k] == p[k] && p[k] in p;
      assert s[k..k + |w|][0] == s[k];
    }
  }
}

=== FILE: trade_signal_service.dfy ===
/**
 * One run of the trade-signal service: read the pending signals, ask the
 * drawdown gate, and then either process every pending signal or cancel
 * every one of them.
 *
 * The handler's per-signal work runs concurrently in the service; each run
 * only writes its own row, so the model runs them one after another in table
 * order. The price looked up for signal `id` and the broker seen by its k-th
 * attempt are the inputs `priceInfo(id)` and `venue(id)(k)`.
 */
module TradeSignalService {
  import opened Common
  import opened SignalsDb
  import opened TradeSignalHandler
  import opened Drawdown

  /** A row after one run of the service, given the gate's answer. */
  function AfterRun(row: SignalRow, id: int, gate: Option<bool>, maxRetries: nat,
                    priceInfo: int -> Option<real>, venue: int -> nat -> Venue): SignalRow
  {
    if row.status != PendingStatus then row
    else match gate
      case None => row
      case Some(true) => AfterWrites(row, ProcessLog(row, maxRetries, priceInfo(id), venue(id)))
      case Some(false) => Written(row, StatusWrite(CancelledStatus, None, None))
  }

  /**
   * run_once: with no pending signal nothing happens; otherwise the drawdown
   * gate is read once, an exception from it is swallowed and changes nothing,
   * and each pending row is processed when the gate allows trading and
   * cancelled when it does not. Rows that are not pending are never touched.
   */
  method RunOnce(table: SignalTable, daily: DailyMetrics, today: int, maxRetries: nat,
                 priceInfo: int -> Option<real>, venue: int -> nat -> Venue)
    modifies table
    ensures |table.rows| == |old(table.rows)|
    ensures forall i :: 0 <= i < |table.rows| ==>
      table.rows[i] == AfterRun(old(table.rows)[i], i + 1, TradeGate(daily.rows, today), maxRetries, priceInfo, venue)
  {
    var ids := PendingIds(table.rows);
    PendingIdsComplete(table.rows);
    if |ids| == 0 {
      return;
    }
    var gate := TradeGate(daily.rows, today);
    if gate.None? {
      return;
    }
    var allowed := gate.value;
    ghost var start := table.rows;
    var k := 0;
    while k < |ids|
      invariant 0 <= k <= |ids|
      invariant |table.rows| == |start|
      invariant forall i :: 0 <= i < |start| ==>
        table.rows[i] == (if i + 1 in ids[..k] then AfterRun(start[i], i + 1, gate, maxRetries, priceInfo, venue) else start[i])
    {
      SettleNext(table, ids, k, allowed, start, maxRetries, priceInfo, venue);
      k := k + 1;
    }
    forall i | 0 <= i < |start|
      ensures table.rows[i] == AfterRun(start[i], i + 1, gate, maxRetries, priceInfo, venue)
    {
      if start[i].status == PendingStatus {
        assert i + 1 in ids;
      }
      assert ids[..|ids|] == ids;
    }
  }

  /** One turn of run_once's loop: the pending row `ids[k]` is processed or cancelled, and no other row changes. */
  method SettleNext(table: SignalTable, ids: seq<nat>, k: nat, allowed: bool, ghost start: seq<SignalRow>,
                    maxRetries: nat, priceInfo: int -> Option<real>, venue: int -> nat -> Venue)
    requires k < |ids| && forall j :: 0 <= j < |ids| ==> 1 <= ids[j] <= |start|
    requires forall j, l :: 0 <= j < l < |ids| ==> ids[j] < ids[l]
    requires forall j :: 0 <= j < |ids| ==> start[ids[j] - 1].status == PendingStatus
    requires |table.rows| == |start|
    requires forall i :: 0 <= i < |start| ==>
      table.rows[i] == (if i + 1 in ids[..k] then AfterRun(start[i], i + 1, Some(allowed), maxRetries, priceInfo, venue) else start[i])
    modifies table
    ensures |table.rows| == |start|
    ensures forall i :: 0 <= i < |start| ==>
      table.rows[i] == (if i + 1 in ids[..k + 1] then AfterRun(start[i], i + 1, Some(allowed), maxRetries, priceInfo, venue) else start[i])
  {
    var id := ids[k];
    NextId(ids, k);
    var row := table.rows[id - 1];
    assert row == start[id - 1] && row.status == PendingStatus;
    ghost var before := table.rows;
    if allowed {
      var _ := ProcessSignal(table, id, row, maxRetries, priceInfo(id), venue(id));
    } else {
      CancelSignal(table, id);
    }
    assert table.rows[id - 1] == AfterRun(start[id - 1], id, Some(allowed), maxRetries, priceInfo, venue);
    SettledOneMore(start, before, table.rows, ids, k, Some(allowed), maxRetries, priceInfo, venue);
  }

  /** Settling row `ids[k]` and leaving every other row alone extends the run's effect to one more id. */
  lemma SettledOneMore(start: seq<SignalRow>, before: seq<SignalRow>, after: seq<SignalRow>, ids: seq<nat>, k: nat,
                       gate: Option<bool>, maxRetries: nat, priceInfo: int -> Option<real>, venue: int -> nat -> Venue)
    requires k < |ids| && 1 <= ids[k] <= |start| && ids[k] !in ids[..k] && ids[..k + 1] == ids[..k] + [ids[k]]
    requires |before| == |start| == |after|
    requires forall i :: 0 <= i < |start| ==>
      before[i] == (if i + 1 in ids[..k] then AfterRun(start[i], i + 1, gate, maxRetries, priceInfo, venue) else start[i])
    requires after[ids[k] - 1] == AfterRun(start[ids[k] - 1], ids[k], gate, maxRetries, priceInfo, venue)
    requires forall i :: 0 <= i < |start| && i != ids[k] - 1 ==> after[i] == before[i]
    ensures forall i :: 0 <= i < |start| ==>
      after[i] == (if i + 1 in ids[..k + 1] then AfterRun(start[i], i + 1, gate, maxRetries, priceInfo, venue) else start[i])
  {
    forall i | 0 <= i < |start|
      ensures after[i] == (if i + 1 in ids[..k + 1] then AfterRun(start[i], i + 1, gate, maxRetries, priceInfo, venue) else start[i])
    {
      if i != ids[k] - 1 {
        assert after[i] == before[i];
        assert i + 1 in ids[..k + 1] <==> i + 1 in ids[..k];
      }
    }
  }

  /** When the gate refuses trading, no signal is left pending after the run. */
  lemma RefusedRunCancelsAll(row: SignalRow, id: int, maxRetries: nat,
                             priceInfo: int -> Option<real>, venue: int -> nat -> Venue)
    ensures AfterRun(row, id, Some(false), maxRetries, priceInfo, venue).status != PendingStatus
  {
  }

  /**
   * When the gate allows trading, a pending signal with its stops set and at
   * least one permitted attempt leaves the pending state: it ends "completed",
   * "failed" or "error".
   */
  lemma {:induction false} AllowedRunSettles(row: SignalRow, id: int, maxRetries: nat,
                                             priceInfo: int -> Option<real>, venue: int -> nat -> Venue)
    requires row.status == PendingStatus && HasStops(row) && maxRetries > 0
    ensures AfterRun(row, id, Some(true), maxRetries, priceInfo, venue).status in {CompletedStatus, FailedStatus, ErrorStatus}
  {
    var target := SuccessTarget(row.comment);
    AttemptLogStep(row, target, maxRetries, 0, priceInfo(id), venue(id));
    AttemptLogShape(row, target, maxRetries, 0, priceInfo(id), venue(id));
  }

  /** A pending signal with a zero stop or target is left pending by every run. */
  lemma MissingStopsStayPending(row: SignalRow, id: int, gate: Option<bool>, maxRetries: nat,
                                priceInfo: int -> Option<real>, venue: int -> nat -> Venue)
    requires row.status == PendingStatus && !HasStops(row) && gate != Some(false)
    ensures AfterRun(row, id, gate, maxRetries, priceInfo, venue) == row
  {
  }
}

=== FILE: trailing_stop.dfy ===
/**
 * One pass of the price-step trailing stop over the open positions: which
 * positions get a new stop loss, what that stop is, and whether the
 * modification is sent or only reported (dry run).
 *
 * Broker reads are inputs: the connection flag, the list of positions and,
 * for the i-th position processed, the tick and symbol information the
 * broker returns at that moment (`quote(i)`).
 */
module TrailingStop {
  import opened Common

  const TrailedSymbol: string := "XAUUSDc"
  const TrailStep: real := 2.0
  const TrailStart: real := 7.0
  const BreathingBuffer: real := 0.5

  datatype Position = Position(ticket: int, symbol: string, side: Side, entry: real,
                               sl: real, tp: real, profit: real)

  datatype Tick = Tick(bid: real, ask: real)

  /** `point` is the price increment; the broker's minimum stop distance is `stopsLevel * point`. */
  datatype SymbolInfo = SymbolInfo(point: real, stopsLevel: nat)

  datatype Quote = Quote(tick: Option<Tick>, info: Option<SymbolInfo>)

  /** What the pass does with one position. */
  datatype Decision = Skipped | DryRun(ticket: int, newSl: real, tp: real) | Sent(ticket: int, newSl: real, tp: real)

  /** The price a position would close at: the bid for a sell, the ask for a buy. */
  function ClosePrice(side: Side, t: Tick): real
  {
    if side == Sell then t.bid else t.ask
  }

  /** Favourable move from entry to the current price. */
  function PriceMove(side: Side, entry: real, current: real): real
  {
    if side == Buy then current - entry else entry - current
  }

  /** Full trail steps completed by a move (a move of at least the start threshold is positive). */
  function Steps(move: real): int
  {
    (move / TrailStep).Floor
  }

  /**
   * The stop the rules aim for, before the no-loosening and minimum-change
   * checks: the last full step less the breathing buffer, kept at least the
   * broker's minimum distance away from the current price.
   */
  function TargetStop(side: Side, entry: real, current: real, minDist: real): real
  {
    var steps := Steps(PriceMove(side, entry, current)) as real;
    if side == Buy then Min(entry + steps * TrailStep - BreathingBuffer, current - minDist)
    else Max(entry - steps * TrailStep + BreathingBuffer, current + minDist)
  }

  /** The symbol, tick and symbol-info checks a position has to pass before its profit is counted. */
  predicate Examined(p: Position, q: Quote)
  {
    p.symbol == TrailedSymbol && q.tick.Some? && q.info.Some?
  }

  /**
   * The checks a new stop must pass against an existing one: it must not
   * loosen the stop and must move it by at least ten points.
   */
  predicate StopAccepted(side: Side, sl: real, newSl: real, point: real)
  {
    sl <= 0.0 ||
      ((side == Buy ==> newSl > sl) && (side == Sell ==> newSl < sl) && Abs(newSl - sl) >= point * 10.0)
  }

  /** The per-position body of the pass, without the rounding of the stop to the broker's point. */
  function TrailDecision(p: Position, q: Quote, live: bool): (d: Decision)
    ensures d != Skipped ==> Examined(p, q) && PriceMove(p.side, p.entry, ClosePrice(p.side, q.tick.value)) >= TrailStart
    ensures d.Sent? ==> live
    ensures d.DryRun? ==> !live
    ensures d != Skipped ==>
      (d.ticket == p.ticket && d.tp == p.tp &&
       d.newSl == TargetStop(p.side, p.entry, ClosePrice(p.side, q.tick.value),
                             q.info.value.stopsLevel as real * q.info.value.point))
    // an existing stop is never loosened: a long stop only rises and a short
    // stop only falls, each time by at least ten points
    ensures d != Skipped && p.sl > 0.0 ==>
      (p.side == Buy ==> d.newSl > p.sl && d.newSl >= p.sl + q.info.value.point * 10.0) &&
      (p.side == Sell ==> d.newSl < p.sl && d.newSl <= p.sl - q.info.value.point * 10.0)
  {
    if !Examined(p, q) then Skipped
    else
      var current := ClosePrice(p.side, q.tick.value);
      var info := q.info.value;
      var minDist := info.stopsLevel as real * info.point;
      var move := PriceMove(p.side, p.entry, current);
      if move < TrailStart then Skipped
      else
        Judge(p, TargetStop(p.side, p.entry, current, minDist), info.point, live)
  }

  /**
   * The converse of the first promise of `TrailDecision`: a position of the
   * trailed symbol with a tick and symbol information, at least 7.0 in
   * profit, whose new stop passes the no-loosening and ten-point checks, is
   * not skipped.
   */
  lemma TrailDecisionComplete(p: Position, q: Quote, live: bool)
    ensures TrailDecision(p, q, live) != Skipped <==>
      Examined(p, q) && PriceMove(p.side, p.entry, ClosePrice(p.side, q.tick.value)) >= TrailStart &&
      StopAccepted(p.side, p.sl, NewStop(p, q), q.info.value.point)
  {
    if Examined(p, q) && PriceMove(p.side, p.entry, ClosePrice(p.side, q.tick.value)) >= TrailStart {
      assert TrailDecision(p, q, live) == Judge(p, NewStop(p, q), q.info.value.point, live);
    }
  }

  /** The stop the rules aim for on an examined position. */
  function NewStop(p: Position, q: Quote): real
    requires Examined(p, q)
  {
    TargetStop(p.side, p.entry, ClosePrice(p.side, q.tick.value), q.info.value.stopsLevel as real * q.info.value.point)
  }

  /** The no-loosening and ten-point checks on a position's new stop, then the send or the dry run. */
  function Judge(p: Position, newSl: real, point: real, live: bool): (d: Decision)
    ensures d != Skipped <==> StopAccepted(p.side, p.sl, newSl, point)
    ensures d != Skipped ==> d.ticket == p.ticket && d.newSl == newSl && d.tp == p.tp && (d.Sent? <==> live)
  {
    if p.side == Buy && p.sl > 0.0 && newSl <= p.sl then Skipped
    else if p.side == Sell && p.sl > 0.0 && newSl >= p.sl then Skipped
    else if p.sl > 0.0 && Abs(newSl - p.sl) < point * 10.0 then Skipped
    else if live then Sent(p.ticket, newSl, p.tp)
    else DryRun(p.ticket, newSl, p.tp)
  }

  /**
   * A long position's new stop keeps the broker's minimum distance and the
   * breathing buffer below the price, and unless the distance clamp applies it
   * lies within one step plus the buffer of the price and locks in at least
   * 5.5 of profit (three full steps less the buffer).
   */
  lemma {:induction false} LongStopBounds(entry: real, current: real, minDist: real)
    requires PriceMove(Buy, entry, current) >= TrailStart
    ensures var s := TargetStop(Buy, entry, current, minDist);
      s <= current - minDist && s <= current - BreathingBuffer &&
      (s < current - minDist ==> s > current - TrailStep - BreathingBuffer && s >= entry + 5.5)
  {
    var move := current - entry;
    var steps := Steps(move);
    assert steps as real <= move / TrailStep < steps as real + 1.0;
    assert steps >= 3;
  }

  /** The mirror image for a short position. */
  lemma {:induction false} ShortStopBounds(entry: real, current: real, minDist: real)
    requires PriceMove(Sell, entry, current) >= TrailStart
    ensures var s := TargetStop(Sell, entry, current, minDist);
      s >= current + minDist && s >= current + BreathingBuffer &&
      (s > current + minDist ==> s < current + TrailStep + BreathingBuffer && s <= entry - 5.5)
  {
    var move := entry - current;
    var steps := Steps(move);
    assert steps as real <= move / TrailStep < steps as real + 1.0;
    assert steps >= 3;
  }

  /** Decisions of the pass for positions[k..]; position i sees quote(i). */
  function PassDecisions(positions: seq<Position>, quote: nat -> Quote, live: bool, k: nat): (ds: seq<Decision>)
    requires k <= |positions|
    ensures |ds| == |positions| - k
    ensures forall i :: 0 <= i < |ds| ==> ds[i] == TrailDecision(positions[k + i], quote(k + i), live)
    decreases |positions| - k
  {
    if k == |positions| then []
    else [TrailDecision(positions[k], quote(k), live)] + PassDecisions(positions, quote, live, k + 1)
  }

  /** Profit summed over positions[..k] that pass the examination checks. */
  function ExaminedProfit(positions: seq<Position>, quote: nat -> Quote, k: nat): real
    requires k <= |positions|
  {
    if k == 0 then 0.0
    else
      var p := positions[k - 1];
      ExaminedProfit(positions, quote, k - 1) + (if Examined(p, quote(k - 1)) then p.profit else 0.0)
  }

  /**
   * trailing_stop_manager: nothing when disconnected or without positions;
   * otherwise the modifications are sent when `isActive` or when more than
   * one position is open, and reported as a dry run otherwise.
   */
  method TrailingPass(connected: bool, positions: seq<Position>, quote: nat -> Quote, isActive: bool)
    returns (decisions: seq<Decision>, totalProfit: real)
    ensures !connected || |positions| == 0 ==> decisions == [] && totalProfit == 0.0
    ensures connected && |positions| > 0 ==>
      decisions == PassDecisions(positions, quote, isActive || |positions| > 1, 0) &&
      totalProfit == ExaminedProfit(positions, quote, |positions|)
  {
    decisions := [];
    totalProfit := 0.0;
    if !connected || |positions| == 0 {
      return;
    }
    var live := isActive;
    if |positions| > 1 {
      live := true;
    }
    var i := 0;
    while i < |positions|
      invariant 0 <= i <= |positions|
      invariant |decisions| == i
      invariant forall j :: 0 <= j < i ==> decisions[j] == TrailDecision(positions[j], quote(j), live)
      invariant totalProfit == ExaminedProfit(positions, quote, i)
    {
      var p := positions[i];
      if Examined(p, quote(i)) {
        totalProfit := totalProfit + p.profit;
      }
      decisions := decisions + [TrailDecision(p, quote(i), live)];
      i := i + 1;
    }
    assert decisions == PassDecisions(positions, quote, live, 0);
  }
}
